=== FILE: README.md ===
# A Dafny model of the engine's utility core

This project models the core utilities of the HolyBlackCat `engine` C++ repository
and proves properties of them:

- `Encoding`, `EncodingUtf`, `EncodingEscape`: the `low::` functions of
  `encoding.h`. These validate code points, encode and decode one character in
  UTF-8, UTF-16 or UTF-32, and escape and unescape one character. Code units are
  integers below `2^8`, `2^16` or `2^32`.
- `Hash`: the constexpr MurmurHash3 (x86, 32-bit) of `hash_func.h`, on `bv32`
  words and `bv8` bytes.
- `Strings`: `IsWhitespace`, `Split`, and the trimmers and `Compact` of `trim.h`.
- `CommandLine`, `CommandLineParse`: flag registration (`AddFlagLow`,
  `AddFlag`, the default help flag, the help page) and `Parse`. `Parse` is modelled
  in both of its revisions: the source file `command_line_parser.cpp` and the
  older inline header `command_line_parser.h`.
- `Process`, `ProcessQueue`: a child process and the parallel job queue. The
  operating system is an oracle that each process carries: the answers of its
  pipes and of its exit-status polls. The queue is given the exit code each job
  reports on each check.
- `Pipeline`: the graphics-pipeline constructor. It flattens the vertex buffers
  and their attributes, and it derives the color-target, rasterizer and
  depth/stencil descriptions with their enable flags. The blending presets and
  the parameter defaults are modelled as well.
- `ShaderManager`: `AddShader`, the guards and file-name scheme of `Finalize`,
  which shaders get loaded, compiled or deleted as stale, and the
  shader-name sanitiser.
- `ExceptionAnalyzer`: `CombinedMessage`, `operator bool`, `TypeIsKnown`, the
  standard-exception handler, `Analyze` and the default analyzer.

The `*_vectors.dfy` files restate the examples the repository gives as proved
lemmas. These are the `static_assert`s of `hash_func.nolink.cpp` and
`trim.nolink.cpp`, and the cases of `command_line_parser.test.cpp`.

Where the code does something other than what its comments or tests promise,
the model carries both readings: a `Revision` parameter (`AsWritten` or
`Intended`). The rest of the model uses the intended reading. See "Findings".

Two readings of the code that the model takes on purpose:

- `ProcessQueue::Status` has `num_finished`, `num_running` and `num_total` fields
  (`process_queue.h`, lines 47-50). `MakeStatus` (`process_queue.cpp`, lines 24-33)
  computes `num_finished` as `next_task_index - jobs.size()`. So finished plus
  running is the number of tasks started so far, not `num_total`. After `Kill`,
  the tasks never started are not counted at all, and the killed ones count as
  finished.
- `command_line_parser.cpp` includes `command_line_parser.h` but uses the API
  of `src/command_line/parser.h` (`ConsumeArgs(parser, args)`,
  `AddDefaultHelpFlag`). Registration is modelled after `parser.h` and
  parsing after the `.cpp`. The inline header's `Parse` is the `InlineHeader`
  revision.

## Model

| member | source | states |
|---|---|---|
| Encoding.ValidateCodepoint | src/utils/encoding.h:38-45 | Succeeds exactly for values up to 0x10ffff that are not surrogates when surrogates are checked; with the check on, exactly for Unicode scalar values |
| Encoding.CodepointUtf8ByteLength | src/utils/encoding.h:47-61 | 0 exactly for values above 0x10ffff, otherwise 1..4, the shortest UTF-8 length whose payload bits hold the value |
| Encoding.Utf8Bytes | src/utils/encoding.h:105-129 | The UTF-8 sequence of a code point has the length `CodepointUtf8ByteLength` announces |
| Encoding.EncodeOne | src/utils/encoding.h:63-142 | On error nothing is appended. Encoding fails exactly for too-large values or checked surrogates; a raw code unit fails exactly when it does not fit the unit width. Success gives 1-4 valid units: the UTF-8 length for bytes, the value itself for UTF-32 and for raw units |
| Encoding.EncodeAndEscapeOne | src/utils/encoding.h:144-224 | The repaired function always returns. A printable character is written unescaped and never starts with a backslash unless forced; an escape is a backslash followed by printable ASCII |
| Encoding.PlainFirstUnit | src/utils/encoding.h:69-131 | The first unit of an unescaped character's encoding is never a backslash |
| Encoding.DecodeOne | src/utils/encoding.h:226-330 | Empty input gives the end-of-string error and consumes nothing; otherwise at least one unit is consumed. The surrogate flag is set exactly for a lone UTF-16 surrogate, a low one or a high one without a low one after it, and then the call fails and consumes one unit. A success is a scalar value, except for the as-written UTF-16 pair |
| Encoding.DecodeAndUnescapeOne | src/utils/encoding.h:332-504 | Only an undecodable plain character is a bad-encoding failure, and a plain character is marked for encoding exactly when it decoded; of the escapes only `\u`/`\U` give a code point to encode; a lone backslash and `\N{...}` are rejected |
| Encoding.ConsumeDigits | src/utils/encoding.h:364-424 | Consumes only forward, never past the end of the input |
| Encoding.Utf8ContinueBound | src/utils/encoding.h:300-315 | The accumulated UTF-8 value stays below the payload bound, so `char32_t` never wraps |
| EncodingUtf.Utf8BytesShape | src/utils/encoding.h:108-129 | The lead byte announces the length (prefix 0, 110, 1110, 11110) and the rest are `10xxxxxx` |
| EncodingUtf.Utf8RoundTrip | src/utils/encoding.h:277-326 | Decoding the UTF-8 bytes of a scalar value, whatever follows, gives it back and consumes exactly those bytes |
| EncodingUtf.Utf8DecodeSound | src/utils/encoding.h:277-329 | A successful UTF-8 decode consumed exactly the encoding of the value it returned |
| EncodingUtf.Utf8ErrorsConsumeLead | src/utils/encoding.h:285-323 | Bad lead, truncated, overlong or out-of-range sequences consume only the lead byte |
| EncodingUtf.Utf16RoundTripIntended | src/utils/encoding.h:245-276 | With the repaired pair formula, decoding the UTF-16 units of any scalar value gives it back |
| EncodingUtf.Utf16PairOffAsWritten | src/utils/encoding.h:260 | As written, the pair for U+10000 decodes successfully to 0 |
| EncodingUtf.Utf16PairToSurrogateAsWritten | src/utils/encoding.h:256-263 | As written, a valid surrogate pair can decode successfully to a surrogate value |
| EncodingUtf.Utf16PairDifference | src/utils/encoding.h:260 | As written, every pair decodes to exactly 0x10000 less than the repaired formula |
| EncodingUtf.Utf32RoundTrip | src/utils/encoding.h:240-244 | A UTF-32 unit is its own code point, validated |
| EncodingEscape.NamedEscapeInverse | src/utils/encoding.h:182-196 | The escape letters and the characters they stand for are inverse to each other |
| EncodingEscape.NamedEscapeUnescapes | src/utils/encoding.h:432-441 | Every named escape reads back as its character, as a code unit |
| EncodingEscape.HexDigitsValue | src/utils/encoding.h:208-217 | The repaired hex digits of `n` read back as `n` |
| EncodingEscape.DigitLoopReads | src/utils/encoding.h:375-414 | The repaired digit loop reads a run of hex digits as their value while it fits, stopping at the first non-digit |
| EncodingEscape.BracedHexReads | src/utils/encoding.h:416-421 | The repaired parser reads `{digits}` back as the number and consumes the closing brace |
| EncodingEscape.NumericEscapeReads | src/utils/encoding.h:454-490 | `\u{...}` and `\x{...}` read back as the number they spell |
| EncodingEscape.EscapeRoundTrip | src/utils/encoding.h:148-224 | Escaping then unescaping gives the character back, consuming exactly the escape, and marked for encoding exactly when it was a code point |
| EncodingEscape.QuoteRoundTrip | src/utils/encoding.h:146 | Quotes written with `force_simple_escape` read back as themselves |
| EncodingEscape.OctalEscapeReads | src/utils/encoding.h:492-500 | The repaired default branch reads up to three octal digits right after the backslash |
| EncodingEscape.OctalSingleDigitReads | src/utils/encoding.h:492-500 | A lone octal digit such as `\0` is read on its own |
| EncodingEscape.NumericEscapeNeverReturnsAsWritten | src/utils/encoding.h:208-217 | As written, the numeric escape of any nonzero character never returns |
| EncodingEscape.ControlCharNeverReturnsAsWritten | src/utils/encoding.h:199-217 | As written, escaping U+0001 never returns |
| EncodingEscape.HexDigitCharAsWritten | src/utils/encoding.h:211-212 | As written, a digit below 10 is the right character, and a digit of 10 or more comes out ten letters too far, as one of `k` to `p` |
| EncodingEscape.HexDigitAsWrittenUnreadable | src/utils/encoding.h:211-212 | Digit 10 comes out as 'k', which no hex reader accepts; the repaired digit reads back |
| EncodingEscape.OverflowFiresAsWritten | src/utils/encoding.h:404-406 | As written, the overflow test fires as soon as a nonzero accumulator meets another digit |
| EncodingEscape.BracedEscapeAsWritten | src/utils/encoding.h:404-406 | `\u{41}` is rejected as written and reads as 'A' once repaired |
| EncodingEscape.OctalEscapeAsWritten | src/utils/encoding.h:492-500 | As written, `\101` reads as 1 and `\0` is invalid; repaired they read as 'A' and NUL |
| Hash.BodyPrefix | src/utils/hash_func.h:22-36 | The block loop is a left-to-right fold: blocks after an aligned prefix continue from the prefix's state |
| Hash.BodyOnlyPrefix | src/utils/hash_func.h:22-36 | Blocks inside a prefix do not look past it |
| Hash.WordLittleEndian | src/utils/hash_func.h:24-27 | A block word is its four bytes in little-endian order |
| Hash.TailBytes | src/utils/hash_func.h:38-55 | The tail leaves the state alone for aligned lengths; otherwise its word holds exactly the trailing bytes, little-endian |
| Hash.KnownAnswerEmpty | src/utils/hash_func.nolink.cpp:3 | The empty message with seed 0 hashes to 0 |
| Hash.KnownAnswerAbcd | src/utils/hash_func.nolink.cpp:4 | "abcd" with seed 42 hashes to 3898664396 |
| Hash.KnownAnswerAbcde | src/utils/hash_func.nolink.cpp:5 | "abcde" with seed 42 hashes to 2933533680 (one tail byte) |
| Hash.KnownAnswerAbcdef | src/utils/hash_func.nolink.cpp:6 | "abcdef" with seed 42 hashes to 2449278475 (two tail bytes) |
| Hash.KnownAnswerAbcdefg | src/utils/hash_func.nolink.cpp:7 | "abcdefg" with seed 42 hashes to 1781200409 (three tail bytes) |
| Strings.WhitespaceClass | src/strings/char_types.h:5-9 | Exactly space, tab, CR and LF are whitespace; vertical tab, form feed and non-ASCII are not |
| Strings.Find | src/strings/split.h:17 | `find`: the first occurrence, or none |
| Strings.SplitParts | src/strings/split.h:13-26 | At least one part, and the parts joined with the separator give the input back |
| Strings.SplitPartsCutAtFirst | src/strings/split.h:17-24 | Each part but the last ends where the first occurrence of the separator starts; the last holds none |
| Strings.SplitPartsUnique | src/strings/split.h:13-26 | Any parts that join back to the input under the same cut conditions are exactly the split's parts |
| Strings.SplitJoin | src/strings/split.h:13-26 | Joining parts free of a one-character separator and splitting gives the parts back |
| Strings.SplitCount | src/strings/split.h:11 | For a one-character separator, the callback is called once more than the character occurs in the input |
| Strings.SplitCountOccurrences | src/strings/split.h:13-26 | For any non-empty separator, the callback is called once more than the separator's non-overlapping occurrences, counted left to right |
| Strings.SplitEmptySegments | src/strings/split.h:11 | Leading, trailing and adjacent separators give empty parts |
| Strings.SplitFirstStopsAtFirstTruthy | src/strings/split.h:12-23 | The early-exit form returns the first truthy result among all parts but the last, or else the last part's result |
| Strings.TrimLeadingWhitespace | src/strings/trim.h:17-21 | Drops exactly the whitespace prefix |
| Strings.TrimTrailingWhitespace | src/strings/trim.h:23-27 | Drops exactly the whitespace suffix |
| Strings.LeadingScanSound | src/strings/trim.h:29-43 | The scan stops at the last line feed before the first content |
| Strings.TrimLeadingEmptyLines | src/strings/trim.h:29-43 | A whitespace-only prefix ending at a line feed is removed, and no line feed remains before the first content |
| Strings.LeadingEmptyLinesCut | src/strings/trim.h:29-43 | The cut falls right after the last line feed of the leading whitespace run |
| Strings.LeadingEmptyLinesUnchanged | src/strings/trim.h:29-43 | The input is unchanged exactly when its leading whitespace run has no line feed |
| Strings.TrailingScanSound | src/strings/trim.h:46-63 | The backward scan stops at the first line feed of the trailing whitespace run |
| Strings.TrimTrailingEmptyLines | src/strings/trim.h:46-63 | A whitespace-only suffix is removed, keeping the line feed that ends the last content line |
| Strings.TrailingEmptyLinesCut | src/strings/trim.h:46-63 | The cut falls right after the first line feed of the trailing whitespace run |
| Strings.TrailingEmptyLinesEnd | src/strings/trim.h:46-63 | The result ends with a line feed exactly when the trailing whitespace run holds one |
| Strings.IndentOf | src/strings/trim.h:103-123 | The number of leading spaces and tabs, stopping at the first other character |
| Strings.MixedMeansBoth | src/strings/trim.h:105-119 | The loop's mixed-indentation flag is set exactly when some line is indented by a space and some by a tab |
| Strings.MinIndent | src/strings/trim.h:125-126 | A lower bound on every counted line's indentation, attained unless there is no line (`SIZE_MAX`) |
| Strings.Compact | src/strings/trim.h:73-157 | Mixed indentation throws when not reported and is reported otherwise; the output's length is the precomputed `num_chars` |
| Strings.CompactShape | src/strings/trim.h:73-157 | The output is the counted lines joined by line feeds, each with its trailing whitespace removed and the same `MinIndent` characters cut from every one; at least one output line starts without indentation |
| Strings.OutputLength | src/strings/trim.h:129-154 | The joined output lines have exactly the counted number of characters |
| StringsVectors.CompactEmpty | src/strings/trim.nolink.cpp:5 | The empty input compacts to the empty string |
| StringsVectors.CompactBlankLines | src/strings/trim.nolink.cpp:6-8 | Blank lines alone compact to nothing |
| StringsVectors.CompactOneLine | src/strings/trim.nolink.cpp:9 | One unindented line stays as it is |
| StringsVectors.CompactKeepsFinalNewline | src/strings/trim.nolink.cpp:10-11 | A final line feed survives |
| StringsVectors.CompactTrimsOneLine | src/strings/trim.nolink.cpp:12-13 | Whitespace around a single word goes, with either indentation character |
| StringsVectors.CompactKeepsRelativeIndent | src/strings/trim.nolink.cpp:14 | Without common indentation nothing moves |
| StringsVectors.CompactMixedBlankLines | src/strings/trim.nolink.cpp:15 | Blank lines before and after and trailing whitespace go, and so does the common indentation |
| StringsVectors.CompactCodeBlock | src/strings/trim.nolink.cpp:18-31 | The raw-string code block comes out flush left with its relative indentation and final line feed |
| CommandLine.ArgName | src/command_line/parser.h:158-161 | A flag with arguments gives the name of argument `i` exactly when `0 <= i < NumArgs`; any other `i` throws from `at`. The help flag keeps the base `ArgName` of lines 54-55 and gives an empty name whatever `i` is |
| CommandLine.AllowRepeat | src/command_line/parser.h:173-176 | The `allow_repeat` bit of the flag's flags; false for the base flag |
| CommandLine.OnPostParse | src/command_line/parser.h:178-183 | At most the one callback given is invoked |
| CommandLine.NameKey | src/command_line/parser.h:98-120 | A name passes exactly when it is `-x` or `--name` of the accepted characters, and its key is the name without dashes |
| CommandLine.InsertNames | src/command_line/parser.h:98-124 | Inserts the names' keys left to right, stopping at the first bad or duplicate name and keeping those inserted before it |
| CommandLine.AddFlagLow | src/command_line/parser.h:94-124 | The description is appended first, then each comma-separated name is checked and mapped to the new flag |
| CommandLine.AddFlag | src/command_line/parser.h:135-186 | Registers a flag of the given arity and argument names through `AddFlagLow` |
| CommandLine.DefaultHelpFlag | src/utils/command_line_parser.cpp:55-58 | The help flag answers to `-h` and `--help`, and is added exactly when neither is taken |
| CommandLine.HelpWidth | src/utils/command_line_parser.cpp:24-38 | The pad width is the longest row |
| CommandLine.HelpLine | src/utils/command_line_parser.cpp:44-46 | The row padded on the right to the width, then ` - ` and the help text |
| CommandLine.HelpRowSplits | src/utils/command_line_parser.cpp:29-34 | A row is the names and argument names joined by single spaces, and splitting it at spaces gives them back |
| CommandLine.HelpRowLength | src/utils/command_line_parser.cpp:29-34 | A row's length is the names plus one space and the name per argument |
| CommandLineVectors.WrongUsage | src/utils/command_line_parser.test.cpp:9-17 | Each misuse of `AddFlag` throws and leaves the names alone |
| CommandLineVectors.TestParserNames | src/utils/command_line_parser.test.cpp:23-26 | Every registration of the test's parser succeeds, and a flag's long and short names map to the same flag |
| CommandLineParse.ParseSound | src/utils/command_line_parser.cpp:60-191 | Every callback gets exactly as many arguments as its flag declares, and the help callback is the last one made |
| CommandLineParse.ProgramNameIgnored | src/utils/command_line_parser.cpp:62-67 | The program name is never read |
| CommandLineParse.LongFlagLookup | src/utils/command_line_parser.cpp:77-95 | A long flag is looked up by the name before the first `=`; unknown and one-letter names are refused with their messages |
| CommandLineParse.LongFlagValue | src/utils/command_line_parser.cpp:98-110 | `--name=value` gives a one-argument flag the value, possibly empty or holding more `=` |
| CommandLineParse.LongFlagValueRefused | src/utils/command_line_parser.cpp:102-107 | A flag without arguments, or with several, refuses `=value` |
| CommandLineParse.LongFlagArgs | src/utils/command_line_parser.cpp:111-130 | `--name` takes the next entries, whatever they look like, or reports how many it got when too few remain |
| CommandLineParse.ShortFlagUnknown | src/utils/command_line_parser.cpp:141-145 | An unknown letter is refused after the calls of the letters before it |
| CommandLineParse.ShortFlagsChain | src/utils/command_line_parser.cpp:139-155 | A cluster of zero-argument flags makes one call per letter, left to right |
| CommandLineParse.ShortFlagAttached | src/utils/command_line_parser.cpp:157-163 | A one-argument flag takes the rest of its entry |
| CommandLineParse.ShortFlagAttachedRefused | src/utils/command_line_parser.cpp:165-167 | A flag with several arguments cannot have text after its letter |
| CommandLineParse.ShortFlagArgs | src/utils/command_line_parser.cpp:169-179 | A short flag ending its entry takes the next entries, or reports how many it got |
| CommandLineParse.PositionalRefused | src/utils/command_line_parser.cpp:184-187 | An entry not starting with `-` is refused |
| CommandLineParseVectors.UnknownLong | src/utils/command_line_parser.test.cpp:29 | `--a` is refused with "No such flag" |
| CommandLineParseVectors.OneLetterLong | src/utils/command_line_parser.test.cpp:30 | `--A` is refused with the hint to use `-A` |
| CommandLineParseVectors.PrefixIsNotAName | src/utils/command_line_parser.test.cpp:31 | `--alphafoo` is refused: a name extended is not a name |
| CommandLineParseVectors.ValueForNoArguments | src/utils/command_line_parser.test.cpp:32 | `--alpha=foo` is refused: `--alpha` takes no arguments |
| CommandLineParseVectors.LongMissingOne | src/utils/command_line_parser.test.cpp:33 | `--beta` at the end reports 0 of 1 arguments |
| CommandLineParseVectors.LongMissingTwo | src/utils/command_line_parser.test.cpp:34 | `--gamma` at the end reports 0 of 2 arguments |
| CommandLineParseVectors.LongMissingSecond | src/utils/command_line_parser.test.cpp:35 | `--gamma -x` reports 1 of 2 arguments |
| CommandLineParseVectors.LoneDash | src/utils/command_line_parser.test.cpp:36 | `-` alone is refused |
| CommandLineParseVectors.UnknownShort | src/utils/command_line_parser.test.cpp:37 | `-a` is refused: letters are case-sensitive |
| CommandLineParseVectors.AttachedToMany | src/utils/command_line_parser.test.cpp:38 | `-Gx` is refused: a two-argument flag cannot have text after its letter |
| CommandLineParseVectors.ShortMissingOne | src/utils/command_line_parser.test.cpp:39 | `-B` at the end reports 0 of 1 arguments |
| CommandLineParseVectors.ShortMissingTwo | src/utils/command_line_parser.test.cpp:40 | `-G` at the end reports 0 of 2 arguments |
| CommandLineParseVectors.ShortMissingSecond | src/utils/command_line_parser.test.cpp:41 | `-G -x` reports 1 of 2 arguments |
| CommandLineParseVectors.PositionalSourceFile | src/utils/command_line_parser.test.cpp:28 | The source file refuses the positional `a` with the message the test expects |
| CommandLineParseVectors.PositionalInlineHeader | src/utils/command_line_parser.h:274 | The inline header's message lacks the final period the test expects |
| CommandLineParseVectors.AlphaOnce | src/utils/command_line_parser.test.cpp:46-47 | `--alpha` calls its callback once |
| CommandLineParseVectors.AlphaTwice | src/utils/command_line_parser.test.cpp:48-49 | `--alpha --alpha` calls it twice |
| CommandLineParseVectors.ShortAlpha | src/utils/command_line_parser.test.cpp:50 | `-A` calls it once |
| CommandLineParseVectors.ShortAlphaCluster | src/utils/command_line_parser.test.cpp:52 | `-AA` calls it twice |
| CommandLineParseVectors.ShortAlphaTwice | src/utils/command_line_parser.test.cpp:54 | `-A -A` calls it twice |
| CommandLineParseVectors.BetaSeparate | src/utils/command_line_parser.test.cpp:57-60 | `--beta -x --beta -y` passes `-x` then `-y`, although they look like flags |
| CommandLineParseVectors.BetaEquals | src/utils/command_line_parser.test.cpp:61 | `--beta=-x --beta=-y` passes `-x` then `-y` |
| CommandLineParseVectors.BetaEqualsEmpty | src/utils/command_line_parser.test.cpp:63 | `--beta= --beta=` passes the empty string twice |
| CommandLineParseVectors.GammaSeparate | src/utils/command_line_parser.test.cpp:65 | `--gamma -x -y` passes both |
| CommandLineParseVectors.BetaAttached | src/utils/command_line_parser.test.cpp:68 | `-BA` passes `A` |
| CommandLineParseVectors.BetaShortSeparate | src/utils/command_line_parser.test.cpp:70 | `-B A` passes `A` |
| CommandLineParseVectors.GammaShortSeparate | src/utils/command_line_parser.test.cpp:72 | `-G A B` passes both |
| CommandLineParseVectors.MixedCluster | src/utils/command_line_parser.test.cpp:75-76 | `-AABAA` calls `--alpha` twice, then gives `--beta` the rest, `AA` |
| Process.InputFromString | src/utils/process.h:49-58 | The callback offers exactly the whole input |
| Process.FromStringDelivers | src/utils/process.h:49-58 | Over any series of writes every byte is delivered once, in order |
| Process.OutputToString | src/utils/process.h:60-71 | The callback starts with the whole byte budget |
| Process.OutputToStringKeepsPrefix | src/utils/process.h:60-71 | The target ends up as the first `min(total, max_bytes)` bytes of everything printed |
| Process.ReceiveAllCaps | src/utils/process.h:62-69 | Over any chunks, the target gains the prefix of their concatenation that fits the budget |
| Process.Move | src/utils/process.h:114-118 | The target takes the process; the source is null, with an empty command line and no streams |
| Process.ThrowIfNull | src/utils/process.h:132-136 | Throws the null message exactly for a null process |
| Process.ThrowIfNotKnownToBeFinished | src/utils/process.h:166-171 | Silent exactly for a non-null process known to be finished; otherwise the null or unfinished message |
| Process.ExitCode | src/utils/process.h:177-181 | The stored exit code exactly when known to be finished; otherwise the exception of the check above |
| Process.WaitUntilFinished | src/utils/process.h:156 | A null process throws; otherwise both streams end closed and any exit code learned is the next poll's answer |
| Process.CheckIfFinished | src/utils/process.h:159 | One non-blocking check, returning whether the exit code is now known |
| Process.WriteMoreInput | src/utils/process.cpp:21-79 | Only the input side changes; the stream closes exactly when the callback is done or the stream fails |
| Process.RoundRepeats | src/utils/process.cpp:28-76 | A round that is neither done, failed nor full leaves the callback and the pipe as they were; of the two callbacks modelled, only the one that writes nothing gets there |
| Process.FromStringTerminates | src/utils/process.cpp:21-79 | With `InputFromString` the write loop ends |
| Process.StallingDiverges | src/utils/process.cpp:21-79 | A callback that writes nothing and is not done keeps the loop running forever |
| Process.ReadMoreOutput | src/utils/process.cpp:81-113 | Only the output side changes, and the stream is never left open without a callback |
| Process.ReadDeliversPending | src/utils/process.cpp:81-113 | Every byte waiting before the first empty read reaches the callback in order, as if in one piece |
| Process.ReadStaysOpen | src/utils/process.cpp:96-110 | The stream stays open exactly when the empty read says "not ready" |
| Process.Pump | src/utils/process.cpp:122-139 | Only the streams change; when waiting, both end closed |
| Process.CheckOrWait | src/utils/process.cpp:115-144 | A null process throws; a finished one is left alone; an exit code once learned comes from the next poll |
| Process.CheckPumpsOnce | src/utils/process.cpp:122-141 | A non-blocking check writes once, reads once and polls once |
| Process.ExitCodeSticks | src/utils/process.cpp:115-120 | A known exit code is never changed by later checks |
| Process.Start | src/utils/process.cpp:146-199 | Failing to start or to get a requested stream throws its message; otherwise a live, unfinished process whose output goes after the text the caller's string already holds |
| Process.Kill | src/utils/process.cpp:256-267 | A signal is sent exactly to a live process not known to be finished |
| Process.Detach | src/utils/process.cpp:269-276 | A live process loses its handle, pipes and callbacks, but the output already captured stays; a null one is unchanged |
| Process.DetachIdempotent | src/utils/process.cpp:269-276 | Detaching twice is detaching once, and the result is null |
| Process.Destroy | src/utils/process.cpp:247-254 | The destructor force-kills a live, unfinished process and detaches it, keeping the captured output |
| Process.StartCleanup | src/utils/process.cpp:146-192 | Exactly when a started process fails to give a requested stream, the delegating constructor's destructor force-kills it and leaves it null, with the caller's text unchanged |
| Process.MoveAssign | src/utils/process.h:119-123 | The target takes the source's process and the source is left null; the process the target held before is force-killed if it was live and unfinished, and detached with its captured output kept |
| Process.MoveAssignToNull | src/utils/process.h:114-123 | Assigning to a null process is the move constructor and kills nothing |
| Process.MovedFromIsInert | src/utils/process.h:114-118 | A moved-from process throws on every check and ignores kill, detach and destruction |
| ProcessQueue.StartJob | src/utils/process_queue.cpp:11-23 | A job runs its task's command, sends the task's input exactly when there is one, and keeps the output up to the cap |
| ProcessQueue.MakeStatus | src/utils/process_queue.cpp:25-34 | Finished plus running is the number of tasks started; running is the job count; finished exactly when no job runs |
| ProcessQueue.Jobs | src/utils/process_queue.h:116 | Exactly the jobs in flight |
| ProcessQueue.NormalJobs | src/utils/process_queue.cpp:125-128 | 0 means the core count; a count from 1 to the task count is kept; counts above the task count, and negative ones (read as unsigned), become the task count |
| ProcessQueue.NormalJobsCast | src/utils/process_queue.cpp:125-128 | For 32-bit counts, the clamp equals the source's comparison done on the `std::size_t` values |
| ProcessQueue.New | src/utils/process_queue.cpp:119-188 | The first jobs are started in task order; a null callback becomes the default printer |
| ProcessQueue.Kill | src/utils/process_queue.cpp:190-202 | No jobs remain and the exit code becomes -255 unless a failure was already recorded; nothing else changes |
| ProcessQueue.Snapshot | src/utils/process_queue.cpp:67-77 | The callback sees the finished job counted, and no job running if the queue is stopping |
| ProcessQueue.CountExit | src/utils/process_queue.cpp:56-61 | A nonzero exit code is counted, and kept as the first failure if none was recorded |
| ProcessQueue.Refill | src/utils/process_queue.cpp:87-92 | The finished slot gets the next task |
| ProcessQueue.SwapRemove | src/utils/process_queue.cpp:93-103 | The last job moves into the removed slot |
| ProcessQueue.FinishJob | src/utils/process_queue.cpp:53-103 | Records the exit code, reports it, then stops on failure, refills the slot, or removes it |
| ProcessQueue.SweepCountsFailures | src/utils/process_queue.cpp:36-117 | Every nonzero exit code reported in a pass is counted, and the first failure is never replaced |
| ProcessQueue.SweepStops | src/utils/process_queue.cpp:80-84 | With stop-on-failure, a pass that reports a failure ends with no jobs |
| ProcessQueue.CheckOrWait | src/utils/process_queue.cpp:36-117 | Never throws; a finished queue is left alone; waiting, when it returns, leaves no job |
| ProcessQueue.WaitUntilFinished | src/utils/process_queue.h:107 | When it returns, the status says finished |
| ProcessQueue.CheckStatus | src/utils/process_queue.h:110 | The status describes the queue after one check |
| ProcessQueue.KilledQueueIsInert | src/utils/process_queue.cpp:190-202 | After a kill, checking does nothing and the exit code is nonzero |
| Pipeline.PresetsAgree | src/gpu/pipeline.h:204-235 | Every preset blends alpha like color with ADD and one-minus-source-alpha; `Premultiplied` equals `SimpleToPremultiplied`, and `Simple` differs in the source factor |
| Pipeline.Defaults | src/gpu/pipeline.h:105-261 | One default color target, no depth/stencil format, all-ones masks, no culling, depth clipping on, depth writes and "less" |
| Pipeline.AddAttribute | src/gpu/pipeline.cpp:50-65 | Appends one attribute with the buffer's slot and its custom location or running index, failing exactly on a location mismatch |
| Pipeline.FlattenPlaces | src/gpu/pipeline.cpp:46-74 | The flattened attributes are every buffer's attributes in order, each with its buffer's slot and location |
| Pipeline.FlattenBuffers | src/gpu/pipeline.cpp:68-73 | Buffer `i` gets slot `i`, its pitch, the instance rate exactly when per-instance, and step rate 0 |
| Pipeline.FlattenIntended | src/gpu/pipeline.cpp:50-58 | As intended, flattening fails exactly when custom and default locations are mixed, with the constructor's message |
| Pipeline.ErrorIsMixed | src/gpu/pipeline.cpp:56-57 | The only error flattening reports is the mixed-locations one |
| Pipeline.FlattenNeverFailsAsWritten | src/gpu/pipeline.cpp:32-58 | As written, `first_attr` stays true and flattening never fails |
| Pipeline.MixedLocationsAccepted | src/gpu/pipeline.cpp:50-58 | A buffer mixing a custom and a default location is accepted as written and rejected as intended |
| Pipeline.MaskBitsRoundTrip | src/gpu/pipeline.cpp:115-119 | The mask bits name exactly the written channels; only the all-channels mask gives all four bits |
| Pipeline.ColorTargetState | src/gpu/pipeline.cpp:91-120 | Blending is enabled exactly with blending and then copied; the write mask is enabled exactly when some channel is off |
| Pipeline.TargetsState | src/gpu/pipeline.cpp:88-132 | One description per color target in order; a depth/stencil target exactly when a format is given |
| Pipeline.DefaultTargetsState | src/gpu/pipeline.h:241-261 | The default targets: one RGBA8 target without blending or write mask, no depth/stencil target |
| Pipeline.CullingKeepsAllowed | src/gpu/pipeline.h:81-86 | As intended, a face kind is culled exactly when the setting does not allow it |
| Pipeline.CullingCastInverted | src/gpu/pipeline.cpp:141 | As written, `allow_front` culls front faces and `allow_back` back faces |
| Pipeline.RasterizerState | src/gpu/pipeline.cpp:139-154 | Wireframe exactly draws lines, front face follows the winding flag, depth bias enabled and copied exactly when given, depth clip follows its flag |
| Pipeline.DepthStencilState | src/gpu/pipeline.cpp:162-189 | Depth test exactly with depth settings, depth writes only with the depth test on, stencil test exactly with stencil settings, then both faces and masks copied |
| Pipeline.Describe | src/gpu/pipeline.cpp:13-189 | As written the description always succeeds; as intended it succeeds exactly without mixed locations. It combines the part descriptions, and the cull mode follows the reading |
| Pipeline.DescribeReadingsAgree | src/gpu/pipeline.cpp:13-189 | Without mixed locations both readings succeed and agree on everything but the cull mode |
| Pipeline.Create | src/gpu/pipeline.cpp:192-197 | As written it succeeds exactly when SDL does; as intended a mixed-locations error comes first. A failed creation throws the fixed prefix plus SDL's error |
| ShaderManager.New | src/graphics/shader_manager.h:58-82 | An empty, unfinalized manager with the default directory, `-O` and no compiling |
| ShaderManager.AddShader | src/graphics/shader_manager.cpp:14-28 | Throws after finalizing; a new name is inserted; the same object again is a no-op; another object with the name throws the duplicate message |
| ShaderManager.AddShaderTwice | src/graphics/shader_manager.cpp:19-27 | Adding the same object twice is adding it once |
| ShaderManager.NamesAreKeys | src/graphics/shader_manager.cpp:19 | No two shaders of a manager share a name |
| ShaderManager.StripUnderscores | src/graphics/shader_manager.cpp:108-109 | Drops exactly the trailing underscores |
| ShaderManager.FoldIsEmitted | src/graphics/shader_manager.cpp:97-107 | The loop agrees with the character-by-character reading |
| ShaderManager.SanitizeShape | src/graphics/shader_manager.cpp:94-109 | A sanitised name holds identifier characters and single underscores only and does not end in `_` |
| ShaderManager.SanitizeIdempotent | src/graphics/shader_manager.cpp:94-109 | Sanitising twice is sanitising once |
| ShaderManager.Hex8 | src/graphics/shader_manager.cpp:111 | `{:08x}`: eight lower-case hex digits that read back as the hash |
| ShaderManager.StageNamesDistinct | src/graphics/shader_manager.cpp:80-92 | The stage names are distinct |
| ShaderManager.FileNameDetermines | src/graphics/shader_manager.cpp:111 | Within a directory, a file name determines the sanitised name, the hash and the stage |
| ShaderManager.PlanLoaded | src/graphics/shader_manager.cpp:114-122 | A shader is loaded straight away exactly when its file is present |
| ShaderManager.PlanPending | src/graphics/shader_manager.cpp:123-138 | A shader is queued for compiling exactly when its file is missing |
| ShaderManager.PlanFails | src/graphics/shader_manager.cpp:115-116 | Without compiling the loop fails exactly when a file is missing, with the first missing file's load error |
| ShaderManager.CompileTask | src/graphics/shader_manager.cpp:128-137 | `glslc`, the stage flag, `-`, `-o` and the file, then the extra flags; the source goes to standard input |
| ShaderManager.FirstMissing | src/graphics/shader_manager.cpp:161-162 | The first compiled file that cannot be loaded, or none when all are present |
| ShaderManager.StaleFiles | src/graphics/shader_manager.cpp:165-181 | The `.spv` files of the directory that are not this run's shaders, in directory order |
| ShaderManager.Finalize | src/graphics/shader_manager.cpp:43-195 | A second call or a null manager throws; otherwise the manager is marked finalized before anything can throw |
| ShaderManager.FinalizeLoadsEveryShader | src/graphics/shader_manager.cpp:76-162 | A finished `Finalize` loaded every shader once |
| ShaderManager.FinalizeWithoutCompiling | src/graphics/shader_manager.cpp:114-122 | Without compiling it succeeds exactly when every file is present, and then compiles and deletes nothing |
| ShaderManager.FinalizeCompileFails | src/graphics/shader_manager.cpp:154-157 | When compiling, it throws the compile failure exactly when a file was missing and the queue reports a failure |
| ShaderManager.FinalizeCompileTasks | src/graphics/shader_manager.cpp:123-138 | Exactly the shaders with missing files get a compile task |
| ShaderManager.FinalizeDeletesStale | src/graphics/shader_manager.cpp:165-193 | Exactly the stale entries are deleted, never a file of this run's shaders |
| ExceptionAnalyzer.CombinedMessage | src/errors/exception_analyzer.h:32-45 | No messages give the empty string; one message is itself |
| ExceptionAnalyzer.CombinedMessageIsJoin | src/errors/exception_analyzer.h:32-45 | The messages joined with the separator: `n` messages carry `n - 1` separators |
| ExceptionAnalyzer.CombinedMessageDefault | src/errors/exception_analyzer.h:32 | The default separator is one line break |
| ExceptionAnalyzer.Handle | src/errors/exception_analyzer.h:77-106 | The standard handler recognises exactly `std::exception`s, with a known dynamic type, `what()` and the nested exception |
| ExceptionAnalyzer.FirstRecognising | src/errors/exception_analyzer.cpp:10-22 | The first handler that recognises the exception; earlier ones declined or threw |
| ExceptionAnalyzer.Analyze | src/errors/exception_analyzer.cpp:5-31 | A null exception gives an empty result; a returned result is non-empty (`operator bool`) exactly for a non-null exception, with at most one element per level; the intended reading always returns |
| ExceptionAnalyzer.AnalyzeEndsIffRecognised | src/errors/exception_analyzer.cpp:27-30 | As written, `Analyze` ends exactly when every level is recognised, and then agrees with the intended reading |
| ExceptionAnalyzer.DefaultAnalyzesStdChain | src/errors/exception_analyzer.cpp:33-41 | The default analyzer reports a chain of standard exceptions level by level, with known types and their `what()` |
| ExceptionAnalyzer.UnknownExceptionLoops | src/errors/exception_analyzer.cpp:27-30 | As written, `throw 42` makes the default analyzer loop forever (in practice until an allocation fails); as intended it gives one unknown element |

## Left out

- CommandLine.NameKey: flag names and arguments are strings of characters, one element per character. The source measures them in bytes (`std::string::size()`), so names outside ASCII are not modelled: the source refuses `-é` (two bytes after the dash) and accepts `--é`, and the model does the opposite. The short-flag clusters of `CommandLineParse` and the help-page widths are measured in characters in the same way.
- Process.InputCallback: a user's input callback is an arbitrary `std::function` in the source. The model has only the callback `InputFromString` makes and a stand-in that never writes and is never done. `OutputCallback` likewise has only the one `OutputToString` makes.
- Operating-system calls are oracles, not code. This covers `SDL_CreateProcessWithProperties`, the pipe reads and writes, `SDL_WaitProcess`, `SDL_KillProcess` and the file system. `SDL_GetNumLogicalCPUCores` is the `cores` parameter of `ProcessQueue.New`.
- The oracles are finite scripts of replies. When a script runs out, `Process.WriteLoop` sees a write error, `Process.ReadMoreOutput` sees the end of the stream, `Process.Poll` leaves the exit code unknown, and the queue reads a job as still running. A pipe that never becomes ready, or never reports an error or its end, is not modelled.
- Process.DebugCommandLine: `fmt` escaping inside the quoted arguments is not modelled, only the brackets and quotes.
- ProcessQueue.New: every job is assumed to start; a `Process` constructor that throws inside the queue is not modelled.
- The text of the default status printer is not modelled; only the point where it replaces a null callback is.
- The `ConvertRelaxed`, `ParseQuotedString`, `ParseQuotedChar` and `MakeQuotedString` wrappers of `encoding.h` are left out, and so is its `#if 0` block. They loop over the `low::` functions modelled here.
- The `_compact` literal operator of `trim.h` is left out: it is `Compact` at compile time.
- `Hash32` and `Strings::IsIdentifierCharStrict` enter `ShaderManager` as parameters (the shader's hash and `isIdent`). The hash itself is modelled in `Hash`.
- `std::printf` of the help page and the `std::exit` after it are left out; the model produces the help rows and lines, and parsing stops at the help flag.
- `Parse`'s `argc` is unused by the source and not modelled.
- `AllowRepeat` and `OnPostParse` are modelled, but `Parse` never consults them in the source, so the model's `Parse` does not either.
- GPU object wrappers are left out: shader handles, the `Device`, and the SDL pipeline object. The primitive type and sample count are copied unchanged and are not modelled.
- Pipeline.RasterizerState: the depth-bias factors are floats, copied as opaque values.
- ShaderManager.Finalize: a failure of `Gpu::Shader` inside `FinalizeShader` is not modelled.
- `ShaderManager::ProvidedCommandLineFlags` and the destructor, which clears the shader handles, are left out.
- Custom exception handlers are functions from an exception to a reply (decline, throw, or recognise); the `SimpleHandler` template is modelled only through `StdExceptionHandler`.
- ExceptionAnalyzer.Analyze: a handler's reported nested exception is either the exception's own nested one or none. The source lets a handler return any `exception_ptr`. With an unrelated or self-referential one, `Analyze` need not end, even in the intended reading, and need not keep to one element per nesting level.
- ShaderManager.StaleFiles: `GetFileInfo` is a field of each directory entry and cannot fail.
- The two-argument `LoadedFile` used when compiling is modelled only through whether the file is present.
- Strings.SplitParts: requires a non-empty separator, because the source loops forever on an empty one.
- Strings.Compact: the `std::size_t` width is not modelled, except that `SIZE_MAX` marks "no line counted".
- ProcessQueue.CheckOrWait: the status callback is a tag without behaviour in the model. In the source a user's `status_callback` (process_queue.h:70-73, called at process_queue.cpp:77) may throw, and that exception leaves `CheckOrWait`. "Never throws" is promised only for callbacks that return.
- CommandLine.ArgName: the text of the `std::out_of_range` that `std::array::at` throws is the standard library's own; the model uses a fixed message.
- ProcessQueue.LastKnownStatus: only returns the stored status, which is `MakeStatus`; it has no property of its own.

## Findings

| source | as written | input that shows it | evidently intended | confidence | as-written member | corrected member |
|---|---|---|---|---|---|---|
| src/utils/encoding.h:260 | adds `char16_t(0x10000)`, which is 0, and returns without validating | the pair `0xd800 0xdc00` decodes to 0 | add `0x10000` as a `char32_t` | high, not executed | EncodingUtf.Utf16PairOffAsWritten | EncodingUtf.Utf16RoundTripIntended |
| src/utils/encoding.h:404-406 | the overflow test compares `result >> 4` with `result`, which differ for every nonzero value | `\u{41}` is rejected with "Overflow in escape sequence." | test whether the shift lost bits before shifting | high, not executed | EncodingEscape.BracedEscapeAsWritten | EncodingEscape.BracedHexReads |
| src/utils/encoding.h:492-500 | `remove_prefix(1)` drops the first octal digit before reading | `\101` reads as 1; `\0` is an invalid escape | read the digits right after the backslash | high, not executed | EncodingEscape.OctalEscapeAsWritten | EncodingEscape.OctalEscapeReads |
| src/utils/encoding.h:208-217 | the digit loop never divides `ch` | escaping U+0001 repeats the digit `1` forever: after 11 digits the loop writes before the start of `buffer`, which is undefined behaviour; in the abstract the loop never ends | `ch /= 16` in the loop | high, not executed | EncodingEscape.NumericEscapeNeverReturnsAsWritten | EncodingEscape.EscapeRoundTrip |
| src/utils/encoding.h:211-212 | a digit of 10 or more becomes `digit + 'a'` | digit 10 becomes `k` | `digit - 10 + 'a'` | high, not executed | EncodingEscape.HexDigitAsWrittenUnreadable | EncodingEscape.HexDigitsValue |
| src/utils/command_line_parser.h:274 | the positional-argument message has no final period | `./app a` | the message the test expects, with the period, as in the `.cpp` | high, not executed | CommandLineParseVectors.PositionalInlineHeader | CommandLineParseVectors.PositionalSourceFile |
| src/gpu/pipeline.cpp:50-58 | `first_attr` is never set to false, so the mixed-locations check is never reached | one buffer with a custom location 5 and an attribute with none | reject mixed custom and default locations | high, not executed | Pipeline.MixedLocationsAccepted | Pipeline.FlattenIntended |
| src/gpu/pipeline.cpp:141 | casts `Culling` to `SDL_GPUCullMode`, so `allow_front` becomes SDL's FRONT | `allow_front` culls the front faces the header keeps | map `allow_front` to BACK and `allow_back` to FRONT | medium, not executed | Pipeline.CullingCastInverted | Pipeline.CullingKeepsAllowed |
| src/errors/exception_analyzer.cpp:27-30 | a level no handler recognises leaves `e` unchanged, and `while (e)` repeats it | `throw 42` with the default analyzer: `ret.elems` grows on every pass, so in practice the loop ends when an allocation failure escapes `Analyze` | end with one element of unknown type, as the header promises | high, not executed | ExceptionAnalyzer.UnknownExceptionLoops | ExceptionAnalyzer.Analyze |

=== FILE: command_line.dfy ===
/** The command-line flag parser `em::CommandLine::Parser`: flag registration
    (`AddFlagLow`, `AddFlag`, `AddDefaultHelpFlag`), the argv tokenizer (`Parse`)
    and the help-page rows.

    A flag object is identified by its index in the description list: the source
    shares one `std::shared_ptr<BasicFlag>` between the description and every name
    of the flag, and a new description is always appended, so the index names the
    object. A callback invocation (`ConsumeArgs`) is recorded as a `Call`; the
    caller's callback is not visible and is not modelled. */
module CommandLine {
  import opened Common
  import Strings

  // ---------------------------------------------------------------- flags

  /** The `Flags` bit set; `allow_repeat = 1 << 0`. */
  const AllowRepeatBit: bv32 := 1

  /** A flag object: the `FlagImpl` built by `AddFlag`, or the `HelpFlag` of
      `AddDefaultHelpFlag`, which keeps every `BasicFlag` default. `postParse` is
      the `on_post_parse` callback, identified by a number, `None` when null. */
  datatype FlagKind =
    | Callback(argNames: seq<string>, flags: bv32, postParse: Option<nat>)
    | Help

  /** `NumArgs()`: one per declared argument type; 0 for the base class. */
  function NumArgs(k: FlagKind): nat
  {
    if k.Callback? then |k.argNames| else 0
  }

  /** What `std::array::at` throws for an index out of range; its text is left to
      the standard library. */
  const ArgIndexMessage := "array::at"

  /** `ArgName(i)`, the name shown in the help page. The base class returns an
      empty name whatever `i` is; `FlagImpl` looks `i` up with `at`, which throws
      unless `0 <= i < NumArgs()`. */
  function ArgName(k: FlagKind, i: int): (r: Result<string>)
    ensures k.Help? ==> r == Ok("")
    ensures k.Callback? ==> (r.Ok? <==> 0 <= i < NumArgs(k))
    ensures k.Callback? && r.Ok? ==> r.value == k.argNames[i]
    ensures r.Err? ==> r.message == ArgIndexMessage
  {
    match k
    case Help => Ok("")
    case Callback(argNames, _, _) =>
      if 0 <= i < |argNames| then Ok(argNames[i]) else Err(ArgIndexMessage)
  }

  /** `AllowRepeat()`: the `allow_repeat` bit for `FlagImpl`, false by default. */
  function AllowRepeat(k: FlagKind): (r: bool)
    ensures r ==> k.Callback?
    ensures k.Callback? ==> (r <==> k.flags & AllowRepeatBit == 1)
  {
    match k
    case Help => false
    case Callback(_, flags, _) => flags & AllowRepeatBit != 0
  }

  /** `OnPostParse()`: the callbacks it invokes, at most the one given. */
  function OnPostParse(k: FlagKind): (r: seq<nat>)
    ensures |r| <= 1
    ensures |r| == 1 <==> k.Callback? && k.postParse.Some?
    ensures forall c :: c in r ==> k.Callback? && k.postParse == Some(c)
  {
    if k.Callback? && k.postParse.Some? then [k.postParse.value] else []
  }

  /** `FlagDesc`: the comma-separated names as written, the flag and its help text. */
  datatype FlagDesc = FlagDesc(names: string, kind: FlagKind, helpText: string)

  /** `name_to_flag` maps a name without its dashes to the index of its flag's
      description; `flag_descriptions` keeps registration order. */
  datatype Parser = Parser(nameToFlag: map<string, nat>, descs: seq<FlagDesc>)

  /** Every name refers to a registered flag. */
  predicate Valid(p: Parser)
  {
    forall key :: key in p.nameToFlag ==> p.nameToFlag[key] < |p.descs|
  }

  const Empty: Parser := Parser(map[], [])

  // ---------------------------------------------------------------- registration

  const BadUsage := "Bad usage of the command line parser: "

  /** The accepted spellings of one name: `--` and at least two letters, or `-` and
      exactly one letter other than `-`. */
  predicate ValidName(name: string)
  {
    LongName(name) || ShortName(name)
  }

  predicate LongName(name: string)
  {
    |name| >= 4 && name[0] == '-' && name[1] == '-'
  }

  predicate ShortName(name: string)
  {
    |name| == 2 && name[0] == '-' && name[1] != '-'
  }

  /** The map key of a valid name: the name without its dashes. */
  function KeyOf(name: string): (key: string)
    requires ValidName(name)
    ensures LongName(name) ==> |key| >= 2 && name == "--" + key
    ensures ShortName(name) ==> |key| == 1 && name == "-" + key
  {
    if ShortName(name) then name[1..] else name[2..]
  }

  /** The checks the `Split` callback runs on one name before inserting it: a name
      passes exactly when it has one of the two accepted spellings, and then its
      key is the name without its dashes. */
  function NameKey(name: string): (r: Result<string>)
    ensures r.Ok? <==> ValidName(name)
    ensures r.Ok? ==> r.value == KeyOf(name)
  {
    if |name| == 0 || name[0] != '-' then
      Err(BadUsage + "Each command line flag must start with a `-` or `--`, but got `" + name + "`.")
    else if |name| >= 2 && name[1] == '-' then
      if |name| <= 3 then
        Err(BadUsage + "A flag starting with `--` must have a multi-letter name, but got `" + name + "`.")
      else Ok(name[2..])
    else if |name| != 2 then
      Err(BadUsage + "A flag starting with `-` must have exactly one letter in the name, but got `" + name + "`.")
    else Ok(name[1..])
  }

  /** The names of a list, inserted in order, are all accepted and distinct from
      each other and from the names already in the map. */
  predicate Registrable(m: map<string, nat>, names: seq<string>)
  {
    && (forall i :: 0 <= i < |names| ==> ValidName(names[i]))
    && (forall i :: 0 <= i < |names| ==> KeyOf(names[i]) !in m)
    && (forall i, j :: 0 <= i < j < |names| ==> KeyOf(names[i]) != KeyOf(names[j]))
  }

  /** The keys of the valid names of a list. */
  function KeysOf(names: seq<string>): (keys: set<string>)
    ensures forall i :: 0 <= i < |names| && ValidName(names[i]) ==> KeyOf(names[i]) in keys
    ensures forall k :: k in keys ==> exists i :: 0 <= i < |names| && ValidName(names[i]) && KeyOf(names[i]) == k
  {
    if |names| == 0 then {}
    else
      var rest := KeysOf(names[1..]);
      assert forall i :: 1 <= i < |names| ==> names[i] == names[1..][i - 1];
      (if ValidName(names[0]) then {KeyOf(names[0])} else {}) + rest
  }

  /** A list is registrable when its head is and the rest is, after the head. */
  lemma {:induction false} RegistrableCons(m: map<string, nat>, names: seq<string>, id: nat)
    requires |names| > 0
    ensures Registrable(m, names) <==> (ValidName(names[0]) && KeyOf(names[0]) !in m
      && Registrable(m[KeyOf(names[0]) := id], names[1..]))
  {
    var rest := names[1..];
    assert forall i :: 0 <= i < |rest| ==> rest[i] == names[i + 1];
    if ValidName(names[0]) && KeyOf(names[0]) !in m && Registrable(m[KeyOf(names[0]) := id], rest) {
      forall i, j | 0 <= i < j < |names| ensures KeyOf(names[i]) != KeyOf(names[j])
      {
        assert names[j] == rest[j - 1];
        if i > 0 {
          assert names[i] == rest[i - 1];
        }
      }
      forall i | 0 <= i < |names| ensures ValidName(names[i]) && KeyOf(names[i]) !in m
      {
        if i > 0 {
          assert names[i] == rest[i - 1];
        }
      }
    }
  }

  /** Some name of the list is the first one that cannot be inserted, and `after`
      holds exactly the keys of the names before it. */
  ghost predicate FailsAfterPrefix(m: map<string, nat>, names: seq<string>, after: map<string, nat>)
  {
    exists j :: 0 <= j < |names| && Registrable(m, names[..j]) && !Registrable(m, names[..j + 1])
      && after.Keys == m.Keys + KeysOf(names[..j])
  }

  /** A list whose first name cannot be inserted fails before inserting anything. */
  lemma HeadRejected(m: map<string, nat>, names: seq<string>, id: nat)
    requires |names| > 0 && (!ValidName(names[0]) || KeyOf(names[0]) in m)
    ensures FailsAfterPrefix(m, names, m)
  {
    assert names[..0] == [] && KeysOf([]) == {};
    assert names[..1] == [names[0]];
  }

  /** The map after inserting `names` up to the first one that throws, and the
      message of that exception. */
  datatype Insertion = Insertion(map_: map<string, nat>, error: Option<string>)

  /** The part of `Split`'s callback that inserts into `name_to_flag`, run over
      the parts left to right; an exception ends the loop, keeping the names
      inserted before it. */
  function InsertNames(m: map<string, nat>, names: seq<string>, id: nat): (r: Insertion)
    ensures r.error.None? <==> Registrable(m, names)
    ensures r.error.None? ==> r.map_.Keys == m.Keys + KeysOf(names)
    ensures r.error.Some? ==> FailsAfterPrefix(m, names, r.map_)
    ensures forall key :: key in m ==> key in r.map_ && r.map_[key] == m[key]
    ensures forall key :: key in r.map_ && key !in m ==> r.map_[key] == id
    decreases |names|
  {
    if |names| == 0 then Insertion(m, None)
    else
      RegistrableCons(m, names, id);
      match NameKey(names[0])
      case Err(msg) =>
        HeadRejected(m, names, id);
        Insertion(m, Some(msg))
      case Ok(key) =>
        if key in m then
          HeadRejected(m, names, id);
          Insertion(m, Some(BadUsage + "Duplicate command line flag: `" + key + "`."))
        else
          var r := InsertNames(m[key := id], names[1..], id);
          InsertStep(m, names, id, r);
          r
  }

  /** What the rest of the list does after the head's key went in is what the
      whole list does. */
  lemma InsertStep(m: map<string, nat>, names: seq<string>, id: nat, r: Insertion)
    requires |names| > 0 && ValidName(names[0]) && KeyOf(names[0]) !in m
    requires var m' := m[KeyOf(names[0]) := id];
      && (r.error.None? <==> Registrable(m', names[1..]))
      && (r.error.None? ==> r.map_.Keys == m'.Keys + KeysOf(names[1..]))
      && (r.error.Some? ==> FailsAfterPrefix(m', names[1..], r.map_))
      && (forall key :: key in m' ==> key in r.map_ && r.map_[key] == m'[key])
    ensures r.error.None? <==> Registrable(m, names)
    ensures r.error.None? ==> r.map_.Keys == m.Keys + KeysOf(names)
    ensures r.error.Some? ==> FailsAfterPrefix(m, names, r.map_)
    ensures forall key :: key in m ==> key in r.map_ && r.map_[key] == m[key]
  {
    InsertStepOutcome(m, names, id, r.error.None?, r.map_);
    KeepsEarlier(m, KeyOf(names[0]), id, r.map_);
  }

  /** The outcome half of `InsertStep`: success, the keys, or where it failed. */
  lemma InsertStepOutcome(m: map<string, nat>, names: seq<string>, id: nat, ok: bool, after: map<string, nat>)
    requires |names| > 0 && ValidName(names[0]) && KeyOf(names[0]) !in m
    requires ok <==> Registrable(m[KeyOf(names[0]) := id], names[1..])
    requires ok ==> after.Keys == m[KeyOf(names[0]) := id].Keys + KeysOf(names[1..])
    requires !ok ==> FailsAfterPrefix(m[KeyOf(names[0]) := id], names[1..], after)
    ensures ok <==> Registrable(m, names)
    ensures ok ==> after.Keys == m.Keys + KeysOf(names)
    ensures !ok ==> FailsAfterPrefix(m, names, after)
  {
    RegistrableCons(m, names, id);
    if ok {
      KeysCons(names);
      assert m[KeyOf(names[0]) := id].Keys == m.Keys + {KeyOf(names[0])};
    } else {
      InsertFailure(m, names, id, after);
    }
  }

  /** Entries kept from `m[k := id]` include every entry of `m` when `k` is new. */
  lemma KeepsEarlier(m: map<string, nat>, k: string, id: nat, after: map<string, nat>)
    requires k !in m
    requires forall key :: key in m[k := id] ==> key in after && after[key] == m[k := id][key]
    ensures forall key :: key in m ==> key in after && after[key] == m[key]
  {
    forall key | key in m
      ensures key in after && after[key] == m[key]
    {
      assert key in m[k := id];
    }
  }

  /** A failure in the rest of the list is a failure one place further on in the
      whole list, after the head's key. */
  lemma {:induction false} InsertFailure(m: map<string, nat>, names: seq<string>, id: nat,
                                         after: map<string, nat>)
    requires |names| > 0 && ValidName(names[0]) && KeyOf(names[0]) !in m
    requires FailsAfterPrefix(m[KeyOf(names[0]) := id], names[1..], after)
    ensures FailsAfterPrefix(m, names, after)
  {
    var m' := m[KeyOf(names[0]) := id];
    var j :| 0 <= j < |names| - 1 && Registrable(m', names[1..][..j])
      && !Registrable(m', names[1..][..j + 1]) && after.Keys == m'.Keys + KeysOf(names[1..][..j]);
    PrefixRegistrable(m, names, id, j);
    PrefixRegistrable(m, names, id, j + 1);
    PrefixKeys(m, names, id, j);
    assert Registrable(m, names[..j + 1]) && !Registrable(m, names[..(j + 1) + 1])
      && after.Keys == m.Keys + KeysOf(names[..j + 1]);
  }

  /** A prefix of the list after an accepted head is registrable exactly when
      the same prefix of the rest is, once the head is in the map. */
  lemma PrefixRegistrable(m: map<string, nat>, names: seq<string>, id: nat, j: nat)
    requires j < |names| && ValidName(names[0]) && KeyOf(names[0]) !in m
    ensures Registrable(m, names[..j + 1]) <==> Registrable(m[KeyOf(names[0]) := id], names[1..][..j])
  {
    var a := names[..j + 1];
    assert a[0] == names[0] && a[1..] == names[1..][..j];
    RegistrableCons(m, a, id);
  }

  /** The keys of a prefix after an accepted head: the head's key and the keys of
      the same prefix of the rest. */
  lemma PrefixKeys(m: map<string, nat>, names: seq<string>, id: nat, j: nat)
    requires j < |names| && ValidName(names[0])
    ensures m[KeyOf(names[0]) := id].Keys + KeysOf(names[1..][..j]) == m.Keys + KeysOf(names[..j + 1])
  {
    var a := names[..j + 1];
    assert a[0] == names[0] && a[1..] == names[1..][..j];
    KeysCons(a);
  }

  lemma KeysCons(names: seq<string>)
    requires |names| > 0 && ValidName(names[0])
    ensures KeysOf(names) == {KeyOf(names[0])} + KeysOf(names[1..])
  {
  }

  /** The state after `AddFlagLow` returns or throws, and the exception if any. */
  datatype Added = Added(parser: Parser, error: Option<string>)

  /** `AddFlagLow<T>(flag_names, help_text, ...)`: the description is appended
      first, then each comma-separated name is checked and inserted in turn. */
  function AddFlagLow(p: Parser, names: string, helpText: string, kind: FlagKind): (r: Added)
    requires Valid(p)
    ensures Valid(r.parser)
    ensures r.parser.descs == p.descs + [FlagDesc(names, kind, helpText)]
    ensures r.error.None? <==> Registrable(p.nameToFlag, Strings.SplitParts(names, ","))
    ensures r.error.None? ==>
      r.parser.nameToFlag.Keys == p.nameToFlag.Keys + KeysOf(Strings.SplitParts(names, ","))
    ensures r.error.Some? ==> FailsAfterPrefix(p.nameToFlag, Strings.SplitParts(names, ","), r.parser.nameToFlag)
    ensures forall key :: key in p.nameToFlag ==>
      key in r.parser.nameToFlag && r.parser.nameToFlag[key] == p.nameToFlag[key]
    ensures forall key :: key in r.parser.nameToFlag && key !in p.nameToFlag ==>
      r.parser.nameToFlag[key] == |p.descs|
  {
    var ins := InsertNames(p.nameToFlag, Strings.SplitParts(names, ","), |p.descs|);
    Added(Parser(ins.map_, p.descs + [FlagDesc(names, kind, helpText)]), ins.error)
  }

  /** `AddFlag(flag_names, flags, arg_names..., help_text, func, on_post_parse)`. */
  function AddFlag(p: Parser, names: string, flags: bv32, argNames: seq<string>, helpText: string,
                   postParse: Option<nat>): (r: Added)
    requires Valid(p)
    ensures Valid(r.parser)
    ensures |r.parser.descs| == |p.descs| + 1
    ensures NumArgs(r.parser.descs[|p.descs|].kind) == |argNames|
    ensures AllowRepeat(r.parser.descs[|p.descs|].kind) <==> flags & AllowRepeatBit != 0
  {
    AddFlagLow(p, names, helpText, Callback(argNames, flags, postParse))
  }

  /** `AddDefaultHelpFlag()`. */
  function AddDefaultHelpFlag(p: Parser): (r: Added)
    requires Valid(p)
  {
    AddFlagLow(p, "-h,--help", "Show this page.", Help)
  }

  /** The help flag answers to both `-h` and `--help`; it is added exactly when
      neither is taken. */
  lemma DefaultHelpFlag(p: Parser)
    requires Valid(p)
    ensures var r := AddDefaultHelpFlag(p);
      && (r.error.None? <==> "h" !in p.nameToFlag && "help" !in p.nameToFlag)
      && (r.error.None? ==> r.parser.nameToFlag == p.nameToFlag["h" := |p.descs|]["help" := |p.descs|])
      && r.parser.descs[|p.descs|].kind == Help
  {
    HelpNames();
    var parts: seq<string> := ["-h", "--help"];
    assert ValidName(parts[0]) && KeyOf(parts[0]) == "h";
    assert ValidName(parts[1]) && KeyOf(parts[1]) == "help";
    assert KeysOf(parts) == {"h", "help"} by {
      assert parts[1..] == ["--help"] && parts[1..][1..] == [];
    }
  }

  /** `"-h,--help"` splits into its two names. */
  lemma HelpNames()
    ensures Strings.SplitParts("-h,--help", ",") == ["-h", "--help"]
  {
    var parts: seq<string> := ["-h", "--help"];
    assert Join(parts, [',']) == "-h,--help";
    assert ',' !in parts[0] && ',' !in parts[1];
    Strings.SplitJoin(parts, ',');
  }

  // ---------------------------------------------------------------- help page

  /** The help-page names column of one flag: its names, then " " and the name of
      each argument. */
  function HelpRow(d: FlagDesc): string
  {
    d.names + ArgsText(d.kind, 0)
  }

  function ArgsText(k: FlagKind, i: nat): string
    requires i <= NumArgs(k)
    decreases NumArgs(k) - i
  {
    if i == NumArgs(k) then "" else " " + ArgName(k, i).value + ArgsText(k, i + 1)
  }

  /** The rows, in registration order. */
  function HelpRows(descs: seq<FlagDesc>): (rows: seq<string>)
    ensures |rows| == |descs|
    ensures forall i :: 0 <= i < |descs| ==> rows[i] == HelpRow(descs[i])
  {
    if |descs| == 0 then [] else [HelpRow(descs[0])] + HelpRows(descs[1..])
  }

  function Lengths(rows: seq<string>): (r: seq<nat>)
    ensures |r| == |rows| && forall i :: 0 <= i < |rows| ==> r[i] == |rows[i]|
  {
    if |rows| == 0 then [] else [|rows[0]|] + Lengths(rows[1..])
  }

  /** `max_param_string_len`: the pad width of the names column. */
  function HelpWidth(descs: seq<FlagDesc>): (w: nat)
    ensures forall i :: 0 <= i < |descs| ==> |HelpRow(descs[i])| <= w
    ensures |descs| == 0 ==> w == 0
    ensures |descs| > 0 ==> exists i :: 0 <= i < |descs| && |HelpRow(descs[i])| == w
  {
    var rows := HelpRows(descs);
    var w := MaxOf(Lengths(rows));
    assert forall i :: 0 <= i < |descs| ==> Lengths(rows)[i] == |HelpRow(descs[i])|;
    w
  }

  /** `"  %-*s  - %s\n"`: the names padded on the right to the width, then the help. */
  function HelpLine(row: string, width: nat, helpText: string): (line: string)
    requires |row| <= width
    ensures |line| == width + |helpText| + 7
    ensures line[2..2 + |row|] == row
    ensures line[2 + width..width + 6] == "  - "
    ensures forall i :: 2 + |row| <= i < 2 + width ==> line[i] == ' '
  {
    "  " + row + Spaces(width - |row|) + "  - " + helpText + "\n"
  }

  function Spaces(n: nat): (s: string)
    ensures |s| == n && forall i :: 0 <= i < n ==> s[i] == ' '
  {
    if n == 0 then "" else " " + Spaces(n - 1)
  }

  /** The page the help flag prints before exiting. */
  function HelpPage(descs: seq<FlagDesc>): string
  {
    "Usage:\n" + HelpLines(descs, HelpWidth(descs))
  }

  function HelpLines(descs: seq<FlagDesc>, width: nat): string
    requires forall i :: 0 <= i < |descs| ==> |HelpRow(descs[i])| <= width
  {
    if |descs| == 0 then ""
    else HelpLine(HelpRow(descs[0]), width, descs[0].helpText) + HelpLines(descs[1..], width)
  }

  /** A row is the names and the argument names joined by single spaces, so when
      no piece holds a space, splitting the row at spaces gives them back. */
  lemma {:induction false} HelpRowSplits(d: FlagDesc)
    requires d.kind.Callback?
    requires ' ' !in d.names && forall i :: 0 <= i < |d.kind.argNames| ==> ' ' !in d.kind.argNames[i]
    ensures Strings.SplitParts(HelpRow(d), " ") == [d.names] + d.kind.argNames
  {
    var pieces := [d.names] + d.kind.argNames;
    RowIsJoin(d.kind, 0, d.names);
    assert d.kind.argNames[0..] == d.kind.argNames;
    forall k | 0 <= k < |pieces| ensures ' ' !in pieces[k]
    {
      if k > 0 {
        assert pieces[k] == d.kind.argNames[k - 1];
      }
    }
    Strings.SplitJoin(pieces, ' ');
  }

  lemma {:induction false} RowIsJoin(k: FlagKind, i: nat, head: string)
    requires k.Callback? && i <= |k.argNames|
    ensures head + ArgsText(k, i) == Join([head] + k.argNames[i..], [' '])
    decreases |k.argNames| - i
  {
    if i < |k.argNames| {
      RowIsJoin(k, i + 1, k.argNames[i]);
      assert ([head] + k.argNames[i..])[1..] == [k.argNames[i]] + k.argNames[i + 1..];
    } else {
      assert [head] + k.argNames[i..] == [head];
    }
  }

  /** The row length: the names plus, per argument, one space and its name. */
  lemma {:induction false} HelpRowLength(k: FlagKind, i: nat)
    requires k.Callback? && i <= |k.argNames|
    ensures |ArgsText(k, i)| == (|k.argNames| - i) + |Concat(k.argNames[i..])|
    decreases |k.argNames| - i
  {
    if i < |k.argNames| {
      HelpRowLength(k, i + 1);
      assert k.argNames[i..][1..] == k.argNames[i + 1..];
    } else {
      assert k.argNames[i..] == [];
    }
  }
}

=== FILE: command_line_parse.dfy ===
/** `Parser::Parse`, the argv tokenizer of `em::CommandLine`. Two revisions carry
    the same algorithm: the inline one in src/utils/command_line_parser.h and
    `Parse(argc, argv)` in src/utils/command_line_parser.cpp; they differ only in
    the positional-argument message, chosen by `Revision`.

    `argv` is the list of strings before the terminating null pointer; `argc` is
    ignored by the source and has no counterpart. A C string holds no NUL, so
    reading one past its end yields the terminator: `At` returns NUL there. */
module CommandLineParse {
  import opened Common
  import Strings
  import opened CommandLine

  /** Which `Parse` is modelled. */
  datatype Revision = InlineHeader | SourceFile

  /** One `ConsumeArgs(args)` call on the flag with description index `flag`. */
  datatype Call = Call(flag: nat, args: seq<string>)

  /** How parsing ended: it ran through argv, it threw, or the help flag's
      callback ended the process with `std::exit(0)`. */
  datatype Outcome = Completed | Failed(message: string) | Exited

  /** The callbacks run, in order, and how parsing ended. */
  datatype ParseResult = ParseResult(calls: seq<Call>, outcome: Outcome)

  /** The outcome of one argv entry: the calls it made and the index of the next
      entry to read, or the calls it made before parsing ended. */
  datatype Step = Next(calls: seq<Call>, next: nat) | Stop(calls: seq<Call>, outcome: Outcome)

  const Nul: char := 0 as char

  /** `s[k]` of a C string: the terminator past the end. */
  function At(s: string, k: nat): char
  {
    if k < |s| then s[k] else Nul
  }

  function PositionalMessage(rev: Revision, token: string): string
  {
    "Positional arguments are not allowed, but got `" + token + "`" + (if rev == SourceFile then "." else "")
  }

  const NoEqualsForMany :=
    "` needs more than one argument, so `=` can't be used with it. Pass the arguments as separate arguments."
  const NotAttachedForMany :=
    "` needs more than one argument, so they can't follow it immediately, and must be passed as separate arguments."

  /** "Flag `<flag>` needs N argument(s), but got i." */
  function NeedsMessage(flag: string, n: nat, got: nat): string
  {
    "Flag `" + flag + "` needs " + NatToString(n) + " argument" + (if n == 1 then "" else "s")
      + ", but got " + NatToString(got) + "."
  }

  /** The kind of the flag a call is made on. */
  function KindOf(p: Parser, id: nat): FlagKind
    requires id < |p.descs|
  {
    p.descs[id].kind
  }

  /** Every call is on a registered flag and passes exactly its number of arguments. */
  predicate WellFormed(p: Parser, calls: seq<Call>)
  {
    forall k :: 0 <= k < |calls| ==>
      calls[k].flag < |p.descs| && |calls[k].args| == NumArgs(KindOf(p, calls[k].flag))
  }

  /** No call is on the help flag. */
  predicate NoHelp(p: Parser, calls: seq<Call>)
    requires WellFormed(p, calls)
  {
    forall k :: 0 <= k < |calls| ==> !KindOf(p, calls[k].flag).Help?
  }

  /** What every step and every parse guarantees of its calls, extending `before`:
      they keep arity, and the help flag's call ends parsing. */
  predicate StepSound(p: Parser, before: seq<Call>, s: Step)
  {
    && |before| <= |s.calls| && s.calls[..|before|] == before
    && WellFormed(p, s.calls)
    && (s.Next? ==> NoHelp(p, s.calls))
    && (s.Stop? ==> HelpEnds(p, s.calls, s.outcome))
  }

  /** No call but possibly the last is on the help flag, and parsing exited exactly
      when the last one is. */
  predicate HelpEnds(p: Parser, calls: seq<Call>, outcome: Outcome)
    requires WellFormed(p, calls)
  {
    && (forall k :: 0 <= k < |calls| - 1 ==> !KindOf(p, calls[k].flag).Help?)
    && (outcome.Exited? <==> |calls| > 0 && KindOf(p, calls[|calls| - 1].flag).Help?)
  }

  /** `ConsumeArgs(args)`; the help flag's ends the process. */
  function Consume(p: Parser, calls: seq<Call>, id: nat, args: seq<string>, next: nat): (s: Step)
    requires id < |p.descs|
    ensures s.calls == calls + [Call(id, args)]
    ensures s.Next? ==> s.next == next
  {
    if KindOf(p, id).Help? then Stop(calls + [Call(id, args)], Exited)
    else Next(calls + [Call(id, args)], next)
  }

  /** The entry `argv[i]`, which starts with `--`. */
  function LongFlag(p: Parser, argv: seq<string>, i: nat): (s: Step)
    requires Valid(p) && i < |argv| && |argv[i]| >= 2
    ensures s.Next? ==> i < s.next <= |argv|
  {
    var view := argv[i][2..];
    var eq := Strings.Find(view, "=");
    var name := if eq.Some? then view[..eq.value] else view;
    if name !in p.nameToFlag then Stop([], Failed("No such flag: `--" + name + "`."))
    else if |name| == 1 then Stop([], Failed("No such flag: `--" + name + "`, did you mean `-" + name + "`."))
    else
      var id := p.nameToFlag[name];
      var n := NumArgs(KindOf(p, id));
      if eq.Some? then
        if n == 0 then Stop([], Failed("Flag `--" + name + "` doesn't accept arguments."))
        else if n > 1 then
          Stop([], Failed("Flag `--" + name + NoEqualsForMany))
        else Consume(p, [], id, [view[eq.value + 1..]], i + 1)
      else if |argv| - (i + 1) < n then Stop([], Failed(NeedsMessage("--" + name, n, |argv| - (i + 1))))
      else Consume(p, [], id, argv[i + 1..i + 1 + n], i + 1 + n)
  }

  /** The `do ... while` over the letters of `argv[i]`, which starts with a single
      `-`, from letter `j` on, after `calls`. */
  function ShortFlags(p: Parser, argv: seq<string>, i: nat, j: nat, calls: seq<Call>): (s: Step)
    requires Valid(p) && i < |argv| && 1 <= j < |argv[i]|
    ensures s.Next? ==> i < s.next <= |argv|
    decreases |argv[i]| - j
  {
    var t := argv[i];
    var letter := t[j];
    if [letter] !in p.nameToFlag then Stop(calls, Failed("No such flag: `-" + [letter] + "`."))
    else
      var id := p.nameToFlag[[letter]];
      var n := NumArgs(KindOf(p, id));
      if n == 0 then
        match Consume(p, calls, id, [], i + 1)
        case Stop(c, o) => Stop(c, o)
        case Next(c, _) => if j + 1 < |t| then ShortFlags(p, argv, i, j + 1, c) else Next(c, i + 1)
      else if n == 1 && j + 1 < |t| then Consume(p, calls, id, [t[j + 1..]], i + 1)
      else if j + 1 < |t| then
        Stop(calls, Failed("Flag `-" + [letter] + NotAttachedForMany))
      else if |argv| - (i + 1) < n then Stop(calls, Failed(NeedsMessage("-" + [letter], n, |argv| - (i + 1))))
      else Consume(p, calls, id, argv[i + 1..i + 1 + n], i + 1 + n)
  }

  /** One turn of the `while (*argv)` loop, on `argv[i]`. */
  function Token(rev: Revision, p: Parser, argv: seq<string>, i: nat): (s: Step)
    requires Valid(p) && 1 <= i < |argv|
    ensures s.Next? ==> i < s.next <= |argv|
  {
    var t := argv[i];
    if At(t, 0) != '-' then Stop([], Failed(PositionalMessage(rev, t)))
    else if At(t, 1) == '-' then LongFlag(p, argv, i)
    else if |t| == 1 then Stop([], Failed("No such flag: `-`."))
    else ShortFlags(p, argv, i, 1, [])
  }

  /** The loop from `argv[i]` on. */
  function ParseFrom(rev: Revision, p: Parser, argv: seq<string>, i: nat): (r: ParseResult)
    requires Valid(p) && 1 <= i <= |argv|
    decreases |argv| - i
  {
    if i == |argv| then ParseResult([], Completed)
    else
      match Token(rev, p, argv, i)
      case Stop(calls, outcome) => ParseResult(calls, outcome)
      case Next(calls, next) =>
        var rest := ParseFrom(rev, p, argv, next);
        ParseResult(calls + rest.calls, rest.outcome)
  }

  /** `Parse(argv)`: nothing for an empty argv, otherwise the loop after the
      program name. */
  function Parse(rev: Revision, p: Parser, argv: seq<string>): (r: ParseResult)
    requires Valid(p)
  {
    if |argv| == 0 then ParseResult([], Completed) else ParseFrom(rev, p, argv, 1)
  }

  /** Every parse keeps arity: each callback gets exactly as many arguments as its
      flag declares, and the help flag's callback is the last one made. */
  lemma ParseSound(rev: Revision, p: Parser, argv: seq<string>)
    requires Valid(p)
    ensures var r := Parse(rev, p, argv);
      WellFormed(p, r.calls) && HelpEnds(p, r.calls, r.outcome)
  {
    if |argv| > 0 {
      ParseFromSound(rev, p, argv, 1);
    }
  }

  lemma {:induction false} ParseFromSound(rev: Revision, p: Parser, argv: seq<string>, i: nat)
    requires Valid(p) && 1 <= i <= |argv|
    ensures var r := ParseFrom(rev, p, argv, i);
      WellFormed(p, r.calls) && HelpEnds(p, r.calls, r.outcome)
    decreases |argv| - i
  {
    if i < |argv| {
      TokenSound(rev, p, argv, i);
      var s := Token(rev, p, argv, i);
      if s.Next? {
        ParseFromSound(rev, p, argv, s.next);
        var rest := ParseFrom(rev, p, argv, s.next);
        AppendSound(p, s.calls, rest.calls, rest.outcome);
      }
    }
  }

  lemma TokenSound(rev: Revision, p: Parser, argv: seq<string>, i: nat)
    requires Valid(p) && 1 <= i < |argv|
    ensures StepSound(p, [], Token(rev, p, argv, i))
  {
    var t := argv[i];
    if At(t, 0) == '-' {
      if At(t, 1) == '-' {
        LongFlagSound(p, argv, i);
      } else if |t| > 1 {
        ShortFlagsSound(p, argv, i, 1, []);
      }
    }
  }

  lemma ConsumeSound(p: Parser, calls: seq<Call>, id: nat, args: seq<string>, next: nat)
    requires id < |p.descs| && |args| == NumArgs(KindOf(p, id))
    requires WellFormed(p, calls) && NoHelp(p, calls)
    ensures StepSound(p, calls, Consume(p, calls, id, args, next))
  {
    var all := calls + [Call(id, args)];
    assert all[..|calls|] == calls;
    assert forall k :: 0 <= k < |calls| ==> all[k] == calls[k];
  }

  lemma LongFlagSound(p: Parser, argv: seq<string>, i: nat)
    requires Valid(p) && i < |argv| && |argv[i]| >= 2
    ensures StepSound(p, [], LongFlag(p, argv, i))
  {
    var view := argv[i][2..];
    var eq := Strings.Find(view, "=");
    var name := if eq.Some? then view[..eq.value] else view;
    if name in p.nameToFlag && |name| != 1 {
      var id := p.nameToFlag[name];
      var n := NumArgs(KindOf(p, id));
      if eq.Some? && n == 1 {
        ConsumeSound(p, [], id, [view[eq.value + 1..]], i + 1);
      } else if eq.None? && i + 1 + n <= |argv| {
        ConsumeSound(p, [], id, argv[i + 1..i + 1 + n], i + 1 + n);
      }
    }
  }

  lemma {:induction false} ShortFlagsSound(p: Parser, argv: seq<string>, i: nat, j: nat, calls: seq<Call>)
    requires Valid(p) && i < |argv| && 1 <= j < |argv[i]|
    requires WellFormed(p, calls) && NoHelp(p, calls)
    ensures StepSound(p, calls, ShortFlags(p, argv, i, j, calls))
    decreases |argv[i]| - j
  {
    var t := argv[i];
    var letter := t[j];
    if [letter] in p.nameToFlag {
      var id := p.nameToFlag[[letter]];
      var n := NumArgs(KindOf(p, id));
      if n == 0 {
        ConsumeSound(p, calls, id, [], i + 1);
        var c := Consume(p, calls, id, [], i + 1);
        if c.Next? && j + 1 < |t| {
          ShortFlagsSound(p, argv, i, j + 1, c.calls);
          var s := ShortFlags(p, argv, i, j + 1, c.calls);
          assert s.calls[..|calls|] == s.calls[..|c.calls|][..|calls|];
        }
      } else if n == 1 && j + 1 < |t| {
        ConsumeSound(p, calls, id, [t[j + 1..]], i + 1);
      } else if j + 1 >= |t| && i + 1 + n <= |argv| {
        ConsumeSound(p, calls, id, argv[i + 1..i + 1 + n], i + 1 + n);
      }
    }
  }

  /** Calls without the help flag, followed by a sound parse, are a sound parse. */
  lemma AppendSound(p: Parser, calls: seq<Call>, rest: seq<Call>, outcome: Outcome)
    requires WellFormed(p, calls) && NoHelp(p, calls)
    requires WellFormed(p, rest) && HelpEnds(p, rest, outcome)
    ensures WellFormed(p, calls + rest) && HelpEnds(p, calls + rest, outcome)
  {
    var all := calls + rest;
    assert forall k :: |calls| <= k < |all| ==> all[k] == rest[k - |calls|];
    assert forall k :: 0 <= k < |calls| ==> all[k] == calls[k];
    if |rest| == 0 {
      assert all == calls;
    }
  }

  // ---------------------------------------------------------------- behaviour

  /** The program name is never read: only the entries after it matter. */
  lemma ProgramNameIgnored(rev: Revision, p: Parser, argv: seq<string>, name: string)
    requires Valid(p) && |argv| > 0
    ensures Parse(rev, p, argv) == Parse(rev, p, [name] + argv[1..])
  {
    var other := [name] + argv[1..];
    assert other[1..] == argv[1..];
    ParseFromSuffix(rev, p, argv, other, 1);
  }

  /** Parsing from entry `i` on reads only the entries from `i` on. */
  lemma {:induction false} ParseFromSuffix(rev: Revision, p: Parser, a: seq<string>, b: seq<string>, i: nat)
    requires Valid(p) && 1 <= i <= |a| && |a| == |b| && a[i..] == b[i..]
    ensures ParseFrom(rev, p, a, i) == ParseFrom(rev, p, b, i)
    decreases |a| - i
  {
    if i < |a| {
      TokenSuffix(rev, p, a, b, i);
      var s := Token(rev, p, a, i);
      if s.Next? {
        assert a[s.next..] == a[i..][s.next - i..] && b[s.next..] == b[i..][s.next - i..];
        ParseFromSuffix(rev, p, a, b, s.next);
      }
    }
  }

  lemma TokenSuffix(rev: Revision, p: Parser, a: seq<string>, b: seq<string>, i: nat)
    requires Valid(p) && 1 <= i < |a| && |a| == |b| && a[i..] == b[i..]
    ensures Token(rev, p, a, i) == Token(rev, p, b, i)
  {
    assert a[i] == a[i..][0] == b[i];
    SlicesAgree(a, b, i);
    if At(a[i], 0) == '-' && At(a[i], 1) != '-' && |a[i]| > 1 {
      ShortFlagsSuffix(p, a, b, i, 1, []);
    }
  }

  lemma {:induction false} ShortFlagsSuffix(p: Parser, a: seq<string>, b: seq<string>, i: nat, j: nat, calls: seq<Call>)
    requires Valid(p) && i < |a| && |a| == |b| && a[i..] == b[i..] && 1 <= j < |a[i]|
    ensures ShortFlags(p, a, i, j, calls) == ShortFlags(p, b, i, j, calls)
    decreases |a[i]| - j
  {
    assert a[i] == a[i..][0] == b[i];
    SlicesAgree(a, b, i);
    var t := a[i];
    if [t[j]] in p.nameToFlag && NumArgs(KindOf(p, p.nameToFlag[[t[j]]])) == 0 && j + 1 < |t| {
      var c := Consume(p, calls, p.nameToFlag[[t[j]]], [], i + 1);
      if c.Next? {
        ShortFlagsSuffix(p, a, b, i, j + 1, c.calls);
      }
    }
  }

  /** Sequences that agree from `i` on agree on every slice there. */
  lemma SlicesAgree(a: seq<string>, b: seq<string>, i: nat)
    requires i <= |a| == |b| && a[i..] == b[i..]
    ensures forall lo, hi :: i <= lo <= hi <= |a| ==> a[lo..hi] == b[lo..hi]
  {
    forall lo, hi | i <= lo <= hi <= |a| ensures a[lo..hi] == b[lo..hi]
    {
      forall k | 0 <= k < hi - lo ensures a[lo..hi][k] == b[lo..hi][k]
      {
        assert a[lo + k] == a[i..][lo + k - i];
        assert b[lo + k] == b[i..][lo + k - i];
      }
    }
  }

  /** `Find(name + "=" + value, "=")` is the end of `name` when `name` holds no `=`. */
  lemma FirstEquals(name: string, value: string)
    requires '=' !in name
    ensures Strings.Find(name + "=" + value, "=") == Some(|name|)
  {
    var s := name + "=" + value;
    assert s[|name|..|name| + 1] == "=";
    forall j | 0 <= j < |name| ensures !OccursAt(s, "=", j)
    {
      assert s[j..j + 1][0] == name[j];
    }
    Strings.FindIs(s, "=", |name|);
  }

  /** The text of a long flag: `--name`, or `--name=value`. */
  function LongText(name: string, value: Option<string>): string
  {
    "--" + name + (if value.Some? then "=" + value.value else "")
  }

  /** Where a long flag splits: the name before the first `=`, the rest after it. */
  lemma LongTextSplits(name: string, value: Option<string>)
    requires '=' !in name
    ensures var view := LongText(name, value)[2..];
      && (value.None? ==> Strings.Find(view, "=") == None && view == name)
      && (value.Some? ==>
            Strings.Find(view, "=") == Some(|name|) && view[..|name|] == name && view[|name| + 1..] == value.value)
  {
    var view := LongText(name, value)[2..];
    if value.Some? {
      assert view == name + "=" + value.value;
      FirstEquals(name, value.value);
    } else {
      assert view == name;
      Strings.NoOccurrence(name, '=');
    }
  }

  /** A long flag `--name` or `--name=value` is looked up by the name before the
      first `=`; an unknown name is refused, and so is a one-letter name, with a
      hint to use one dash. */
  lemma {:induction false} LongFlagLookup(rev: Revision, p: Parser, argv: seq<string>, i: nat,
                                          name: string, value: Option<string>)
    requires Valid(p) && 1 <= i < |argv| && '=' !in name && argv[i] == LongText(name, value)
    ensures name !in p.nameToFlag ==>
      ParseFrom(rev, p, argv, i) == ParseResult([], Failed("No such flag: `--" + name + "`."))
    ensures name in p.nameToFlag && |name| == 1 ==>
      ParseFrom(rev, p, argv, i)
        == ParseResult([], Failed("No such flag: `--" + name + "`, did you mean `-" + name + "`."))
  {
    LongTextSplits(name, value);
    assert At(argv[i], 0) == '-' && At(argv[i], 1) == '-';
  }

  /** `--name=value` is taken by a one-argument flag, which receives `value`,
      possibly empty and possibly holding further `=`. */
  lemma {:induction false} LongFlagValue(rev: Revision, p: Parser, argv: seq<string>, i: nat,
                                         name: string, value: string)
    requires Valid(p) && 1 <= i < |argv| && '=' !in name && argv[i] == LongText(name, Some(value))
    requires name in p.nameToFlag && |name| != 1 && NumArgs(KindOf(p, p.nameToFlag[name])) == 1
    ensures ParseFrom(rev, p, argv, i) == Then(Call(p.nameToFlag[name], [value]), ParseFrom(rev, p, argv, i + 1))
  {
    LongValueTaken(rev, p, argv, i, name, value);
    ContinuesWith(rev, p, argv, i, Call(p.nameToFlag[name], [value]), i + 1);
  }

  /** A flag without arguments, or with several, refuses `--name=value`. */
  lemma {:induction false} LongFlagValueRefused(rev: Revision, p: Parser, argv: seq<string>, i: nat,
                                                name: string, value: string)
    requires Valid(p) && 1 <= i < |argv| && '=' !in name && argv[i] == LongText(name, Some(value))
    requires name in p.nameToFlag && |name| != 1
    ensures NumArgs(KindOf(p, p.nameToFlag[name])) == 0 ==>
      ParseFrom(rev, p, argv, i) == ParseResult([], Failed("Flag `--" + name + "` doesn't accept arguments."))
    ensures NumArgs(KindOf(p, p.nameToFlag[name])) > 1 ==>
      ParseFrom(rev, p, argv, i) == ParseResult([], Failed("Flag `--" + name + NoEqualsForMany))
  {
    LongValueStep(rev, p, argv, i, name, value);
    var n := NumArgs(KindOf(p, p.nameToFlag[name]));
    if n == 0 {
      StopsWith(rev, p, argv, i, [], Failed("Flag `--" + name + "` doesn't accept arguments."));
    } else if n > 1 {
      StopsWith(rev, p, argv, i, [], Failed("Flag `--" + name + NoEqualsForMany));
    }
  }

  lemma LongValueStep(rev: Revision, p: Parser, argv: seq<string>, i: nat, name: string, value: string)
    requires Valid(p) && 1 <= i < |argv| && '=' !in name && argv[i] == LongText(name, Some(value))
    requires name in p.nameToFlag && |name| != 1
    ensures NumArgs(KindOf(p, p.nameToFlag[name])) == 0 ==>
      Token(rev, p, argv, i) == Stop([], Failed("Flag `--" + name + "` doesn't accept arguments."))
    ensures NumArgs(KindOf(p, p.nameToFlag[name])) > 1 ==>
      Token(rev, p, argv, i) == Stop([], Failed("Flag `--" + name + NoEqualsForMany))
  {
    LongTextSplits(name, Some(value));
  }

  lemma LongValueTaken(rev: Revision, p: Parser, argv: seq<string>, i: nat, name: string, value: string)
    requires Valid(p) && 1 <= i < |argv| && '=' !in name && argv[i] == LongText(name, Some(value))
    requires name in p.nameToFlag && |name| != 1 && NumArgs(KindOf(p, p.nameToFlag[name])) == 1
    ensures Token(rev, p, argv, i) == Next([Call(p.nameToFlag[name], [value])], i + 1)
  {
    LongTextSplits(name, Some(value));
  }

  /** `--name` takes the next `NumArgs` entries as its arguments, whatever they
      look like, or reports how many there were when too few remain. */
  lemma {:induction false} LongFlagArgs(rev: Revision, p: Parser, argv: seq<string>, i: nat, name: string)
    requires Valid(p) && 1 <= i < |argv| && '=' !in name && argv[i] == LongText(name, None)
    requires name in p.nameToFlag && |name| != 1
    ensures var n := NumArgs(KindOf(p, p.nameToFlag[name]));
      |argv| - (i + 1) < n ==>
      ParseFrom(rev, p, argv, i) == ParseResult([], Failed(NeedsMessage("--" + name, n, |argv| - (i + 1))))
    ensures var n := NumArgs(KindOf(p, p.nameToFlag[name]));
      i + 1 + n <= |argv| && !KindOf(p, p.nameToFlag[name]).Help? ==>
      ParseFrom(rev, p, argv, i) == Then(Call(p.nameToFlag[name], argv[i + 1..i + 1 + n]), ParseFrom(rev, p, argv, i + 1 + n))
    ensures KindOf(p, p.nameToFlag[name]).Help? ==>
      ParseFrom(rev, p, argv, i) == ParseResult([Call(p.nameToFlag[name], [])], Exited)
  {
    LongArgsStep(rev, p, argv, i, name);
    var id := p.nameToFlag[name];
    var n := NumArgs(KindOf(p, id));
    if |argv| - (i + 1) < n {
      StopsWith(rev, p, argv, i, [], Failed(NeedsMessage("--" + name, n, |argv| - (i + 1))));
    } else if KindOf(p, id).Help? {
      StopsWith(rev, p, argv, i, [Call(id, [])], Exited);
    } else {
      ContinuesWith(rev, p, argv, i, Call(id, argv[i + 1..i + 1 + n]), i + 1 + n);
    }
  }

  lemma LongArgsStep(rev: Revision, p: Parser, argv: seq<string>, i: nat, name: string)
    requires Valid(p) && 1 <= i < |argv| && '=' !in name && argv[i] == LongText(name, None)
    requires name in p.nameToFlag && |name| != 1
    ensures var n := NumArgs(KindOf(p, p.nameToFlag[name]));
      |argv| - (i + 1) < n ==>
      Token(rev, p, argv, i) == Stop([], Failed(NeedsMessage("--" + name, n, |argv| - (i + 1))))
    ensures KindOf(p, p.nameToFlag[name]).Help? ==>
      Token(rev, p, argv, i) == Stop([Call(p.nameToFlag[name], [])], Exited)
    ensures var n := NumArgs(KindOf(p, p.nameToFlag[name]));
      i + 1 + n <= |argv| && !KindOf(p, p.nameToFlag[name]).Help? ==>
      Token(rev, p, argv, i) == Next([Call(p.nameToFlag[name], argv[i + 1..i + 1 + n])], i + 1 + n)
  {
    LongTextSplits(name, None);
    var id := p.nameToFlag[name];
    if KindOf(p, id).Help? {
      assert argv[i + 1..i + 1] == [];
    }
  }

  /** A step that stops ends the parse with its calls. */
  lemma StopsWith(rev: Revision, p: Parser, argv: seq<string>, i: nat, calls: seq<Call>, outcome: Outcome)
    requires Valid(p) && 1 <= i < |argv| && Token(rev, p, argv, i) == Stop(calls, outcome)
    ensures ParseFrom(rev, p, argv, i) == ParseResult(calls, outcome)
  {
  }

  /** A step with one call continues the parse after it. */
  lemma ContinuesWith(rev: Revision, p: Parser, argv: seq<string>, i: nat, c: Call, next: nat)
    requires Valid(p) && 1 <= i < |argv| && Token(rev, p, argv, i) == Next([c], next)
    ensures i < next <= |argv|
    ensures ParseFrom(rev, p, argv, i) == Then(c, ParseFrom(rev, p, argv, next))
  {
  }

  /** A step that continues puts its calls before the rest of the parse. */
  lemma ContinuesAfter(rev: Revision, p: Parser, argv: seq<string>, i: nat, calls: seq<Call>, next: nat)
    requires Valid(p) && 1 <= i < |argv| && Token(rev, p, argv, i) == Next(calls, next)
    ensures i < next <= |argv|
    ensures ParseFrom(rev, p, argv, i)
      == ParseResult(calls + ParseFrom(rev, p, argv, next).calls, ParseFrom(rev, p, argv, next).outcome)
  {
  }

  /** The loop unrolled once: a step's calls, then the parse from where it stopped. */
  lemma ParseFromStep(rev: Revision, p: Parser, argv: seq<string>, i: nat)
    requires Valid(p) && 1 <= i < |argv|
    ensures Token(rev, p, argv, i).Stop? ==>
      ParseFrom(rev, p, argv, i) == ParseResult(Token(rev, p, argv, i).calls, Token(rev, p, argv, i).outcome)
    ensures Token(rev, p, argv, i).Next? ==>
      var s := Token(rev, p, argv, i);
      var rest := ParseFrom(rev, p, argv, s.next);
      ParseFrom(rev, p, argv, i) == ParseResult(s.calls + rest.calls, rest.outcome)
  {
  }

  /** One call, then the rest of the parse. */
  function Then(c: Call, rest: ParseResult): ParseResult
  {
    ParseResult([c] + rest.calls, rest.outcome)
  }

  // ---------------------------------------------------------------- short flags

  /** Every letter names a flag that takes no argument and is not the help flag. */
  predicate ZeroArgLetters(p: Parser, letters: string)
    requires Valid(p)
  {
    forall k :: 0 <= k < |letters| ==>
      && [letters[k]] in p.nameToFlag
      && NumArgs(KindOf(p, p.nameToFlag[[letters[k]]])) == 0
      && !KindOf(p, p.nameToFlag[[letters[k]]]).Help?
  }

  /** The calls such a run of letters makes, left to right. */
  function ClusterCalls(p: Parser, letters: string): (calls: seq<Call>)
    requires Valid(p) && ZeroArgLetters(p, letters)
    ensures WellFormed(p, calls) && NoHelp(p, calls) && |calls| == |letters|
    ensures forall k :: 0 <= k < |letters| ==> calls[k] == Call(p.nameToFlag[[letters[k]]], [])
  {
    if |letters| == 0 then []
    else
      assert forall k :: 1 <= k < |letters| ==> letters[1..][k - 1] == letters[k];
      [Call(p.nameToFlag[[letters[0]]], [])] + ClusterCalls(p, letters[1..])
  }

  lemma WellFormedAppend(p: Parser, a: seq<Call>, b: seq<Call>)
    requires WellFormed(p, a) && NoHelp(p, a) && WellFormed(p, b) && NoHelp(p, b)
    ensures WellFormed(p, a + b) && NoHelp(p, a + b)
  {
    assert forall k :: |a| <= k < |a + b| ==> (a + b)[k] == b[k - |a|];
    assert forall k :: 0 <= k < |a| ==> (a + b)[k] == a[k];
  }

  /** Letters `j` to `k` of a cluster, all flags without arguments, each make
      their call in turn. */
  lemma {:induction false} ClusterRun(p: Parser, argv: seq<string>, i: nat, j: nat, k: nat, calls: seq<Call>)
    requires Valid(p) && i < |argv| && 1 <= j <= k < |argv[i]|
    requires ZeroArgLetters(p, argv[i][j..k])
    ensures ShortFlags(p, argv, i, j, calls) == ShortFlags(p, argv, i, k, calls + ClusterCalls(p, argv[i][j..k]))
    decreases k - j
  {
    if j == k {
      assert argv[i][j..k] == [];
      assert calls + [] == calls;
    } else {
      ClusterCons(p, argv[i], j, k, calls);
      ClusterStep(p, argv, i, j, calls);
      ClusterRun(p, argv, i, j + 1, k, calls + [Call(p.nameToFlag[[argv[i][j]]], [])]);
    }
  }

  /** A run of letters is its first letter's call, then the rest of the run. */
  lemma ClusterCons(p: Parser, t: string, j: nat, k: nat, calls: seq<Call>)
    requires Valid(p) && j < k <= |t| && ZeroArgLetters(p, t[j..k])
    ensures [t[j]] in p.nameToFlag && ZeroArgLetters(p, [t[j]]) && ZeroArgLetters(p, t[j + 1..k])
    ensures calls + [Call(p.nameToFlag[[t[j]]], [])] + ClusterCalls(p, t[j + 1..k])
         == calls + ClusterCalls(p, t[j..k])
  {
    var run := t[j..k];
    assert run[0] == t[j] && run[1..] == t[j + 1..k];
    ZeroArgTail(p, run);
    assert ClusterCalls(p, run) == [Call(p.nameToFlag[[t[j]]], [])] + ClusterCalls(p, run[1..]);
  }

  lemma ZeroArgTail(p: Parser, letters: string)
    requires Valid(p) && |letters| > 0 && ZeroArgLetters(p, letters)
    ensures ZeroArgLetters(p, letters[1..]) && ZeroArgLetters(p, [letters[0]])
    ensures [letters[0]] in p.nameToFlag
  {
    assert forall m :: 1 <= m < |letters| ==> letters[1..][m - 1] == letters[m];
  }

  /** One letter of a flag without arguments, not the last of its entry. */
  lemma ClusterStep(p: Parser, argv: seq<string>, i: nat, j: nat, calls: seq<Call>)
    requires Valid(p) && i < |argv| && 1 <= j && j + 1 < |argv[i]|
    requires [argv[i][j]] in p.nameToFlag && ZeroArgLetters(p, [argv[i][j]])
    ensures ShortFlags(p, argv, i, j, calls)
      == ShortFlags(p, argv, i, j + 1, calls + [Call(p.nameToFlag[[argv[i][j]]], [])])
  {
    assert [argv[i][j]][0] == argv[i][j];
  }

  /** The pieces of a short-flag entry: `-`, a run of letters for flags without
      arguments, the letter `c` being read, and the rest of the entry. */
  predicate ShortEntry(p: Parser, argv: seq<string>, i: nat, letters: string, c: char, rest: string)
    requires Valid(p)
  {
    && 1 <= i < |argv| && argv[i] == "-" + letters + [c] + rest
    && ZeroArgLetters(p, letters) && At(argv[i], 1) != '-'
  }

  /** An entry of this shape is read letter by letter from its second character;
      the letters of the run make their calls before `c` is read. */
  lemma ShortEntryRun(rev: Revision, p: Parser, argv: seq<string>, i: nat, letters: string, c: char, rest: string)
    requires Valid(p) && ShortEntry(p, argv, i, letters, c, rest)
    ensures argv[i][1 + |letters|] == c && argv[i][2 + |letters|..] == rest
    ensures Token(rev, p, argv, i) == ShortFlags(p, argv, i, 1 + |letters|, ClusterCalls(p, letters))
  {
    var t := argv[i];
    assert t[1..1 + |letters|] == letters;
    assert t[1 + |letters|] == c && t[2 + |letters|..] == rest;
    ClusterRun(p, argv, i, 1, 1 + |letters|, []);
    assert [] + ClusterCalls(p, letters) == ClusterCalls(p, letters);
  }

  /** A letter that names no flag is refused, after the calls of the run before it. */
  lemma {:induction false} ShortFlagUnknown(rev: Revision, p: Parser, argv: seq<string>, i: nat,
                                            letters: string, c: char, rest: string)
    requires Valid(p) && ShortEntry(p, argv, i, letters, c, rest) && [c] !in p.nameToFlag
    ensures ParseFrom(rev, p, argv, i)
      == ParseResult(ClusterCalls(p, letters), Failed("No such flag: `-" + [c] + "`."))
  {
    ShortEntryRun(rev, p, argv, i, letters, c, rest);
    StopsWith(rev, p, argv, i, ClusterCalls(p, letters), Failed("No such flag: `-" + [c] + "`."));
  }

  /** A cluster of flags without arguments makes one call per letter, left to right. */
  lemma {:induction false} ShortFlagsChain(rev: Revision, p: Parser, argv: seq<string>, i: nat,
                                           letters: string, c: char)
    requires Valid(p) && ShortEntry(p, argv, i, letters, c, "") && ZeroArgLetters(p, [c])
    ensures ParseFrom(rev, p, argv, i)
      == ParseResult(ClusterCalls(p, letters + [c]) + ParseFrom(rev, p, argv, i + 1).calls,
                     ParseFrom(rev, p, argv, i + 1).outcome)
  {
    ShortEntryRun(rev, p, argv, i, letters, c, "");
    var id := p.nameToFlag[[c]];
    var all := ClusterCalls(p, letters + [c]);
    assert all == ClusterCalls(p, letters) + [Call(id, [])] by {
      assert (letters + [c])[|letters|] == c;
      assert forall k :: 0 <= k < |letters| ==> (letters + [c])[k] == letters[k];
    }
    assert ShortFlags(p, argv, i, 1 + |letters|, ClusterCalls(p, letters)) == Next(all, i + 1);
    ContinuesAfter(rev, p, argv, i, all, i + 1);
  }

  /** The help flag's letter ends parsing after the calls before it. */
  lemma {:induction false} ShortFlagHelp(rev: Revision, p: Parser, argv: seq<string>, i: nat,
                                         letters: string, c: char, rest: string)
    requires Valid(p) && ShortEntry(p, argv, i, letters, c, rest)
    requires [c] in p.nameToFlag && KindOf(p, p.nameToFlag[[c]]).Help?
    ensures ParseFrom(rev, p, argv, i)
      == ParseResult(ClusterCalls(p, letters) + [Call(p.nameToFlag[[c]], [])], Exited)
  {
    ShortEntryRun(rev, p, argv, i, letters, c, rest);
    StopsWith(rev, p, argv, i, ClusterCalls(p, letters) + [Call(p.nameToFlag[[c]], [])], Exited);
  }

  /** A one-argument flag takes the rest of its entry as the argument. */
  lemma {:induction false} ShortFlagAttached(rev: Revision, p: Parser, argv: seq<string>, i: nat,
                                             letters: string, c: char, rest: string)
    requires Valid(p) && ShortEntry(p, argv, i, letters, c, rest) && |rest| > 0
    requires [c] in p.nameToFlag && NumArgs(KindOf(p, p.nameToFlag[[c]])) == 1
    ensures ParseFrom(rev, p, argv, i)
      == ParseResult(ClusterCalls(p, letters) + [Call(p.nameToFlag[[c]], [rest])] + ParseFrom(rev, p, argv, i + 1).calls,
                     ParseFrom(rev, p, argv, i + 1).outcome)
  {
    ShortEntryRun(rev, p, argv, i, letters, c, rest);
    var calls := ClusterCalls(p, letters) + [Call(p.nameToFlag[[c]], [rest])];
    ContinuesAfter(rev, p, argv, i, calls, i + 1);
  }

  /** A flag with several arguments cannot have anything after its letter. */
  lemma {:induction false} ShortFlagAttachedRefused(rev: Revision, p: Parser, argv: seq<string>, i: nat,
                                                    letters: string, c: char, rest: string)
    requires Valid(p) && ShortEntry(p, argv, i, letters, c, rest) && |rest| > 0
    requires [c] in p.nameToFlag && NumArgs(KindOf(p, p.nameToFlag[[c]])) > 1
    ensures ParseFrom(rev, p, argv, i)
      == ParseResult(ClusterCalls(p, letters), Failed("Flag `-" + [c] + NotAttachedForMany))
  {
    ShortEntryRun(rev, p, argv, i, letters, c, rest);
    StopsWith(rev, p, argv, i, ClusterCalls(p, letters), Failed("Flag `-" + [c] + NotAttachedForMany));
  }

  /** A flag with arguments that ends its entry takes the next entries, whatever
      they look like, or reports how many there were when too few remain. */
  lemma {:induction false} ShortFlagArgs(rev: Revision, p: Parser, argv: seq<string>, i: nat,
                                         letters: string, c: char)
    requires Valid(p) && ShortEntry(p, argv, i, letters, c, "")
    requires [c] in p.nameToFlag && NumArgs(KindOf(p, p.nameToFlag[[c]])) > 0
    ensures var n := NumArgs(KindOf(p, p.nameToFlag[[c]]));
      |argv| - (i + 1) < n ==>
      ParseFrom(rev, p, argv, i)
        == ParseResult(ClusterCalls(p, letters), Failed(NeedsMessage("-" + [c], n, |argv| - (i + 1))))
    ensures var n := NumArgs(KindOf(p, p.nameToFlag[[c]]));
      i + 1 + n <= |argv| ==>
      ParseFrom(rev, p, argv, i)
        == ParseResult(ClusterCalls(p, letters) + [Call(p.nameToFlag[[c]], argv[i + 1..i + 1 + n])]
                         + ParseFrom(rev, p, argv, i + 1 + n).calls,
                       ParseFrom(rev, p, argv, i + 1 + n).outcome)
  {
    ShortEntryRun(rev, p, argv, i, letters, c, "");
    var n := NumArgs(KindOf(p, p.nameToFlag[[c]]));
    if |argv| - (i + 1) < n {
      StopsWith(rev, p, argv, i, ClusterCalls(p, letters), Failed(NeedsMessage("-" + [c], n, |argv| - (i + 1))));
    } else {
      var calls := ClusterCalls(p, letters) + [Call(p.nameToFlag[[c]], argv[i + 1..i + 1 + n])];
      ContinuesAfter(rev, p, argv, i, calls, i + 1 + n);
    }
  }

  /** An entry that does not start with `-`, including an empty one, is refused. */
  lemma PositionalRefused(rev: Revision, p: Parser, argv: seq<string>, i: nat)
    requires Valid(p) && 1 <= i < |argv| && (|argv[i]| == 0 || argv[i][0] != '-')
    ensures ParseFrom(rev, p, argv, i) == ParseResult([], Failed(PositionalMessage(rev, argv[i])))
  {
    StopsWith(rev, p, argv, i, [], Failed(PositionalMessage(rev, argv[i])));
  }
}

=== FILE: command_line_parse_vectors.dfy ===
/** The `parsing` test of src/utils/command_line_parser.test.cpp, stated of the
    model: each command line, what the parser does with it, and what the test's
    callbacks write to their log. */
module CommandLineParseVectors {
  import opened Common
  import opened CommandLine
  import opened CommandLineParse
  import opened CommandLineVectors

  /** A parser registered as in the test: the names and descriptions it ends up with. */
  predicate IsTestParser(p: Parser)
  {
    p.nameToFlag == GammaMap && p.descs == [AlphaDesc, BetaDesc, GammaDesc]
  }

  lemma TestParserIs()
    ensures Valid(TestParser()) && IsTestParser(TestParser())
  {
    TestParserNames();
    TestParserDescs();
  }

  /** What the test's parser resolves each name to, and what the flags take. */
  lemma AlphaLookup(p: Parser)
    requires Valid(p) && IsTestParser(p)
    ensures "alpha" in p.nameToFlag && p.nameToFlag["alpha"] == Alpha
    ensures ['A'] in p.nameToFlag && p.nameToFlag[['A']] == Alpha
    ensures KindOf(p, Alpha) == AlphaKind && NumArgs(AlphaKind) == 0
  {
  }

  lemma BetaLookup(p: Parser)
    requires Valid(p) && IsTestParser(p)
    ensures "beta" in p.nameToFlag && p.nameToFlag["beta"] == Beta
    ensures ['B'] in p.nameToFlag && p.nameToFlag[['B']] == Beta
    ensures KindOf(p, Beta) == BetaKind && NumArgs(BetaKind) == 1
  {
  }

  lemma GammaLookup(p: Parser)
    requires Valid(p) && IsTestParser(p)
    ensures "gamma" in p.nameToFlag && p.nameToFlag["gamma"] == Gamma
    ensures ['G'] in p.nameToFlag && p.nameToFlag[['G']] == Gamma
    ensures KindOf(p, Gamma) == GammaKind && NumArgs(GammaKind) == 2
  {
  }

  /** Names the test's parser does not know. */
  lemma Unknown(p: Parser)
    requires Valid(p) && IsTestParser(p)
    ensures "a" !in p.nameToFlag && "alphafoo" !in p.nameToFlag && ['a'] !in p.nameToFlag
  {
    assert "a" != "alpha" && "a" != "beta" && "a" != "gamma";
    assert "alphafoo" != "alpha" && "alphafoo" != "beta" && "alphafoo" != "gamma";
  }

  /** The line a callback of the test appends to the log. */
  function CallLog(c: Call): string
  {
    if c.flag == Alpha then "{}\n"
    else if c.flag == Beta && |c.args| == 1 then "[" + c.args[0] + "]\n"
    else if c.flag == Gamma && |c.args| == 2 then "[" + c.args[0] + "|" + c.args[1] + "]\n"
    else ""
  }

  /** The log after the callbacks of a parse, in order. */
  function TestLog(calls: seq<Call>): string
  {
    if |calls| == 0 then "" else CallLog(calls[0]) + TestLog(calls[1..])
  }

  // ---------------------------------------------------------------- steps at the first entry

  /** `--name=value` at position 1 for a flag without arguments. */
  lemma LongValueRefusedFirst(rev: Revision, p: Parser, argv: seq<string>, name: string, value: string)
    requires Valid(p) && 2 <= |argv| && '=' !in name && argv[1] == LongText(name, Some(value))
    requires name in p.nameToFlag && |name| != 1 && NumArgs(KindOf(p, p.nameToFlag[name])) == 0
    ensures Parse(rev, p, argv) == ParseResult([], Failed("Flag `--" + name + "` doesn't accept arguments."))
  {
    LongFlagValueRefused(rev, p, argv, 1, name, value);
  }

  /** `--name` at position 1 with fewer entries after it than its flag takes. */
  lemma LongTooFew(rev: Revision, p: Parser, argv: seq<string>, name: string, n: nat)
    requires Valid(p) && 2 <= |argv| && '=' !in name && argv[1] == LongText(name, None)
    requires name in p.nameToFlag && |name| != 1 && NumArgs(KindOf(p, p.nameToFlag[name])) == n
    requires |argv| - 2 < n
    ensures Parse(rev, p, argv) == ParseResult([], Failed(NeedsMessage("--" + name, n, |argv| - 2)))
  {
    LongFlagArgs(rev, p, argv, 1, name);
  }

  /** `-c` alone at position 1 with fewer entries after it than its flag takes. */
  lemma ShortTooFew(rev: Revision, p: Parser, argv: seq<string>, c: char, n: nat)
    requires Valid(p) && 2 <= |argv| && c != '-' && argv[1] == ['-', c]
    requires [c] in p.nameToFlag && NumArgs(KindOf(p, p.nameToFlag[[c]])) == n
    requires 0 < n && |argv| - 2 < n
    ensures Parse(rev, p, argv) == ParseResult([], Failed(NeedsMessage(['-', c], n, |argv| - 2)))
  {
    assert argv[1] == "-" + "" + [c] + "";
    assert ClusterCalls(p, "") == [];
    ShortFlagArgs(rev, p, argv, 1, "", c);
    assert "-" + [c] == ['-', c];
  }

  /** `--name` at position `i` taking the entries after it. */
  lemma LongTakes(rev: Revision, p: Parser, argv: seq<string>, i: nat, name: string, n: nat)
    requires Valid(p) && 1 <= i < |argv| && '=' !in name && argv[i] == LongText(name, None)
    requires name in p.nameToFlag && |name| != 1 && NumArgs(KindOf(p, p.nameToFlag[name])) == n
    requires !KindOf(p, p.nameToFlag[name]).Help? && i + 1 + n <= |argv|
    ensures ParseFrom(rev, p, argv, i)
      == Then(Call(p.nameToFlag[name], argv[i + 1..i + 1 + n]), ParseFrom(rev, p, argv, i + 1 + n))
  {
    var kind := KindOf(p, p.nameToFlag[name]);
    assert NumArgs(kind) == n && !kind.Help?;
    LongFlagArgs(rev, p, argv, i, name);
  }

  /** `--name=value` at position `i` for a one-argument flag. */
  lemma LongTakesValue(rev: Revision, p: Parser, argv: seq<string>, i: nat, name: string, value: string)
    requires Valid(p) && 1 <= i < |argv| && '=' !in name && argv[i] == LongText(name, Some(value))
    requires name in p.nameToFlag && |name| != 1 && NumArgs(KindOf(p, p.nameToFlag[name])) == 1
    ensures ParseFrom(rev, p, argv, i) == Then(Call(p.nameToFlag[name], [value]), ParseFrom(rev, p, argv, i + 1))
  {
    LongFlagValue(rev, p, argv, i, name, value);
  }

  /** The loop stops at the end of argv. */
  lemma AtEnd(rev: Revision, p: Parser, argv: seq<string>)
    requires Valid(p) && 1 <= |argv|
    ensures ParseFrom(rev, p, argv, |argv|) == ParseResult([], Completed)
  {
  }

  /** `--name` and its `n` arguments make up the whole command line. */
  lemma LongOnce(rev: Revision, p: Parser, argv: seq<string>, name: string, n: nat)
    requires Valid(p) && '=' !in name && name in p.nameToFlag && |name| != 1
    requires NumArgs(KindOf(p, p.nameToFlag[name])) == n && !KindOf(p, p.nameToFlag[name]).Help?
    requires |argv| == 2 + n && argv[1] == LongText(name, None)
    ensures Parse(rev, p, argv) == ParseResult([Call(p.nameToFlag[name], argv[2..])], Completed)
  {
    LongTakes(rev, p, argv, 1, name, n);
    assert argv[2..2 + n] == argv[2..];
    AtEnd(rev, p, argv);
  }

  /** `--name` and its `n` arguments, twice, make up the whole command line. */
  lemma LongTwice(rev: Revision, p: Parser, argv: seq<string>, name: string, n: nat)
    requires Valid(p) && '=' !in name && name in p.nameToFlag && |name| != 1
    requires NumArgs(KindOf(p, p.nameToFlag[name])) == n && !KindOf(p, p.nameToFlag[name]).Help?
    requires |argv| == 3 + 2 * n && argv[1] == LongText(name, None) && argv[2 + n] == LongText(name, None)
    ensures Parse(rev, p, argv)
      == ParseResult([Call(p.nameToFlag[name], argv[2..2 + n]), Call(p.nameToFlag[name], argv[3 + n..])], Completed)
  {
    LongTakes(rev, p, argv, 1, name, n);
    LongTakes(rev, p, argv, 2 + n, name, n);
    assert argv[3 + n..3 + 2 * n] == argv[3 + n..];
    ParseTwo(rev, p, argv, 2 + n, Call(p.nameToFlag[name], argv[2..2 + n]), Call(p.nameToFlag[name], argv[3 + n..]));
  }

  /** `--name=value` twice makes up the whole command line. */
  lemma LongValueTwice(rev: Revision, p: Parser, argv: seq<string>, name: string, v1: string, v2: string)
    requires Valid(p) && '=' !in name && name in p.nameToFlag && |name| != 1
    requires NumArgs(KindOf(p, p.nameToFlag[name])) == 1
    requires |argv| == 3 && argv[1] == LongText(name, Some(v1)) && argv[2] == LongText(name, Some(v2))
    ensures Parse(rev, p, argv) == ParseResult([Call(p.nameToFlag[name], [v1]), Call(p.nameToFlag[name], [v2])], Completed)
  {
    LongTakesValue(rev, p, argv, 1, name, v1);
    LongTakesValue(rev, p, argv, 2, name, v2);
    ParseTwo(rev, p, argv, 2, Call(p.nameToFlag[name], [v1]), Call(p.nameToFlag[name], [v2]));
  }

  /** Two steps that each make one call and then reach the end of argv. */
  lemma ParseTwo(rev: Revision, p: Parser, argv: seq<string>, j: nat, c1: Call, c2: Call)
    requires Valid(p) && 1 <= j <= |argv|
    requires ParseFrom(rev, p, argv, 1) == Then(c1, ParseFrom(rev, p, argv, j))
    requires ParseFrom(rev, p, argv, j) == Then(c2, ParseFrom(rev, p, argv, |argv|))
    ensures Parse(rev, p, argv) == ParseResult([c1, c2], Completed)
  {
    AtEnd(rev, p, argv);
  }

  // ---------------------------------------------------------------- the test's messages

  lemma NoSuchLongA()
    ensures "No such flag: `--" + "a" + "`." == "No such flag: `--a`."
  {
    assert "No such flag: `--" + "a" == "No such flag: `--a";
    assert "No such flag: `--a" + "`." == "No such flag: `--a`.";
  }

  lemma DidYouMeanA()
    ensures "No such flag: `--" + "A" + "`, did you mean `-" + "A" + "`." == "No such flag: `--A`, did you mean `-A`."
  {
    assert "No such flag: `--" + "A" == "No such flag: `--A";
    assert "No such flag: `--A" + "`, did you mean `-" == "No such flag: `--A`, did you mean `-";
    assert "No such flag: `--A`, did you mean `-" + "A" == "No such flag: `--A`, did you mean `-A";
    assert "No such flag: `--A`, did you mean `-A" + "`." == "No such flag: `--A`, did you mean `-A`.";
  }

  lemma NoSuchAlphaFoo()
    ensures "No such flag: `--" + "alphafoo" + "`." == "No such flag: `--alphafoo`."
  {
    assert "No such flag: `--" + "alphafoo" == "No such flag: `--alphafoo";
    assert "No such flag: `--alphafoo" + "`." == "No such flag: `--alphafoo`.";
  }

  lemma AlphaRefusesValue()
    ensures "Flag `--" + "alpha" + "` doesn't accept arguments." == "Flag `--alpha` doesn't accept arguments."
  {
    assert "Flag `--" + "alpha" == "Flag `--alpha";
    assert "Flag `--alpha" + "` doesn't accept arguments." == "Flag `--alpha` doesn't accept arguments.";
  }

  lemma NoSuchShortA()
    ensures "No such flag: `-" + ['a'] + "`." == "No such flag: `-a`."
  {
    assert "No such flag: `-" + "a" == "No such flag: `-a";
    assert "No such flag: `-a" + "`." == "No such flag: `-a`.";
  }

  lemma NeedsBetaNone()
    ensures NeedsMessage("--beta", 1, 0) == "Flag `--beta` needs 1 argument, but got 0."
  {
    assert NatToString(1) == "1" && NatToString(0) == "0";
    assert "Flag `" + "--beta" == "Flag `--beta";
    assert "Flag `--beta" + "` needs " == "Flag `--beta` needs ";
    assert "Flag `--beta` needs " + "1" == "Flag `--beta` needs 1";
    assert "Flag `--beta` needs 1" + " argument" == "Flag `--beta` needs 1 argument";
    assert "Flag `--beta` needs 1 argument" + ", but got " == "Flag `--beta` needs 1 argument, but got ";
    assert "Flag `--beta` needs 1 argument, but got " + "0" == "Flag `--beta` needs 1 argument, but got 0";
    assert "Flag `--beta` needs 1 argument, but got 0" + "." == "Flag `--beta` needs 1 argument, but got 0.";
  }

  lemma NeedsGammaNone()
    ensures NeedsMessage("--gamma", 2, 0) == "Flag `--gamma` needs 2 arguments, but got 0."
  {
    assert NatToString(2) == "2" && NatToString(0) == "0";
    assert "Flag `" + "--gamma" == "Flag `--gamma";
    assert "Flag `--gamma" + "` needs " == "Flag `--gamma` needs ";
    assert "Flag `--gamma` needs " + "2" == "Flag `--gamma` needs 2";
    assert "Flag `--gamma` needs 2" + " argument" == "Flag `--gamma` needs 2 argument";
    assert "Flag `--gamma` needs 2 argument" + "s" == "Flag `--gamma` needs 2 arguments";
    assert "Flag `--gamma` needs 2 arguments" + ", but got " == "Flag `--gamma` needs 2 arguments, but got ";
    assert "Flag `--gamma` needs 2 arguments, but got " + "0" == "Flag `--gamma` needs 2 arguments, but got 0";
    assert "Flag `--gamma` needs 2 arguments, but got 0" + "." == "Flag `--gamma` needs 2 arguments, but got 0.";
  }

  lemma NeedsGammaOne()
    ensures NeedsMessage("--gamma", 2, 1) == "Flag `--gamma` needs 2 arguments, but got 1."
  {
    assert NatToString(2) == "2" && NatToString(1) == "1";
    assert "Flag `" + "--gamma" == "Flag `--gamma";
    assert "Flag `--gamma" + "` needs " == "Flag `--gamma` needs ";
    assert "Flag `--gamma` needs " + "2" == "Flag `--gamma` needs 2";
    assert "Flag `--gamma` needs 2" + " argument" == "Flag `--gamma` needs 2 argument";
    assert "Flag `--gamma` needs 2 argument" + "s" == "Flag `--gamma` needs 2 arguments";
    assert "Flag `--gamma` needs 2 arguments" + ", but got " == "Flag `--gamma` needs 2 arguments, but got ";
    assert "Flag `--gamma` needs 2 arguments, but got " + "1" == "Flag `--gamma` needs 2 arguments, but got 1";
    assert "Flag `--gamma` needs 2 arguments, but got 1" + "." == "Flag `--gamma` needs 2 arguments, but got 1.";
  }

  lemma NeedsShortBetaNone()
    ensures NeedsMessage("-B", 1, 0) == "Flag `-B` needs 1 argument, but got 0."
  {
    assert NatToString(1) == "1" && NatToString(0) == "0";
    assert "Flag `" + "-B" == "Flag `-B";
    assert "Flag `-B" + "` needs " == "Flag `-B` needs ";
    assert "Flag `-B` needs " + "1" == "Flag `-B` needs 1";
    assert "Flag `-B` needs 1" + " argument" == "Flag `-B` needs 1 argument";
    assert "Flag `-B` needs 1 argument" + ", but got " == "Flag `-B` needs 1 argument, but got ";
    assert "Flag `-B` needs 1 argument, but got " + "0" == "Flag `-B` needs 1 argument, but got 0";
    assert "Flag `-B` needs 1 argument, but got 0" + "." == "Flag `-B` needs 1 argument, but got 0.";
  }

  lemma NeedsShortGammaNone()
    ensures NeedsMessage("-G", 2, 0) == "Flag `-G` needs 2 arguments, but got 0."
  {
    assert NatToString(2) == "2" && NatToString(0) == "0";
    assert "Flag `" + "-G" == "Flag `-G";
    assert "Flag `-G" + "` needs " == "Flag `-G` needs ";
    assert "Flag `-G` needs " + "2" == "Flag `-G` needs 2";
    assert "Flag `-G` needs 2" + " argument" == "Flag `-G` needs 2 argument";
    assert "Flag `-G` needs 2 argument" + "s" == "Flag `-G` needs 2 arguments";
    assert "Flag `-G` needs 2 arguments" + ", but got " == "Flag `-G` needs 2 arguments, but got ";
    assert "Flag `-G` needs 2 arguments, but got " + "0" == "Flag `-G` needs 2 arguments, but got 0";
    assert "Flag `-G` needs 2 arguments, but got 0" + "." == "Flag `-G` needs 2 arguments, but got 0.";
  }

  lemma NeedsShortGammaOne()
    ensures NeedsMessage("-G", 2, 1) == "Flag `-G` needs 2 arguments, but got 1."
  {
    assert NatToString(2) == "2" && NatToString(1) == "1";
    assert "Flag `" + "-G" == "Flag `-G";
    assert "Flag `-G" + "` needs " == "Flag `-G` needs ";
    assert "Flag `-G` needs " + "2" == "Flag `-G` needs 2";
    assert "Flag `-G` needs 2" + " argument" == "Flag `-G` needs 2 argument";
    assert "Flag `-G` needs 2 argument" + "s" == "Flag `-G` needs 2 arguments";
    assert "Flag `-G` needs 2 arguments" + ", but got " == "Flag `-G` needs 2 arguments, but got ";
    assert "Flag `-G` needs 2 arguments, but got " + "1" == "Flag `-G` needs 2 arguments, but got 1";
    assert "Flag `-G` needs 2 arguments, but got 1" + "." == "Flag `-G` needs 2 arguments, but got 1.";
  }

  /** The log of a parse is the callbacks' lines in call order. */
  lemma {:induction false} LogAppend(a: seq<Call>, b: seq<Call>)
    ensures TestLog(a + b) == TestLog(a) + TestLog(b)
    decreases |a|
  {
    if |a| == 0 {
      assert a + b == b;
    } else {
      assert (a + b)[0] == a[0] && (a + b)[1..] == a[1..] + b;
      LogAppend(a[1..], b);
    }
  }

  lemma LogOne(c: Call)
    ensures TestLog([c]) == CallLog(c)
  {
    assert [c][1..] == [];
  }

  lemma LogTwo(c: Call, d: Call)
    ensures TestLog([c, d]) == CallLog(c) + CallLog(d)
  {
    LogAppend([c], [d]);
    assert [c] + [d] == [c, d];
    LogOne(c);
    LogOne(d);
  }

  // ---------------------------------------------------------------- refused command lines

  lemma UnknownLong(rev: Revision, p: Parser)
    requires Valid(p) && IsTestParser(p)
    ensures Parse(rev, p, ["./app", "--a"]) == ParseResult([], Failed("No such flag: `--a`."))
  {
    Unknown(p);
    var argv := ["./app", "--a"];
    assert argv[1] == LongText("a", None);
    LongFlagLookup(rev, p, argv, 1, "a", None);
    NoSuchLongA();
    assert Parse(rev, p, argv) == ParseFrom(rev, p, argv, 1);
  }

  lemma OneLetterLong(rev: Revision, p: Parser)
    requires Valid(p) && IsTestParser(p)
    ensures Parse(rev, p, ["./app", "--A"]) == ParseResult([], Failed("No such flag: `--A`, did you mean `-A`."))
  {
    AlphaLookup(p);
    var argv := ["./app", "--A"];
    assert argv[1] == LongText("A", None);
    LongFlagLookup(rev, p, argv, 1, "A", None);
    DidYouMeanA();
    assert Parse(rev, p, argv) == ParseFrom(rev, p, argv, 1);
  }

  lemma PrefixIsNotAName(rev: Revision, p: Parser)
    requires Valid(p) && IsTestParser(p)
    ensures Parse(rev, p, ["./app", "--alphafoo"]) == ParseResult([], Failed("No such flag: `--alphafoo`."))
  {
    Unknown(p);
    var argv := ["./app", "--alphafoo"];
    assert argv[1] == LongText("alphafoo", None);
    LongFlagLookup(rev, p, argv, 1, "alphafoo", None);
    NoSuchAlphaFoo();
    assert Parse(rev, p, argv) == ParseFrom(rev, p, argv, 1);
  }

  lemma ValueForNoArguments(rev: Revision, p: Parser)
    requires Valid(p) && IsTestParser(p)
    ensures Parse(rev, p, ["./app", "--alpha=foo"]) == ParseResult([], Failed("Flag `--alpha` doesn't accept arguments."))
  {
    AlphaLookup(p);
    var argv := ["./app", "--alpha=foo"];
    assert argv[1] == LongText("alpha", Some("foo"));
    LongValueRefusedFirst(rev, p, argv, "alpha", "foo");
    AlphaRefusesValue();
  }

  lemma LongMissingOne(rev: Revision, p: Parser)
    requires Valid(p) && IsTestParser(p)
    ensures Parse(rev, p, ["./app", "--beta"]) == ParseResult([], Failed("Flag `--beta` needs 1 argument, but got 0."))
  {
    BetaLookup(p);
    var argv := ["./app", "--beta"];
    assert argv[1] == LongText("beta", None);
    LongTooFew(rev, p, argv, "beta", 1);
    assert "--" + "beta" == "--beta";
    NeedsBetaNone();
  }

  lemma LongMissingTwo(rev: Revision, p: Parser)
    requires Valid(p) && IsTestParser(p)
    ensures Parse(rev, p, ["./app", "--gamma"]) == ParseResult([], Failed("Flag `--gamma` needs 2 arguments, but got 0."))
  {
    GammaLookup(p);
    var argv := ["./app", "--gamma"];
    assert argv[1] == LongText("gamma", None);
    LongTooFew(rev, p, argv, "gamma", 2);
    assert "--" + "gamma" == "--gamma";
    NeedsGammaNone();
  }

  lemma LongMissingSecond(rev: Revision, p: Parser)
    requires Valid(p) && IsTestParser(p)
    ensures Parse(rev, p, ["./app", "--gamma", "-x"]) == ParseResult([], Failed("Flag `--gamma` needs 2 arguments, but got 1."))
  {
    GammaLookup(p);
    var argv := ["./app", "--gamma", "-x"];
    assert argv[1] == LongText("gamma", None);
    LongTooFew(rev, p, argv, "gamma", 2);
    assert "--" + "gamma" == "--gamma";
    NeedsGammaOne();
  }

  lemma LoneDash(rev: Revision, p: Parser)
    requires Valid(p) && IsTestParser(p)
    ensures Parse(rev, p, ["./app", "-"]) == ParseResult([], Failed("No such flag: `-`."))
  {
    var argv := ["./app", "-"];
    assert Token(rev, p, argv, 1) == Stop([], Failed("No such flag: `-`."));
    StopsWith(rev, p, argv, 1, [], Failed("No such flag: `-`."));
    assert Parse(rev, p, argv) == ParseFrom(rev, p, argv, 1);
  }

  lemma UnknownShort(rev: Revision, p: Parser)
    requires Valid(p) && IsTestParser(p)
    ensures Parse(rev, p, ["./app", "-a"]) == ParseResult([], Failed("No such flag: `-a`."))
  {
    Unknown(p);
    var argv := ["./app", "-a"];
    assert argv[1] == "-" + "" + ['a'] + "";
    assert ClusterCalls(p, "") == [];
    ShortFlagUnknown(rev, p, argv, 1, "", 'a', "");
    NoSuchShortA();
    assert Parse(rev, p, argv) == ParseFrom(rev, p, argv, 1);
  }

  /** A two-argument flag with text after its letter; the message is the test's,
      whose tail is shared with the model. */
  lemma AttachedToMany(rev: Revision, p: Parser)
    requires Valid(p) && IsTestParser(p)
    ensures Parse(rev, p, ["./app", "-Gx"]) == ParseResult([], Failed("Flag `-G" + NotAttachedForMany))
  {
    GammaLookup(p);
    var argv := ["./app", "-Gx"];
    assert argv[1] == "-" + "" + ['G'] + "x";
    assert ClusterCalls(p, "") == [];
    ShortFlagAttachedRefused(rev, p, argv, 1, "", 'G', "x");
    assert "Flag `-" + ['G'] == "Flag `-G";
    assert Parse(rev, p, argv) == ParseFrom(rev, p, argv, 1);
  }

  lemma ShortMissingOne(rev: Revision, p: Parser)
    requires Valid(p) && IsTestParser(p)
    ensures Parse(rev, p, ["./app", "-B"]) == ParseResult([], Failed("Flag `-B` needs 1 argument, but got 0."))
  {
    BetaLookup(p);
    ShortTooFew(rev, p, ["./app", "-B"], 'B', 1);
    NeedsShortBetaNone();
  }

  lemma ShortMissingTwo(rev: Revision, p: Parser)
    requires Valid(p) && IsTestParser(p)
    ensures Parse(rev, p, ["./app", "-G"]) == ParseResult([], Failed("Flag `-G` needs 2 arguments, but got 0."))
  {
    GammaLookup(p);
    ShortTooFew(rev, p, ["./app", "-G"], 'G', 2);
    NeedsShortGammaNone();
  }

  lemma ShortMissingSecond(rev: Revision, p: Parser)
    requires Valid(p) && IsTestParser(p)
    ensures Parse(rev, p, ["./app", "-G", "-x"]) == ParseResult([], Failed("Flag `-G` needs 2 arguments, but got 1."))
  {
    GammaLookup(p);
    ShortTooFew(rev, p, ["./app", "-G", "-x"], 'G', 2);
    NeedsShortGammaOne();
  }

  // ---------------------------------------------------------------- positional arguments

  /** The source-file revision refuses a positional argument with the test's message. */
  lemma PositionalSourceFile(p: Parser)
    requires Valid(p) && IsTestParser(p)
    ensures Parse(SourceFile, p, ["./app", "a"])
      == ParseResult([], Failed("Positional arguments are not allowed, but got `a`."))
  {
    var argv := ["./app", "a"];
    PositionalRefused(SourceFile, p, argv, 1);
    assert PositionalMessage(SourceFile, "a") == "Positional arguments are not allowed, but got `a`.";
    assert Parse(SourceFile, p, argv) == ParseFrom(SourceFile, p, argv, 1);
  }

  /** The inline revision's message lacks the final period, so it is not the
      message the test expects. */
  lemma PositionalInlineHeader(p: Parser)
    requires Valid(p) && IsTestParser(p)
    ensures Parse(InlineHeader, p, ["./app", "a"])
      == ParseResult([], Failed("Positional arguments are not allowed, but got `a`"))
    ensures Parse(InlineHeader, p, ["./app", "a"]).outcome
      != Failed("Positional arguments are not allowed, but got `a`.")
  {
    var argv := ["./app", "a"];
    PositionalRefused(InlineHeader, p, argv, 1);
    assert PositionalMessage(InlineHeader, "a") == "Positional arguments are not allowed, but got `a`";
    assert Parse(InlineHeader, p, argv) == ParseFrom(InlineHeader, p, argv, 1);
    var m := "Positional arguments are not allowed, but got `a`";
    assert |m| != |m + "."|;
  }

  // ---------------------------------------------------------------- accepted command lines

  lemma AlphaOnce(rev: Revision, p: Parser)
    requires Valid(p) && IsTestParser(p)
    ensures Parse(rev, p, ["./app", "--alpha"]) == ParseResult([Call(Alpha, [])], Completed)
    ensures TestLog([Call(Alpha, [])]) == "{}\n"
  {
    AlphaLookup(p);
    var argv := ["./app", "--alpha"];
    assert argv[1] == LongText("alpha", None);
    LongOnce(rev, p, argv, "alpha", 0);
    assert argv[2..] == [];
  }

  lemma AlphaTwice(rev: Revision, p: Parser)
    requires Valid(p) && IsTestParser(p)
    ensures Parse(rev, p, ["./app", "--alpha", "--alpha"]) == ParseResult([Call(Alpha, []), Call(Alpha, [])], Completed)
    ensures TestLog([Call(Alpha, []), Call(Alpha, [])]) == "{}\n{}\n"
  {
    AlphaLookup(p);
    var argv := ["./app", "--alpha", "--alpha"];
    assert argv[1] == LongText("alpha", None) && argv[2] == LongText("alpha", None);
    LongTwice(rev, p, argv, "alpha", 0);
    assert argv[2..2] == [] && argv[3..] == [];
    AlphaLogTwice();
  }

  lemma AlphaLogTwice()
    ensures TestLog([Call(Alpha, []), Call(Alpha, [])]) == "{}\n{}\n"
  {
    LogTwo(Call(Alpha, []), Call(Alpha, []));
    assert "{}\n" + "{}\n" == "{}\n{}\n";
  }

  lemma ShortAlpha(rev: Revision, p: Parser)
    requires Valid(p) && IsTestParser(p)
    ensures Parse(rev, p, ["./app", "-A"]) == ParseResult([Call(Alpha, [])], Completed)
  {
    AlphaLookup(p);
    var argv := ["./app", "-A"];
    assert argv[1] == "-" + "" + ['A'] + "";
    assert ZeroArgLetters(p, ['A']);
    ShortFlagsChain(rev, p, argv, 1, "", 'A');
    assert ClusterCalls(p, "" + ['A']) == [Call(Alpha, [])];
    AtEnd(rev, p, argv);
  }

  lemma ShortAlphaCluster(rev: Revision, p: Parser)
    requires Valid(p) && IsTestParser(p)
    ensures Parse(rev, p, ["./app", "-AA"]) == ParseResult([Call(Alpha, []), Call(Alpha, [])], Completed)
  {
    AlphaLookup(p);
    var argv := ["./app", "-AA"];
    assert argv[1] == "-" + "A" + ['A'] + "";
    assert ZeroArgLetters(p, "A") && ZeroArgLetters(p, ['A']);
    ShortFlagsChain(rev, p, argv, 1, "A", 'A');
    var calls := ClusterCalls(p, "A" + ['A']);
    assert |calls| == 2 && calls[0] == Call(Alpha, []) && calls[1] == Call(Alpha, []);
    AtEnd(rev, p, argv);
  }

  lemma ShortAlphaTwice(rev: Revision, p: Parser)
    requires Valid(p) && IsTestParser(p)
    ensures Parse(rev, p, ["./app", "-A", "-A"]) == ParseResult([Call(Alpha, []), Call(Alpha, [])], Completed)
  {
    AlphaLookup(p);
    var argv := ["./app", "-A", "-A"];
    assert argv[1] == "-" + "" + ['A'] + "" && argv[2] == "-" + "" + ['A'] + "";
    assert ZeroArgLetters(p, ['A']);
    ShortFlagsChain(rev, p, argv, 1, "", 'A');
    ShortFlagsChain(rev, p, argv, 2, "", 'A');
    assert ClusterCalls(p, "" + ['A']) == [Call(Alpha, [])];
    AtEnd(rev, p, argv);
  }

  lemma BetaSeparate(rev: Revision, p: Parser)
    requires Valid(p) && IsTestParser(p)
    ensures Parse(rev, p, ["./app", "--beta", "-x", "--beta", "-y"])
      == ParseResult([Call(Beta, ["-x"]), Call(Beta, ["-y"])], Completed)
  {
    BetaLookup(p);
    var argv := ["./app", "--beta", "-x", "--beta", "-y"];
    assert argv[1] == LongText("beta", None) && argv[3] == LongText("beta", None);
    LongTwice(rev, p, argv, "beta", 1);
    assert argv[2..3] == ["-x"] && argv[4..] == ["-y"];
  }

  /** Both ways of passing `-x` and `-y` to `--beta` log the same lines. */
  lemma BetaLog()
    ensures TestLog([Call(Beta, ["-x"]), Call(Beta, ["-y"])]) == "[-x]\n[-y]\n"
  {
    LogTwo(Call(Beta, ["-x"]), Call(Beta, ["-y"]));
  }

  lemma BetaEquals(rev: Revision, p: Parser)
    requires Valid(p) && IsTestParser(p)
    ensures Parse(rev, p, ["./app", "--beta=-x", "--beta=-y"])
      == ParseResult([Call(Beta, ["-x"]), Call(Beta, ["-y"])], Completed)
  {
    BetaLookup(p);
    var argv := ["./app", "--beta=-x", "--beta=-y"];
    assert argv[1] == LongText("beta", Some("-x")) && argv[2] == LongText("beta", Some("-y"));
    LongValueTwice(rev, p, argv, "beta", "-x", "-y");
  }

  lemma BetaEqualsEmpty(rev: Revision, p: Parser)
    requires Valid(p) && IsTestParser(p)
    ensures Parse(rev, p, ["./app", "--beta=", "--beta="])
      == ParseResult([Call(Beta, [""]), Call(Beta, [""])], Completed)
    ensures TestLog([Call(Beta, [""]), Call(Beta, [""])]) == "[]\n[]\n"
  {
    BetaLookup(p);
    var argv := ["./app", "--beta=", "--beta="];
    assert argv[1] == LongText("beta", Some("")) && argv[2] == LongText("beta", Some(""));
    LongValueTwice(rev, p, argv, "beta", "", "");
    BetaLogEmpty();
  }

  lemma BetaLogEmpty()
    ensures TestLog([Call(Beta, [""]), Call(Beta, [""])]) == "[]\n[]\n"
  {
    LogTwo(Call(Beta, [""]), Call(Beta, [""]));
    assert "[" + "" + "]\n" == "[]\n";
    assert "[]\n" + "[]\n" == "[]\n[]\n";
  }

  lemma GammaSeparate(rev: Revision, p: Parser)
    requires Valid(p) && IsTestParser(p)
    ensures Parse(rev, p, ["./app", "--gamma", "-x", "-y"]) == ParseResult([Call(Gamma, ["-x", "-y"])], Completed)
    ensures TestLog([Call(Gamma, ["-x", "-y"])]) == "[-x|-y]\n"
  {
    GammaLookup(p);
    var argv := ["./app", "--gamma", "-x", "-y"];
    assert argv[1] == LongText("gamma", None);
    LongOnce(rev, p, argv, "gamma", 2);
    assert argv[2..] == ["-x", "-y"];
  }

  lemma BetaAttached(rev: Revision, p: Parser)
    requires Valid(p) && IsTestParser(p)
    ensures Parse(rev, p, ["./app", "-BA"]) == ParseResult([Call(Beta, ["A"])], Completed)
    ensures TestLog([Call(Beta, ["A"])]) == "[A]\n"
  {
    BetaLookup(p);
    var argv := ["./app", "-BA"];
    assert argv[1] == "-" + "" + ['B'] + "A";
    assert ClusterCalls(p, "") == [];
    ShortFlagAttached(rev, p, argv, 1, "", 'B', "A");
    AtEnd(rev, p, argv);
  }

  lemma BetaShortSeparate(rev: Revision, p: Parser)
    requires Valid(p) && IsTestParser(p)
    ensures Parse(rev, p, ["./app", "-B", "A"]) == ParseResult([Call(Beta, ["A"])], Completed)
  {
    BetaLookup(p);
    var argv := ["./app", "-B", "A"];
    assert argv[1] == "-" + "" + ['B'] + "";
    assert ClusterCalls(p, "") == [];
    ShortFlagArgs(rev, p, argv, 1, "", 'B');
    assert argv[2..3] == ["A"];
    AtEnd(rev, p, argv);
  }

  lemma GammaShortSeparate(rev: Revision, p: Parser)
    requires Valid(p) && IsTestParser(p)
    ensures Parse(rev, p, ["./app", "-G", "A", "B"]) == ParseResult([Call(Gamma, ["A", "B"])], Completed)
    ensures TestLog([Call(Gamma, ["A", "B"])]) == "[A|B]\n"
  {
    GammaLookup(p);
    var argv := ["./app", "-G", "A", "B"];
    assert argv[1] == "-" + "" + ['G'] + "";
    assert ClusterCalls(p, "") == [];
    ShortFlagArgs(rev, p, argv, 1, "", 'G');
    assert argv[2..4] == ["A", "B"];
    AtEnd(rev, p, argv);
  }

  /** Flags without arguments, then a one-argument flag that takes the rest of
      the entry. */
  lemma MixedCluster(rev: Revision, p: Parser)
    requires Valid(p) && IsTestParser(p)
    ensures Parse(rev, p, ["./app", "-AABAA"])
      == ParseResult([Call(Alpha, []), Call(Alpha, []), Call(Beta, ["AA"])], Completed)
    ensures TestLog([Call(Alpha, []), Call(Alpha, []), Call(Beta, ["AA"])]) == "{}\n{}\n[AA]\n"
  {
    AlphaLookup(p);
    BetaLookup(p);
    var argv := ["./app", "-AABAA"];
    assert argv[1] == "-" + "AA" + ['B'] + "AA";
    assert ZeroArgLetters(p, "AA");
    ShortFlagAttached(rev, p, argv, 1, "AA", 'B', "AA");
    var calls := ClusterCalls(p, "AA");
    assert |calls| == 2 && calls[0] == Call(Alpha, []) && calls[1] == Call(Alpha, []);
    AtEnd(rev, p, argv);
    LogTwo(Call(Alpha, []), Call(Alpha, []));
    LogOne(Call(Beta, ["AA"]));
    LogAppend([Call(Alpha, []), Call(Alpha, [])], [Call(Beta, ["AA"])]);
    assert [Call(Alpha, []), Call(Alpha, [])] + [Call(Beta, ["AA"])] == [Call(Alpha, []), Call(Alpha, []), Call(Beta, ["AA"])];
  }
}

=== FILE: command_line_vectors.dfy ===
/** The cases of src/utils/command_line_parser.test.cpp, stated of the model. */
module CommandLineVectors {
  import opened Common
  import Strings
  import opened CommandLine
  import opened CommandLineParse

  // ---------------------------------------------------------------- registration

  /** A comma-separated pair of names splits into the two names. */
  lemma SplitTwo(a: string, b: string)
    requires ',' !in a && ',' !in b
    ensures Strings.SplitParts(a + "," + b, ",") == [a, b]
  {
    var parts := [a, b];
    assert Join(parts, [',']) == a + "," + b;
    assert ',' !in parts[0] && ',' !in parts[1];
    Strings.SplitJoin(parts, ',');
  }

  /** A list without commas is one name. */
  lemma SplitOne(name: string)
    requires ',' !in name
    ensures Strings.SplitParts(name, ",") == [name]
  {
    Strings.SplitJoin([name], ',');
  }

  /** Inserting two valid names with distinct fresh keys runs to the end. */
  lemma InsertTwo(m: map<string, nat>, a: string, b: string, id: nat)
    requires ValidName(a) && ValidName(b) && KeyOf(a) != KeyOf(b)
    requires KeyOf(a) !in m && KeyOf(b) !in m
    ensures InsertNames(m, [a, b], id) == Insertion(m[KeyOf(a) := id][KeyOf(b) := id], None)
  {
    var parts := [a, b];
    assert parts[0] == a && parts[1..] == [b];
    var m' := m[KeyOf(a) := id];
    assert InsertNames(m, parts, id) == InsertNames(m', [b], id);
    assert [b][0] == b && [b][1..] == [];
    assert InsertNames(m', [b], id) == InsertNames(m'[KeyOf(b) := id], [], id);
  }

  /** Two valid names with distinct fresh keys both map to the new flag. */
  lemma AddTwo(p: Parser, names: string, a: string, b: string, helpText: string, kind: FlagKind)
    requires Valid(p) && Strings.SplitParts(names, ",") == [a, b]
    requires ValidName(a) && ValidName(b) && KeyOf(a) != KeyOf(b)
    requires KeyOf(a) !in p.nameToFlag && KeyOf(b) !in p.nameToFlag
    ensures AddFlagLow(p, names, helpText, kind)
      == Added(Parser(p.nameToFlag[KeyOf(a) := |p.descs|][KeyOf(b) := |p.descs|],
                      p.descs + [FlagDesc(names, kind, helpText)]), None)
  {
    InsertTwo(p.nameToFlag, a, b, |p.descs|);
  }

  /** A single name that fails the spelling checks throws its message and
      inserts nothing. */
  lemma AddMisspelt(p: Parser, name: string, helpText: string, kind: FlagKind)
    requires Valid(p) && ',' !in name && NameKey(name).Err?
    ensures AddFlagLow(p, name, helpText, kind)
      == Added(Parser(p.nameToFlag, p.descs + [FlagDesc(name, kind, helpText)]), Some(NameKey(name).message))
  {
    SplitOne(name);
  }

  /** A single name whose key is taken throws the duplicate message. */
  lemma AddDuplicate(p: Parser, name: string, helpText: string, kind: FlagKind)
    requires Valid(p) && ',' !in name && ValidName(name) && KeyOf(name) in p.nameToFlag
    ensures AddFlagLow(p, name, helpText, kind)
      == Added(Parser(p.nameToFlag, p.descs + [FlagDesc(name, kind, helpText)]),
               Some(BadUsage + "Duplicate command line flag: `" + KeyOf(name) + "`."))
  {
    SplitOne(name);
  }

  /** A single valid fresh name maps to the new flag. */
  lemma AddOne(p: Parser, name: string, helpText: string, kind: FlagKind)
    requires Valid(p) && ',' !in name && ValidName(name) && KeyOf(name) !in p.nameToFlag
    ensures AddFlagLow(p, name, helpText, kind)
      == Added(Parser(p.nameToFlag[KeyOf(name) := |p.descs|], p.descs + [FlagDesc(name, kind, helpText)]), None)
  {
    SplitOne(name);
    var parts := [name];
    assert KeysOf(parts) == {KeyOf(name)} by {
      assert parts[1..] == [];
    }
    var r := AddFlagLow(p, name, helpText, kind);
    assert r.parser.nameToFlag.Keys == p.nameToFlag[KeyOf(name) := |p.descs|].Keys;
  }

  /** A long name and a one-letter short name, both fresh and distinct, map to
      the new flag. */
  lemma AddLongShort(p: Parser, names: string, long: string, short: char, helpText: string, kind: FlagKind)
    requires Valid(p) && names == "--" + long + "," + "-" + [short]
    requires |long| >= 2 && ',' !in long && short != '-' && short != ','
    requires long !in p.nameToFlag && [short] !in p.nameToFlag
    ensures var r := AddFlagLow(p, names, helpText, kind);
      && r.error.None?
      && r.parser.nameToFlag == p.nameToFlag[long := |p.descs|][[short] := |p.descs|]
      && r.parser.descs == p.descs + [FlagDesc(names, kind, helpText)]
  {
    var a, b := "--" + long, "-" + [short];
    assert names == a + "," + b;
    assert ',' !in a by {
      forall k | 0 <= k < |a| ensures a[k] != ',' {
        if k >= 2 { assert a[k] == long[k - 2]; }
      }
    }
    SplitTwo(a, b);
    assert a[2..] == long && b[1..] == [short];
    assert KeyOf(a) == long && KeyOf(b) == [short];
    AddTwo(p, names, a, b, helpText, kind);
  }

  // ---------------------------------------------------------------- the `parsing` test's parser

  const AlphaKind := Callback([], 0, None)
  const BetaKind := Callback(["beta_arg1"], 0, None)
  const GammaKind := Callback(["gamma_arg1", "gamma_arg2"], 0, None)

  const Alpha: nat := 0
  const Beta: nat := 1
  const Gamma: nat := 2

  const AlphaNames := "--alpha,-A"
  const BetaNames := "--beta,-B"
  const GammaNames := "--gamma,-G"

  /** `--alpha,-A` without arguments, `--beta,-B` with one and `--gamma,-G` with
      two, registered in that order. */
  function TestParser(): Parser
  {
    var p1 := AddFlag(Empty, AlphaNames, 0, [], "alpha desc", None).parser;
    var p2 := AddFlag(p1, BetaNames, 0, ["beta_arg1"], "beta desc", None).parser;
    AddFlag(p2, GammaNames, 0, ["gamma_arg1", "gamma_arg2"], "gamma desc", None).parser
  }

  const AlphaDesc := FlagDesc(AlphaNames, AlphaKind, "alpha desc")
  const BetaDesc := FlagDesc(BetaNames, BetaKind, "beta desc")
  const GammaDesc := FlagDesc(GammaNames, GammaKind, "gamma desc")

  /** The map after the alpha, beta and gamma flags. */
  const AlphaMap := map["alpha" := Alpha, "A" := Alpha]
  const BetaMap := AlphaMap["beta" := Beta]["B" := Beta]
  const GammaMap := BetaMap["gamma" := Gamma]["G" := Gamma]

  lemma AlphaAdded()
    ensures var r := AddFlag(Empty, AlphaNames, 0, [], "alpha desc", None);
      r.error.None? && r.parser.nameToFlag == AlphaMap && r.parser.descs == [AlphaDesc]
  {
    assert AlphaNames == "--" + "alpha" + "," + "-" + ['A'];
    AddLongShort(Empty, AlphaNames, "alpha", 'A', "alpha desc", AlphaKind);
  }

  lemma BetaAdded(p: Parser)
    requires Valid(p) && p.nameToFlag == AlphaMap && |p.descs| == 1
    ensures var r := AddFlag(p, BetaNames, 0, ["beta_arg1"], "beta desc", None);
      r.error.None? && r.parser.nameToFlag == BetaMap && r.parser.descs == p.descs + [BetaDesc]
  {
    assert BetaNames == "--" + "beta" + "," + "-" + ['B'];
    AddLongShort(p, BetaNames, "beta", 'B', "beta desc", BetaKind);
  }

  lemma GammaAdded(p: Parser)
    requires Valid(p) && p.nameToFlag == BetaMap && |p.descs| == 2
    ensures var r := AddFlag(p, GammaNames, 0, ["gamma_arg1", "gamma_arg2"], "gamma desc", None);
      r.error.None? && r.parser.nameToFlag == GammaMap && r.parser.descs == p.descs + [GammaDesc]
  {
    assert GammaNames == "--" + "gamma" + "," + "-" + ['G'];
    AddLongShort(p, GammaNames, "gamma", 'G', "gamma desc", GammaKind);
  }

  /** The three registrations in turn. */
  lemma TestParserSteps()
    ensures TestParser().nameToFlag == GammaMap && TestParser().descs == [AlphaDesc, BetaDesc, GammaDesc]
  {
    AlphaThenBeta();
    var p1 := AddFlag(Empty, AlphaNames, 0, [], "alpha desc", None).parser;
    GammaAfter(AddFlag(p1, BetaNames, 0, ["beta_arg1"], "beta desc", None).parser);
  }

  lemma GammaAfter(p2: Parser)
    requires Valid(p2) && p2.nameToFlag == BetaMap && p2.descs == [AlphaDesc, BetaDesc]
    ensures var p3 := AddFlag(p2, GammaNames, 0, ["gamma_arg1", "gamma_arg2"], "gamma desc", None).parser;
      p3.nameToFlag == GammaMap && p3.descs == [AlphaDesc, BetaDesc, GammaDesc]
  {
    GammaAdded(p2);
  }

  lemma AlphaThenBeta()
    ensures var p1 := AddFlag(Empty, AlphaNames, 0, [], "alpha desc", None).parser;
      var p2 := AddFlag(p1, BetaNames, 0, ["beta_arg1"], "beta desc", None).parser;
      Valid(p2) && p2.nameToFlag == BetaMap && p2.descs == [AlphaDesc, BetaDesc]
  {
    AlphaAdded();
    BetaAfter(AddFlag(Empty, AlphaNames, 0, [], "alpha desc", None).parser);
  }

  lemma BetaAfter(p1: Parser)
    requires Valid(p1) && p1.nameToFlag == AlphaMap && p1.descs == [AlphaDesc]
    ensures var p2 := AddFlag(p1, BetaNames, 0, ["beta_arg1"], "beta desc", None).parser;
      Valid(p2) && p2.nameToFlag == BetaMap && p2.descs == [AlphaDesc, BetaDesc]
  {
    BetaAdded(p1);
  }

  /** Each registration of the test succeeds, and the long and the short name
      of a flag map to the same flag. */
  lemma TestParserNames()
    ensures TestParser().nameToFlag
      == map["alpha" := Alpha, "A" := Alpha, "beta" := Beta, "B" := Beta, "gamma" := Gamma, "G" := Gamma]
  {
    TestParserSteps();
  }

  /** The flags keep their registration order. */
  lemma TestParserDescs()
    ensures TestParser().descs == [AlphaDesc, BetaDesc, GammaDesc]
  {
    TestParserSteps();
  }

  // ---------------------------------------------------------------- the `wrong_usage` test

  const UsageKind := Callback([], 0, None)

  lemma UsageFirst()
    ensures var r := AddFlag(Empty, "-a", 0, [], "desc", None);
      r.error.None? && r.parser.nameToFlag == map["a" := 0]
  {
    assert KeyOf("-a") == "a";
    AddOne(Empty, "-a", "desc", UsageKind);
  }

  lemma UsageNoDash(p: Parser)
    requires Valid(p)
    ensures var r := AddFlag(p, "a", 0, [], "desc", None);
      && r.error == Some(BadUsage + "Each command line flag must start with a `-` or `--`, but got `a`.")
      && r.parser.nameToFlag == p.nameToFlag
  {
    NoDashText();
    AddMisspelt(p, "a", "desc", UsageKind);
  }

  lemma NoDashText()
    ensures NameKey("a") == Err(BadUsage + "Each command line flag must start with a `-` or `--`, but got `a`.")
  {
    assert "Each command line flag must start with a `-` or `--`, but got `" + "a" == "Each command line flag must start with a `-` or `--`, but got `a";
    assert "Each command line flag must start with a `-` or `--`, but got `a" + "`." == "Each command line flag must start with a `-` or `--`, but got `a`.";
    assert BadUsage + "Each command line flag must start with a `-` or `--`, but got `" + "a" + "`." == BadUsage + ("Each command line flag must start with a `-` or `--`, but got `" + "a" + "`.");
  }

  lemma UsageDuplicate(p: Parser)
    requires Valid(p) && "a" in p.nameToFlag
    ensures var r := AddFlag(p, "-a", 0, [], "desc", None);
      && r.error == Some(BadUsage + "Duplicate command line flag: `a`.")
      && r.parser.nameToFlag == p.nameToFlag
  {
    assert KeyOf("-a") == "a";
    assert "Duplicate command line flag: `" + "a" + "`." == "Duplicate command line flag: `a`.";
    assert BadUsage + "Duplicate command line flag: `" + "a" + "`." == BadUsage + ("Duplicate command line flag: `" + "a" + "`.");
    AddDuplicate(p, "-a", "desc", UsageKind);
  }

  lemma UsageShortLong(p: Parser)
    requires Valid(p)
    ensures var r := AddFlag(p, "--a", 0, [], "desc", None);
      && r.error == Some(BadUsage + "A flag starting with `--` must have a multi-letter name, but got `--a`.")
      && r.parser.nameToFlag == p.nameToFlag
  {
    ShortLongText();
    AddMisspelt(p, "--a", "desc", UsageKind);
  }

  lemma ShortLongText()
    ensures NameKey("--a") == Err(BadUsage + "A flag starting with `--` must have a multi-letter name, but got `--a`.")
  {
    var m := "A flag starting with `--` must have a multi-letter name, but got `";
    var name := "--a";
    assert |name| == 3 && name[0] == '-' && name[1] == '-';
    assert NameKey(name) == Err(BadUsage + m + name + "`.");
    assert m + name == "A flag starting with `--` must have a multi-letter name, but got `--a";
    assert m + name + "`." == "A flag starting with `--` must have a multi-letter name, but got `--a`.";
    assert BadUsage + m + name + "`." == BadUsage + (m + name + "`.");
  }


  lemma UsageLongShort(p: Parser)
    requires Valid(p)
    ensures var r := AddFlag(p, "-aa", 0, [], "desc", None);
      && r.error == Some(BadUsage + "A flag starting with `-` must have exactly one letter in the name, but got `-aa`.")
      && r.parser.nameToFlag == p.nameToFlag
  {
    LongShortText();
    AddMisspelt(p, "-aa", "desc", UsageKind);
  }

  lemma LongShortText()
    ensures NameKey("-aa") == Err(BadUsage + "A flag starting with `-` must have exactly one letter in the name, but got `-aa`.")
  {
    var m := "A flag starting with `-` must have exactly one letter in the name, but got `";
    var name := "-aa";
    assert |name| == 3 && name[0] == '-' && name[1] != '-';
    assert NameKey(name) == Err(BadUsage + m + name + "`.");
    assert m + name == "A flag starting with `-` must have exactly one letter in the name, but got `-aa";
    assert m + name + "`." == "A flag starting with `-` must have exactly one letter in the name, but got `-aa`.";
    assert BadUsage + m + name + "`." == BadUsage + (m + name + "`.");
  }



  /** After `-a`, each bad registration throws and leaves the names alone,
      though its description is still appended. */
  lemma WrongUsage()
    ensures var p0 := AddFlag(Empty, "-a", 0, [], "desc", None).parser;
      var p1 := AddFlag(p0, "a", 0, [], "desc", None).parser;
      var p2 := AddFlag(p1, "-a", 0, [], "desc", None).parser;
      var p3 := AddFlag(p2, "--a", 0, [], "desc", None).parser;
      var p4 := AddFlag(p3, "-aa", 0, [], "desc", None).parser;
      p4.nameToFlag == map["a" := 0] && |p4.descs| == 5
  {
    UsageFirst();
    var p0 := AddFlag(Empty, "-a", 0, [], "desc", None).parser;
    assert |p0.descs| == 1;
    WrongUsageAfter(p0);
  }

  /** The four bad registrations after `-a`. */
  lemma WrongUsageAfter(p0: Parser)
    requires Valid(p0) && p0.nameToFlag == map["a" := 0] && |p0.descs| == 1
    ensures var p1 := AddFlag(p0, "a", 0, [], "desc", None).parser;
      var p2 := AddFlag(p1, "-a", 0, [], "desc", None).parser;
      var p3 := AddFlag(p2, "--a", 0, [], "desc", None).parser;
      var p4 := AddFlag(p3, "-aa", 0, [], "desc", None).parser;
      p4.nameToFlag == map["a" := 0] && |p4.descs| == 5
  {
    UsageNoDash(p0);
    var p1 := AddFlag(p0, "a", 0, [], "desc", None).parser;
    UsageDuplicate(p1);
    var p2 := AddFlag(p1, "-a", 0, [], "desc", None).parser;
    UsageShortLong(p2);
    var p3 := AddFlag(p2, "--a", 0, [], "desc", None).parser;
    UsageLongShort(p3);
  }
}

=== FILE: common.dfy ===
/** Small shared vocabulary: optional values, results with an error message,
    and a few sequence helpers used by several components. */
module Common {

  /** A value that may be absent (a null pointer, an empty `std::optional`). */
  datatype Option<+T> = None | Some(value: T)

  /** Either a value or the message of the exception the source would throw. */
  datatype Result<+T> = Ok(value: T) | Err(message: string)

  /** How a call that may throw or loop forever ends: with a value, with the
      message of the exception it throws, or never. */
  datatype Run<+T> = Returns(value: T) | Throws(message: string) | Diverges

  function Min(a: nat, b: nat): nat
  {
    if a <= b then a else b
  }

  /** Concatenates `parts`, putting `sep` between consecutive parts only. */
  function Join<T>(parts: seq<seq<T>>, sep: seq<T>): (r: seq<T>)
    ensures |parts| == 0 ==> r == []
    ensures |parts| == 1 ==> r == parts[0]
  {
    if |parts| == 0 then []
    else if |parts| == 1 then parts[0]
    else parts[0] + sep + Join(parts[1..], sep)
  }

  /** Concatenates `parts` with no separator. */
  function Concat<T>(parts: seq<seq<T>>): seq<T>
  {
    if |parts| == 0 then [] else parts[0] + Concat(parts[1..])
  }

  lemma ConcatAppend<T>(parts: seq<seq<T>>, last: seq<T>)
    ensures Concat(parts + [last]) == Concat(parts) + last
  {
    if |parts| == 0 {
      assert parts + [last] == [last];
    } else {
      assert (parts + [last])[1..] == parts[1..] + [last];
      ConcatAppend(parts[1..], last);
    }
  }

  /** The length of `Join(parts, sep)`: every part plus one separator per gap. */
  lemma JoinLength<T>(parts: seq<seq<T>>, sep: seq<T>)
    requires |parts| > 0
    ensures |Join(parts, sep)| == |Concat(parts)| + (|parts| - 1) * |sep|
  {
    if |parts| > 1 {
      JoinLength(parts[1..], sep);
    }
  }

  /** True when `p` occurs in `s` starting at index `i`. */
  predicate OccursAt<T(==)>(s: seq<T>, p: seq<T>, i: int)
  {
    0 <= i && i + |p| <= |s| && s[i..i + |p|] == p
  }

  /** Maximum of a sequence of naturals, 0 for the empty sequence. */
  function MaxOf(xs: seq<nat>): (m: nat)
    ensures forall i :: 0 <= i < |xs| ==> xs[i] <= m
    ensures |xs| == 0 ==> m == 0
    ensures |xs| > 0 ==> exists i :: 0 <= i < |xs| && xs[i] == m
  {
    if |xs| == 0 then 0
    else
      var rest := MaxOf(xs[1..]);
      if xs[0] > rest then xs[0] else
        assert |xs[1..]| == 0 ==> rest == 0;
        rest
  }

  /** Decimal rendering of a natural number, as `fmt::format("{}")` prints it. */
  function NatToString(n: nat): (s: string)
    ensures |s| >= 1
    ensures forall i :: 0 <= i < |s| ==> '0' <= s[i] <= '9'
  {
    if n < 10 then [DigitChar(n)] else NatToString(n / 10) + [DigitChar(n % 10)]
  }

  function DigitChar(d: nat): (c: char)
    requires d < 10
    ensures '0' <= c <= '9'
  {
    (d + '0' as int) as char
  }
}

=== FILE: encoding.dfy ===
/** Single-character conversion between code points and UTF-8 / UTF-16 / UTF-32
    code units, and C-style escaping/unescaping of one character
    (`em::Encoding::low` in src/utils/encoding.h).

    Code units are modelled by their unsigned bit pattern as an `int`; the
    character type decides how many bits a unit has and whether converting a
    unit to `char32_t` sign-extends it. `char32_t` values are `Char32`, so
    every wrap-around of the source is written out.

    Several functions take a `Revision`: `AsWritten` follows the source line
    by line, `Intended` repairs the defects listed in README's findings. */
module Encoding {
  import opened Common

  /** `char32_t`: unsigned 32-bit. */
  const Pow32: int := 0x1_0000_0000
  type Char32 = x: int | 0 <= x < 0x1_0000_0000

  /** The replacement character written on some errors. */
  const FallbackChar: Char32 := 0xfffd

  datatype Revision = AsWritten | Intended

  datatype Width = W8 | W16 | W32

  /** A character type of the `CharType` concept: `char8_t` is (W8, unsigned),
      `char` is W8 with the platform's signedness, `char16_t` is (W16, unsigned),
      `char32_t` is (W32, unsigned), `wchar_t` is (W16, unsigned) on Windows and
      (W32, signed) elsewhere. */
  datatype CharType = CharType(width: Width, isSigned: bool)

  /** Number of distinct values of one code unit. */
  function UnitLimit(w: Width): int
  {
    match w
    case W8 => 0x100
    case W16 => 0x1_0000
    case W32 => 0x1_0000_0000
  }

  predicate IsUnits(t: CharType, s: seq<int>)
  {
    forall i :: 0 <= i < |s| ==> 0 <= s[i] < UnitLimit(t.width)
  }

  /** `(char32_t)unit`: a signed unit narrower than 32 bits is sign-extended. */
  function Widen(t: CharType, u: int): Char32
    requires 0 <= u < UnitLimit(t.width)
  {
    if t.isSigned && t.width != W32 && u >= UnitLimit(t.width) / 2
    then u + Pow32 - UnitLimit(t.width)
    else u
  }

  // ---------------------------------------------------------------- classification

  predicate CodepointIsTooLarge(ch: int) { ch > 0x10ffff }
  predicate CodepointIsHighSurrogate(ch: int) { 0xd800 <= ch <= 0xdbff }
  predicate CodepointIsLowSurrogate(ch: int) { 0xdc00 <= ch <= 0xdfff }
  predicate CodepointIsSurrogate(ch: int) { CodepointIsHighSurrogate(ch) || CodepointIsLowSurrogate(ch) }
  predicate CodepointIsInvalid(ch: int) { CodepointIsTooLarge(ch) || CodepointIsSurrogate(ch) }

  /** A Unicode scalar value: in range and not reserved for surrogate pairs. */
  predicate IsScalarValue(ch: int) { 0 <= ch <= 0x10ffff && !(0xd800 <= ch < 0xe000) }

  const ErrTooLarge := "Invalid codepoint, larger than 0x10ffff."
  const ErrSurrogate := "Invalid codepoint, range 0xd800-0xdfff is reserved for surrogate pairs."
  const ErrNotRepresentable := "This value is not representable in the target character type."
  const ErrEndOfString := "Unexpected end of string."
  const ErrLoneLow := "A lone low surrogate not preceded by a high surrogate."
  const ErrLoneHigh := "A lone high surrogate not followed by a low surrogate."
  const ErrBadLead := "This is not a valid first byte of a character for UTF-8."
  const ErrIncomplete := "Incomplete multibyte UTF-8 character."
  const ErrOverlong := "Overlong UTF-8 character encoding."

  /** `ValidateCodepoint`: the error message, or None on success. */
  function ValidateCodepoint(ch: Char32, checkSurrogates: bool): (r: Option<string>)
    ensures r.None? <==> ch <= 0x10ffff && !(checkSurrogates && 0xd800 <= ch < 0xe000)
    ensures checkSurrogates ==> (r.None? <==> IsScalarValue(ch))
  {
    if CodepointIsTooLarge(ch) then Some(ErrTooLarge)
    else if checkSurrogates && CodepointIsSurrogate(ch) then Some(ErrSurrogate)
    else None
  }

  /** Smallest value that no longer fits into `n` UTF-8 bytes (n in 1..4). */
  function Utf8PayloadLimit(n: int): int
  {
    if n == 1 then 0x80 else if n == 2 then 0x800 else if n == 3 then 0x1_0000 else 0x20_0000
  }

  /** `CodepointUtf8ByteLength`: 1..4, or 0 for values above 0x10ffff. */
  function CodepointUtf8ByteLength(ch: Char32): (n: int)
    ensures n == 0 <==> ch > 0x10ffff
    ensures 0 <= n <= 4
    // n is the shortest UTF-8 length whose payload bits hold ch.
    ensures n != 0 ==> ch < Utf8PayloadLimit(n) && (n > 1 ==> ch >= Utf8PayloadLimit(n - 1))
  {
    if CodepointIsTooLarge(ch) then 0
    else if ch <= 0x7f then 1
    else if ch <= 0x7ff then 2
    else if ch <= 0xffff then 3
    else 4
  }

  // ---------------------------------------------------------------- encoding

  datatype Encoded = Encoded(error: Option<string>, units: seq<int>)

  /** UTF-8 bytes of `ch` (which must fit into four bytes). `0b110xxxxx | (ch >> 6)`
      and friends combine disjoint bit fields, so OR is written as addition,
      `>> k` as division and `& 0b111111` as `% 64`. */
  function Utf8Bytes(ch: Char32): (r: seq<int>)
    requires ch <= 0x10ffff
    ensures |r| == CodepointUtf8ByteLength(ch)
  {
    var n := CodepointUtf8ByteLength(ch);
    if n == 1 then [ch]
    else if n == 2 then [0xc0 + ch / 64, 0x80 + ch % 64]
    else if n == 3 then [0xe0 + ch / 4096, 0x80 + (ch / 64) % 64, 0x80 + ch % 64]
    else [0xf0 + ch / 262144, 0x80 + (ch / 4096) % 64, 0x80 + (ch / 64) % 64, 0x80 + ch % 64]
  }

  /** UTF-16 units of `ch`: one unit, or a surrogate pair above 0xffff. */
  function Utf16Units(ch: Char32): seq<int>
    requires ch <= 0x10ffff
  {
    if ch > 0xffff then
      var c := ch - 0x10000;
      [0xd800 + (c / 1024) % 1024, 0xdc00 + c % 1024]
    else [ch]
  }

  /** `EncodeOne`: the units appended to the output, or an error and nothing appended. */
  function EncodeOne(ch: Char32, encode: bool, checkSurrogates: bool, t: CharType): (r: Encoded)
    ensures r.error.Some? ==> r.units == []
    ensures encode ==> (r.error.None? <==> ch <= 0x10ffff && !(checkSurrogates && CodepointIsSurrogate(ch)))
    ensures !encode ==> (r.error.None? <==> ch < UnitLimit(t.width))
    ensures r.error.None? ==> IsUnits(t, r.units) && 1 <= |r.units| <= 4
    ensures r.error.None? && encode && t.width == W8 ==> |r.units| == CodepointUtf8ByteLength(ch)
    ensures r.error.None? && encode && t.width == W32 ==> r.units == [ch]
    ensures r.error.None? && !encode ==> r.units == [ch]
  {
    if encode then
      match ValidateCodepoint(ch, checkSurrogates)
      case Some(e) => Encoded(Some(e), [])
      case None =>
        match t.width
        case W32 => Encoded(None, [ch])
        case W16 => Encoded(None, Utf16Units(ch))
        case W8 => Encoded(None, Utf8Bytes(ch))
    else if ch >= UnitLimit(t.width) then Encoded(Some(ErrNotRepresentable), [])
    else Encoded(None, [ch])
  }

  // ---------------------------------------------------------------- escaping

  /** Numeric value of an ASCII character, as a unit. */
  function Ascii(c: char): int
  {
    c as int
  }

  /** The letter of a named escape for `ch`, if it has one (`\\`, `\a`, ...). Quotes are
      listed too, as in the source, although the escape path never reaches them. */
  function NamedEscape(ch: int): Option<char>
  {
    if ch == '\'' as int then Some('\'')
    else if ch == '"' as int then Some('"')
    else if ch == '\\' as int then Some('\\')
    else if ch == 7 then Some('a')
    else if ch == 8 then Some('b')
    else if ch == 12 then Some('f')
    else if ch == 10 then Some('n')
    else if ch == 13 then Some('r')
    else if ch == 9 then Some('t')
    else if ch == 11 then Some('v')
    else None
  }

  /** The characters `EncodeAndEscapeOne` escapes unconditionally. */
  predicate NeedsEscape(ch: Char32, encode: bool)
  {
    !encode || ch < 32 || ch == 0x7f || ch == '\\' as int || CodepointIsInvalid(ch)
  }

  /** Lowercase hex digit for 0..15, as the repaired loop writes it. */
  function HexDigitChar(d: int): char
    requires 0 <= d < 16
  {
    if d < 10 then (d + '0' as int) as char else (d - 10 + 'a' as int) as char
  }

  /** Lowercase hex digits of `n`, most significant first, at least one digit. */
  function HexDigits(n: nat): (r: seq<char>)
    ensures |r| >= 1
    ensures forall i :: 0 <= i < |r| ==> ('0' <= r[i] <= '9' || 'a' <= r[i] <= 'f')
  {
    if n < 16 then [HexDigitChar(n)] else HexDigits(n / 16) + [HexDigitChar(n % 16)]
  }

  function CharsToUnits(s: seq<char>): (r: seq<int>)
    ensures |r| == |s|
    ensures forall i :: 0 <= i < |s| ==> r[i] == s[i] as int
  {
    if |s| == 0 then [] else [s[0] as int] + CharsToUnits(s[1..])
  }

  /** What `EncodeAndEscapeOne` appends, or `NeverReturns` when its loop does not end. */
  datatype Escaped = Escaped(units: seq<int>) | NeverReturns

  /** `EncodeAndEscapeOne`. As written, the digit loop of the numeric escape never
      changes `ch`, so it only returns for `ch == 0`. */
  function EncodeAndEscapeOne(rev: Revision, ch: Char32, encode: bool, forceSimpleEscape: bool, t: CharType): (r: Escaped)
    // The repaired function always returns; a normal character is never escaped
    // unless asked to, and never fails to encode.
    ensures rev == Intended ==> r.Escaped?
    ensures !NeedsEscape(ch, encode) ==> r.Escaped? && |r.units| >= 1
    ensures !NeedsEscape(ch, encode) && !forceSimpleEscape ==> r.units[0] != '\\' as int
    // An escape is a backslash followed by printable ASCII.
    ensures NeedsEscape(ch, encode) && r.Escaped? ==>
      && |r.units| >= 2 && r.units[0] == '\\' as int
      && forall i :: 0 <= i < |r.units| ==> 0x20 <= r.units[i] < 0x7f
  {
    if !NeedsEscape(ch, encode) then
      // A normal character: EncodeOne cannot fail here (see EscapePlainNeverFails).
      var enc := EncodeOne(ch, true, true, t);
      PlainFirstUnit(ch, t);
      Escaped((if forceSimpleEscape then [Ascii('\\')] else []) + enc.units)
    else
      var enc' := encode && !CodepointIsInvalid(ch);
      if enc' && NamedEscape(ch).Some? then
        Escaped([Ascii('\\'), Ascii(NamedEscape(ch).value)])
      else if rev == AsWritten && ch > 0 then
        NeverReturns
      else
        Escaped(CharsToUnits(['\\', if enc' then 'u' else 'x', '{'] + HexDigits(ch) + ['}']))
  }

  /** The first unit of a normal character's encoding is never a backslash
      (multi-unit encodings start with a lead byte or a high surrogate). */
  lemma PlainFirstUnit(ch: Char32, t: CharType)
    requires !NeedsEscape(ch, true)
    ensures EncodeOne(ch, true, true, t).units[0] != '\\' as int
  {
  }

  // ---------------------------------------------------------------- decoding

  /** Result of `DecodeOne`: the message (None on success), the output character,
      how many units were removed from the front of `source`, and
      `failed_because_of_surrogate`. */
  datatype Decoded = Decoded(error: Option<string>, ch: Char32, consumed: nat, surrogateFailure: bool)

  /** Number of bytes announced by a UTF-8 lead byte, 0 if it is not a lead byte.
      The masks `0b10000000`, `0b11100000`, ... select the ranges below. */
  function Utf8LeadLength(b: int): int
  {
    if 0 <= b < 0x80 then 1
    else if 0xc0 <= b < 0xe0 then 2
    else if 0xe0 <= b < 0xf0 then 3
    else if 0xf0 <= b < 0xf8 then 4
    else 0
  }

  predicate IsContinuation(b: int) { 0x80 <= b < 0xc0 }

  /** `(unsigned char)lead & (0xff >> bytes)`: the payload bits of a lead byte
      announcing `bytes` (2..4) bytes. */
  function LeadPayload(lead: int, bytes: int): int
  {
    lead % (if bytes == 2 then 64 else if bytes == 3 then 32 else 16)
  }

  /** Appends the six payload bits of `src[i..bytes)` to `acc`; None if a unit is
      missing or is not a continuation byte. */
  function Utf8Continue(src: seq<int>, i: nat, bytes: nat, acc: nat): Option<nat>
    decreases bytes - i
  {
    if i >= bytes then Some(acc)
    else if i >= |src| || !IsContinuation(src[i]) then None
    else Utf8Continue(src, i + 1, bytes, acc * 64 + src[i] % 64)
  }

  /** The UTF-16 surrogate pair value. As written, `char16_t(0x10000)` is 0. */
  function PairValue(rev: Revision, hi: int, lo: int): Char32
  {
    (lo % 1024) + (hi % 1024) * 1024 + (if rev == Intended then 0x10000 else 0)
  }

  /** `DecodeOne` for the given character type. */
  function DecodeOne(rev: Revision, t: CharType, src: seq<int>): (r: Decoded)
    requires IsUnits(t, src)
    ensures r.consumed <= |src|
    ensures |src| == 0 ==> r == Decoded(Some(ErrEndOfString), FallbackChar, 0, false)
    ensures |src| > 0 ==> r.consumed >= 1
    ensures r.surrogateFailure ==> r.error.Some? && r.consumed == 1
    ensures r.surrogateFailure <==>
      (t.width == W16 && |src| > 0
       && (CodepointIsLowSurrogate(Widen(t, src[0]))
           || (CodepointIsHighSurrogate(Widen(t, src[0]))
               && !(|src| >= 2 && CodepointIsLowSurrogate(Widen(t, src[1]))))))
    ensures r.error.None? && (rev == Intended || t.width != W16) ==> IsScalarValue(r.ch)
    ensures r.error.None? ==> r.ch <= 0x10ffff
  {
    if |src| == 0 then Decoded(Some(ErrEndOfString), FallbackChar, 0, false)
    else
      match t.width
      case W32 =>
        var c := Widen(t, src[0]);
        Decoded(ValidateCodepoint(c, true), c, 1, false)
      case W16 =>
        var c := Widen(t, src[0]);
        if CodepointIsLowSurrogate(c) then Decoded(Some(ErrLoneLow), c, 1, true)
        else if CodepointIsHighSurrogate(c) then
          if |src| >= 2 && CodepointIsLowSurrogate(Widen(t, src[1])) then
            Decoded(None, PairValue(rev, src[0], src[1]), 2, false)
          else Decoded(Some(ErrLoneHigh), c, 1, true)
        else Decoded(ValidateCodepoint(c, true), c, 1, false)
      case W8 =>
        var lead := src[0];
        var bytes := Utf8LeadLength(lead);
        if bytes == 0 then Decoded(Some(ErrBadLead), Widen(t, lead), 1, false)
        else if bytes == 1 then Decoded(None, lead, 1, false)
        else
          var first := LeadPayload(lead, bytes);
          match Utf8Continue(src, 1, bytes, first)
          case None => Decoded(Some(ErrIncomplete), Widen(t, lead), 1, false)
          case Some(v) =>
            Utf8ContinueBound(src, 1, bytes, first, 64);
            if bytes != CodepointUtf8ByteLength(v) then
              Decoded(Some(ErrOverlong), Widen(t, lead), 1, false)
            else Decoded(ValidateCodepoint(v, true), v, bytes, false)
  }

  function Pow64(n: nat): nat
  {
    if n == 0 then 1 else 64 * Pow64(n - 1)
  }

  /** Each continuation byte adds six bits, so a lead payload below 64 yields at
      most 24 bits after three continuation bytes: `char32_t` never wraps here. */
  lemma Utf8ContinueBound(src: seq<int>, i: nat, bytes: nat, acc: nat, bound: nat)
    requires 1 <= i <= bytes <= 4 && acc < bound
    ensures Utf8Continue(src, i, bytes, acc).Some? ==> Utf8Continue(src, i, bytes, acc).value < bound * Pow64(bytes - i)
    decreases bytes - i
  {
    if i < bytes && i < |src| && IsContinuation(src[i]) {
      var acc' := acc * 64 + src[i] % 64;
      assert acc' < bound * 64;
      Utf8ContinueBound(src, i + 1, bytes, acc', bound * 64);
      assert bound * 64 * Pow64(bytes - (i + 1)) == bound * Pow64(bytes - i);
    }
  }

  // ---------------------------------------------------------------- unescaping

  const ErrIncompleteEscape := "Incomplete escape sequence at the end of string."
  const ErrExpectedHex := "Expected hexadecimal digit in escape sequence."
  const ErrExpectedOctal := "Expected octal digit in escape sequence."
  const ErrOverflow := "Overflow in escape sequence."
  const ErrExpectedClose := "Expected closing `}` in the escape sequence."
  const ErrExpectedOpen := "Expected opening `{` in the escape sequence."
  const ErrNamed := "Named character escapes are not supported."
  const ErrInvalidEscape := "Invalid escape sequence."

  /** Value of a digit unit in base 16 (`hex`) or 8, if it is one. */
  function DigitValue(hex: bool, u: int): Option<int>
  {
    if '0' as int <= u <= (if hex then '9' else '7') as int then Some(u - '0' as int)
    else if hex && 'a' as int <= u <= 'f' as int then Some(u - 'a' as int + 10)
    else if hex && 'A' as int <= u <= 'F' as int then Some(u - 'A' as int + 10)
    else None
  }

  /** Result of the `ConsumeDigits` lambda: message, the number in `result`, and the
      position in the source reached. */
  datatype Digits = Digits(error: Option<string>, value: Char32, pos: nat)

  /** The `while (true)` of `ConsumeDigits`, after `i` digits accumulated into `acc`.
      As written, the overflow test compares the shifted value with itself shifted
      back, which differs exactly when the shifted value is nonzero. */
  function DigitLoop(rev: Revision, src: seq<int>, pos: nat, hex: bool, maxDigits: int, allowLess: bool, acc: Char32, i: nat): (r: Digits)
    requires pos <= |src|
    ensures pos <= r.pos <= |src|
    decreases |src| - pos
  {
    var k := if hex then 16 else 8;
    var d := if pos < |src| then DigitValue(hex, src[pos]) else None;
    if d.None? then
      if (maxDigits < 0 || allowLess) && i > 0 then Digits(None, acc, pos)
      else Digits(Some(if hex then ErrExpectedHex else ErrExpectedOctal), acc, pos)
    else
      var shifted := (acc * k) % Pow32;
      var overflow := if rev == AsWritten then shifted / k != shifted else shifted / k != acc;
      if overflow then Digits(Some(ErrOverflow), shifted, pos)
      else
        assert 0 <= d.value < k;
        var acc' := shifted + d.value;
        if i + 1 == maxDigits then Digits(None, acc', pos + 1)
        else DigitLoop(rev, src, pos + 1, hex, maxDigits, allowLess, acc', i + 1)
  }

  /** `ConsumeDigits(result, hex, max_digits, allow_less_digits)` starting at `pos`:
      `maxDigits` is a digit count, -1 for "as many as possible" or -2 for "until `}`". */
  function ConsumeDigits(rev: Revision, src: seq<int>, pos: nat, hex: bool, maxDigits: int, allowLess: bool): (r: Digits)
    requires pos <= |src|
    ensures pos <= r.pos <= |src|
  {
    var d := DigitLoop(rev, src, pos, hex, maxDigits, allowLess, 0, 0);
    if d.error.Some? || maxDigits != -2 then d
    else if d.pos < |src| && src[d.pos] == '}' as int then Digits(None, d.value, d.pos + 1)
    else Digits(Some(ErrExpectedClose), d.value, d.pos)
  }

  /** Result of `DecodeAndUnescapeOne`: message, output character, `output_encode`,
      units removed from `source`, and `failed_because_of_bad_encoding`. */
  datatype Unescaped = Unescaped(error: Option<string>, ch: Char32, encode: bool, consumed: nat, badEncoding: bool)

  function FromDigits(d: Digits, encode: bool): Unescaped
  {
    Unescaped(d.error, d.value, encode, d.pos, false)
  }

  /** The value of a named escape letter (`\a` is 7, ...), if `u` is one. */
  function NamedEscapeValue(u: int): Option<Char32>
  {
    if u == '\'' as int || u == '"' as int || u == '\\' as int then Some(u)
    else if u == 'a' as int then Some(7)
    else if u == 'b' as int then Some(8)
    else if u == 'f' as int then Some(12)
    else if u == 'n' as int then Some(10)
    else if u == 'r' as int then Some(13)
    else if u == 't' as int then Some(9)
    else if u == 'v' as int then Some(11)
    else None
  }

  predicate StartsWith(src: seq<int>, pos: nat, c: char)
  {
    pos < |src| && src[pos] == c as int
  }

  /** `DecodeAndUnescapeOne`. */
  function DecodeAndUnescapeOne(rev: Revision, t: CharType, src: seq<int>): (r: Unescaped)
    requires IsUnits(t, src)
    ensures r.consumed <= |src|
    ensures |src| == 0 ==> r == Unescaped(Some(ErrEndOfString), FallbackChar, true, 0, false)
    ensures |src| > 0 ==> r.consumed >= 1
    // Only an undecodable plain character is a bad-encoding failure, and a plain
    // character is to be encoded again exactly when it decoded.
    ensures r.badEncoding <==> |src| > 0 && src[0] != '\\' as int && r.error.Some?
    ensures |src| > 0 && src[0] != '\\' as int ==> (r.encode <==> r.error.None?)
    // Of the escapes, only `\u` and `\U` produce a code point to encode.
    ensures |src| >= 2 && src[0] == '\\' as int && r.error.None? ==>
      (r.encode <==> src[1] == 'u' as int || src[1] == 'U' as int)
    // A lone trailing backslash and `\N{...}` are rejected.
    ensures |src| >= 1 && src[0] == '\\' as int && (|src| == 1 || src[1] == 'N' as int) ==> r.error.Some?
  {
    if |src| == 0 then Unescaped(Some(ErrEndOfString), FallbackChar, true, 0, false)
    else if src[0] != '\\' as int then
      var d := DecodeOne(rev, t, src);
      Unescaped(d.error, d.ch, d.error.None?, d.consumed, d.error.Some?)
    else if |src| == 1 then Unescaped(Some(ErrIncompleteEscape), FallbackChar, true, 1, false)
    else
      var c := src[1];
      if c == 'N' as int then Unescaped(Some(ErrNamed), FallbackChar, false, 2, false)
      else if NamedEscapeValue(c).Some? then Unescaped(None, NamedEscapeValue(c).value, false, 2, false)
      else if c == 'o' as int then
        if !StartsWith(src, 2, '{') then Unescaped(Some(ErrExpectedOpen), FallbackChar, false, 2, false)
        else FromDigits(ConsumeDigits(rev, src, 3, false, -2, false), false)
      else if c == 'x' as int then
        if StartsWith(src, 2, '{') then FromDigits(ConsumeDigits(rev, src, 3, true, -2, false), false)
        else FromDigits(ConsumeDigits(rev, src, 2, true, -1, false), false)
      else if c == 'u' as int || c == 'U' as int then
        if c == 'u' as int && StartsWith(src, 2, '{') then FromDigits(ConsumeDigits(rev, src, 3, true, -2, false), true)
        else FromDigits(ConsumeDigits(rev, src, 2, true, if c == 'u' as int then 4 else 8, false), true)
      else if rev == AsWritten then
        // The character after the backslash is dropped before looking for octal digits.
        if 2 < |src| && '0' as int <= src[2] <= '7' as int then
          FromDigits(ConsumeDigits(rev, src, 2, false, 3, true), false)
        else Unescaped(Some(ErrInvalidEscape), FallbackChar, false, 2, false)
      else
        if '0' as int <= c <= '7' as int then FromDigits(ConsumeDigits(rev, src, 1, false, 3, true), false)
        else Unescaped(Some(ErrInvalidEscape), FallbackChar, false, 1, false)
  }
}

=== FILE: encoding_escape.dfy ===
/** Properties of escaping and unescaping one character: the escape produced by
    `EncodeAndEscapeOne` is read back by `DecodeAndUnescapeOne`, and the defects
    of the code as written, each shown on a concrete input. */
module EncodingEscape {
  import opened Common
  import opened Encoding
  import opened EncodingUtf

  // ---------------------------------------------------------------- named escapes

  /** The named escape letters and their values are inverse to each other. */
  lemma NamedEscapeInverse(ch: Char32, u: int)
    ensures NamedEscape(ch).Some? ==> NamedEscapeValue(NamedEscape(ch).value as int) == Some(ch)
    ensures NamedEscapeValue(u).Some? ==> NamedEscape(NamedEscapeValue(u).value) == Some(u as char)
  {
  }

  /** Every named escape is read back as its character, to be written as a code
      unit (`output_encode == false`). */
  lemma NamedEscapeUnescapes(rev: Revision, t: CharType, ch: Char32, rest: seq<int>)
    requires NamedEscape(ch).Some? && IsUnits(t, rest)
    ensures IsUnits(t, [Ascii('\\'), Ascii(NamedEscape(ch).value)] + rest)
    ensures DecodeAndUnescapeOne(rev, t, [Ascii('\\'), Ascii(NamedEscape(ch).value)] + rest)
         == Unescaped(None, ch, false, 2, false)
  {
    NamedEscapeInverse(ch, 0);
    var src := [Ascii('\\'), Ascii(NamedEscape(ch).value)] + rest;
    assert src[0] == '\\' as int && src[1] == NamedEscape(ch).value as int;
  }

  // ---------------------------------------------------------------- hex digits

  predicate AllHex(ds: seq<int>)
  {
    forall i :: 0 <= i < |ds| ==> DigitValue(true, ds[i]).Some?
  }

  /** Reference value of a run of hex digits appended to `acc`, read left to right. */
  function HexFold(acc: nat, ds: seq<int>): nat
    requires AllHex(ds)
    decreases |ds|
  {
    if |ds| == 0 then acc
    else HexFold(acc * 16 + DigitValue(true, ds[0]).value, ds[1..])
  }

  /** At least one more digit multiplies the accumulator by 16 at least. */
  lemma {:induction false} HexFoldGrows(acc: nat, ds: seq<int>)
    requires AllHex(ds)
    ensures HexFold(acc, ds) >= acc
    ensures |ds| >= 1 ==> HexFold(acc, ds) >= acc * 16
    decreases |ds|
  {
    if |ds| >= 1 {
      HexFoldGrows(acc * 16 + DigitValue(true, ds[0]).value, ds[1..]);
    }
  }

  lemma {:induction false} HexFoldAppend(acc: nat, ds: seq<int>, d: int)
    requires AllHex(ds) && DigitValue(true, d).Some?
    ensures AllHex(ds + [d])
    ensures HexFold(acc, ds + [d]) == HexFold(acc, ds) * 16 + DigitValue(true, d).value
    decreases |ds|
  {
    if |ds| > 0 {
      assert (ds + [d])[1..] == ds[1..] + [d];
      HexFoldAppend(acc * 16 + DigitValue(true, ds[0]).value, ds[1..], d);
    }
  }

  lemma HexDigitCharValue(d: int)
    requires 0 <= d < 16
    ensures DigitValue(true, HexDigitChar(d) as int) == Some(d)
  {
  }

  lemma {:induction false} CharsToUnitsAppend(a: seq<char>, b: seq<char>)
    ensures CharsToUnits(a + b) == CharsToUnits(a) + CharsToUnits(b)
  {
    assert forall i :: 0 <= i < |a + b| ==> CharsToUnits(a + b)[i] == (CharsToUnits(a) + CharsToUnits(b))[i];
  }

  /** `HexDigits` is the inverse of reading hex digits: the digits of `n` read back as `n`. */
  lemma {:induction false} HexDigitsValue(n: nat)
    ensures AllHex(CharsToUnits(HexDigits(n)))
    ensures HexFold(0, CharsToUnits(HexDigits(n))) == n
  {
    if n < 16 {
      HexDigitCharValue(n);
    } else {
      var c := HexDigitChar(n % 16);
      assert HexDigits(n) == HexDigits(n / 16) + [c];
      HexDigitsValue(n / 16);
      HexDigitCharValue(n % 16);
      CharsToUnitsAppend(HexDigits(n / 16), [c]);
      assert CharsToUnits([c]) == [c as int];
      HexFoldAppend(0, CharsToUnits(HexDigits(n / 16)), c as int);
    }
  }

  /** The repaired digit loop reads a run of hex digits as their numeric value,
      as long as that value fits into `char32_t`, and stops at the first non-digit. */
  lemma {:induction false} DigitLoopReads(src: seq<int>, pos: nat, ds: seq<int>, maxDigits: int, acc: Char32, i: nat)
    requires pos + |ds| <= |src| && src[pos..pos + |ds|] == ds && AllHex(ds)
    requires pos + |ds| == |src| || DigitValue(true, src[pos + |ds|]).None?
    requires maxDigits < 0 && i + |ds| > 0 && HexFold(acc, ds) < Pow32
    ensures DigitLoop(Intended, src, pos, true, maxDigits, false, acc, i) == Digits(None, HexFold(acc, ds), pos + |ds|)
    decreases |ds|
  {
    if |ds| > 0 {
      assert src[pos] == ds[0];
      HexFoldGrows(acc, ds);
      var v := DigitValue(true, ds[0]).value;
      assert (acc * 16) % Pow32 == acc * 16;
      assert src[pos + 1..pos + 1 + |ds[1..]|] == ds[1..];
      DigitLoopReads(src, pos + 1, ds[1..], maxDigits, acc * 16 + v, i + 1);
    }
  }

  /** The braced form `{digits}` of `\u`, `\x`: the repaired parser reads the digits
      of `n` back as `n` and consumes the closing brace. */
  lemma BracedHexReads(src: seq<int>, pos: nat, n: Char32)
    requires var body := CharsToUnits(HexDigits(n) + ['}']);
      pos + |body| <= |src| && src[pos..pos + |body|] == body
    ensures ConsumeDigits(Intended, src, pos, true, -2, false)
         == Digits(None, n, pos + |HexDigits(n)| + 1)
  {
    var ds := CharsToUnits(HexDigits(n));
    CharsToUnitsAppend(HexDigits(n), ['}']);
    HexDigitsValue(n);
    assert CharsToUnits(['}']) == ['}' as int];
    WindowSplit(src, pos, ds, '}' as int);
    DigitLoopReads(src, pos, ds, -2, 0, 0);
  }

  /** A window holding `ds` then `last` holds `ds` at its start and `last` after. */
  lemma WindowSplit<T>(src: seq<T>, pos: nat, ds: seq<T>, last: T)
    requires pos + |ds| + 1 <= |src| && src[pos..pos + |ds| + 1] == ds + [last]
    ensures src[pos..pos + |ds|] == ds && src[pos + |ds|] == last
  {
    assert src[pos..pos + |ds|] == src[pos..pos + |ds| + 1][..|ds|];
    assert src[pos + |ds|] == src[pos..pos + |ds| + 1][|ds|];
  }

  // ---------------------------------------------------------------- round trip

  /** Character types whose encoding the decoder reads back (there is no signed
      16-bit character type). */
  predicate Decodable(t: CharType)
  {
    t.width != W16 || !t.isSigned
  }

  lemma PlainRoundTrip(t: CharType, ch: Char32, rest: seq<int>)
    requires Decodable(t) && IsScalarValue(ch) && IsUnits(t, rest)
    ensures IsUnits(t, EncodeOne(ch, true, true, t).units + rest)
    ensures var d := DecodeOne(Intended, t, EncodeOne(ch, true, true, t).units + rest);
      d.error.None? && d.ch == ch && d.consumed == |EncodeOne(ch, true, true, t).units|
  {
    match t.width
    case W8 => Utf8RoundTrip(Intended, t, ch, rest);
    case W16 => Utf16RoundTripIntended(t, ch, rest);
    case W32 => Utf32RoundTrip(Intended, t, ch, rest);
  }

  /** The numeric escape `\u{...}` or `\x{...}` reads back as the number it spells. */
  lemma NumericEscapeReads(t: CharType, ch: Char32, letter: char, rest: seq<int>)
    requires letter == 'u' || letter == 'x'
    requires IsUnits(t, CharsToUnits(['\\', letter, '{'] + HexDigits(ch) + ['}']) + rest)
    ensures var e := CharsToUnits(['\\', letter, '{'] + HexDigits(ch) + ['}']);
      DecodeAndUnescapeOne(Intended, t, e + rest) == Unescaped(None, ch, letter == 'u', |e|, false)
  {
    var e := CharsToUnits(['\\', letter, '{'] + HexDigits(ch) + ['}']);
    var body := CharsToUnits(HexDigits(ch) + ['}']);
    NumericEscapeUnits(letter, ch);
    var src := e + rest;
    BracedBodyAt(src, letter as int, body, rest);
    BracedHexReads(src, 3, ch);
  }

  /** The units of a numeric escape: backslash, letter, opening brace, then the
      digits and the closing brace. */
  lemma NumericEscapeUnits(letter: char, ch: Char32)
    ensures CharsToUnits(['\\', letter, '{'] + HexDigits(ch) + ['}'])
         == [92, letter as int, '{' as int] + CharsToUnits(HexDigits(ch) + ['}'])
  {
    assert ['\\', letter, '{'] + HexDigits(ch) + ['}'] == ['\\', letter, '{'] + (HexDigits(ch) + ['}']);
    CharsToUnitsAppend(['\\', letter, '{'], HexDigits(ch) + ['}']);
  }

  /** Where the braced body sits in an escape followed by more units. */
  lemma BracedBodyAt(src: seq<int>, letter: int, body: seq<int>, rest: seq<int>)
    requires src == [92, letter, '{' as int] + body + rest
    ensures src[0] == 92 && src[1] == letter && src[2] == '{' as int
    ensures 3 + |body| <= |src| && src[3..3 + |body|] == body
  {
    assert src[3..3 + |body|] == body;
  }

  /** Escaping then unescaping gives the character back, consuming exactly the
      escape, whatever follows it. The character comes back marked for encoding
      only if it was a code point written as one (plainly or as `\u{...}`). */
  lemma EscapeRoundTrip(t: CharType, ch: Char32, encode: bool, rest: seq<int>)
    requires Decodable(t) && IsUnits(t, rest)
    ensures var e := EncodeAndEscapeOne(Intended, ch, encode, false, t);
      e.Escaped? && IsUnits(t, e.units + rest)
    ensures var e := EncodeAndEscapeOne(Intended, ch, encode, false, t);
      var d := DecodeAndUnescapeOne(Intended, t, e.units + rest);
      && d.error.None? && d.ch == ch && d.consumed == |e.units|
      && (d.encode ==> encode)
      && (encode && !CodepointIsInvalid(ch) && NamedEscape(ch).None? ==> d.encode)
  {
    var e := EncodeAndEscapeOne(Intended, ch, encode, false, t);
    if !NeedsEscape(ch, encode) {
      PlainRoundTrip(t, ch, rest);
      PlainFirstUnit(ch, t);
      assert e.units == EncodeOne(ch, true, true, t).units;
    } else {
      var enc' := encode && !CodepointIsInvalid(ch);
      if enc' && NamedEscape(ch).Some? {
        NamedEscapeUnescapes(Intended, t, ch, rest);
      } else {
        NumericEscapeReads(t, ch, if enc' then 'u' else 'x', rest);
      }
    }
  }

  /** Quotes written with `force_simple_escape` read back as themselves. */
  lemma QuoteRoundTrip(rev: Revision, t: CharType, ch: Char32, rest: seq<int>)
    requires ch == '"' as int || ch == '\'' as int
    requires IsUnits(t, rest)
    ensures var e := EncodeAndEscapeOne(rev, ch, true, true, t);
      e == Escaped([Ascii('\\'), ch]) && IsUnits(t, e.units + rest)
      && DecodeAndUnescapeOne(rev, t, e.units + rest) == Unescaped(None, ch, false, 2, false)
  {
    NamedEscapeUnescapes(rev, t, ch, rest);
  }

  // ---------------------------------------------------------------- octal escapes

  predicate IsOctalDigit(u: int) { '0' as int <= u <= '7' as int }

  /** The repaired default branch reads up to three octal digits right after the backslash. */
  lemma OctalEscapeReads(t: CharType, a: int, b: int, c: int, rest: seq<int>)
    requires IsOctalDigit(a) && IsOctalDigit(b) && IsOctalDigit(c) && IsUnits(t, [92, a, b, c] + rest)
    ensures DecodeAndUnescapeOne(Intended, t, [92, a, b, c] + rest)
         == Unescaped(None, (a - 48) * 64 + (b - 48) * 8 + (c - 48), false, 4, false)
  {
    var src := [92, a, b, c] + rest;
    assert src[1] == a && src[2] == b && src[3] == c;
    OctalDigitsRead(src, a, b, c);
  }

  /** The digit loop reads the three octal digits at indices 1..3. */
  lemma OctalDigitsRead(src: seq<int>, a: int, b: int, c: int)
    requires |src| >= 4 && src[1] == a && src[2] == b && src[3] == c
    requires IsOctalDigit(a) && IsOctalDigit(b) && IsOctalDigit(c)
    ensures DigitLoop(Intended, src, 1, false, 3, true, 0, 0)
         == Digits(None, (a - 48) * 64 + (b - 48) * 8 + (c - 48), 4)
  {
    OctalStep(src, 1, 3, true, 0, 0, a - 48);
    OctalLastTwo(src, a - 48, b, c);
  }

  /** The second and third octal digits, after the first gave `acc`. */
  lemma OctalLastTwo(src: seq<int>, acc: Char32, b: int, c: int)
    requires |src| >= 4 && src[2] == b && src[3] == c && acc < 8
    requires IsOctalDigit(b) && IsOctalDigit(c)
    ensures DigitLoop(Intended, src, 2, false, 3, true, acc, 1)
         == Digits(None, acc * 64 + (b - 48) * 8 + (c - 48), 4)
  {
    var x := acc * 8 + (b - 48);
    OctalStep(src, 2, 3, true, acc, 1, x);
    OctalLast(src, 3, 3, true, x, 2, acc * 64 + (b - 48) * 8 + (c - 48));
  }

  /** One more octal digit, with room for more, is shifted into the accumulator. */
  lemma OctalStep(src: seq<int>, pos: nat, maxDigits: int, allowLess: bool, acc: Char32, i: nat, next: Char32)
    requires pos < |src| && IsOctalDigit(src[pos]) && acc < 0x1000_0000 && i + 1 != maxDigits
    requires next == acc * 8 + (src[pos] - 48)
    ensures DigitLoop(Intended, src, pos, false, maxDigits, allowLess, acc, i)
         == DigitLoop(Intended, src, pos + 1, false, maxDigits, allowLess, next, i + 1)
  {
    assert DigitValue(false, src[pos]) == Some(src[pos] - 48);
    assert (acc * 8) % Pow32 == acc * 8;
  }

  /** The last of `maxDigits` octal digits ends the loop. */
  lemma OctalLast(src: seq<int>, pos: nat, maxDigits: int, allowLess: bool, acc: Char32, i: nat, next: Char32)
    requires pos < |src| && IsOctalDigit(src[pos]) && acc < 0x1000_0000 && i + 1 == maxDigits
    requires next == acc * 8 + (src[pos] - 48)
    ensures DigitLoop(Intended, src, pos, false, maxDigits, allowLess, acc, i) == Digits(None, next, pos + 1)
  {
    assert DigitValue(false, src[pos]) == Some(src[pos] - 48);
    assert (acc * 8) % Pow32 == acc * 8;
  }

  /** A single octal digit followed by a non-digit is read on its own (`\0`). */
  lemma OctalSingleDigitReads(t: CharType, a: int, rest: seq<int>)
    requires IsOctalDigit(a) && IsUnits(t, [92, a] + rest)
    requires |rest| == 0 || !IsOctalDigit(rest[0])
    ensures DecodeAndUnescapeOne(Intended, t, [92, a] + rest) == Unescaped(None, a - 48, false, 2, false)
  {
    var src := [92, a] + rest;
    assert src[1] == a;
    assert |rest| > 0 ==> src[2] == rest[0];
    assert DigitLoop(Intended, src, 2, false, 3, true, a - 48, 1) == Digits(None, a - 48, 2);
    assert DigitLoop(Intended, src, 1, false, 3, true, 0, 0) == Digits(None, a - 48, 2);
  }

  // ---------------------------------------------------------------- the code as written

  /** As written, the numeric escape of any nonzero character never returns: the
      digit loop runs `while (ch > 0)` without ever dividing `ch`. */
  lemma NumericEscapeNeverReturnsAsWritten(ch: Char32, t: CharType)
    requires ch > 0 && NeedsEscape(ch, false)
    ensures EncodeAndEscapeOne(AsWritten, ch, false, false, t) == NeverReturns
    ensures EncodeAndEscapeOne(Intended, ch, false, false, t)
         == Escaped(CharsToUnits(['\\', 'x', '{'] + HexDigits(ch) + ['}']))
  {
  }

  /** A control character without a named escape: U+0001. */
  lemma ControlCharNeverReturnsAsWritten()
    ensures EncodeAndEscapeOne(AsWritten, 1, true, false, CharType(W8, false)) == NeverReturns
    ensures EncodeAndEscapeOne(Intended, 1, true, false, CharType(W8, false))
         == Escaped(CharsToUnits("\\u{1}"))
  {
  }

  /** As written, a digit of 10 or more is `digit + 'a'` instead of `digit - 10 + 'a'`. */
  function HexDigitCharAsWritten(d: int): (c: int)
    requires 0 <= d < 16
    ensures d < 10 ==> c == HexDigitChar(d) as int
    ensures d >= 10 ==> c == HexDigitChar(d) as int + 10 && 'k' as int <= c <= 'p' as int
  {
    if d < 10 then d + '0' as int else d + 'a' as int
  }

  /** Digit 10 comes out as 'k', which no hex reader accepts; the repaired digit reads back. */
  lemma HexDigitAsWrittenUnreadable()
    ensures HexDigitCharAsWritten(10) == 'k' as int
    ensures forall d :: 10 <= d < 16 ==> DigitValue(true, HexDigitCharAsWritten(d)).None?
    ensures forall d :: 0 <= d < 16 ==> DigitValue(true, HexDigitChar(d) as int) == Some(d)
  {
    forall d | 0 <= d < 16 ensures DigitValue(true, HexDigitChar(d) as int) == Some(d) {
      HexDigitCharValue(d);
    }
  }

  /** As written, the overflow test `(result << 4) >> 4 != (result << 4)` fires as
      soon as a nonzero accumulator meets another digit. */
  lemma OverflowFiresAsWritten(src: seq<int>, pos: nat, hex: bool, maxDigits: int, allowLess: bool, acc: Char32, i: nat)
    requires pos < |src| && DigitValue(hex, src[pos]).Some?
    requires 0 < acc < 0x1000_0000
    ensures DigitLoop(AsWritten, src, pos, hex, maxDigits, allowLess, acc, i).error == Some(ErrOverflow)
  {
    var k := if hex then 16 else 8;
    assert (acc * k) % Pow32 == acc * k;
  }

  /** So `\u{41}` is rejected as written and reads as 'A' once repaired. */
  lemma BracedEscapeAsWritten()
    ensures DecodeAndUnescapeOne(AsWritten, CharType(W8, false), CharsToUnits("\\u{41}")).error == Some(ErrOverflow)
    ensures DecodeAndUnescapeOne(Intended, CharType(W8, false), CharsToUnits("\\u{41}"))
         == Unescaped(None, 0x41, true, 6, false)
  {
    BracedOverflowsAsWritten();
    BracedReadsIntended();
  }

  lemma BracedOverflowsAsWritten()
    ensures DecodeAndUnescapeOne(AsWritten, CharType(W8, false), CharsToUnits("\\u{41}")).error == Some(ErrOverflow)
  {
    var src := CharsToUnits("\\u{41}");
    assert src == [92, 117, 123, 52, 49, 125];
    BracedDigitsOverflowAsWritten(src);
  }

  /** The first digit, 4, is taken; the second trips the overflow test. */
  lemma BracedDigitsOverflowAsWritten(src: seq<int>)
    requires src == [92, 117, 123, 52, 49, 125]
    ensures DigitLoop(AsWritten, src, 3, true, -2, false, 0, 0).error == Some(ErrOverflow)
  {
    assert DigitValue(true, src[3]) == Some(4);
    assert DigitLoop(AsWritten, src, 3, true, -2, false, 0, 0) == DigitLoop(AsWritten, src, 4, true, -2, false, 4, 1);
    OverflowFiresAsWritten(src, 4, true, -2, false, 4, 1);
  }

  lemma BracedReadsIntended()
    ensures DecodeAndUnescapeOne(Intended, CharType(W8, false), CharsToUnits("\\u{41}"))
         == Unescaped(None, 0x41, true, 6, false)
  {
    assert HexDigits(0x41) == ['4', '1'];
    assert ['\\', 'u', '{'] + HexDigits(0x41) + ['}'] == "\\u{41}";
    assert CharsToUnits("\\u{41}") + [] == CharsToUnits("\\u{41}");
    NumericEscapeReads(CharType(W8, false), 0x41, 'u', []);
  }

  /** As written, the octal branch skips the first digit: `\101` reads as 1 and
      `\0` is an invalid escape. Repaired, they read as 'A' and NUL. */
  lemma OctalEscapeAsWritten()
    ensures DecodeAndUnescapeOne(AsWritten, CharType(W8, false), [92, 49, 48, 49]) == Unescaped(None, 1, false, 4, false)
    ensures DecodeAndUnescapeOne(AsWritten, CharType(W8, false), [92, 48]).error == Some(ErrInvalidEscape)
    ensures DecodeAndUnescapeOne(Intended, CharType(W8, false), [92, 49, 48, 49]) == Unescaped(None, 65, false, 4, false)
    ensures DecodeAndUnescapeOne(Intended, CharType(W8, false), [92, 48]) == Unescaped(None, 0, false, 2, false)
  {
    OctalEscapeReads(CharType(W8, false), 49, 48, 49, []);
    assert [92, 49, 48, 49] + [] == [92, 49, 48, 49];
    OctalSingleDigitReads(CharType(W8, false), 48, []);
    assert [92, 48] + [] == [92, 48];
  }
}

=== FILE: encoding_utf.dfy ===
/** Properties of the single-character UTF-8 / UTF-16 / UTF-32 encoders and decoders. */
module EncodingUtf {
  import opened Common
  import opened Encoding

  const Utf8: CharType := CharType(W8, false)

  /** Every UTF-8 sequence `EncodeOne` produces has a lead byte announcing its
      length (prefix 0, 110, 1110 or 11110) followed by `10xxxxxx` bytes. */
  lemma Utf8BytesShape(ch: Char32)
    requires ch <= 0x10ffff
    ensures var r := Utf8Bytes(ch);
      && Utf8LeadLength(r[0]) == |r|
      && (forall i :: 1 <= i < |r| ==> IsContinuation(r[i]))
      && (forall i :: 0 <= i < |r| ==> 0 <= r[i] < 0x100)
  {
  }

  /** The W8 branch of DecodeOne on a multi-byte sequence that continues
      correctly and is not overlong. */
  lemma DecodeW8Multi(rev: Revision, t: CharType, src: seq<int>, v: nat)
    requires t.width == W8 && IsUnits(t, src) && |src| > 0
    requires 2 <= Utf8LeadLength(src[0])
    requires Utf8Continue(src, 1, Utf8LeadLength(src[0]), LeadPayload(src[0], Utf8LeadLength(src[0]))) == Some(v)
    requires v < Pow32 && Utf8LeadLength(src[0]) == CodepointUtf8ByteLength(v) && IsScalarValue(v)
    ensures DecodeOne(rev, t, src) == Decoded(None, v, Utf8LeadLength(src[0]), false)
  {
  }

  lemma Utf8Bytes2(ch: Char32, src: seq<int>)
    requires 0x80 <= ch < 0x800 && |src| >= 2 && src[..2] == Utf8Bytes(ch)
    ensures Utf8LeadLength(src[0]) == 2
    ensures Utf8Continue(src, 1, 2, LeadPayload(src[0], 2)) == Some(ch)
  {
    var q := ch / 64;
    assert ch == q * 64 + ch % 64 && q < 32;
    assert src[0] == 0xc0 + q && src[1] == 0x80 + ch % 64;
    DivUnique(src[0], 3, q, 64);
    DivUnique(src[1], 2, ch % 64, 64);
    assert Utf8Continue(src, 2, 2, ch) == Some(ch);
  }

  lemma Utf8Bytes3(ch: Char32, src: seq<int>)
    requires 0x800 <= ch < 0x1_0000 && |src| >= 3 && src[..3] == Utf8Bytes(ch)
    ensures Utf8LeadLength(src[0]) == 3
    ensures Utf8Continue(src, 1, 3, LeadPayload(src[0], 3)) == Some(ch)
  {
    var q1 := ch / 64;
    var q2 := q1 / 64;
    Utf8Digits3(ch, q1, q2);
    assert src[0] == 0xe0 + q2 && src[1] == 0x80 + q1 % 64 && src[2] == 0x80 + ch % 64;
    DivUnique(src[0], 7, q2, 32);
    DivUnique(src[1], 2, q1 % 64, 64);
    DivUnique(src[2], 2, ch % 64, 64);
    assert Utf8Continue(src, 3, 3, ch) == Some(ch);
    assert Utf8Continue(src, 2, 3, q1) == Some(ch);
  }

  /** The three UTF-8 bytes of `ch` as its base-64 digits. */
  lemma Utf8Digits3(ch: Char32, q1: int, q2: int)
    requires 0x800 <= ch < 0x1_0000 && q1 == ch / 64 && q2 == q1 / 64
    ensures ch == q1 * 64 + ch % 64 && q1 == q2 * 64 + q1 % 64 && q2 < 16
    ensures Utf8Bytes(ch) == [0xe0 + q2, 0x80 + q1 % 64, 0x80 + ch % 64]
  {
    DivUnique(ch, q2, q1 % 64 * 64 + ch % 64, 4096);
  }

  lemma Utf8Bytes4(ch: Char32, src: seq<int>)
    requires 0x1_0000 <= ch <= 0x10ffff && |src| >= 4 && src[..4] == Utf8Bytes(ch)
    ensures Utf8LeadLength(src[0]) == 4
    ensures Utf8Continue(src, 1, 4, LeadPayload(src[0], 4)) == Some(ch)
  {
    var q1 := ch / 64;
    var q2 := q1 / 64;
    var q3 := q2 / 64;
    Utf8Digits4(ch, q1, q2, q3);
    assert src[0] == 0xf0 + q3 && src[1] == 0x80 + q2 % 64;
    assert src[2] == 0x80 + q1 % 64 && src[3] == 0x80 + ch % 64;
    DivUnique(src[0], 15, q3, 16);
    DivUnique(src[1], 2, q2 % 64, 64);
    DivUnique(src[2], 2, q1 % 64, 64);
    DivUnique(src[3], 2, ch % 64, 64);
    assert Utf8Continue(src, 4, 4, ch) == Some(ch);
    assert Utf8Continue(src, 3, 4, q1) == Some(ch);
    assert Utf8Continue(src, 2, 4, q2) == Some(ch);
  }

  /** The four UTF-8 bytes of `ch` as its base-64 digits. */
  lemma Utf8Digits4(ch: Char32, q1: int, q2: int, q3: int)
    requires 0x1_0000 <= ch <= 0x10ffff && q1 == ch / 64 && q2 == q1 / 64 && q3 == q2 / 64
    ensures ch == q1 * 64 + ch % 64 && q1 == q2 * 64 + q1 % 64 && q2 == q3 * 64 + q2 % 64
    ensures q3 < 8
    ensures Utf8Bytes(ch) == [0xf0 + q3, 0x80 + q2 % 64, 0x80 + q1 % 64, 0x80 + ch % 64]
  {
    DivUnique(ch, q2, q1 % 64 * 64 + ch % 64, 4096);
    DivUnique(ch, q3, (q2 % 64 * 64 + q1 % 64) * 64 + ch % 64, 262144);
  }

  /** Division is determined by a quotient and an in-range remainder. */
  lemma DivUnique(x: int, q: int, r: int, k: int)
    requires k > 0 && x == q * k + r && 0 <= r < k
    ensures x / k == q && x % k == r
  {
    var q', r' := x / k, x % k;
    assert (q' - q) * k == r - r';
    MulBetween(q' - q, k);
  }

  /** A multiple of `k` strictly between `-k` and `k` is 0. */
  lemma MulBetween(a: int, k: int)
    requires k > 0 && -k < a * k < k
    ensures a == 0
  {
  }

  /** Decoding the UTF-8 bytes of a scalar value, whatever follows them, gives
      the value back and consumes exactly those bytes. */
  lemma Utf8RoundTrip(rev: Revision, t: CharType, ch: Char32, rest: seq<int>)
    requires t.width == W8 && IsScalarValue(ch) && IsUnits(t, rest)
    ensures IsUnits(t, EncodeOne(ch, true, true, t).units + rest)
    ensures DecodeOne(rev, t, EncodeOne(ch, true, true, t).units + rest)
         == Decoded(None, ch, CodepointUtf8ByteLength(ch), false)
  {
    var b := Utf8Bytes(ch);
    assert EncodeOne(ch, true, true, t).units == b;
    var src := b + rest;
    var n := |b|;
    assert src[..n] == b;
    if n == 1 {
      assert src[0] == ch;
    } else if n == 2 {
      Utf8Bytes2(ch, src);
      DecodeW8Multi(rev, t, src, ch);
    } else if n == 3 {
      Utf8Bytes3(ch, src);
      DecodeW8Multi(rev, t, src, ch);
    } else {
      Utf8Bytes4(ch, src);
      DecodeW8Multi(rev, t, src, ch);
    }
  }

  lemma Utf8Sound2(src: seq<int>, v: Char32)
    requires |src| >= 2 && Utf8LeadLength(src[0]) == 2 && 0 <= src[1] < 0x100
    requires Utf8Continue(src, 1, 2, LeadPayload(src[0], 2)) == Some(v) && CodepointUtf8ByteLength(v) == 2
    ensures src[..2] == Utf8Bytes(v)
  {
    assert IsContinuation(src[1]);
    assert v == (src[0] - 0xc0) * 64 + (src[1] - 0x80);
    assert v / 64 == src[0] - 0xc0 && v % 64 == src[1] - 0x80;
  }

  lemma Utf8Sound3(src: seq<int>, v: Char32)
    requires |src| >= 3 && Utf8LeadLength(src[0]) == 3
    requires Utf8Continue(src, 1, 3, LeadPayload(src[0], 3)) == Some(v) && CodepointUtf8ByteLength(v) == 3
    ensures src[..3] == Utf8Bytes(v)
  {
    assert IsContinuation(src[1]) && IsContinuation(src[2]);
    var x0, x1, x2 := src[0] - 0xe0, src[1] - 0x80, src[2] - 0x80;
    assert v == (x0 * 64 + x1) * 64 + x2;
    assert v / 64 == x0 * 64 + x1 && v % 64 == x2;
    assert v / 4096 == x0 && (v / 64) % 64 == x1;
  }

  lemma Utf8Sound4(src: seq<int>, v: Char32)
    requires |src| >= 4 && Utf8LeadLength(src[0]) == 4
    requires Utf8Continue(src, 1, 4, LeadPayload(src[0], 4)) == Some(v) && CodepointUtf8ByteLength(v) == 4
    ensures src[..4] == Utf8Bytes(v)
  {
    assert IsContinuation(src[1]) && IsContinuation(src[2]) && IsContinuation(src[3]);
    var x0, x1, x2, x3 := src[0] - 0xf0, src[1] - 0x80, src[2] - 0x80, src[3] - 0x80;
    DivUnique(src[0], 15, x0, 16);
    DivUnique(src[1], 2, x1, 64);
    DivUnique(src[2], 2, x2, 64);
    DivUnique(src[3], 2, x3, 64);
    assert v == ((x0 * 64 + x1) * 64 + x2) * 64 + x3;
    Digits4Of(v, x0, x1, x2, x3);
  }

  /** A value written with base-64 digits `x0 x1 x2 x3` has them as its UTF-8
      digit fields. */
  lemma Digits4Of(v: int, x0: int, x1: int, x2: int, x3: int)
    requires 0 <= x0 && 0 <= x1 < 64 && 0 <= x2 < 64 && 0 <= x3 < 64
    requires v == ((x0 * 64 + x1) * 64 + x2) * 64 + x3
    ensures v / 262144 == x0 && (v / 4096) % 64 == x1 && (v / 64) % 64 == x2 && v % 64 == x3
  {
    DivUnique(v, (x0 * 64 + x1) * 64 + x2, x3, 64);
    DivUnique(v / 64, x0 * 64 + x1, x2, 64);
    DivUnique(v, x0 * 64 + x1, x2 * 64 + x3, 4096);
    DivUnique(v / 4096, x0, x1, 64);
    DivUnique(v, x0, (x1 * 64 + x2) * 64 + x3, 262144);
  }

  /** The converse: a successful UTF-8 decode consumed exactly the encoding of
      the value it returned. With Utf8RoundTrip, DecodeOne succeeds exactly on
      inputs that start with the UTF-8 encoding of a scalar value. */
  lemma Utf8DecodeSound(rev: Revision, t: CharType, src: seq<int>)
    requires t.width == W8 && IsUnits(t, src)
    ensures var r := DecodeOne(rev, t, src);
      r.error.None? ==> IsScalarValue(r.ch) && src[..r.consumed] == Utf8Bytes(r.ch)
  {
    var r := DecodeOne(rev, t, src);
    if r.error.None? && |src| > 0 {
      var bytes := Utf8LeadLength(src[0]);
      if bytes == 2 {
        Utf8Sound2(src, r.ch);
      } else if bytes == 3 {
        Utf8Sound3(src, r.ch);
      } else if bytes == 4 {
        Utf8Sound4(src, r.ch);
      }
    }
  }

  /** UTF-8 errors from a bad lead byte, a truncated sequence or an overlong or
      out-of-range encoding consume only the lead byte; only a well-formed
      encoding of a surrogate is consumed whole before being rejected. */
  lemma Utf8ErrorsConsumeLead(rev: Revision, t: CharType, src: seq<int>)
    requires t.width == W8 && IsUnits(t, src) && |src| > 0
    ensures var r := DecodeOne(rev, t, src);
      r.error.Some? && r.error != Some(ErrSurrogate) ==> r.consumed == 1
    ensures var r := DecodeOne(rev, t, src);
      r.error == Some(ErrSurrogate) ==> r.consumed == 3 && CodepointIsSurrogate(r.ch)
  {
  }

  /** UTF-16: decoding the units of a scalar value gives it back, with the
      repaired pair formula. */
  lemma Utf16RoundTripIntended(t: CharType, ch: Char32, rest: seq<int>)
    requires t == CharType(W16, false) && IsScalarValue(ch) && IsUnits(t, rest)
    ensures IsUnits(t, EncodeOne(ch, true, true, t).units + rest)
    ensures DecodeOne(Intended, t, EncodeOne(ch, true, true, t).units + rest)
         == Decoded(None, ch, |EncodeOne(ch, true, true, t).units|, false)
  {
    var u := Utf16Units(ch);
    var src := u + rest;
    assert src[0] == u[0];
    if ch > 0xffff {
      assert src[1] == u[1];
      var c := ch - 0x10000;
      assert c / 1024 < 1024;
      assert u[0] % 1024 == c / 1024 && u[1] % 1024 == c % 1024;
      assert PairValue(Intended, u[0], u[1]) == ch;
    }
  }

  /** As written, the pair formula adds `char16_t(0x10000)`, which is 0: the
      first supplementary code point decodes to 0, successfully. */
  lemma Utf16PairOffAsWritten()
    ensures EncodeOne(0x10000, true, true, CharType(W16, false)).units == [0xd800, 0xdc00]
    ensures DecodeOne(AsWritten, CharType(W16, false), [0xd800, 0xdc00]) == Decoded(None, 0, 2, false)
  {
  }

  /** As written, a valid surrogate pair can even decode successfully to a
      surrogate value, because the pair branch returns without validation. */
  lemma Utf16PairToSurrogateAsWritten()
    ensures DecodeOne(AsWritten, CharType(W16, false), [0xd836, 0xdc00]) == Decoded(None, 0xd800, 2, false)
  {
  }

  /** As written, every pair decodes to exactly 0x10000 less than the repaired formula. */
  lemma Utf16PairDifference(t: CharType, hi: int, lo: int, rest: seq<int>)
    requires t == CharType(W16, false) && IsUnits(t, [hi, lo] + rest)
    requires CodepointIsHighSurrogate(hi) && CodepointIsLowSurrogate(lo)
    ensures DecodeOne(AsWritten, t, [hi, lo] + rest).error.None?
    ensures DecodeOne(AsWritten, t, [hi, lo] + rest).ch + 0x10000 == DecodeOne(Intended, t, [hi, lo] + rest).ch
  {
    assert ([hi, lo] + rest)[0] == hi && ([hi, lo] + rest)[1] == lo;
  }

  /** UTF-32: a unit is its own code point; decoding validates it. */
  lemma Utf32RoundTrip(rev: Revision, t: CharType, ch: Char32, rest: seq<int>)
    requires t.width == W32 && IsScalarValue(ch) && IsUnits(t, rest)
    ensures IsUnits(t, EncodeOne(ch, true, true, t).units + rest)
    ensures DecodeOne(rev, t, EncodeOne(ch, true, true, t).units + rest) == Decoded(None, ch, 1, false)
  {
    assert (EncodeOne(ch, true, true, t).units + rest)[0] == ch;
  }
}

=== FILE: exception_analyzer.dfy ===
/** The exception analyzer: it walks an exception and its nested exceptions,
    asks a list of handlers about each level, and collects each level's type and
    message; and the analysed result, whose messages can be joined into one.

    An exception is modelled with what the handlers can learn from it: its
    dynamic type, whether it derives from `std::exception`, its `what()` text,
    and the exception nested in it. A handler's answer about the nested
    exception is whether it reports the nested one. */
module ExceptionAnalyzer {
  import opened Common

  /** A `std::type_index`; `Void` is `typeid(void)`, "the type isn't known". */
  datatype TypeId = Void | TypeOf(name: string)

  datatype Exception = Exception(dynamicType: string, isStd: bool, what: string, nested: Option<Exception>)

  /** AnalyzedException::Elem; its defaults are an unknown type and no message. */
  datatype Elem = Elem(typeId: TypeId, message: string)

  const UnknownElem := Elem(Void, "")

  datatype AnalyzedException = AnalyzedException(elems: seq<Elem>)

  /** exception_analyzer.h, line 29. */
  predicate IsNonEmpty(a: AnalyzedException)
  {
    |a.elems| > 0
  }

  const DefaultSeparator := "\n"

  function Messages(elems: seq<Elem>): (r: seq<string>)
    ensures |r| == |elems|
    ensures forall i :: 0 <= i < |elems| ==> r[i] == elems[i].message
  {
    seq(|elems|, i requires 0 <= i < |elems| => elems[i].message)
  }

  /** exception_analyzer.h, lines 32-45: the messages in order, with `separator`
      between consecutive ones only. */
  function CombinedMessage(a: AnalyzedException, separator: string): (r: string)
    ensures |a.elems| == 0 ==> r == ""
    ensures |a.elems| == 1 ==> r == a.elems[0].message
    decreases |a.elems|
  {
    if |a.elems| == 0 then ""
    else if |a.elems| == 1 then a.elems[0].message
    else a.elems[0].message + separator + CombinedMessage(AnalyzedException(a.elems[1..]), separator)
  }

  /** The combined message is the messages joined with the separator, so `n`
      messages carry `n - 1` separators. */
  lemma {:induction false} CombinedMessageIsJoin(a: AnalyzedException, separator: string)
    ensures CombinedMessage(a, separator) == Join(Messages(a.elems), separator)
    ensures |a.elems| > 0 ==>
      |CombinedMessage(a, separator)| == |Concat(Messages(a.elems))| + (|a.elems| - 1) * |separator|
    decreases |a.elems|
  {
    if |a.elems| > 1 {
      CombinedMessageIsJoin(AnalyzedException(a.elems[1..]), separator);
      assert Messages(a.elems)[1..] == Messages(a.elems[1..]);
    }
    if |a.elems| > 0 {
      JoinLength(Messages(a.elems), separator);
    }
  }

  /** With the default separator, two messages are joined by one line break. */
  lemma CombinedMessageDefault(first: string, second: string)
    ensures CombinedMessage(AnalyzedException([Elem(Void, first), Elem(Void, second)]), DefaultSeparator)
         == first + "\n" + second
  {
    assert [Elem(Void, first), Elem(Void, second)][1..] == [Elem(Void, second)];
  }

  /** ExceptionAnalyzer::HandlerResult. */
  datatype HandlerResult = HandlerResult(typeId: TypeId, message: string, nestedException: Option<Exception>)

  /** exception_analyzer.h, line 63. */
  predicate TypeIsKnown(r: HandlerResult)
  {
    r.typeId != Void
  }

  /** What a handler does with an exception: declines it (returns null), throws,
      or recognises it, with a type, a message and whether it reports the
      exception's nested one. */
  datatype Reply = Declines | Throws | Recognises(typeId: TypeId, message: string, reportsNested: bool)

  /** The handlers: `StdExceptionHandler`, or one whose replies are given. */
  datatype Handler = StdExceptionHandler | Custom(reply: Exception -> Reply)

  /** SimpleHandler<std::exception>::Handle, lines 80-105: an exception that is
      not a `std::exception` escapes the `catch`, so the handler throws; any
      other is recognised with its dynamic type, its `what()` and its nested
      exception. */
  function Handle(h: Handler, e: Exception): (r: Option<HandlerResult>)
    ensures h.StdExceptionHandler? ==> (r.Some? <==> e.isStd)
    ensures h.StdExceptionHandler? && e.isStd ==> r == Some(HandlerResult(TypeOf(e.dynamicType), e.what, e.nested))
    ensures h.StdExceptionHandler? && r.Some? ==> TypeIsKnown(r.value)
  {
    var reply := match h
      case StdExceptionHandler => if e.isStd then Recognises(TypeOf(e.dynamicType), e.what, true) else Reply.Throws
      case Custom(f) => f(e);
    match reply
    case Recognises(t, message, reportsNested) =>
      Some(HandlerResult(t, message, if reportsNested then e.nested else None))
    case _ => None
  }

  /** The first handler that recognises `e`: handlers are tried in order, and one
      that throws is skipped like one that declines (exception_analyzer.cpp,
      lines 10-22). */
  function FirstRecognising(handlers: seq<Handler>, e: Exception): (r: Option<nat>)
    ensures r.Some? ==> r.value < |handlers| && Handle(handlers[r.value], e).Some?
    ensures r.Some? ==> forall j :: 0 <= j < r.value ==> Handle(handlers[j], e).None?
    ensures r.None? ==> forall j :: 0 <= j < |handlers| ==> Handle(handlers[j], e).None?
    decreases |handlers|
  {
    if |handlers| == 0 then None
    else if Handle(handlers[0], e).Some? then Some(0)
    else
      match FirstRecognising(handlers[1..], e)
      case None =>
        assert forall j :: 1 <= j < |handlers| ==> handlers[j] == handlers[1..][j - 1];
        None
      case Some(k) =>
        assert forall j :: 1 <= j < k + 1 ==> handlers[j] == handlers[1..][j - 1];
        Some(k + 1)
  }

  /** One level: the element the first recognising handler reports and the
      exception to analyse next, or `None` when no handler recognises it (then
      `AnalyzeLevel` returns a default element and leaves `e` as it was). */
  function Level(handlers: seq<Handler>, e: Exception): (r: Option<(Elem, Option<Exception>)>)
    ensures r.Some? ==> r.value.1.None? || r.value.1 == e.nested
  {
    match FirstRecognising(handlers, e)
    case None => None
    case Some(k) =>
      var result := Handle(handlers[k], e).value;
      Some((Elem(result.typeId, result.message), result.nestedException))
  }

  function Size(e: Exception): nat
  {
    1 + match e.nested
      case None => 0
      case Some(n) => Size(n)
  }

  /** The two readings of `Analyze`: as written, where a level no handler
      recognises is analysed again forever, and as the header promises, where
      it ends the result with one element of unknown type. */
  datatype Revision = AsWritten | Intended

  /** exception_analyzer.cpp, lines 5-31. */
  function Analyze(rev: Revision, handlers: seq<Handler>, e: Option<Exception>): (r: Run<AnalyzedException>)
    ensures e.None? ==> r == Returns(AnalyzedException([]))
    ensures rev == Intended ==> r.Returns?
    ensures r.Returns? ==> (IsNonEmpty(r.value) <==> e.Some?)
    ensures r.Returns? && e.Some? ==> |r.value.elems| <= Size(e.value)
    decreases if e.Some? then Size(e.value) else 0
  {
    match e
    case None => Returns(AnalyzedException([]))
    case Some(ex) =>
      match Level(handlers, ex)
      case None =>
        if rev == AsWritten then
          LevelRepeats(handlers, ex);
          Diverges
        else Returns(AnalyzedException([UnknownElem]))
      case Some((elem, next)) =>
        match Analyze(rev, handlers, next)
        case Returns(rest) => Returns(AnalyzedException([elem] + rest.elems))
        case other => other
  }

  /** A level no handler recognises gives the default element and leaves `e` as
      it was, so the `while (e)` loop meets the same state on every round. */
  lemma LevelRepeats(handlers: seq<Handler>, e: Exception)
    requires Level(handlers, e).None?
    ensures forall j :: 0 <= j < |handlers| ==> Handle(handlers[j], e).None?
  {
  }

  /** The levels `Analyze` visits: following each recognised level's reported
      nested exception, until one is not recognised or there is none. */
  predicate AllRecognised(handlers: seq<Handler>, e: Option<Exception>)
    decreases if e.Some? then Size(e.value) else 0
  {
    match e
    case None => true
    case Some(ex) =>
      match Level(handlers, ex)
      case None => false
      case Some((_, next)) => AllRecognised(handlers, next)
  }

  /** As written, `Analyze` ends exactly when every level it meets is recognised,
      and then it agrees with the intended reading. */
  lemma {:induction false} AnalyzeEndsIffRecognised(handlers: seq<Handler>, e: Option<Exception>)
    ensures Analyze(AsWritten, handlers, e).Returns? <==> AllRecognised(handlers, e)
    ensures AllRecognised(handlers, e) ==> Analyze(AsWritten, handlers, e) == Analyze(Intended, handlers, e)
    decreases if e.Some? then Size(e.value) else 0
  {
    if e.Some? {
      var l := Level(handlers, e.value);
      if l.Some? {
        AnalyzeEndsIffRecognised(handlers, l.value.1);
      }
    }
  }

  /** exception_analyzer.cpp, lines 33-41: the default analyzer has exactly the
      standard handler. */
  const DefaultHandlers := [StdExceptionHandler]

  /** A chain of standard exceptions, each nested in the one before. */
  predicate StdChain(e: Option<Exception>)
    decreases if e.Some? then Size(e.value) else 0
  {
    e.None? || (e.value.isStd && StdChain(e.value.nested))
  }

  function Whats(e: Option<Exception>): (r: seq<Elem>)
    decreases if e.Some? then Size(e.value) else 0
  {
    match e
    case None => []
    case Some(ex) => [Elem(TypeOf(ex.dynamicType), ex.what)] + Whats(ex.nested)
  }

  /** The default analyzer reports a chain of standard exceptions level by level,
      each with its dynamic type, so every type is known, and its `what()`. */
  lemma {:induction false} DefaultAnalyzesStdChain(e: Option<Exception>)
    requires StdChain(e)
    ensures Analyze(AsWritten, DefaultHandlers, e) == Returns(AnalyzedException(Whats(e)))
    ensures forall i :: 0 <= i < |Whats(e)| ==> Whats(e)[i].typeId != Void
    decreases if e.Some? then Size(e.value) else 0
  {
    if e.Some? {
      assert FirstRecognising(DefaultHandlers, e.value) == Some(0);
      DefaultAnalyzesStdChain(e.value.nested);
    }
  }

  /** An exception that is not a `std::exception`, such as `throw 42`. */
  const ThrownInt := Exception("int", false, "", None)

  /** As written, analysing it with the default analyzer never ends, although
      the header promises one element even for unknown types; as intended the
      result is that one element of unknown type. */
  lemma UnknownExceptionLoops()
    ensures Analyze(AsWritten, DefaultHandlers, Some(ThrownInt)) == Diverges
    ensures Analyze(Intended, DefaultHandlers, Some(ThrownInt)) == Returns(AnalyzedException([UnknownElem]))
  {
    assert FirstRecognising(DefaultHandlers, ThrownInt) == None;
  }
}

=== FILE: hash.dfy ===
/** MurmurHash3 x86_32 (`em::Hash` in src/utils/hash_func.h). All arithmetic is on
    `bv32`, so every `uint32_t` wrap-around is the bit-vector's own. */
module Hash {

  const C1: bv32 := 0xcc9e2d51
  const C2: bv32 := 0x1b873593

  /** `(x << 15) | (x >> (32 - 15))`. */
  function RotL15(x: bv32): bv32
  {
    (x << 15) | (x >> 17)
  }

  /** `(x << 13) | (x >> (32 - 13))`. */
  function RotL13(x: bv32): bv32
  {
    (x << 13) | (x >> 19)
  }

  /** Little-endian 32-bit block number `i`. */
  function Block(bytes: seq<bv8>, i: nat): bv32
    requires 4 * i + 4 <= |bytes|
  {
    Word(bytes[4 * i], bytes[4 * i + 1], bytes[4 * i + 2], bytes[4 * i + 3])
  }

  /** Four bytes, least significant first. */
  function Word(b0: bv8, b1: bv8, b2: bv8, b3: bv8): bv32
  {
    (b0 as bv32) | ((b1 as bv32) << 8) | ((b2 as bv32) << 16) | ((b3 as bv32) << 24)
  }

  /** `k1 *= c1; k1 = rotl(k1, 15); k1 *= c2;` */
  function MixK(k: bv32): bv32
  {
    RotL15(k * C1) * C2
  }

  /** `h1 ^= k1; h1 = rotl(h1, 13); h1 = h1 * 5 + 0xe6546b64;` */
  function MixH(h: bv32, k: bv32): bv32
  {
    RotL13(h ^ k) * 5 + 0xe6546b64
  }

  /** The state after mixing in the first `n` blocks, in order. */
  function Body(seed: bv32, bytes: seq<bv8>, n: nat): bv32
    requires 4 * n <= |bytes|
  {
    if n == 0 then seed else MixH(Body(seed, bytes, n - 1), MixK(Block(bytes, n - 1)))
  }

  /** The `n % 4` trailing bytes as `k1` (the fall-through switch). */
  function TailWord(bytes: seq<bv8>): bv32
  {
    var base := |bytes| / 4 * 4;
    var rem := |bytes| % 4;
    (if rem >= 3 then ((bytes[base + 2] as bv32) << 16) else 0)
    ^ (if rem >= 2 then ((bytes[base + 1] as bv32) << 8) else 0)
    ^ (if rem >= 1 then (bytes[base] as bv32) else 0)
  }

  /** Mixes the tail into `h` only when there is one. */
  function MixTail(h: bv32, bytes: seq<bv8>): bv32
  {
    if |bytes| % 4 == 0 then h else h ^ MixK(TailWord(bytes))
  }

  function XorShift16(h: bv32): bv32
  {
    h ^ (h >> 16)
  }

  function XorShift13(h: bv32): bv32
  {
    h ^ (h >> 13)
  }

  /** The `fmix32` finaliser. */
  function FMix(h: bv32): bv32
  {
    XorShift16(XorShift13(XorShift16(h) * 0x85ebca6b) * 0xc2b2ae35)
  }

  /** `h1 ^= bytes.size()`: the length truncated to 32 bits. */
  function LengthWord(n: nat): bv32
  {
    (n % 0x1_0000_0000) as bv32
  }

  /** `Hash(bytes, seed)`. */
  function Hash(bytes: seq<bv8>, seed: bv32): bv32
  {
    FMix(MixTail(Body(seed, bytes, |bytes| / 4), bytes) ^ LengthWord(|bytes|))
  }

  // ---------------------------------------------------------------- properties

  /** The block state is a left-to-right fold: appending whole blocks after a
      block-aligned prefix continues from the prefix's state. */
  lemma {:induction false} BodyPrefix(seed: bv32, a: seq<bv8>, b: seq<bv8>, n: nat)
    requires |a| % 4 == 0 && 4 * n <= |b|
    ensures Body(seed, a + b, |a| / 4 + n) == Body(Body(seed, a, |a| / 4), b, n)
  {
    if n == 0 {
      BodyOnlyPrefix(seed, a, b, |a| / 4);
    } else {
      BodyPrefix(seed, a, b, n - 1);
      var i := |a| / 4 + n - 1;
      var j := 4 * (n - 1);
      assert 4 * i == |a| + j;
      assert (a + b)[4 * i] == b[j] && (a + b)[4 * i + 1] == b[j + 1];
      assert (a + b)[4 * i + 2] == b[j + 2] && (a + b)[4 * i + 3] == b[j + 3];
      assert Block(a + b, i) == Block(b, n - 1);
    }
  }

  /** Blocks inside the prefix do not look past it. */
  lemma {:induction false} BodyOnlyPrefix(seed: bv32, a: seq<bv8>, b: seq<bv8>, n: nat)
    requires 4 * n <= |a|
    ensures Body(seed, a + b, n) == Body(seed, a, n)
  {
    if n > 0 {
      BodyOnlyPrefix(seed, a, b, n - 1);
      var j := 4 * (n - 1);
      assert (a + b)[j] == a[j] && (a + b)[j + 1] == a[j + 1];
      assert (a + b)[j + 2] == a[j + 2] && (a + b)[j + 3] == a[j + 3];
      assert Block(a + b, n - 1) == Block(a, n - 1);
    }
  }

  /** A block is the four bytes in little-endian order: byte j is bits 8j..8j+7. */
  lemma WordLittleEndian(b0: bv8, b1: bv8, b2: bv8, b3: bv8)
    ensures (Word(b0, b1, b2, b3) & 0xff) as bv8 == b0
    ensures ((Word(b0, b1, b2, b3) >> 8) & 0xff) as bv8 == b1
    ensures ((Word(b0, b1, b2, b3) >> 16) & 0xff) as bv8 == b2
    ensures (Word(b0, b1, b2, b3) >> 24) as bv8 == b3
  {
  }

  /** When the length is a multiple of four the tail leaves the state alone;
      otherwise the tail word holds exactly the trailing bytes, little-endian,
      as a word whose missing high bytes are zero. */
  lemma TailBytes(bytes: seq<bv8>)
    ensures |bytes| % 4 == 0 ==> forall h :: MixTail(h, bytes) == h
    ensures |bytes| % 4 == 1 ==> TailWord(bytes) == Word(bytes[|bytes| - 1], 0, 0, 0)
    ensures |bytes| % 4 == 2 ==> TailWord(bytes) == Word(bytes[|bytes| - 2], bytes[|bytes| - 1], 0, 0)
    ensures |bytes| % 4 == 3 ==> TailWord(bytes) == Word(bytes[|bytes| - 3], bytes[|bytes| - 2], bytes[|bytes| - 1], 0)
  {
  }

  // ---------------------------------------------------------------- known answers

  /** The one block "abcd", seeded with 42. */
  lemma BlockAbcd()
    ensures Word(0x61, 0x62, 0x63, 0x64) == 0x64636261
    ensures MixH(42, MixK(0x64636261)) == 0x8696c49e
  {
    assert MixK(0x64636261) == 0x5b9433b7;
  }

  /** The static assertions of src/utils/hash_func.nolink.cpp: the empty
      message with seed 0 hashes to 0, ... */
  lemma KnownAnswerEmpty()
    ensures Hash([], 0) == 0
  {
  }

  /** `Hash` of a message with one whole block: the finaliser of the block's
      state, mixed with the tail and then with the length. */
  lemma HashOneBlock(bytes: seq<bv8>, seed: bv32, k: bv32, h: bv32, t: bv32, x: bv32)
    requires 4 <= |bytes| < 8
    requires Word(bytes[0], bytes[1], bytes[2], bytes[3]) == k
    requires MixH(seed, MixK(k)) == h && MixTail(h, bytes) == t
    requires t ^ LengthWord(|bytes|) == x
    ensures Hash(bytes, seed) == FMix(x)
  {
    assert |bytes| / 4 == 1;
    assert Body(seed, bytes, 1) == h;
  }

  /** The length word of a short message is its length. */
  lemma LengthWordSmall(n: nat, w: bv32)
    requires n < 8 && w == n as bv32
    ensures LengthWord(n) == w
  {
  }

  /** ... and "abcd" .. "abcdefg" with seed 42 hash to the reference
      MurmurHash3_x86_32 values: one whole block followed by a tail of 0 to 3
      bytes, so every case of the fall-through switch is exercised. */
  lemma KnownAnswerAbcd()
    ensures Hash([0x61, 0x62, 0x63, 0x64], 42) == 3898664396
  {
    var b: seq<bv8> := [0x61, 0x62, 0x63, 0x64];
    BlockAbcd();
    assert MixTail(0x8696c49e, b) == 0x8696c49e;
    LengthWordSmall(4, 4);
    assert 0x8696c49e ^ (4 as bv32) == 0x8696c49a;
    FMixAbcd();
    HashOneBlock(b, 42, 0x64636261, 0x8696c49e, 0x8696c49e, 0x8696c49a);
  }

  lemma StateAbcde()
    ensures Hash([0x61, 0x62, 0x63, 0x64, 0x65], 42) == FMix(0x0bab57d2)
  {
    var b: seq<bv8> := [0x61, 0x62, 0x63, 0x64, 0x65];
    BlockAbcd();
    TailAbcde();
    LengthWordSmall(5, 5);
    assert 0x0bab57d7 ^ (5 as bv32) == 0x0bab57d2;
    HashOneBlock(b, 42, 0x64636261, 0x8696c49e, 0x0bab57d7, 0x0bab57d2);
  }

  lemma KnownAnswerAbcde()
    ensures Hash([0x61, 0x62, 0x63, 0x64, 0x65], 42) == 2933533680
  {
    StateAbcde();
    FMixAbcde();
  }

  lemma TailAbcde()
    ensures MixTail(0x8696c49e, [0x61, 0x62, 0x63, 0x64, 0x65]) == 0x0bab57d7
  {
    assert TailWord([0x61, 0x62, 0x63, 0x64, 0x65]) == 0x65;
    assert MixK(0x65) == 0x8d3d9349;
  }

  lemma StateAbcdef()
    ensures Hash([0x61, 0x62, 0x63, 0x64, 0x65, 0x66], 42) == FMix(0x9e813c79)
  {
    var b: seq<bv8> := [0x61, 0x62, 0x63, 0x64, 0x65, 0x66];
    BlockAbcd();
    TailAbcdef();
    LengthWordSmall(6, 6);
    assert 0x9e813c7f ^ (6 as bv32) == 0x9e813c79;
    HashOneBlock(b, 42, 0x64636261, 0x8696c49e, 0x9e813c7f, 0x9e813c79);
  }

  lemma KnownAnswerAbcdef()
    ensures Hash([0x61, 0x62, 0x63, 0x64, 0x65, 0x66], 42) == 2449278475
  {
    StateAbcdef();
    FMixAbcdef();
  }

  lemma TailAbcdef()
    ensures MixTail(0x8696c49e, [0x61, 0x62, 0x63, 0x64, 0x65, 0x66]) == 0x9e813c7f
  {
    assert TailWord([0x61, 0x62, 0x63, 0x64, 0x65, 0x66]) == 0x6665;
    assert MixK(0x6665) == 0x1817f8e1;
  }

  lemma StateAbcdefg()
    ensures Hash([0x61, 0x62, 0x63, 0x64, 0x65, 0x66, 0x67], 42) == FMix(0x3bf7dfeb)
  {
    var b: seq<bv8> := [0x61, 0x62, 0x63, 0x64, 0x65, 0x66, 0x67];
    BlockAbcd();
    TailAbcdefg();
    LengthWordSmall(7, 7);
    assert 0x3bf7dfec ^ (7 as bv32) == 0x3bf7dfeb;
    HashOneBlock(b, 42, 0x64636261, 0x8696c49e, 0x3bf7dfec, 0x3bf7dfeb);
  }

  lemma KnownAnswerAbcdefg()
    ensures Hash([0x61, 0x62, 0x63, 0x64, 0x65, 0x66, 0x67], 42) == 1781200409
  {
    StateAbcdefg();
    FMixAbcdefg();
  }

  lemma TailAbcdefg()
    ensures MixTail(0x8696c49e, [0x61, 0x62, 0x63, 0x64, 0x65, 0x66, 0x67]) == 0x3bf7dfec
  {
    assert TailWord([0x61, 0x62, 0x63, 0x64, 0x65, 0x66, 0x67]) == 0x676665;
    assert MixK(0x676665) == 0xbd611b72;
  }

  /** The finaliser on the values the known answers need. */
  lemma FMixAbcd()
    ensures FMix(0x8696c49a) == 3898664396
  {
  }

  lemma FMixAbcde()
    ensures FMix(0x0bab57d2) == 2933533680
  {
  }

  lemma FMixAbcdef()
    ensures FMix(0x9e813c79) == 2449278475
  {
  }

  lemma FMixAbcdefg()
    ensures FMix(0x3bf7dfeb) == 1781200409
  {
  }
}

=== FILE: pipeline.dfy ===
/** The parameters of a GPU graphics pipeline and the pure part of its
    constructor: flattening the vertex buffers' attributes into SDL's lists, and
    deriving the enable flags of the blend, rasterizer and depth/stencil state.

    SDL's own enumerations appear by name; where the constructor casts one of
    this library's enumerations to SDL's, the numeric value is kept. */
module Pipeline {
  import opened Common

  // ---------------------------------------------------------------- SDL vocabulary

  datatype BlendFactor = InvalidFactor | Zero | One | SrcAlpha | OneMinusSrcAlpha | OtherFactor(id: nat)
  datatype BlendOp = InvalidOp | Add | Subtract | ReverseSubtract | MinOp | MaxOp
  datatype CompareOp = InvalidCompare | Never | Less | Equal | LessOrEqual | Greater | NotEqual
                     | GreaterOrEqual | Always
  datatype StencilOp = InvalidStencilOp | Keep | StencilZero | Replace | IncrementAndClamp
                     | DecrementAndClamp | Invert | IncrementAndWrap | DecrementAndWrap
  datatype TextureFormat = InvalidFormat | R8G8B8A8Unorm | OtherFormat(id: nat)
  datatype VertexFormat = VertexFormat(id: nat)
  datatype InputRate = PerVertex | PerInstance

  /** SDL's color component bits, as `SDL_gpu.h` defines them. */
  const ComponentR: bv8 := 1
  const ComponentG: bv8 := 2
  const ComponentB: bv8 := 4
  const ComponentA: bv8 := 8

  // ---------------------------------------------------------------- parameters

  datatype VertexAttribute = VertexAttribute(customLocation: Option<nat>, format: VertexFormat, byteOffset: nat)

  datatype VertexBuffer = VertexBuffer(pitch: nat, perInstance: bool, attributes: seq<VertexAttribute>)

  datatype Culling = AllowAll | AllowFront | AllowBack

  /** The depth bias factors; they are only copied, never computed with. */
  datatype DepthBias = DepthBias(constantFactor: real, slopeFactor: real, clamp: real)

  datatype Rasterizer = Rasterizer(wireframe: bool, culling: Culling, frontFacesAreClockwise: bool,
                                   depthBias: Option<DepthBias>, clipByDepth: bool)

  const DefaultRasterizer := Rasterizer(false, AllowAll, false, None, true)

  datatype Depth = Depth(passCondition: CompareOp, writeDepth: bool)

  const DefaultDepth := Depth(Less, true)

  datatype StencilOperation = StencilOperation(onFail: StencilOp, onPassStencilAndDepth: StencilOp,
                                               onPassStencilButFailDepth: StencilOp, condition: CompareOp)

  const DefaultStencilOperation := StencilOperation(Keep, Keep, Keep, InvalidCompare)

  datatype Stencil = Stencil(frontFaces: StencilOperation, backFaces: StencilOperation,
                             compareMask: bv8, writeMask: bv8)

  const DefaultStencil := Stencil(DefaultStencilOperation, DefaultStencilOperation, 0xff, 0xff)

  datatype ChannelBlending = ChannelBlending(source: BlendFactor, target: BlendFactor, operation: BlendOp)

  const DefaultChannelBlending := ChannelBlending(InvalidFactor, InvalidFactor, Add)

  datatype Blending = Blending(color: ChannelBlending, alpha: ChannelBlending)

  /** Which of the R, G, B and A channels a target writes. */
  datatype WriteMask = WriteMask(r: bool, g: bool, b: bool, a: bool)

  const AllChannels := WriteMask(true, true, true, true)

  datatype ColorTarget = ColorTarget(textureFormat: TextureFormat, blending: Option<Blending>, writeMask: WriteMask)

  const DefaultColorTarget := ColorTarget(R8G8B8A8Unorm, None, AllChannels)

  datatype Targets = Targets(color: seq<ColorTarget>, depthStencilFormat: Option<TextureFormat>)

  const DefaultTargets := Targets([DefaultColorTarget], None)

  // ---------------------------------------------------------------- blending presets

  /** Sets the color channel to `source`, one-minus-source-alpha and ADD, and
      copies it to the alpha channel. */
  function Preset(source: BlendFactor): (b: Blending)
    ensures b.alpha == b.color && b.color.operation == Add
    ensures b.color.source == source && b.color.target == OneMinusSrcAlpha
  {
    var color := ChannelBlending(source, OneMinusSrcAlpha, Add);
    Blending(color, color)
  }

  function Simple(): Blending
  {
    Preset(SrcAlpha)
  }

  function Premultiplied(): Blending
  {
    Preset(One)
  }

  function SimpleToPremultiplied(): Blending
  {
    Preset(One)
  }

  /** Every preset blends alpha like color, with ADD; `Premultiplied` and
      `SimpleToPremultiplied` are the same value, although their comments describe
      different inputs, and `Simple` differs from both in the source factor. */
  lemma PresetsAgree()
    ensures forall b :: b in {Simple(), Premultiplied(), SimpleToPremultiplied()} ==>
              b.alpha == b.color && b.color.operation == Add && b.color.target == OneMinusSrcAlpha
    ensures Premultiplied() == SimpleToPremultiplied()
    ensures Simple().color.source == SrcAlpha && Premultiplied().color.source == One
    ensures Simple() != Premultiplied()
  {
  }

  /** The defaults: one default color target and no depth/stencil format; masks of
      all ones; no culling and depth clipping on. */
  lemma Defaults()
    ensures |DefaultTargets.color| == 1 && DefaultTargets.color[0].blending.None?
    ensures DefaultTargets.color[0].writeMask == AllChannels && DefaultTargets.depthStencilFormat.None?
    ensures DefaultStencil.compareMask == 0xff && DefaultStencil.writeMask == 0xff
    ensures DefaultRasterizer.culling == AllowAll && DefaultRasterizer.clipByDepth
    ensures DefaultDepth.writeDepth && DefaultDepth.passCondition == Less
  {
  }

  // ---------------------------------------------------------------- vertex attributes

  /** The two readings of a step the constructor gets wrong: as written, and as
      the header's comments intend. For the attribute loop, `first_attr` is never
      cleared as written and is cleared after the first attribute as intended. */
  datatype Revision = AsWritten | Intended

  datatype SdlAttribute = SdlAttribute(location: nat, bufferSlot: nat, format: VertexFormat, offset: nat)

  datatype SdlBuffer = SdlBuffer(slot: nat, pitch: nat, inputRate: InputRate, instanceStepRate: nat)

  /** The loop state: `first_attr`, `custom_locations`, and the two lists. */
  datatype Flat = Flat(firstAttr: bool, customLocations: bool, attributes: seq<SdlAttribute>, buffers: seq<SdlBuffer>)

  const MixedLocationsMessage := "When creating a graphics pipeline, all vertex attribute locations must be either specified manually or left unspecified, in which case we use incremental ones."

  /** Lines 50-65 of pipeline.cpp for one attribute of the buffer in `slot`. */
  function AddAttribute(rev: Revision, s: Flat, slot: nat, a: VertexAttribute): (r: Result<Flat>)
    ensures r.Ok? ==> r.value.buffers == s.buffers && |r.value.attributes| == |s.attributes| + 1
    ensures r.Ok? ==> r.value.attributes[..|s.attributes|] == s.attributes
    ensures r.Ok? ==> r.value.attributes[|s.attributes|] == Place(a, |s.attributes|, slot)
    ensures r.Err? <==> !s.firstAttr && s.customLocations != a.customLocation.Some?
  {
    var custom := if s.firstAttr then a.customLocation.Some? else s.customLocations;
    if !s.firstAttr && s.customLocations != a.customLocation.Some? then Err(MixedLocationsMessage)
    else
      var location := if a.customLocation.Some? then a.customLocation.value else |s.attributes|;
      var first := if rev == AsWritten then s.firstAttr else false;
      Ok(Flat(first, custom, s.attributes + [SdlAttribute(location, slot, a.format, a.byteOffset)], s.buffers))
  }

  /** Lines 48-66: the attributes of one buffer, in order. */
  function AddAttributes(rev: Revision, s: Flat, slot: nat, attrs: seq<VertexAttribute>): (r: Result<Flat>)
    ensures r.Ok? ==> r.value.buffers == s.buffers
    decreases |attrs|
  {
    if |attrs| == 0 then Ok(s)
    else match AddAttributes(rev, s, slot, attrs[..|attrs| - 1])
      case Err(message) => Err(message)
      case Ok(s1) => AddAttribute(rev, s1, slot, attrs[|attrs| - 1])
  }

  /** Lines 46-74: the buffers in order; each buffer's description follows its
      attributes and takes the next slot. */
  function Flatten(rev: Revision, buffers: seq<VertexBuffer>): (r: Result<Flat>)
    ensures r.Ok? ==> |r.value.buffers| == |buffers|
    decreases |buffers|
  {
    if |buffers| == 0 then Ok(Flat(true, false, [], []))
    else
      var last := buffers[|buffers| - 1];
      match Flatten(rev, buffers[..|buffers| - 1])
      case Err(message) => Err(message)
      case Ok(s) =>
        match AddAttributes(rev, s, |s.buffers|, last.attributes)
        case Err(message) => Err(message)
        case Ok(s1) =>
          var rate := if last.perInstance then PerInstance else PerVertex;
          Ok(s1.(buffers := s1.buffers + [SdlBuffer(|s1.buffers|, last.pitch, rate, 0)]))
  }
  /** An attribute together with the index of its buffer. */
  datatype Tag = Tag(buffer: nat, attr: VertexAttribute)

  function TagAll(slot: nat, attrs: seq<VertexAttribute>): (ts: seq<Tag>)
    ensures |ts| == |attrs|
    ensures forall k :: 0 <= k < |attrs| ==> ts[k] == Tag(slot, attrs[k])
  {
    seq(|attrs|, k requires 0 <= k < |attrs| => Tag(slot, attrs[k]))
  }

  /** All attributes of all buffers, buffer by buffer, each tagged with its buffer. */
  function Tagged(buffers: seq<VertexBuffer>): seq<Tag>
    decreases |buffers|
  {
    if |buffers| == 0 then []
    else Tagged(buffers[..|buffers| - 1]) + TagAll(|buffers| - 1, buffers[|buffers| - 1].attributes)
  }

  /** The sum of the per-buffer attribute counts (lines 39-41). */
  function TotalAttributes(buffers: seq<VertexBuffer>): nat
    decreases |buffers|
  {
    if |buffers| == 0 then 0
    else TotalAttributes(buffers[..|buffers| - 1]) + |buffers[|buffers| - 1].attributes|
  }

  /** The SDL attribute for `a`, the `index`-th attribute overall, in buffer `slot`:
      its custom location if it has one, else its index in the flattened list. */
  function Place(a: VertexAttribute, index: nat, slot: nat): SdlAttribute
  {
    SdlAttribute(if a.customLocation.Some? then a.customLocation.value else index, slot, a.format, a.byteOffset)
  }

  lemma {:induction false} AddAttributesPlaces(rev: Revision, s: Flat, slot: nat, attrs: seq<VertexAttribute>)
    requires AddAttributes(rev, s, slot, attrs).Ok?
    ensures var r := AddAttributes(rev, s, slot, attrs).value;
      && |r.attributes| == |s.attributes| + |attrs|
      && r.attributes[..|s.attributes|] == s.attributes
      && forall k :: 0 <= k < |attrs| ==>
           r.attributes[|s.attributes| + k] == Place(attrs[k], |s.attributes| + k, slot)
    decreases |attrs|
  {
    if |attrs| > 0 {
      var front := attrs[..|attrs| - 1];
      AddAttributesPlaces(rev, s, slot, front);
      var s1 := AddAttributes(rev, s, slot, front).value;
      var r := AddAttributes(rev, s, slot, attrs).value;
      assert r == AddAttribute(rev, s1, slot, attrs[|attrs| - 1]).value;
      assert r.attributes[..|s1.attributes|] == s1.attributes;
      forall k | 0 <= k < |attrs|
        ensures r.attributes[|s.attributes| + k] == Place(attrs[k], |s.attributes| + k, slot)
      {
        if k < |attrs| - 1 {
          assert r.attributes[|s.attributes| + k] == s1.attributes[|s.attributes| + k];
          assert front[k] == attrs[k];
        }
      }
      assert r.attributes[..|s.attributes|] == s1.attributes[..|s.attributes|];
    }
  }

  /** One step of `Flatten`: the last buffer's attributes, then its description. */
  lemma FlattenStep(rev: Revision, buffers: seq<VertexBuffer>)
    requires |buffers| > 0 && Flatten(rev, buffers).Ok?
    ensures var n := |buffers| - 1;
      && Flatten(rev, buffers[..n]).Ok?
      && var s := Flatten(rev, buffers[..n]).value;
      && AddAttributes(rev, s, |s.buffers|, buffers[n].attributes).Ok?
      && var r := Flatten(rev, buffers).value;
      && r.attributes == AddAttributes(rev, s, |s.buffers|, buffers[n].attributes).value.attributes
      && r.buffers == s.buffers + [SdlBuffer(n, buffers[n].pitch,
                                            if buffers[n].perInstance then PerInstance else PerVertex, 0)]
  {
  }

  /** The flattened attributes are every buffer's attributes in order, as many as
      the per-buffer counts add up to; each records its buffer's index as its slot
      and its custom location or, failing that, its index in the flattened list. */
  lemma {:induction false} FlattenPlaces(rev: Revision, buffers: seq<VertexBuffer>)
    requires Flatten(rev, buffers).Ok?
    ensures var r := Flatten(rev, buffers).value;
      && |r.attributes| == |Tagged(buffers)| == TotalAttributes(buffers)
      && forall k :: 0 <= k < |r.attributes| ==>
           r.attributes[k] == Place(Tagged(buffers)[k].attr, k, Tagged(buffers)[k].buffer)
    decreases |buffers|
  {
    if |buffers| > 0 {
      var n := |buffers| - 1;
      var front := buffers[..n];
      FlattenStep(rev, buffers);
      FlattenPlaces(rev, front);
      var s := Flatten(rev, front).value;
      AddAttributesPlaces(rev, s, |s.buffers|, buffers[n].attributes);
      var r := Flatten(rev, buffers).value;
      var tags := Tagged(buffers);
      assert tags == Tagged(front) + TagAll(n, buffers[n].attributes);
      forall k | 0 <= k < |r.attributes|
        ensures r.attributes[k] == Place(tags[k].attr, k, tags[k].buffer)
      {
        if k < |s.attributes| {
          assert r.attributes[k] == r.attributes[..|s.attributes|][k];
        } else {
          assert r.attributes[|s.attributes| + (k - |s.attributes|)] == r.attributes[k];
        }
      }
    }
  }

  /** Buffer `i` gets slot `i`, its pitch, the instance rate exactly when it
      advances per instance, and a step rate of 0. */
  lemma {:induction false} FlattenBuffers(rev: Revision, buffers: seq<VertexBuffer>)
    requires Flatten(rev, buffers).Ok?
    ensures var r := Flatten(rev, buffers).value;
      forall i :: 0 <= i < |buffers| ==>
        r.buffers[i] == SdlBuffer(i, buffers[i].pitch, if buffers[i].perInstance then PerInstance else PerVertex, 0)
    decreases |buffers|
  {
    if |buffers| > 0 {
      var n := |buffers| - 1;
      FlattenStep(rev, buffers);
      FlattenBuffers(rev, buffers[..n]);
      var r := Flatten(rev, buffers).value;
      forall i | 0 <= i < |buffers|
        ensures r.buffers[i] == SdlBuffer(i, buffers[i].pitch,
                                          if buffers[i].perInstance then PerInstance else PerVertex, 0)
      {
        if i < n {
          assert buffers[..n][i] == buffers[i];
        }
      }
    }
  }

  // ---------------------------------------------------------------- mixed locations

  /** Either every attribute has a custom location or none has (pipeline.h, line 50). */
  predicate Uniform(tags: seq<Tag>)
  {
    forall k :: 0 <= k < |tags| ==> tags[k].attr.customLocation.Some? == tags[0].attr.customLocation.Some?
  }

  /** The loop flags after the attributes `tags`: `first_attr` until one has been
      seen, then `custom_locations` taken from the first. */
  predicate Tracks(s: Flat, tags: seq<Tag>)
  {
    && (s.firstAttr <==> |tags| == 0)
    && (|tags| > 0 ==> s.customLocations == tags[0].attr.customLocation.Some?)
  }

  lemma NotUniformExtends(t: seq<Tag>, u: seq<Tag>)
    requires !Uniform(t)
    ensures !Uniform(t + u)
  {
    var k :| 0 <= k < |t| && t[k].attr.customLocation.Some? != t[0].attr.customLocation.Some?;
    assert (t + u)[k] == t[k] && (t + u)[0] == t[0];
  }

  lemma TagAllSplit(slot: nat, attrs: seq<VertexAttribute>)
    requires |attrs| > 0
    ensures TagAll(slot, attrs) == TagAll(slot, attrs[..|attrs| - 1]) + [Tag(slot, attrs[|attrs| - 1])]
  {
  }

  lemma {:induction false} AddAttributesIntended(s: Flat, slot: nat, attrs: seq<VertexAttribute>, tags: seq<Tag>)
    requires Tracks(s, tags) && Uniform(tags)
    ensures var r := AddAttributes(Intended, s, slot, attrs);
      && (r.Ok? <==> Uniform(tags + TagAll(slot, attrs)))
      && (r.Ok? ==> Tracks(r.value, tags + TagAll(slot, attrs)))
    decreases |attrs|
  {
    if |attrs| == 0 {
      assert tags + TagAll(slot, attrs) == tags;
    } else {
      var front := attrs[..|attrs| - 1];
      var last := attrs[|attrs| - 1];
      AddAttributesIntended(s, slot, front, tags);
      TagAllSplit(slot, attrs);
      var t1 := tags + TagAll(slot, front);
      var full := tags + TagAll(slot, attrs);
      assert full == t1 + [Tag(slot, last)];
      var r1 := AddAttributes(Intended, s, slot, front);
      if r1.Err? {
        NotUniformExtends(t1, [Tag(slot, last)]);
      } else {
        assert full[|t1|] == Tag(slot, last);
        if |t1| > 0 {
          assert full[0] == t1[0];
          if Uniform(full) {
            assert forall k :: 0 <= k < |t1| ==> t1[k] == full[k];
          }
        }
      }
    }
  }

  /** As intended, flattening fails exactly when some attribute has a custom
      location and another has none, and then with the constructor's message. */
  lemma {:induction false} FlattenIntended(buffers: seq<VertexBuffer>)
    ensures var r := Flatten(Intended, buffers);
      && (r.Ok? <==> Uniform(Tagged(buffers)))
      && (r.Err? ==> r.message == MixedLocationsMessage)
      && (r.Ok? ==> Tracks(r.value, Tagged(buffers)))
    decreases |buffers|
  {
    if |buffers| > 0 {
      var n := |buffers| - 1;
      var front := buffers[..n];
      FlattenIntended(front);
      ErrorIsMixed(Intended, front);
      var r0 := Flatten(Intended, front);
      if r0.Err? {
        NotUniformExtends(Tagged(front), TagAll(n, buffers[n].attributes));
      } else {
        AddAttributesIntended(r0.value, |r0.value.buffers|, buffers[n].attributes, Tagged(front));
      }
      ErrorIsMixed(Intended, buffers);
    }
  }

  lemma {:induction false} AddAttributesErrorIsMixed(rev: Revision, s: Flat, slot: nat, attrs: seq<VertexAttribute>)
    ensures var r := AddAttributes(rev, s, slot, attrs); r.Err? ==> r.message == MixedLocationsMessage
    decreases |attrs|
  {
    if |attrs| > 0 {
      AddAttributesErrorIsMixed(rev, s, slot, attrs[..|attrs| - 1]);
    }
  }

  /** The only error flattening reports is the mixed-locations one. */
  lemma {:induction false} ErrorIsMixed(rev: Revision, buffers: seq<VertexBuffer>)
    ensures var r := Flatten(rev, buffers); r.Err? ==> r.message == MixedLocationsMessage
    decreases |buffers|
  {
    if |buffers| > 0 {
      var n := |buffers| - 1;
      ErrorIsMixed(rev, buffers[..n]);
      var r0 := Flatten(rev, buffers[..n]);
      if r0.Ok? {
        AddAttributesErrorIsMixed(rev, r0.value, |r0.value.buffers|, buffers[n].attributes);
      }
    }
  }

  lemma {:induction false} AddAttributesAsWritten(s: Flat, slot: nat, attrs: seq<VertexAttribute>)
    requires s.firstAttr
    ensures var r := AddAttributes(AsWritten, s, slot, attrs); r.Ok? && r.value.firstAttr
    decreases |attrs|
  {
    if |attrs| > 0 {
      AddAttributesAsWritten(s, slot, attrs[..|attrs| - 1]);
    }
  }

  /** As written, `first_attr` stays true, so the mixed-locations check is never
      reached and flattening never fails. */
  lemma {:induction false} FlattenNeverFailsAsWritten(buffers: seq<VertexBuffer>)
    ensures var r := Flatten(AsWritten, buffers); r.Ok? && r.value.firstAttr
    decreases |buffers|
  {
    if |buffers| > 0 {
      var n := |buffers| - 1;
      FlattenNeverFailsAsWritten(buffers[..n]);
      var s := Flatten(AsWritten, buffers[..n]).value;
      AddAttributesAsWritten(s, |s.buffers|, buffers[n].attributes);
    }
  }

  const Custom5 := VertexAttribute(Some(5), VertexFormat(0), 0)
  const Incremental := VertexAttribute(None, VertexFormat(0), 0)
  const MixedBuffers := [VertexBuffer(0, false, [Custom5, Incremental])]

  /** One buffer whose first attribute has location 5 and whose second has none:
      as written the constructor accepts it and gives the second attribute
      location 1; as intended it rejects it. */
  lemma MixedLocationsAccepted()
    ensures !Uniform(Tagged(MixedBuffers))
    ensures Flatten(AsWritten, MixedBuffers).Ok?
    ensures Flatten(AsWritten, MixedBuffers).value.attributes
         == [SdlAttribute(5, 0, VertexFormat(0), 0), SdlAttribute(1, 0, VertexFormat(0), 0)]
    ensures Flatten(Intended, MixedBuffers) == Err(MixedLocationsMessage)
  {
    var attrs := [Custom5, Incremental];
    assert MixedBuffers[..0] == [] && attrs[..1] == [Custom5] && [Custom5][..0] == [];
    var s0 := Flat(true, false, [], []);
    assert Flatten(AsWritten, MixedBuffers[..0]) == Ok(s0);
    assert AddAttributes(AsWritten, s0, 0, [Custom5]) == AddAttribute(AsWritten, s0, 0, Custom5);
    var s1 := Flat(true, true, [SdlAttribute(5, 0, VertexFormat(0), 0)], []);
    assert AddAttribute(AsWritten, s0, 0, Custom5) == Ok(s1);
    assert AddAttributes(AsWritten, s0, 0, attrs) == AddAttribute(AsWritten, s1, 0, Incremental);
    assert AddAttribute(AsWritten, s1, 0, Incremental).value.attributes
        == [SdlAttribute(5, 0, VertexFormat(0), 0), SdlAttribute(1, 0, VertexFormat(0), 0)];
    assert Flatten(Intended, MixedBuffers[..0]) == Ok(s0);
    var i1 := Flat(false, true, [SdlAttribute(5, 0, VertexFormat(0), 0)], []);
    assert AddAttribute(Intended, s0, 0, Custom5) == Ok(i1);
    assert AddAttributes(Intended, s0, 0, [Custom5]) == Ok(i1);
    assert AddAttributes(Intended, s0, 0, attrs) == AddAttribute(Intended, i1, 0, Incremental);
    var tags := Tagged(MixedBuffers);
    assert tags == Tagged([]) + TagAll(0, [Custom5, Incremental]);
    assert tags[0].attr == Custom5 && tags[1].attr == Incremental;
  }

  // ---------------------------------------------------------------- color targets

  /** SDL's blend state of one color target; the constructor value-initialises it,
      so whatever is not set stays INVALID, false or 0. */
  datatype SdlBlend = SdlBlend(enableBlend: bool, color: ChannelBlending, alpha: ChannelBlending,
                               enableWriteMask: bool, writeMask: bv8)

  datatype SdlColorTarget = SdlColorTarget(format: TextureFormat, blend: SdlBlend)

  const ZeroBlending := ChannelBlending(InvalidFactor, InvalidFactor, InvalidOp)

  /** The SDL component bits of a mask: a channel's bit is set when it is written. */
  function MaskBits(m: WriteMask): (bits: bv8)
    ensures bits & 0xf0 == 0
  {
    (if m.r then ComponentR else 0) | (if m.g then ComponentG else 0)
    | (if m.b then ComponentB else 0) | (if m.a then ComponentA else 0)
  }

  /** Reads a mask back from SDL's component bits. */
  function MaskOf(bits: bv8): WriteMask
  {
    WriteMask(bits & ComponentR != 0, bits & ComponentG != 0, bits & ComponentB != 0, bits & ComponentA != 0)
  }

  /** The bits name exactly the written channels, so no two masks share bits, and
      only the all-channels mask gives all four bits. */
  lemma MaskBitsRoundTrip(m: WriteMask)
    ensures MaskOf(MaskBits(m)) == m
    ensures MaskBits(m) == 0xf <==> m == AllChannels
  {
    var bits := MaskBits(m);
    assert bits & ComponentR != 0 <==> m.r;
    assert bits & ComponentG != 0 <==> m.g;
    assert bits & ComponentB != 0 <==> m.b;
    assert bits & ComponentA != 0 <==> m.a;
  }

  /** Lines 91-120: blending is enabled exactly when the target has blending, and
      then both channels are copied; the write mask is enabled exactly when some
      channel is off, and then its bits name the written channels and are not all
      four. */
  function ColorTargetState(t: ColorTarget): (d: SdlColorTarget)
    ensures d.format == t.textureFormat
    ensures d.blend.enableBlend <==> t.blending.Some?
    ensures t.blending.Some? ==> d.blend.color == t.blending.value.color && d.blend.alpha == t.blending.value.alpha
    ensures t.blending.None? ==> d.blend.color == ZeroBlending && d.blend.alpha == ZeroBlending
    ensures d.blend.enableWriteMask <==> t.writeMask != AllChannels
    ensures d.blend.enableWriteMask ==> MaskOf(d.blend.writeMask) == t.writeMask && d.blend.writeMask != 0xf
    ensures !d.blend.enableWriteMask ==> d.blend.writeMask == 0
  {
    MaskBitsRoundTrip(t.writeMask);
    var blend := match t.blending
      case Some(b) => SdlBlend(true, b.color, b.alpha, false, 0)
      case None => SdlBlend(false, ZeroBlending, ZeroBlending, false, 0);
    if t.writeMask != AllChannels
    then SdlColorTarget(t.textureFormat, blend.(enableWriteMask := true, writeMask := MaskBits(t.writeMask)))
    else SdlColorTarget(t.textureFormat, blend)
  }

  datatype SdlTargets = SdlTargets(color: seq<SdlColorTarget>, hasDepthStencilTarget: bool,
                                   depthStencilFormat: TextureFormat)

  /** Lines 88-132: one SDL description per color target, in order; a
      depth/stencil target exactly when a format is given. */
  function TargetsState(t: Targets): (d: SdlTargets)
    ensures |d.color| == |t.color|
    ensures forall i :: 0 <= i < |t.color| ==> d.color[i] == ColorTargetState(t.color[i])
    ensures d.hasDepthStencilTarget <==> t.depthStencilFormat.Some?
    ensures d.depthStencilFormat == if t.depthStencilFormat.Some? then t.depthStencilFormat.value else InvalidFormat
  {
    var color := seq(|t.color|, i requires 0 <= i < |t.color| => ColorTargetState(t.color[i]));
    match t.depthStencilFormat
    case Some(f) => SdlTargets(color, true, f)
    case None => SdlTargets(color, false, InvalidFormat)
  }

  /** The default targets: one target, no blending, all channels written without
      a write mask, no depth/stencil target. */
  lemma DefaultTargetsState()
    ensures var d := TargetsState(DefaultTargets);
      && |d.color| == 1 && !d.color[0].blend.enableBlend && !d.color[0].blend.enableWriteMask
      && d.color[0].format == R8G8B8A8Unorm && !d.hasDepthStencilTarget
  {
  }

  // ---------------------------------------------------------------- rasterizer

  datatype FillMode = FillMode | LineMode
  datatype FrontFace = CounterClockwise | Clockwise

  /** SDL's cull modes in the order of `SDL_GPUCullMode`: NONE, FRONT, BACK, where
      FRONT culls (removes) the front faces and BACK the back faces. */
  datatype CullMode = CullNone | CullFront | CullBack

  /** Whether `mode` removes the front faces (`front`) or the back faces (`!front`). */
  predicate Culls(mode: CullMode, front: bool)
  {
    match mode
    case CullNone => false
    case CullFront => front
    case CullBack => !front
  }

  /** What the header's comments promise: `allow_front` keeps front faces and
      culls back ones, `allow_back` the opposite. */
  predicate Allows(c: Culling, front: bool)
  {
    match c
    case AllowAll => true
    case AllowFront => front
    case AllowBack => !front
  }

  function CullingOrdinal(c: Culling): nat
  {
    match c
    case AllowAll => 0
    case AllowFront => 1
    case AllowBack => 2
  }

  function CullModeFromOrdinal(n: nat): CullMode
    requires n < 3
  {
    if n == 0 then CullNone else if n == 1 then CullFront else CullBack
  }

  /** Line 141: the culling setting cast to SDL's enumeration by its value, or the
      mode that keeps the faces the setting names. */
  function CullModeOf(rev: Revision, c: Culling): CullMode
  {
    match rev
    case AsWritten => CullModeFromOrdinal(CullingOrdinal(c))
    case Intended =>
      match c
      case AllowAll => CullNone
      case AllowFront => CullBack
      case AllowBack => CullFront
  }

  /** As intended, a face kind is culled exactly when the setting does not allow it. */
  lemma CullingKeepsAllowed(c: Culling, front: bool)
    ensures Culls(CullModeOf(Intended, c), front) <==> !Allows(c, front)
  {
  }

  /** As written, `allow_front` becomes SDL's FRONT, which removes the very faces it
      is documented to keep, and `allow_back` likewise. */
  lemma CullingCastInverted()
    ensures Allows(AllowFront, true) && Culls(CullModeOf(AsWritten, AllowFront), true)
    ensures Allows(AllowBack, false) && Culls(CullModeOf(AsWritten, AllowBack), false)
    ensures CullModeOf(AsWritten, AllowAll) == CullModeOf(Intended, AllowAll) == CullNone
  {
  }

  const ZeroDepthBias := DepthBias(0.0, 0.0, 0.0)

  datatype SdlRasterizer = SdlRasterizer(fillMode: FillMode, cullMode: CullMode, frontFace: FrontFace,
                                         enableDepthBias: bool, depthBias: DepthBias, enableDepthClip: bool)

  /** Lines 139-154: wireframe draws lines, the front face follows the winding
      flag, the depth bias is enabled and copied exactly when one is given, and
      depth clipping follows its flag. */
  function RasterizerState(rev: Revision, r: Rasterizer): (d: SdlRasterizer)
    ensures d.fillMode == LineMode <==> r.wireframe
    ensures d.frontFace == Clockwise <==> r.frontFacesAreClockwise
    ensures d.cullMode == CullModeOf(rev, r.culling)
    ensures d.enableDepthBias <==> r.depthBias.Some?
    ensures d.depthBias == if r.depthBias.Some? then r.depthBias.value else ZeroDepthBias
    ensures d.enableDepthClip == r.clipByDepth
  {
    SdlRasterizer(if r.wireframe then LineMode else FillMode,
                  CullModeOf(rev, r.culling),
                  if r.frontFacesAreClockwise then Clockwise else CounterClockwise,
                  r.depthBias.Some?,
                  if r.depthBias.Some? then r.depthBias.value else ZeroDepthBias,
                  r.clipByDepth)
  }

  // ---------------------------------------------------------------- depth and stencil

  datatype SdlStencilState = SdlStencilState(failOp: StencilOp, passOp: StencilOp, depthFailOp: StencilOp,
                                             compareOp: CompareOp)

  datatype SdlDepthStencil = SdlDepthStencil(
    compareOp: CompareOp, back: SdlStencilState, front: SdlStencilState, compareMask: bv8, writeMask: bv8,
    enableDepthTest: bool, enableDepthWrite: bool, enableStencilTest: bool)

  const ZeroStencilState := SdlStencilState(InvalidStencilOp, InvalidStencilOp, InvalidStencilOp, InvalidCompare)

  function StencilState(o: StencilOperation): SdlStencilState
  {
    SdlStencilState(o.onFail, o.onPassStencilAndDepth, o.onPassStencilButFailDepth, o.condition)
  }

  /** Lines 162-189: the depth test is on exactly when depth settings are given,
      so depth is written only while it is tested, as SDL requires; the stencil
      test is on exactly when stencil settings are given, and then both faces'
      operations and the masks are copied. */
  function DepthStencilState(depth: Option<Depth>, stencil: Option<Stencil>): (d: SdlDepthStencil)
    ensures d.enableDepthTest <==> depth.Some?
    ensures d.enableDepthWrite <==> depth.Some? && depth.value.writeDepth
    ensures d.enableDepthWrite ==> d.enableDepthTest
    ensures d.compareOp == if depth.Some? then depth.value.passCondition else InvalidCompare
    ensures d.enableStencilTest <==> stencil.Some?
    ensures stencil.Some? ==> (
      && d.front == StencilState(stencil.value.frontFaces) && d.back == StencilState(stencil.value.backFaces)
      && d.compareMask == stencil.value.compareMask && d.writeMask == stencil.value.writeMask)
    ensures stencil.None? ==> d.front == d.back == ZeroStencilState && d.compareMask == d.writeMask == 0
  {
    var withDepth := match depth
      case Some(dp) => SdlDepthStencil(dp.passCondition, ZeroStencilState, ZeroStencilState, 0, 0, true, dp.writeDepth, false)
      case None => SdlDepthStencil(InvalidCompare, ZeroStencilState, ZeroStencilState, 0, 0, false, false, false);
    match stencil
    case Some(st) =>
      withDepth.(enableStencilTest := true, front := StencilState(st.frontFaces), back := StencilState(st.backFaces),
                 compareMask := st.compareMask, writeMask := st.writeMask)
    case None => withDepth
  }

  // ---------------------------------------------------------------- the constructor

  /** The parameters; the primitive type and sample count are cast and copied
      unchanged and are kept as numbers. */
  datatype Params = Params(vertexBuffers: seq<VertexBuffer>, primitive: nat, rasterizer: Rasterizer,
                           samples: nat, depth: Option<Depth>, stencil: Option<Stencil>, targets: Targets)

  /** What the constructor hands to `SDL_CreateGPUGraphicsPipeline`. */
  datatype CreateInfo = CreateInfo(attributes: seq<SdlAttribute>, buffers: seq<SdlBuffer>, targets: SdlTargets,
                                   primitive: nat, rasterizer: SdlRasterizer, samples: nat,
                                   depthStencil: SdlDepthStencil)

  const CreateFailedMessage := "Unable to create a GPU pipeline: "

  /** Lines 13-189: the description of a pipeline, or the mixed-locations
      error. As written the error never comes, because `first_attr` is never
      cleared, and `allow_front` is cast to SDL's front-face culling; the
      intended reading rejects mixed locations and culls the faces not allowed. */
  function Describe(rev: Revision, p: Params): (r: Result<CreateInfo>)
    ensures rev == Intended ==> (r.Ok? <==> Uniform(Tagged(p.vertexBuffers)))
    ensures rev == AsWritten ==> r.Ok?
    ensures r.Err? ==> r.message == MixedLocationsMessage
    ensures r.Ok? ==> (
      && r.value.targets == TargetsState(p.targets)
      && r.value.rasterizer == RasterizerState(rev, p.rasterizer)
      && r.value.depthStencil == DepthStencilState(p.depth, p.stencil)
      && |r.value.attributes| == TotalAttributes(p.vertexBuffers)
      && |r.value.buffers| == |p.vertexBuffers|)
  {
    FlattenIntended(p.vertexBuffers);
    FlattenNeverFailsAsWritten(p.vertexBuffers);
    match Flatten(rev, p.vertexBuffers)
    case Err(message) =>
      ErrorIsMixed(rev, p.vertexBuffers);
      Err(message)
    case Ok(flat) =>
      FlattenPlaces(rev, p.vertexBuffers);
      Ok(CreateInfo(flat.attributes, flat.buffers, TargetsState(p.targets), p.primitive,
                    RasterizerState(rev, p.rasterizer), p.samples, DepthStencilState(p.depth, p.stencil)))
  }

  /** With uniform locations both readings describe the same pipeline, except
      for the cull mode, which only line 141's cast decides. */
  lemma DescribeReadingsAgree(p: Params)
    requires Uniform(Tagged(p.vertexBuffers))
    ensures Describe(AsWritten, p).Ok? && Describe(Intended, p).Ok?
    ensures var a := Describe(AsWritten, p).value;
      var b := Describe(Intended, p).value;
      && a.attributes == b.attributes && a.buffers == b.buffers
      && a.targets == b.targets && a.depthStencil == b.depthStencil
      && a.primitive == b.primitive && a.samples == b.samples
      && a.rasterizer.(cullMode := b.rasterizer.cullMode) == b.rasterizer
  {
    var a := Describe(AsWritten, p).value;
    var b := Describe(Intended, p).value;
    FlattenPlaces(AsWritten, p.vertexBuffers);
    FlattenPlaces(Intended, p.vertexBuffers);
    FlattenBuffers(AsWritten, p.vertexBuffers);
    FlattenBuffers(Intended, p.vertexBuffers);
    assert a.attributes == Flatten(AsWritten, p.vertexBuffers).value.attributes;
    assert b.attributes == Flatten(Intended, p.vertexBuffers).value.attributes;
    assert a.buffers == Flatten(AsWritten, p.vertexBuffers).value.buffers;
    assert b.buffers == Flatten(Intended, p.vertexBuffers).value.buffers;
  }

  /** Lines 192-197: creation by SDL, given its outcome (`None` for success, or
      SDL's error text). In the intended reading a mixed-locations error comes
      first; as written only a failed creation throws, with SDL's error appended
      to a fixed prefix. */
  function Create(rev: Revision, p: Params, sdlError: Option<string>): (r: Result<CreateInfo>)
    ensures rev == Intended ==> (r.Ok? <==> Uniform(Tagged(p.vertexBuffers)) && sdlError.None?)
    ensures rev == AsWritten ==> (r.Ok? <==> sdlError.None?)
    ensures rev == Intended && !Uniform(Tagged(p.vertexBuffers)) ==> r == Err(MixedLocationsMessage)
    ensures (rev == AsWritten || Uniform(Tagged(p.vertexBuffers))) && sdlError.Some?
            ==> r == Err(CreateFailedMessage + sdlError.value)
    ensures r.Ok? ==> r == Describe(rev, p)
  {
    match Describe(rev, p)
    case Err(message) => Err(message)
    case Ok(info) =>
      match sdlError
      case Some(e) => Err(CreateFailedMessage + e)
      case None => Ok(info)
  }
}

=== FILE: process.dfy ===
/** A child process whose standard input is fed by an input callback and whose
    output is drained into an output callback. Nothing runs in a thread: the
    pipes are pumped only when the process status is checked.

    The operating system is an oracle carried in the state. A pipe is the
    sequence of answers it will give to writes or reads, and the process
    itself is the sequence of answers it will give to exit polls. */
module Process {
  import opened Common

  // ---------------------------------------------------------------- the oracle

  /** The status SDL reports for a stream after a read or a write. */
  datatype IOStatus = Ready | NotReady | Error | Eof

  /** The answer of the input pipe to one write: how many of the offered bytes it
      takes (at most all of them), and the stream status afterwards. */
  datatype WriteReply = WriteReply(accepted: nat, status: IOStatus)

  /** The answer of the output pipe to one read: the bytes waiting in the pipe (a
      read takes at most `ReadChunk` of them and leaves the rest), or no bytes and
      the stream status. Waiting bytes that are empty read as nothing with the
      status still `Ready`. */
  datatype ReadReply = Waiting(data: string) | Nothing(status: IOStatus)

  /** What the operating system answers while a process is being started: whether
      the process could be created, the pipes it hands out for redirected streams
      (`None` for a null stream handle), and the later answers to exit polls. */
  datatype Os = Os(starts: bool, stdin: Option<seq<WriteReply>>, stdout: Option<seq<ReadReply>>,
                   waits: seq<Option<int>>)

  /** The size of each read from the output pipe. */
  const ReadChunk: nat := 1024

  // ---------------------------------------------------------------- callbacks

  /** The input callbacks the model knows: the one `InputFromString` makes, which
      remembers how much of its string has been sent, and a callback that writes
      nothing and never reports that it is done. */
  datatype InputCallback = FromString(input: string, pos: nat) | Stalling

  predicate ValidInput(cb: InputCallback)
  {
    cb.FromString? ==> cb.pos <= |cb.input|
  }

  /** The callback `OutputToString` makes: it appends to a shared target string and
      remembers how many more bytes it may append. The target itself lives in the
      process state, as the shared string outlives the callback. */
  datatype OutputCallback = ToString(remaining: nat)

  function InputFromString(input: string): (cb: InputCallback)
    ensures ValidInput(cb) && Offer(cb) == input
  {
    FromString(input, 0)
  }

  function OutputToString(maxBytes: nat): (cb: OutputCallback)
    ensures cb.remaining == maxBytes
  {
    ToString(maxBytes)
  }

  /** The bytes an input callback passes to `write`: for a string, the part not
      yet sent. */
  function Offer(cb: InputCallback): (data: string)
    requires ValidInput(cb)
    ensures cb.FromString? ==> cb.input == cb.input[..cb.pos] + data
  {
    match cb
    case FromString(input, pos) => input[pos..]
    case Stalling => ""
  }

  /** An input callback after `write` took `n` of the offered bytes, and what the
      callback returns: true when it has nothing more to write. */
  datatype Resumed = Resumed(callback: InputCallback, done: bool)

  function Resume(cb: InputCallback, n: nat): (r: Resumed)
    requires ValidInput(cb) && n <= |Offer(cb)|
    ensures ValidInput(r.callback)
    ensures cb.FromString? ==> r.callback.FromString? && r.callback.input == cb.input
    ensures cb.FromString? ==> r.callback.input[..r.callback.pos] == cb.input[..cb.pos] + Offer(cb)[..n]
    ensures cb.FromString? ==> (r.done <==> |Offer(r.callback)| == 0)
    ensures cb.Stalling? ==> r == Resumed(Stalling, false)
  {
    match cb
    case FromString(input, pos) =>
      assert input[..pos + n] == input[..pos] + input[pos..][..n];
      Resumed(FromString(input, pos + n), pos + n == |input|)
    case Stalling => Resumed(Stalling, false)
  }

  /** Feeds `InputFromString`'s callback a series of write results: each call takes
      `ns[k]` bytes of what is offered. Ends early if a count is more than offered. */
  function FeedInput(cb: InputCallback, ns: seq<nat>): (r: InputCallback)
    requires ValidInput(cb)
    ensures ValidInput(r)
    decreases |ns|
  {
    if |ns| == 0 || ns[0] > |Offer(cb)| then cb
    else FeedInput(Resume(cb, ns[0]).callback, ns[1..])
  }

  /** The pieces that the writes in `ns` took from `InputFromString`'s callback. */
  function Pieces(cb: InputCallback, ns: seq<nat>): seq<string>
    requires ValidInput(cb)
    decreases |ns|
  {
    if |ns| == 0 || ns[0] > |Offer(cb)| then []
    else [Offer(cb)[..ns[0]]] + Pieces(Resume(cb, ns[0]).callback, ns[1..])
  }

  /** The bytes delivered by the successive writes concatenate to the sent prefix
      of the input, and what remains to offer is the rest. */
  lemma {:induction false} FeedDelivers(cb: InputCallback, ns: seq<nat>)
    requires ValidInput(cb) && cb.FromString?
    ensures FeedInput(cb, ns).FromString? && FeedInput(cb, ns).input == cb.input
    ensures cb.input[..cb.pos] + Concat(Pieces(cb, ns)) + Offer(FeedInput(cb, ns)) == cb.input
    decreases |ns|
  {
    if |ns| == 0 || ns[0] > |Offer(cb)| {
    } else {
      var next := Resume(cb, ns[0]).callback;
      FeedDelivers(next, ns[1..]);
      var piece := Offer(cb)[..ns[0]];
      var later := Concat(Pieces(next, ns[1..]));
      var left := Offer(FeedInput(next, ns[1..]));
      assert FeedInput(cb, ns) == FeedInput(next, ns[1..]);
      assert next.input[..next.pos] == cb.input[..cb.pos] + piece;
      assert Concat(Pieces(cb, ns)) == piece + later;
      assert cb.input[..cb.pos] + (piece + later) + left == (cb.input[..cb.pos] + piece) + later + left;
    }
  }

  /** Starting from `InputFromString(input)`, every byte is delivered exactly once:
      the pieces the writes took are the prefix of `input` sent so far. */
  lemma FromStringDelivers(input: string, ns: seq<nat>)
    ensures input == Concat(Pieces(InputFromString(input), ns)) + Offer(FeedInput(InputFromString(input), ns))
  {
    FeedDelivers(InputFromString(input), ns);
    assert input[..0] == [];
  }

  /** `OutputToString`'s callback receiving one chunk: nothing once the budget is
      spent, otherwise as much of the chunk as the budget allows. */
  function Receive(cb: OutputCallback, target: string, data: string): (r: (OutputCallback, string))
    ensures r.1 == target + data[..Min(|data|, cb.remaining)]
    ensures r.0.remaining == cb.remaining - Min(|data|, cb.remaining)
  {
    if cb.remaining == 0 then (cb, target)
    else if cb.remaining < |data| then (ToString(0), target + data[..cb.remaining])
    else (ToString(cb.remaining - |data|), target + data)
  }

  function ReceiveAll(cb: OutputCallback, target: string, chunks: seq<string>): (r: (OutputCallback, string))
    decreases |chunks|
  {
    if |chunks| == 0 then (cb, target)
    else
      var (cb', target') := Receive(cb, target, chunks[0]);
      ReceiveAll(cb', target', chunks[1..])
  }

  /** Over any series of chunks, the target gains the prefix of their concatenation
      that fits the budget, and chunks after the budget is spent are ignored. */
  lemma {:induction false} ReceiveAllCaps(cb: OutputCallback, target: string, chunks: seq<string>)
    ensures ReceiveAll(cb, target, chunks).1
         == target + Concat(chunks)[..Min(|Concat(chunks)|, cb.remaining)]
    ensures ReceiveAll(cb, target, chunks).0.remaining
         == cb.remaining - Min(|Concat(chunks)|, cb.remaining)
    decreases |chunks|
  {
    if |chunks| > 0 {
      var c := chunks[0];
      var rest := Concat(chunks[1..]);
      var (cb', target') := Receive(cb, target, c);
      ReceiveAllCaps(cb', target', chunks[1..]);
      assert Concat(chunks) == c + rest;
      if cb.remaining < |c| {
        assert (c + rest)[..cb.remaining] == c[..cb.remaining];
      } else {
        var k := Min(|rest|, cb.remaining - |c|);
        assert (c + rest)[..|c| + k] == c + rest[..k];
      }
    }
  }

  /** `OutputToString(target, maxBytes)` leaves the target as the first
      `min(total, maxBytes)` bytes of everything the process printed. */
  lemma OutputToStringKeepsPrefix(maxBytes: nat, chunks: seq<string>)
    ensures ReceiveAll(OutputToString(maxBytes), "", chunks).1
         == Concat(chunks)[..Min(|Concat(chunks)|, maxBytes)]
  {
    ReceiveAllCaps(OutputToString(maxBytes), "", chunks);
  }

  // ---------------------------------------------------------------- the process state

  /** `handle` is a non-null process handle; a stream is `None` when it is null, and
      an open stream is the sequence of answers its pipe will give. */
  datatype Process = Process(
    handle: bool,
    debugCmdline: string,
    exitCode: Option<int>,
    inputStream: Option<seq<WriteReply>>,
    inputCallback: Option<InputCallback>,
    outputStream: Option<seq<ReadReply>>,
    outputCallback: Option<OutputCallback>,
    target: string,
    waits: seq<Option<int>>)

  /** The default-constructed (and moved-from) null instance. */
  const Empty := Process(false, "", None, None, None, None, None, "", [])

  /** An open stream always has its callback. */
  predicate Valid(p: Process)
  {
    && (p.inputStream.Some? ==> p.inputCallback.Some? && ValidInput(p.inputCallback.value))
    && (p.outputStream.Some? ==> p.outputCallback.Some?)
  }

  const NullMessage := "This process wrapper is null."
  const UnfinishedMessage := "This process hasn't finished running yet, or its status wasn't updated."
  const StartFailedMessage := "Failed to start process: "
  const NoInputMessage := "Failed to get the process input stream handle."
  const NoOutputMessage := "Failed to get the process output stream handle."

  /** `operator bool`. */
  predicate NonNull(p: Process)
  {
    p.handle
  }

  /** The exception `ThrowIfNull` throws, if any. */
  function ThrowIfNull(p: Process): (r: Option<string>)
    ensures r.Some? <==> !NonNull(p)
    ensures r.Some? ==> r.value == NullMessage
  {
    if !p.handle then Some(NullMessage) else None
  }

  function GetDebugCommandLine(p: Process): string
  {
    p.debugCmdline
  }

  predicate KnownToBeFinished(p: Process)
  {
    p.exitCode.Some?
  }

  function ThrowIfNotKnownToBeFinished(p: Process): (r: Option<string>)
    ensures r.None? <==> NonNull(p) && KnownToBeFinished(p)
    ensures !NonNull(p) ==> r == Some(NullMessage)
    ensures NonNull(p) && !KnownToBeFinished(p) ==> r == Some(UnfinishedMessage)
  {
    if !p.handle then Some(NullMessage)
    else if p.exitCode.None? then Some(UnfinishedMessage)
    else None
  }

  function ExitCode(p: Process): (r: Result<int>)
    ensures r.Ok? <==> NonNull(p) && KnownToBeFinished(p)
    ensures r.Ok? ==> Some(r.value) == p.exitCode
    ensures r.Err? ==> Some(r.message) == ThrowIfNotKnownToBeFinished(p)
  {
    match ThrowIfNotKnownToBeFinished(p)
    case Some(message) => Err(message)
    case None => Ok(p.exitCode.value)
  }

  /** The moved-to object takes the whole state and the source is left null. */
  datatype Moved = Moved(target: Process, source: Process)

  function Move(p: Process): (r: Moved)
    ensures r.target == p
    ensures !NonNull(r.source) && GetDebugCommandLine(r.source) == "" && !KnownToBeFinished(r.source)
    ensures r.source.inputStream.None? && r.source.outputStream.None?
  {
    Moved(p, Empty)
  }

  /** `Kill` leaves the state as it is; `signalled` says whether it asks the
      operating system to kill the process. */
  datatype Killed = Killed(process: Process, signalled: bool)

  function Kill(p: Process, force: bool): (r: Killed)
    ensures r.process == p
    ensures r.signalled <==> NonNull(p) && !KnownToBeFinished(p)
  {
    Killed(p, p.handle && p.exitCode.None?)
  }

  /** Detaching forgets the handle, the pipes and the callbacks. The text already
      appended to the caller's shared string stays there. */
  function Detach(p: Process): (r: Process)
    ensures !NonNull(r) && r.target == p.target
    ensures NonNull(p) ==> (r.inputStream.None? && r.outputStream.None? && r.outputCallback.None?
                            && r.exitCode.None? && r.debugCmdline == "")
    ensures !NonNull(p) ==> r == p
  {
    if p.handle then Empty.(target := p.target) else p
  }

  /** Detaching twice is detaching once, and a detached process is null. */
  lemma DetachIdempotent(p: Process)
    ensures Detach(Detach(p)) == Detach(p)
    ensures NonNull(p) ==> !NonNull(Detach(p)) && ThrowIfNull(Detach(p)) == Some(NullMessage)
  {
  }

  // ---------------------------------------------------------------- writing input

  /** The result of the loop inside `write`: the bytes written so far, the status
      after the last write and the pipe's remaining answers. */
  datatype Written = Written(written: nat, status: IOStatus, pipe: seq<WriteReply>)

  /** Keeps writing while bytes remain and the stream says it is ready. A pipe
      whose answers are used up takes nothing and reports an error. */
  function WriteLoop(size: nat, written: nat, pipe: seq<WriteReply>): (r: Written)
    requires written <= size
    ensures written <= r.written <= size
    ensures r.written < size ==> r.status != Ready
    ensures |pipe| > 0 ==> |r.pipe| < |pipe|
    ensures |r.pipe| <= |pipe|
    decreases |pipe|
  {
    if |pipe| == 0 then Written(written, Error, [])
    else
      var n := written + Min(pipe[0].accepted, size - written);
      if n < size && pipe[0].status == Ready then WriteLoop(size, n, pipe[1..])
      else Written(n, pipe[0].status, pipe[1..])
  }

  /** What one call of `write` did: the count it returns, whether it had data,
      and whether the stream is full or failed. */
  datatype WriteEffect = WriteEffect(written: nat, hadData: bool, full: bool, error: bool,
                                     pipe: seq<WriteReply>)

  function Write(data: string, pipe: seq<WriteReply>): (r: WriteEffect)
    ensures r.written <= |data|
    ensures r.hadData <==> |data| > 0
    ensures r.full || r.error <==> r.written < |data|
    ensures !(r.full && r.error)
    ensures |data| == 0 ==> r.pipe == pipe
    ensures |data| > 0 ==> |r.pipe| < |pipe| || (|pipe| == 0 && r.error)
  {
    if |data| == 0 then WriteEffect(0, false, false, false, pipe)
    else
      var w := WriteLoop(|data|, 0, pipe);
      WriteEffect(w.written, true, w.written < |data| && w.status == NotReady,
                  w.written < |data| && w.status != NotReady, w.pipe)
  }

  /** One round of the loop in `WriteMoreInput`: the callback is invoked once. */
  datatype Round = Round(callback: InputCallback, eof: bool, effect: WriteEffect)

  function InputRound(cb: InputCallback, pipe: seq<WriteReply>): (r: Round)
    requires ValidInput(cb)
    ensures ValidInput(r.callback)
  {
    var e := Write(Offer(cb), pipe);
    var resumed := Resume(cb, e.written);
    Round(resumed.callback, resumed.done, e)
  }

  /** The number of answers left in the open input pipe, plus one for the pipe. */
  function InputMeasure(p: Process): nat
  {
    if p.inputStream.Some? then 1 + |p.inputStream.value| else 0
  }

  /** Lines 21-79 of process.cpp: call the input callback until it is done, the
      stream fails, or the stream is full. Done or failed closes the stream and
      drops the callback. A round that is none of these repeats forever. */
  function WriteMoreInput(p: Process): (r: Run<Process>)
    requires Valid(p)
    ensures !r.Throws?
    ensures r.Returns? ==> Valid(r.value)
    ensures r.Returns? ==> r.value.(inputStream := p.inputStream, inputCallback := p.inputCallback) == p
    ensures r.Returns? && p.inputStream.Some? ==> InputMeasure(r.value) < InputMeasure(p)
    ensures p.inputStream.None? ==> r == Returns(p)
    ensures r.Returns? ==> (r.value.inputStream.None? <==> r.value.inputCallback.None? || p.inputStream.None?)
  {
    if p.inputStream.None? then Returns(p)
    else
      var round := InputRound(p.inputCallback.value, p.inputStream.value);
      if round.eof || round.effect.error then
        Returns(p.(inputStream := None, inputCallback := None))
      else if round.effect.full then
        Returns(p.(inputStream := Some(round.effect.pipe), inputCallback := Some(round.callback)))
      else
        RoundRepeats(p.inputCallback.value, p.inputStream.value);
        Diverges
  }

  /** A round that ends in neither done, error nor full left the callback and the
      pipe as they were, so the loop repeats the very same round forever. Of the
      two callbacks modelled, only the stalling one, which writes nothing and is
      never done, gets there. */
  lemma RoundRepeats(cb: InputCallback, pipe: seq<WriteReply>)
    requires ValidInput(cb)
    requires !InputRound(cb, pipe).eof && !InputRound(cb, pipe).effect.error && !InputRound(cb, pipe).effect.full
    ensures InputRound(cb, pipe).callback == cb && InputRound(cb, pipe).effect.pipe == pipe
    ensures cb.Stalling?
  {
  }

  /** With `InputFromString` every round ends in done, full or error, so the loop in
      `WriteMoreInput` ends. */
  lemma FromStringTerminates(p: Process)
    requires Valid(p) && p.inputStream.Some? && p.inputCallback.value.FromString?
    ensures WriteMoreInput(p).Returns?
  {
  }

  /** A callback that writes nothing and returns false keeps `WriteMoreInput` looping
      forever: `callback_had_data` is set but never read. */
  lemma StallingDiverges(p: Process)
    requires Valid(p) && p.inputStream.Some? && p.inputCallback == Some(Stalling)
    ensures WriteMoreInput(p) == Diverges
  {
  }

  // ---------------------------------------------------------------- reading output

  /** The process after its output callback received `chunk`. */
  function Deliver(p: Process, chunk: string): (q: Process)
    requires p.outputCallback.Some?
    ensures q.outputCallback.Some? && q.(outputCallback := p.outputCallback, target := p.target) == p
    ensures (q.outputCallback.value, q.target) == Receive(p.outputCallback.value, p.target, chunk)
  {
    var (cb, target) := Receive(p.outputCallback.value, p.target, chunk);
    p.(outputCallback := Some(cb), target := target)
  }

  /** The size of the answers left in an output pipe: one per answer plus the
      bytes waiting. */
  function PipeSize(pipe: seq<ReadReply>): nat
  {
    if |pipe| == 0 then 0
    else (if pipe[0].Waiting? then |pipe[0].data| else 0) + 1 + PipeSize(pipe[1..])
  }

  function OutputMeasure(p: Process): nat
  {
    if p.outputStream.Some? then 1 + PipeSize(p.outputStream.value) else 0
  }

  /** Lines 81-113 of process.cpp: read chunks of at most `ReadChunk` bytes and
      pass each non-empty one to the callback. A read of nothing stops; unless the
      status is "not ready" the stream and the callback are dropped for good. An
      output pipe whose answers are used up is at its end. */
  function ReadMoreOutput(p: Process): (r: Process)
    requires Valid(p)
    ensures Valid(r)
    ensures r.(outputStream := p.outputStream, outputCallback := p.outputCallback, target := p.target) == p
    ensures p.outputStream.None? ==> r == p
    ensures p.outputStream.Some? ==> OutputMeasure(r) < OutputMeasure(p)
    ensures r.outputStream.Some? ==> r.outputCallback.Some?
    decreases OutputMeasure(p)
  {
    if p.outputStream.None? then p
    else
      var pipe := p.outputStream.value;
      if |pipe| == 0 then p.(outputStream := None, outputCallback := None)
      else match pipe[0]
        case Nothing(status) =>
          if status == NotReady then p.(outputStream := Some(pipe[1..]))
          else p.(outputStream := None, outputCallback := None)
        case Waiting(data) =>
          if |data| == 0 then p.(outputStream := None, outputCallback := None)
          else
            var n := Min(|data|, ReadChunk);
            var rest := if n < |data| then [Waiting(data[n..])] + pipe[1..] else pipe[1..];
            assert PipeSize(rest) < PipeSize(pipe) by {
              if n < |data| {
                assert rest[1..] == pipe[1..];
              }
            }
            ReadMoreOutput(Deliver(p.(outputStream := Some(rest)), data[..n]))
  }

  /** A read that returns nothing: no bytes waiting, or waiting bytes that are empty. */
  predicate EmptyRead(reply: ReadReply)
  {
    reply.Nothing? || |reply.data| == 0
  }

  /** The bytes the reads deliver before the first read that returns nothing. */
  function PendingBytes(pipe: seq<ReadReply>): string
    decreases |pipe|
  {
    if |pipe| == 0 || EmptyRead(pipe[0]) then "" else pipe[0].data + PendingBytes(pipe[1..])
  }

  /** The first read that returns nothing reports "not ready". */
  predicate StopsNotReady(pipe: seq<ReadReply>)
    decreases |pipe|
  {
    if |pipe| == 0 then false
    else if EmptyRead(pipe[0]) then pipe[0] == Nothing(NotReady)
    else StopsNotReady(pipe[1..])
  }

  /** Handing the callback two chunks is handing it their concatenation. */
  lemma ReceiveConcat(cb: OutputCallback, target: string, a: string, b: string)
    ensures Receive(Receive(cb, target, a).0, Receive(cb, target, a).1, b) == Receive(cb, target, a + b)
  {
    var r1 := Receive(cb, target, a);
    var r2 := Receive(r1.0, r1.1, b);
    var r := Receive(cb, target, a + b);
    if cb.remaining <= |a| {
      assert (a + b)[..cb.remaining] == a[..cb.remaining];
      assert r2.1 == r.1;
    } else {
      var k := Min(|b|, cb.remaining - |a|);
      assert a[..|a|] == a;
      assert (a + b)[..|a| + k] == a + b[..k];
      assert r2.1 == target + a + b[..k];
      assert r2.1 == r.1;
    }
    assert r2.0.remaining == r.0.remaining;
  }

  /** The bytes the first read takes from a pipe whose first answer has bytes. */
  function FirstChunk(pipe: seq<ReadReply>): (chunk: string)
    requires |pipe| > 0 && !EmptyRead(pipe[0])
    ensures 0 < |chunk| <= ReadChunk
  {
    pipe[0].data[..Min(|pipe[0].data|, ReadChunk)]
  }

  /** The pipe after that first read. */
  function AfterFirstChunk(pipe: seq<ReadReply>): (rest: seq<ReadReply>)
    requires |pipe| > 0 && !EmptyRead(pipe[0])
    ensures PendingBytes(pipe) == FirstChunk(pipe) + PendingBytes(rest)
    ensures StopsNotReady(rest) == StopsNotReady(pipe)
  {
    var data := pipe[0].data;
    var n := Min(|data|, ReadChunk);
    if n < |data| then
      var rest := [Waiting(data[n..])] + pipe[1..];
      assert rest[1..] == pipe[1..];
      assert data == data[..n] + data[n..];
      rest
    else
      assert data[..n] == data;
      pipe[1..]
  }

  /** `ReadMoreOutput` after a read that returned bytes is `ReadMoreOutput` on the
      state where the callback has received them. */
  lemma ReadStep(p: Process)
    requires Valid(p) && p.outputStream.Some? && |p.outputStream.value| > 0
    requires !EmptyRead(p.outputStream.value[0])
    ensures ReadMoreOutput(p)
         == ReadMoreOutput(Deliver(p.(outputStream := Some(AfterFirstChunk(p.outputStream.value))),
                                   FirstChunk(p.outputStream.value)))
  {
  }

  /** Every byte waiting before the first empty read goes to the callback, in order
      and in full, as if it had been handed over in one piece. */
  lemma {:induction false} ReadDeliversPending(p: Process)
    requires Valid(p) && p.outputStream.Some?
    ensures ReadMoreOutput(p).target
         == Receive(p.outputCallback.value, p.target, PendingBytes(p.outputStream.value)).1
    decreases OutputMeasure(p)
  {
    var pipe := p.outputStream.value;
    if |pipe| > 0 && !EmptyRead(pipe[0]) {
      var q := Deliver(p.(outputStream := Some(AfterFirstChunk(pipe))), FirstChunk(pipe));
      ReadStep(p);
      ReadDeliversPending(q);
      ReceiveConcat(p.outputCallback.value, p.target, FirstChunk(pipe), PendingBytes(AfterFirstChunk(pipe)));
    }
  }

  /** The stream stays open exactly when the first read that returns nothing
      reports "not ready"; otherwise the stream and the callback are dropped. */
  lemma {:induction false} ReadStaysOpen(p: Process)
    requires Valid(p) && p.outputStream.Some?
    ensures ReadMoreOutput(p).outputStream.Some? <==> StopsNotReady(p.outputStream.value)
    ensures ReadMoreOutput(p).outputStream.None? ==> ReadMoreOutput(p).outputCallback.None?
    decreases OutputMeasure(p)
  {
    var pipe := p.outputStream.value;
    if |pipe| > 0 && !EmptyRead(pipe[0]) {
      var q := Deliver(p.(outputStream := Some(AfterFirstChunk(pipe))), FirstChunk(pipe));
      ReadStep(p);
      ReadStaysOpen(q);
    }
  }
  // ---------------------------------------------------------------- checking the status

  predicate StreamsOpen(p: Process)
  {
    p.inputStream.Some? || p.outputStream.Some?
  }

  /** Lines 122-139 of process.cpp: while any stream is open, write more input and
      then read more output; once, or, when waiting, until both streams are closed. */
  function Pump(p: Process, wait: bool): (r: Run<Process>)
    requires Valid(p)
    ensures !r.Throws?
    ensures r.Returns? ==> Valid(r.value)
    ensures r.Returns? ==> (r.value.handle == p.handle && r.value.exitCode == p.exitCode
                            && r.value.waits == p.waits && r.value.debugCmdline == p.debugCmdline)
    ensures r.Returns? && wait ==> !StreamsOpen(r.value)
    ensures !StreamsOpen(p) ==> r == Returns(p)
    decreases InputMeasure(p) + OutputMeasure(p)
  {
    if !StreamsOpen(p) then Returns(p)
    else
      var written := WriteMoreInput(p);
      if written.Diverges? then Diverges
      else
        var read := ReadMoreOutput(written.value);
        if !wait || !StreamsOpen(read) then Returns(read)
        else Pump(read, wait)
  }

  /** `SDL_WaitProcess`: takes the process's next answer; an exit code is stored
      only when the answer says the process has finished. Used-up answers mean
      it has not. */
  function Poll(p: Process): (r: Process)
    ensures r.(exitCode := p.exitCode, waits := p.waits) == p
    ensures |p.waits| > 0 ==> r.waits == p.waits[1..]
    ensures r.exitCode.Some? ==> r.exitCode == p.exitCode || (|p.waits| > 0 && r.exitCode == p.waits[0])
    ensures p.exitCode.Some? ==> r.exitCode.Some?
    ensures |p.waits| > 0 && p.waits[0].Some? ==> r.exitCode == p.waits[0]
  {
    if |p.waits| == 0 then p
    else if p.waits[0].Some? then p.(exitCode := p.waits[0], waits := p.waits[1..])
    else p.(waits := p.waits[1..])
  }

  /** Lines 115-144 of process.cpp. */
  function CheckOrWait(p: Process, wait: bool): (r: Run<Process>)
    requires Valid(p)
    ensures r.Throws? <==> !NonNull(p)
    ensures r.Throws? ==> r.message == NullMessage
    ensures NonNull(p) && KnownToBeFinished(p) ==> r == Returns(p)
    ensures r.Returns? ==> Valid(r.value) && NonNull(r.value)
    ensures r.Returns? && KnownToBeFinished(r.value) && !KnownToBeFinished(p)
            ==> |p.waits| > 0 && r.value.exitCode == p.waits[0]
    ensures r.Returns? && wait && !KnownToBeFinished(p) ==> !StreamsOpen(r.value)
  {
    if !p.handle then Throws(NullMessage)
    else if p.exitCode.Some? then Returns(p)
    else
      var pumped := Pump(p, wait);
      if pumped.Diverges? then Diverges else Returns(Poll(pumped.value))
  }

  /** `WaitUntilFinished` (process.h, line 156): a null process throws; otherwise,
      when it returns, both streams are closed and any exit code it learned is the
      process's next answer. It need not learn one: a blocking `SDL_WaitProcess`
      that returns false leaves the exit code unknown, so the result is not
      promised to be `KnownToBeFinished`. */
  function WaitUntilFinished(p: Process): (r: Run<Process>)
    requires Valid(p)
    ensures r.Throws? <==> !NonNull(p)
    ensures r.Returns? && !KnownToBeFinished(p) ==> !StreamsOpen(r.value)
    ensures r.Returns? && KnownToBeFinished(r.value) && !KnownToBeFinished(p)
      ==> |p.waits| > 0 && r.value.exitCode == p.waits[0]
  {
    CheckOrWait(p, true)
  }

  /** `CheckIfFinished` checks once and returns whether the exit code is known. */
  function CheckIfFinished(p: Process): (r: Run<(Process, bool)>)
    requires Valid(p)
    ensures r.Returns? ==> CheckOrWait(p, false) == Returns(r.value.0) && r.value.1 == KnownToBeFinished(r.value.0)
    ensures r.Throws? <==> !NonNull(p)
  {
    match CheckOrWait(p, false)
    case Returns(q) => Returns((q, KnownToBeFinished(q)))
    case Throws(message) => Throws(message)
    case Diverges => Diverges
  }

  /** A non-blocking check of a running process with an open stream writes input
      once, then reads output once, then polls once. */
  lemma CheckPumpsOnce(p: Process)
    requires Valid(p) && NonNull(p) && !KnownToBeFinished(p) && StreamsOpen(p)
    requires WriteMoreInput(p).Returns?
    ensures CheckOrWait(p, false) == Returns(Poll(ReadMoreOutput(WriteMoreInput(p).value)))
  {
  }

  /** A process started without callbacks is only polled. */
  lemma CheckWithoutStreams(p: Process, wait: bool)
    requires Valid(p) && NonNull(p) && !KnownToBeFinished(p) && !StreamsOpen(p)
    ensures CheckOrWait(p, wait) == Returns(Poll(p))
  {
  }

  /** Once the exit code is known it is never cleared or changed by later checks. */
  lemma ExitCodeSticks(p: Process, wait: bool)
    requires Valid(p) && NonNull(p) && KnownToBeFinished(p)
    ensures CheckOrWait(p, wait) == Returns(p)
    ensures ExitCode(p) == Ok(p.exitCode.value)
  {
  }

  // ---------------------------------------------------------------- construction

  /** The callbacks a process is started with; both default to null. */
  datatype Params = Params(input: Option<InputCallback>, output: Option<OutputCallback>)

  const DefaultParams := Params(None, None)

  /** The debug rendering of the argument list, as `fmt` prints a list of strings.
      Escaping inside the strings is not modelled. */
  function DebugCommandLine(argv: seq<string>): (r: string)
    ensures |r| >= 2 && r[0] == '[' && r[|r| - 1] == ']'
  {
    "[" + Join(Quoted(argv), ", ") + "]"
  }

  function Quoted(argv: seq<string>): (r: seq<string>)
    ensures |r| == |argv|
    ensures forall i :: 0 <= i < |argv| ==> r[i] == "\"" + argv[i] + "\""
  {
    if |argv| == 0 then [] else ["\"" + argv[0] + "\""] + Quoted(argv[1..])
  }

  /** Lines 146-199 of process.cpp: pipes are requested only for the callbacks
      given, a failure to start or to get a requested stream throws, and then
      one round of input is written; no output is read yet. `prior` is what the
      caller's shared string already holds: output is appended after it. */
  function Start(argv: seq<string>, params: Params, os: Os, prior: string): (r: Run<Process>)
    requires params.input.Some? ==> ValidInput(params.input.value)
    ensures !os.starts ==> r == Throws(StartFailedMessage + DebugCommandLine(argv))
    ensures os.starts && params.input.Some? && os.stdin.None? ==> r == Throws(NoInputMessage)
    ensures os.starts && (params.input.None? || os.stdin.Some?) && params.output.Some? && os.stdout.None?
            ==> r == Throws(NoOutputMessage)
    ensures r.Throws? ==> !os.starts || (params.input.Some? && os.stdin.None?)
                                   || (params.output.Some? && os.stdout.None?)
    ensures r.Returns? ==> Valid(r.value) && NonNull(r.value) && !KnownToBeFinished(r.value)
    ensures r.Returns? ==> GetDebugCommandLine(r.value) == DebugCommandLine(argv) && r.value.waits == os.waits
    ensures r.Returns? ==> (r.value.outputStream == (if params.output.Some? then os.stdout else None)
                            && r.value.outputCallback == params.output && r.value.target == prior)
    ensures r.Returns? && r.value.inputStream.Some? ==> params.input.Some?
    ensures params.input.None? && r.Returns? ==> r.value.inputCallback.None?
  {
    var cmdline := DebugCommandLine(argv);
    if !os.starts then Throws(StartFailedMessage + cmdline)
    else if params.input.Some? && os.stdin.None? then Throws(NoInputMessage)
    else if params.output.Some? && os.stdout.None? then Throws(NoOutputMessage)
    else
      var p := Process(true, cmdline, None,
                       if params.input.Some? then os.stdin else None, params.input,
                       if params.output.Some? then os.stdout else None, params.output,
                       prior, os.waits);
      WriteMoreInput(p)
  }

  /** The destructor kills a live process (forcibly) and then detaches it. */
  function Destroy(p: Process): (r: Killed)
    ensures r.signalled <==> NonNull(p) && !KnownToBeFinished(p)
    ensures r.process == Detach(p)
    ensures !NonNull(r.process) && r.process.target == p.target
  {
    var killed := Kill(p, true);
    Killed(Detach(killed.process), killed.signalled)
  }

  /** The constructor delegates to the default one (line 147), so when a later
      line throws, the destructor runs on what was built so far: a process that
      started but did not give a requested stream is force-killed and detached. */
  function StartCleanup(argv: seq<string>, params: Params, os: Os, prior: string): (r: Option<Killed>)
    requires params.input.Some? ==> ValidInput(params.input.value)
    ensures r.Some? <==> os.starts && Start(argv, params, os, prior).Throws?
    ensures r.Some? ==> r.value.signalled && !NonNull(r.value.process) && r.value.process.target == prior
  {
    if !os.starts then None
    else
      var noInput := params.input.Some? && os.stdin.None?;
      var noOutput := params.output.Some? && os.stdout.None?;
      if noInput || noOutput then
        var built := Process(true, DebugCommandLine(argv), None,
                             if params.input.Some? then os.stdin else None, params.input,
                             None, params.output, prior, os.waits);
        Some(Destroy(built))
      else None
  }

  /** `operator=` takes its argument by value: `other` is move-constructed from
      the source, swapped with the target, and destroyed at the end, so the
      process the target held before is force-killed and detached. */
  datatype Assigned = Assigned(target: Process, source: Process, overwritten: Killed)

  function MoveAssign(target: Process, source: Process): (r: Assigned)
    ensures r.target == source
    ensures !NonNull(r.source) && r.source.inputStream.None? && r.source.outputStream.None?
    ensures r.overwritten.signalled <==> NonNull(target) && !KnownToBeFinished(target)
    ensures !NonNull(r.overwritten.process) && r.overwritten.process.target == target.target
  {
    var other := Move(source);
    Assigned(other.target, other.source, Destroy(target))
  }

  /** Assigning to a null process is the move constructor, and kills nothing. */
  lemma MoveAssignToNull(target: Process, source: Process)
    requires !NonNull(target)
    ensures MoveAssign(target, source).target == Move(source).target
    ensures MoveAssign(target, source).source == Move(source).source
    ensures !MoveAssign(target, source).overwritten.signalled
  {
  }

  /** The moved-from state is inert: it throws on every check, and killing,
      detaching or destroying it does nothing. */
  lemma MovedFromIsInert(p: Process, wait: bool)
    ensures CheckOrWait(Move(p).source, wait) == Throws(NullMessage)
    ensures !Kill(Move(p).source, wait).signalled && Detach(Move(p).source) == Move(p).source
    ensures ExitCode(Move(p).source) == Err(NullMessage)
  {
  }
}

=== FILE: process_queue.dfy ===
/** A queue that runs a list of tasks as processes, at most `numJobs` at a time,
    starting them in list order and reporting each one as it finishes.

    A job's process is seen only through the answers to the queue's checks: each
    check of a job consumes the next answer, `None` for "still running" or the
    exit code it finished with. Used-up answers mean "still running". */
module ProcessQueue {
  import opened Common
  import Process

  /** A task to run; `input`, when present, is sent to the standard input. */
  datatype Task = Task(name: string, command: seq<string>, input: Option<string>)

  /** A running job: the name, the index of its task, the command and the
      callbacks its process was started with. */
  datatype Job = Job(name: string, task: nat, command: seq<string>, params: Process.Params)

  datatype Status = Status(exitCode: int, numFinished: int, numFailed: int, numRunning: int, numTotal: int)

  predicate IsFinished(s: Status)
  {
    s.numRunning == 0
  }

  /** The status callback: still null, the default one that prints to stderr, or
      one the user gave. */
  datatype StatusCallback = NullCallback | PrintToStderr | UserCallback

  datatype Params = Params(numJobs: int, stopOnFailure: bool, maxOutputBytes: nat, statusCallback: StatusCallback)

  /** The defaults of `Params`. */
  const DefaultParams := Params(0, true, 20000, NullCallback)

  datatype Queue = Queue(tasks: seq<Task>, params: Params, next: nat, firstFailure: int, numFailed: int,
                         jobs: seq<Job>)

  /** What the status callback received when a job finished. */
  datatype Report = Report(job: Job, exitCode: int, status: Status)

  /** Lines 11-23 of process_queue.cpp: a job runs its task's command, with the
      task's input sent from a string and the output kept up to the byte cap. */
  function StartJob(task: Task, index: nat, maxOutputBytes: nat): (j: Job)
    ensures j.name == task.name && j.task == index && j.command == task.command
    ensures j.params.input.Some? <==> task.input.Some?
    ensures j.params.input.Some? ==> (Process.ValidInput(j.params.input.value)
                                      && Process.Offer(j.params.input.value) == task.input.value)
    ensures j.params.output == Some(Process.ToString(maxOutputBytes))
  {
    Job(task.name, index, task.command,
        Process.Params(if task.input.Some? then Some(Process.InputFromString(task.input.value)) else None,
                       Some(Process.OutputToString(maxOutputBytes))))
  }

  /** Each job runs the task it names, and no task runs twice. */
  predicate JobsRunTasks(q: Queue)
  {
    && (forall k :: 0 <= k < |q.jobs| ==>
          q.jobs[k].task < q.next && q.jobs[k].task < |q.tasks| &&
          q.jobs[k] == StartJob(q.tasks[q.jobs[k].task], q.jobs[k].task, q.params.maxOutputBytes))
    && (forall k, l :: 0 <= k < l < |q.jobs| ==> q.jobs[k].task != q.jobs[l].task)
  }

  /** The invariant the queue keeps after construction. */
  predicate Inv(q: Queue)
  {
    && 0 <= q.params.numJobs <= |q.tasks|
    && q.next <= |q.tasks|
    && |q.jobs| <= q.params.numJobs
    && |q.jobs| <= q.next
    && 0 <= q.numFailed
    && (q.numFailed > 0 ==> q.firstFailure != 0)
    && q.params.statusCallback != NullCallback
    && JobsRunTasks(q)
  }

  /** Lines 25-34 of process_queue.cpp. */
  function MakeStatus(q: Queue): (s: Status)
    requires Inv(q)
    ensures s.numFinished + s.numRunning == q.next <= s.numTotal == |q.tasks|
    ensures 0 <= s.numFinished && 0 <= s.numRunning <= q.params.numJobs
    ensures s.numRunning == |q.jobs| && s.exitCode == q.firstFailure && s.numFailed == q.numFailed
    ensures IsFinished(s) <==> |q.jobs| == 0
  {
    Status(q.firstFailure, q.next - |q.jobs|, q.numFailed, |q.jobs|, |q.tasks|)
  }

  function LastKnownStatus(q: Queue): (s: Status)
    requires Inv(q)
    ensures s == MakeStatus(q)
  {
    MakeStatus(q)
  }

  /** `Jobs()`: exactly the jobs in flight. */
  function Jobs(q: Queue): (js: seq<Job>)
    requires Inv(q)
    ensures |js| == MakeStatus(q).numRunning
  {
    q.jobs
  }

  // ---------------------------------------------------------------- construction

  /** The number of jobs after lines 125-128: zero means the core count, and
      anything above the task count, including a negative count read as an
      unsigned size, is clamped to it. */
  function NormalJobs(numJobs: int, cores: int, numTasks: nat): (n: int)
    ensures 0 <= n <= numTasks
    ensures numJobs == 0 && 0 <= cores <= numTasks ==> n == cores
    ensures numJobs != 0 && 0 <= numJobs <= numTasks ==> n == numJobs
    ensures numJobs < 0 ==> n == numTasks
    ensures numJobs > numTasks ==> n == numTasks
    ensures numJobs == 0 && (cores < 0 || cores > numTasks) ==> n == numTasks
  {
    var n := if numJobs == 0 then cores else numJobs;
    if n < 0 || n > numTasks then numTasks else n
  }

  /** `std::size_t(x)` of an `int` on a 64-bit target. */
  function SizeT(x: int): (r: nat)
    requires -0x8000_0000 <= x < 0x8000_0000
    ensures r < 0x1_0000_0000_0000_0000
    ensures x >= 0 ==> r == x
    ensures x < 0 ==> r >= 0x8000_0000_0000_0000
  {
    x % 0x1_0000_0000_0000_0000
  }

  /** `NormalJobs` is lines 125-128 with the comparison done on the unsigned
      `std::size_t` values, as the source writes it, for 32-bit `int`s and a
      task count that fits a signed 64-bit size. */
  lemma NormalJobsCast(numJobs: int, cores: int, numTasks: nat)
    requires -0x8000_0000 <= numJobs < 0x8000_0000 && -0x8000_0000 <= cores < 0x8000_0000
    requires numTasks < 0x8000_0000_0000_0000
    ensures var m := if numJobs == 0 then cores else numJobs;
      NormalJobs(numJobs, cores, numTasks) == if SizeT(m) > numTasks then numTasks else m
  {
  }

  /** The first `n` jobs, each started from its task. */
  function FirstJobs(tasks: seq<Task>, n: nat, maxOutputBytes: nat): (js: seq<Job>)
    requires n <= |tasks|
    ensures |js| == n
    ensures forall k :: 0 <= k < n ==> js[k] == StartJob(tasks[k], k, maxOutputBytes)
  {
    if n == 0 then [] else FirstJobs(tasks, n - 1, maxOutputBytes) + [StartJob(tasks[n - 1], n - 1, maxOutputBytes)]
  }

  /** Lines 119-188 of process_queue.cpp; `cores` is the number of logical CPU
      cores. The default printing callback replaces a null one. */
  function New(tasks: seq<Task>, params: Params, cores: int): (q: Queue)
    ensures Inv(q)
    ensures q.tasks == tasks && q.firstFailure == 0 && q.numFailed == 0
    ensures q.params.numJobs == NormalJobs(params.numJobs, cores, |tasks|)
    ensures q.params.stopOnFailure == params.stopOnFailure && q.params.maxOutputBytes == params.maxOutputBytes
    ensures q.params.statusCallback == (if params.statusCallback == NullCallback then PrintToStderr
                                        else params.statusCallback)
    ensures q.next == q.params.numJobs == |q.jobs|
    ensures forall k :: 0 <= k < |q.jobs| ==> q.jobs[k].task == k
  {
    var n := NormalJobs(params.numJobs, cores, |tasks|);
    var callback := if params.statusCallback == NullCallback then PrintToStderr else params.statusCallback;
    var p := params.(numJobs := n, statusCallback := callback);
    Queue(tasks, p, n, 0, 0, FirstJobs(tasks, n, params.maxOutputBytes))
  }

  // ---------------------------------------------------------------- killing

  /** Lines 191-202 of process_queue.cpp: every job's process is killed and
      detached and the job list emptied; the exit code becomes -255 unless a
      failure was already recorded. */
  function Kill(q: Queue): (r: Queue)
    requires Inv(q)
    ensures Inv(r)
    ensures r.jobs == [] && IsFinished(MakeStatus(r))
    ensures r.firstFailure == (if q.firstFailure == 0 then -255 else q.firstFailure)
    ensures r.(jobs := q.jobs, firstFailure := q.firstFailure) == q
  {
    q.(jobs := [], firstFailure := if q.firstFailure == 0 then -255 else q.firstFailure)
  }

  // ---------------------------------------------------------------- checking the jobs

  /** The status the callback receives for a job that just finished: counted as
      finished; no job running if the queue is stopping; one fewer running if no
      task is left to take its slot. */
  function Snapshot(q: Queue, stopping: bool): (s: Status)
    requires Inv(q)
    ensures s.numFinished == MakeStatus(q).numFinished + 1
    ensures stopping ==> s.numRunning == 0
    ensures !stopping ==> s.numFinished + s.numRunning == q.next + (if q.next < |q.tasks| then 1 else 0)
    ensures s.(numFinished := 0, numRunning := 0) == MakeStatus(q).(numFinished := 0, numRunning := 0)
  {
    var s := MakeStatus(q);
    var s := s.(numFinished := s.numFinished + 1);
    if stopping then s.(numRunning := 0)
    else if q.next == |q.tasks| then s.(numRunning := s.numRunning - 1)
    else s
  }

  /** Removes job `i` by moving the last job into its slot. */
  function SwapRemove(jobs: seq<Job>, i: nat): (r: seq<Job>)
    requires i < |jobs|
    ensures |r| == |jobs| - 1
    ensures forall k :: 0 <= k < |r| ==> r[k] == (if k == i then jobs[|jobs| - 1] else jobs[k])
  {
    if i + 1 != |jobs| then jobs[i := jobs[|jobs| - 1]][..|jobs| - 1] else jobs[..|jobs| - 1]
  }

  /** Records the exit code of a finished job: a failure is counted, and kept as
      the first failure if none was recorded. */
  function CountExit(q: Queue, code: int): (r: Queue)
    requires Inv(q)
    ensures Inv(r)
    ensures r.numFailed == q.numFailed + (if code != 0 then 1 else 0)
    ensures code != 0 ==> r.firstFailure == (if q.firstFailure == 0 then code else q.firstFailure)
    ensures code == 0 ==> r.firstFailure == q.firstFailure
    ensures r.(numFailed := q.numFailed, firstFailure := q.firstFailure) == q
  {
    if code == 0 then q
    else q.(numFailed := q.numFailed + 1, firstFailure := if q.firstFailure == 0 then code else q.firstFailure)
  }

  /** Starts the next task in slot `i`. */
  function Refill(q: Queue, i: nat): (r: Queue)
    requires Inv(q) && i < |q.jobs| && q.next < |q.tasks|
    ensures Inv(r)
    ensures r.next == q.next + 1
    ensures r.jobs == q.jobs[i := StartJob(q.tasks[q.next], q.next, q.params.maxOutputBytes)]
    ensures r.(jobs := q.jobs, next := q.next) == q
  {
    var r := q.(jobs := q.jobs[i := StartJob(q.tasks[q.next], q.next, q.params.maxOutputBytes)], next := q.next + 1);
    assert forall k :: 0 <= k < |r.jobs| && k != i ==> r.jobs[k] == q.jobs[k];
    r
  }

  /** Removes slot `i`, moving the last job into it. */
  function Remove(q: Queue, i: nat): (r: Queue)
    requires Inv(q) && i < |q.jobs|
    ensures Inv(r)
    ensures r.jobs == SwapRemove(q.jobs, i) && |r.jobs| == |q.jobs| - 1
    ensures r.(jobs := q.jobs) == q
  {
    var r := q.(jobs := SwapRemove(q.jobs, i));
    assert forall k :: 0 <= k < |r.jobs| ==> r.jobs[k] in q.jobs;
    assert forall k, l :: 0 <= k < l < |r.jobs| ==> r.jobs[k].task != r.jobs[l].task by {
      forall k, l | 0 <= k < l < |r.jobs|
        ensures r.jobs[k].task != r.jobs[l].task
      {
        var k' := if k == i then |q.jobs| - 1 else k;
        var l' := if l == i then |q.jobs| - 1 else l;
        assert r.jobs[k] == q.jobs[k'] && r.jobs[l] == q.jobs[l'] && k' != l';
      }
    }
    r
  }

  /** What handling one finished job did: the queue afterwards, the report given
      to the status callback, and whether the queue stopped. */
  datatype Finished = Finished(queue: Queue, report: Report, stopped: bool)

  /** Lines 54-101 of process_queue.cpp for job `i`, which finished with `code`: the
      exit code is recorded, the callback is told, and then the queue stops, or the
      slot gets the next task, or the slot is removed. */
  function FinishJob(q: Queue, i: nat, code: int): (r: Finished)
    requires Inv(q) && i < |q.jobs|
    ensures Inv(r.queue)
    ensures r.report.job == q.jobs[i] && r.report.exitCode == code
    ensures r.queue.tasks == q.tasks && r.queue.params == q.params
    ensures r.queue.numFailed == q.numFailed + (if code != 0 then 1 else 0)
    ensures q.firstFailure != 0 ==> r.queue.firstFailure == q.firstFailure
    ensures q.firstFailure == 0 && code != 0 ==> r.queue.firstFailure == code
    ensures r.stopped <==> q.params.stopOnFailure && code != 0
    ensures r.stopped ==> r.queue.jobs == [] && r.queue.next == q.next
    ensures !r.stopped && q.next < |q.tasks| ==> r.queue == Refill(CountExit(q, code), i)
    ensures !r.stopped && q.next == |q.tasks| ==> r.queue == Remove(CountExit(q, code), i)
  {
    var q1 := CountExit(q, code);
    var stopping := q.params.stopOnFailure && code != 0;
    var report := Report(q.jobs[i], code, Snapshot(q1, stopping));
    if stopping then Finished(Kill(q1), report, true)
    else if q1.next < |q1.tasks| then Finished(Refill(q1, i), report, false)
    else Finished(Remove(q1, i), report, false)
  }

  /** The number of failed jobs among `reports`. */
  function Failures(reports: seq<Report>): nat
  {
    if |reports| == 0 then 0
    else Failures(reports[..|reports| - 1]) + (if reports[|reports| - 1].exitCode != 0 then 1 else 0)
  }

  /** The state after one pass over the jobs, the answers not yet used and the
      reports so far. */
  datatype Swept = Swept(queue: Queue, answers: seq<Option<int>>, reports: seq<Report>)

  /** Lines 42-105 of process_queue.cpp: one pass over the jobs from slot `i`. A
      running job is skipped; a finished one is handled, and after a removal the
      slot is checked again, as it now holds another job. */
  function Sweep(q: Queue, i: nat, answers: seq<Option<int>>, reports: seq<Report>): (r: Swept)
    requires Inv(q) && i <= |q.jobs|
    decreases |q.jobs| - i
  {
    if i == |q.jobs| then Swept(q, answers, reports)
    else
      var answer := if |answers| > 0 then answers[0] else None;
      var rest := if |answers| > 0 then answers[1..] else [];
      if answer.None? then Sweep(q, i + 1, rest, reports)
      else
        var f := FinishJob(q, i, answer.value);
        if f.stopped then Swept(f.queue, rest, reports + [f.report])
        else if q.next < |q.tasks| then Sweep(f.queue, i + 1, rest, reports + [f.report])
        else Sweep(f.queue, i, rest, reports + [f.report])
  }
  /** What a pass over the jobs keeps: the invariant, the tasks and parameters,
      the reports made before it; `next` only grows and the job list never does. */
  lemma {:induction false} SweepKeeps(q: Queue, i: nat, answers: seq<Option<int>>, reports: seq<Report>)
    requires Inv(q) && i <= |q.jobs|
    ensures var r := Sweep(q, i, answers, reports);
      && Inv(r.queue) && r.queue.tasks == q.tasks && r.queue.params == q.params
      && q.next <= r.queue.next && |r.queue.jobs| <= |q.jobs|
      && |reports| <= |r.reports| && r.reports[..|reports|] == reports
      && |r.answers| <= |answers|
      && (i < |q.jobs| && |answers| > 0 ==> |r.answers| < |answers|)
    decreases |q.jobs| - i
  {
    if i < |q.jobs| {
      var answer := if |answers| > 0 then answers[0] else None;
      var rest := if |answers| > 0 then answers[1..] else [];
      if answer.None? {
        SweepKeeps(q, i + 1, rest, reports);
      } else {
        var f := FinishJob(q, i, answer.value);
        if !f.stopped {
          var j := if q.next < |q.tasks| then i + 1 else i;
          SweepKeeps(f.queue, j, rest, reports + [f.report]);
          var r := Sweep(f.queue, j, rest, reports + [f.report]);
          assert r.reports[..|reports|] == (reports + [f.report])[..|reports|];
        }
      }
    }
  }

  /** Every nonzero exit code reported in a pass is counted as a failure, and the
      first failure, once recorded, is never replaced. */
  lemma {:induction false} SweepCountsFailures(q: Queue, i: nat, answers: seq<Option<int>>, reports: seq<Report>)
    requires Inv(q) && i <= |q.jobs|
    ensures var r := Sweep(q, i, answers, reports);
      && r.queue.numFailed - q.numFailed == Failures(r.reports) - Failures(reports)
      && (q.firstFailure != 0 ==> r.queue.firstFailure == q.firstFailure)
    decreases |q.jobs| - i
  {
    if i < |q.jobs| {
      var answer := if |answers| > 0 then answers[0] else None;
      var rest := if |answers| > 0 then answers[1..] else [];
      if answer.None? {
        SweepCountsFailures(q, i + 1, rest, reports);
      } else {
        var f := FinishJob(q, i, answer.value);
        var reports' := reports + [f.report];
        assert reports'[..|reports'| - 1] == reports;
        if !f.stopped {
          var j := if q.next < |q.tasks| then i + 1 else i;
          SweepCountsFailures(f.queue, j, rest, reports');
        }
      }
    }
  }

  /** With stop-on-failure, a pass that reports a failure ends with no jobs: the
      queue was killed. */
  lemma {:induction false} SweepStops(q: Queue, i: nat, answers: seq<Option<int>>, reports: seq<Report>)
    requires Inv(q) && i <= |q.jobs| && q.params.stopOnFailure
    requires Failures(reports) == 0
    ensures var r := Sweep(q, i, answers, reports);
      Failures(r.reports) > 0 ==> r.queue.jobs == [] && r.queue.firstFailure != 0
    decreases |q.jobs| - i
  {
    if i < |q.jobs| {
      var answer := if |answers| > 0 then answers[0] else None;
      var rest := if |answers| > 0 then answers[1..] else [];
      if answer.None? {
        SweepStops(q, i + 1, rest, reports);
      } else {
        var f := FinishJob(q, i, answer.value);
        var reports' := reports + [f.report];
        assert reports'[..|reports'| - 1] == reports;
        if !f.stopped {
          var j := if q.next < |q.tasks| then i + 1 else i;
          SweepStops(f.queue, j, rest, reports');
        }
      }
    }
  }

  /** With no answers left every job counts as running, so a pass changes nothing. */
  lemma {:induction false} SweepWithoutAnswers(q: Queue, i: nat, reports: seq<Report>)
    requires Inv(q) && i <= |q.jobs|
    ensures Sweep(q, i, [], reports) == Swept(q, [], reports)
    decreases |q.jobs| - i
  {
    if i < |q.jobs| {
      SweepWithoutAnswers(q, i + 1, reports);
    }
  }

  /** Lines 36-117 of process_queue.cpp: nothing to do once no job runs; else one
      pass, or, when waiting, passes until no job is left. If the answers run out
      while jobs remain, a wait repeats an unchanged pass forever. */
  function CheckOrWait(q: Queue, wait: bool, answers: seq<Option<int>>): (r: Run<Swept>)
    requires Inv(q)
    ensures !r.Throws?
    ensures IsFinished(MakeStatus(q)) ==> r == Returns(Swept(q, answers, []))
    ensures !IsFinished(MakeStatus(q)) && !wait ==> r == Returns(Sweep(q, 0, answers, []))
    ensures r.Returns? ==> Inv(r.value.queue)
    ensures r.Returns? && wait ==> r.value.queue.jobs == []
  {
    if IsFinished(LastKnownStatus(q)) then Returns(Swept(q, answers, []))
    else Passes(q, wait, answers, [])
  }

  function Passes(q: Queue, wait: bool, answers: seq<Option<int>>, reports: seq<Report>): (r: Run<Swept>)
    requires Inv(q) && |q.jobs| > 0
    ensures !r.Throws?
    ensures !wait ==> r == Returns(Sweep(q, 0, answers, reports))
    ensures r.Returns? ==> Inv(r.value.queue)
    ensures r.Returns? && wait ==> r.value.queue.jobs == []
    decreases |answers|
  {
    var swept := Sweep(q, 0, answers, reports);
    SweepKeeps(q, 0, answers, reports);
    if !wait || swept.queue.jobs == [] then Returns(swept)
    else if |answers| == 0 then
      SweepWithoutAnswers(q, 0, reports);
      Diverges
    else Passes(swept.queue, wait, swept.answers, swept.reports)
  }

  function WaitUntilFinished(q: Queue, answers: seq<Option<int>>): (r: Run<(Swept, Status)>)
    requires Inv(q)
    ensures r.Returns? ==> Inv(r.value.0.queue) && r.value.1 == MakeStatus(r.value.0.queue)
    ensures r.Returns? ==> IsFinished(r.value.1)
  {
    match CheckOrWait(q, true, answers)
    case Returns(s) => Returns((s, MakeStatus(s.queue)))
    case Throws(message) => Throws(message)
    case Diverges => Diverges
  }

  function CheckStatus(q: Queue, answers: seq<Option<int>>): (r: (Swept, Status))
    requires Inv(q)
    ensures Inv(r.0.queue) && r.1 == MakeStatus(r.0.queue)
  {
    var s := CheckOrWait(q, false, answers).value;
    (s, MakeStatus(s.queue))
  }

  /** After a kill, or after a stop on failure, checking does nothing and no task
      starts again. */
  lemma KilledQueueIsInert(q: Queue, wait: bool, answers: seq<Option<int>>)
    requires Inv(q)
    ensures CheckOrWait(Kill(q), wait, answers) == Returns(Swept(Kill(q), answers, []))
    ensures MakeStatus(Kill(q)).exitCode != 0
  {
  }
}

=== FILE: shader_manager.dfy ===
/** The shader manager: a set of shaders keyed by name, and its one-time
    finalisation, which derives each shader's binary file name, loads the
    binaries that exist, compiles the missing ones when asked to, and removes
    stale binaries.

    The character predicate `IsIdentifierCharStrict` and the hash `Hash32` are
    not part of this model; they are parameters. The disk and the compiler are
    answers given up front. */
module ShaderManager {
  import opened Common
  import ProcessQueue

  // ---------------------------------------------------------------- names in order

  /** `std::string`'s `<`: lexicographic, comparing characters by value. */
  predicate Less(a: string, b: string)
    decreases |a|
  {
    |b| > 0 && (|a| == 0 || a[0] < b[0] || (a[0] == b[0] && Less(a[1..], b[1..])))
  }

  lemma {:induction false} LessIrreflexive(a: string)
    ensures !Less(a, a)
    decreases |a|
  {
    if |a| > 0 {
      LessIrreflexive(a[1..]);
    }
  }

  lemma {:induction false} LessTransitive(a: string, b: string, c: string)
    requires Less(a, b) && Less(b, c)
    ensures Less(a, c)
    decreases |a|
  {
    if |a| > 0 && a[0] == b[0] && b[0] == c[0] {
      LessTransitive(a[1..], b[1..], c[1..]);
    }
  }

  lemma {:induction false} LessTotal(a: string, b: string)
    ensures a == b || Less(a, b) || Less(b, a)
    decreases |a|
  {
    if |a| > 0 && |b| > 0 && a[0] == b[0] {
      LessTotal(a[1..], b[1..]);
      if a[1..] == b[1..] {
        assert a == [a[0]] + a[1..] && b == [b[0]] + b[1..];
      }
    }
  }

  // ---------------------------------------------------------------- shaders

  /** Gpu::Shader::Stage. */
  datatype Stage = Vertex | Fragment | Compute

  /** A shader object: `address` stands for its identity, since the manager stores
      pointers and compares them. */
  datatype Shader = Shader(address: nat, name: string, stage: Stage, source: string)

  /** `std::set<Shader *, ShaderNameLess>` as the sequence of its elements in
      iteration order: strictly increasing names. */
  predicate SortedByName(s: seq<Shader>)
  {
    forall i, j :: 0 <= i < j < |s| ==> Less(s[i].name, s[j].name)
  }

  function Lookup(s: seq<Shader>, name: string): (r: Option<Shader>)
    ensures r.Some? <==> exists i :: 0 <= i < |s| && s[i].name == name
    ensures r.Some? ==> r.value in s && r.value.name == name
  {
    if |s| == 0 then None
    else if s[0].name == name then Some(s[0])
    else
      var r := Lookup(s[1..], name);
      assert forall i :: 1 <= i < |s| ==> s[i] == s[1..][i - 1];
      r
  }

  /** Inserts `x` at its place by name; the name must be new. */
  function Insert(s: seq<Shader>, x: Shader): (r: seq<Shader>)
    requires SortedByName(s)
    requires forall i :: 0 <= i < |s| ==> s[i].name != x.name
    ensures SortedByName(r)
    ensures |r| == |s| + 1
    ensures forall y :: y in r <==> y in s || y == x
  {
    if |s| == 0 then [x]
    else if Less(x.name, s[0].name) then
      forall j | 0 <= j < |s| ensures Less(x.name, s[j].name) {
        if j > 0 {
          LessTransitive(x.name, s[0].name, s[j].name);
        }
      }
      [x] + s
    else
      LessTotal(x.name, s[0].name);
      var rest := Insert(s[1..], x);
      assert forall y :: y in s[1..] ==> y in s;
      assert forall y :: y in rest ==> Less(s[0].name, y.name) by {
        forall y | y in rest ensures Less(s[0].name, y.name) {
          if y != x {
            var j :| 0 <= j < |s[1..]| && s[1..][j] == y;
            assert s[j + 1] == y;
          }
        }
      }
      assert s == [s[0]] + s[1..];
      [s[0]] + rest
  }

  /** The manager: its shaders, whether it is finalized, whether it has a device,
      and the three public settings. */
  datatype Manager = Manager(shaders: seq<Shader>, finalized: bool, hasDevice: bool, dir: string,
                             glslcFlags: seq<string>, compileWhenFinalized: bool)

  predicate Valid(m: Manager)
  {
    SortedByName(m.shaders)
  }

  /** A manager over `device`, with the header's defaults: the resource
      directory's `assets/shaders`, the flag `-O`, and no compiling. */
  function New(hasDevice: bool, resourceDir: string): (m: Manager)
    ensures Valid(m) && |m.shaders| == 0 && !m.finalized && m.hasDevice == hasDevice
    ensures m.glslcFlags == ["-O"] && !m.compileWhenFinalized
  {
    Manager([], false, hasDevice, resourceDir + "assets/shaders", ["-O"], false)
  }

  const AddAfterFinalizeMessage := "Adding a shader to `ShaderManager` after it already has been finalized."

  function DuplicateNameMessage(name: string): string
  {
    "Duplicate shader name in `ShaderManager`: `" + name + "`."
  }

  /** shader_manager.cpp, lines 14-28. */
  function AddShader(m: Manager, x: Shader): (r: Result<Manager>)
    requires Valid(m)
    ensures r.Ok? ==> Valid(r.value) && r.value.(shaders := m.shaders) == m
    ensures m.finalized ==> r == Err(AddAfterFinalizeMessage)
    ensures !m.finalized && Lookup(m.shaders, x.name).None? ==> (
      && r.Ok? && |r.value.shaders| == |m.shaders| + 1
      && forall y :: y in r.value.shaders <==> y in m.shaders || y == x)
    ensures !m.finalized && Lookup(m.shaders, x.name).Some? ==> (
      if Lookup(m.shaders, x.name).value.address == x.address then r == Ok(m)
      else r == Err(DuplicateNameMessage(x.name)))
  {
    if m.finalized then Err(AddAfterFinalizeMessage)
    else match Lookup(m.shaders, x.name)
      case Some(existing) =>
        if existing.address == x.address then Ok(m) else Err(DuplicateNameMessage(x.name))
      case None => Ok(m.(shaders := Insert(m.shaders, x)))
  }

  /** Adding the same object twice is the same as adding it once. */
  lemma AddShaderTwice(m: Manager, x: Shader)
    requires Valid(m) && AddShader(m, x).Ok?
    ensures AddShader(AddShader(m, x).value, x) == AddShader(m, x)
  {
    if Lookup(m.shaders, x.name).None? {
      var m1 := AddShader(m, x).value;
      assert x in m1.shaders;
      var found := Lookup(m1.shaders, x.name);
      var i :| 0 <= i < |m1.shaders| && m1.shaders[i] == found.value;
      var j :| 0 <= j < |m1.shaders| && m1.shaders[j] == x;
      if i < j {
        NamesAreKeys(m1, i, j);
      } else if j < i {
        NamesAreKeys(m1, j, i);
      }
    }
  }

  /** No two shaders of a valid manager share a name. */
  lemma NamesAreKeys(m: Manager, i: nat, j: nat)
    requires Valid(m) && i < j < |m.shaders|
    ensures m.shaders[i].name != m.shaders[j].name
  {
    if m.shaders[i].name == m.shaders[j].name {
      LessIrreflexive(m.shaders[i].name);
    }
  }

  // ---------------------------------------------------------------- file names

  /** Lines 94-107 for one character: identifier characters are kept; any other
      character appends `_`, unless the name so far is empty or already ends in
      `_`. */
  function Step(isIdent: char -> bool, out: string, c: char): string
  {
    if isIdent(c) then out + [c]
    else if |out| > 0 && out[|out| - 1] != '_' then out + ['_']
    else out
  }

  function Fold(isIdent: char -> bool, name: string): string
    decreases |name|
  {
    if |name| == 0 then [] else Step(isIdent, Fold(isIdent, name[..|name| - 1]), name[|name| - 1])
  }

  /** Lines 108-109: drops every trailing `_`. */
  function StripUnderscores(s: string): (r: string)
    ensures |r| <= |s| && r == s[..|r|]
    ensures |r| == 0 || r[|r| - 1] != '_'
    ensures forall i :: |r| <= i < |s| ==> s[i] == '_'
    decreases |s|
  {
    if |s| > 0 && s[|s| - 1] == '_' then StripUnderscores(s[..|s| - 1]) else s
  }

  /** The shader name tweaked into a file name part. */
  function Sanitize(isIdent: char -> bool, name: string): string
  {
    StripUnderscores(Fold(isIdent, name))
  }

  /** An independent reading of the loop, character by character: an identifier
      character stands for itself, and any other character stands for one `_`
      exactly when it directly follows an identifier character other than `_`;
      so a run of other characters becomes a single `_`, and none at the start. */
  function Emitted(isIdent: char -> bool, name: string, i: nat): string
    requires i < |name|
  {
    if isIdent(name[i]) then [name[i]]
    else if i > 0 && isIdent(name[i - 1]) && name[i - 1] != '_' then "_"
    else ""
  }

  function EmittedUpTo(isIdent: char -> bool, name: string, n: nat): string
    requires n <= |name|
  {
    if n == 0 then [] else EmittedUpTo(isIdent, name, n - 1) + Emitted(isIdent, name, n - 1)
  }

  /** The output may take a separator: it is non-empty and does not end in `_`. */
  predicate Open(out: string)
  {
    |out| > 0 && out[|out| - 1] != '_'
  }

  lemma {:induction false} FoldPrefix(isIdent: char -> bool, name: string, n: nat)
    requires n <= |name|
    ensures Fold(isIdent, name[..n]) == EmittedUpTo(isIdent, name, n)
    ensures Open(Fold(isIdent, name[..n])) <==> n > 0 && isIdent(name[n - 1]) && name[n - 1] != '_'
  {
    if n > 0 {
      FoldPrefix(isIdent, name, n - 1);
      assert name[..n][..n - 1] == name[..n - 1];
      assert name[..n][n - 1] == name[n - 1];
    }
  }

  /** The loop agrees with the character-by-character reading. */
  lemma FoldIsEmitted(isIdent: char -> bool, name: string)
    ensures Fold(isIdent, name) == EmittedUpTo(isIdent, name, |name|)
  {
    FoldPrefix(isIdent, name, |name|);
    assert name[..|name|] == name;
  }

  /** What a sanitised name looks like: every character is an identifier
      character, or a `_` directly after an identifier character other than `_`. */
  predicate Clean(isIdent: char -> bool, s: string)
  {
    forall i {:trigger s[i]} :: 0 <= i < |s| ==> isIdent(s[i]) || (s[i] == '_' && i > 0 && isIdent(s[i - 1]) && s[i - 1] != '_')
  }

  lemma {:induction false} FoldClean(isIdent: char -> bool, name: string)
    ensures Clean(isIdent, Fold(isIdent, name))
    decreases |name|
  {
    if |name| > 0 {
      FoldClean(isIdent, name[..|name| - 1]);
      StepClean(isIdent, Fold(isIdent, name[..|name| - 1]), name[|name| - 1]);
    }
  }

  lemma StepClean(isIdent: char -> bool, out: string, c: char)
    requires Clean(isIdent, out)
    ensures Clean(isIdent, Step(isIdent, out, c))
  {
    var r := Step(isIdent, out, c);
    forall i | 0 <= i < |r|
      ensures isIdent(r[i]) || (r[i] == '_' && i > 0 && isIdent(r[i - 1]) && r[i - 1] != '_')
    {
      if i < |out| {
        assert r[i] == out[i];
        if i > 0 { assert r[i - 1] == out[i - 1]; }
      } else if isIdent(c) {
        assert r[i] == c;
      } else {
        assert r[i] == '_' && r[i - 1] == out[|out| - 1];
      }
    }
  }

  lemma {:induction false} CleanEmitted(isIdent: char -> bool, s: string, n: nat)
    requires Clean(isIdent, s) && n <= |s|
    ensures EmittedUpTo(isIdent, s, n) == s[..n]
  {
    if n > 0 {
      CleanEmitted(isIdent, s, n - 1);
      assert s[..n] == s[..n - 1] + [s[n - 1]];
    }
  }

  /** A sanitised name is clean and does not end in `_`; a name that is clean
      and does not end in `_` is left as it is. */
  lemma SanitizeShape(isIdent: char -> bool, name: string)
    ensures Clean(isIdent, Sanitize(isIdent, name))
    ensures var r := Sanitize(isIdent, name); |r| == 0 || r[|r| - 1] != '_'
  {
    FoldClean(isIdent, name);
    var f := Fold(isIdent, name);
    var r := Sanitize(isIdent, name);
    forall i | 0 <= i < |r|
      ensures isIdent(r[i]) || (r[i] == '_' && i > 0 && isIdent(r[i - 1]) && r[i - 1] != '_')
    {
      assert r[i] == f[i];
      assert isIdent(f[i]) || (f[i] == '_' && i > 0 && isIdent(f[i - 1]) && f[i - 1] != '_');
      if i > 0 {
        assert r[i - 1] == f[i - 1];
      }
    }
  }

  lemma SanitizeKeepsClean(isIdent: char -> bool, s: string)
    requires Clean(isIdent, s) && (|s| == 0 || s[|s| - 1] != '_')
    ensures Sanitize(isIdent, s) == s
  {
    FoldIsEmitted(isIdent, s);
    CleanEmitted(isIdent, s, |s|);
    assert s[..|s|] == s;
  }

  /** Sanitising twice is sanitising once. */
  lemma SanitizeIdempotent(isIdent: char -> bool, name: string)
    ensures Sanitize(isIdent, Sanitize(isIdent, name)) == Sanitize(isIdent, name)
  {
    SanitizeShape(isIdent, name);
    SanitizeKeepsClean(isIdent, Sanitize(isIdent, name));
  }

  /** `Hash32`'s result type, `std::uint32_t`. */
  type Hash = n: nat | n < 0x1_0000_0000

  const HexDigitsLower := "0123456789abcdef"

  function Pow16(w: nat): (p: nat)
    ensures p >= 1
  {
    if w == 0 then 1 else 16 * Pow16(w - 1)
  }

  /** `n` in exactly `w` hexadecimal digits, lower-case, padded with zeros. */
  function HexFixed(n: nat, w: nat): (r: string)
    requires n < Pow16(w)
    ensures |r| == w
    ensures forall i :: 0 <= i < |r| ==> r[i] in HexDigitsLower
  {
    if w == 0 then [] else HexFixed(n / 16, w - 1) + [HexDigitsLower[n % 16]]
  }

  function DigitValue(c: char): nat
  {
    if '0' <= c <= '9' then (c - '0') as nat
    else if 'a' <= c <= 'f' then (c - 'a') as nat + 10
    else 0
  }

  /** Reads hexadecimal digits, most significant first. */
  function HexValue(s: string): nat
  {
    if |s| == 0 then 0 else HexValue(s[..|s| - 1]) * 16 + DigitValue(s[|s| - 1])
  }

  lemma DigitValueOf(d: nat)
    requires d < 16
    ensures DigitValue(HexDigitsLower[d]) == d
  {
  }

  lemma {:induction false} HexFixedValue(n: nat, w: nat)
    requires n < Pow16(w)
    ensures HexValue(HexFixed(n, w)) == n
  {
    if w > 0 {
      var r := HexFixed(n, w);
      var front := HexFixed(n / 16, w - 1);
      HexFixedValue(n / 16, w - 1);
      assert r == front + [HexDigitsLower[n % 16]];
      assert r[..w - 1] == front;
      DigitValueOf(n % 16);
      assert HexValue(r) == HexValue(front) * 16 + n % 16;
    }
  }

  lemma Pow16Eight()
    ensures Pow16(8) == 0x1_0000_0000
  {
    assert Pow16(2) == 0x100;
    assert Pow16(4) == 0x1_0000;
    assert Pow16(6) == 0x100_0000;
  }

  /** `{:08x}` of a 32-bit value: eight lower-case hexadecimal digits that read
      back as the value. */
  function Hex8(h: Hash): (r: string)
    ensures |r| == 8 && forall i :: 0 <= i < 8 ==> r[i] in HexDigitsLower
    ensures HexValue(r) == h
  {
    Pow16Eight();
    HexFixedValue(h, 8);
    HexFixed(h, 8)
  }

  /** Lines 80-92. */
  function StageName(stage: Stage): (r: string)
    ensures |r| == 4
  {
    match stage
    case Vertex => "vert"
    case Fragment => "frag"
    case Compute => "comp"
  }

  lemma StageNamesDistinct(a: Stage, b: Stage)
    ensures StageName(a) == StageName(b) <==> a == b
  {
  }

  /** The part of a file name after the shader's name: `-hash.stage.spv`. */
  function NameTail(hash: Hash, stage: Stage): (r: string)
    ensures |r| == 18
  {
    "-" + Hex8(hash) + "." + StageName(stage) + ".spv"
  }

  /** Line 111: `dir/name-hash.stage.spv`. */
  function FileName(dir: string, fixedName: string, hash: Hash, stage: Stage): (r: string)
    ensures |r| == |dir| + |fixedName| + 19
  {
    (dir + "/" + fixedName) + NameTail(hash, stage)
  }

  lemma SplitAtLength(a: string, b: string, c: string, d: string)
    requires a + b == c + d && |a| == |c|
    ensures a == c && b == d
  {
    assert a == (a + b)[..|a|] && c == (c + d)[..|c|];
    assert b == (a + b)[|a|..] && d == (c + d)[|c|..];
  }

  lemma TailParts(a1: string, b1: string, a2: string, b2: string)
    requires |a1| == |a2| && "-" + a1 + "." + b1 + ".spv" == "-" + a2 + "." + b2 + ".spv"
    ensures a1 == a2 && b1 == b2
  {
    SplitAtLength("-" + a1 + "." + b1, ".spv", "-" + a2 + "." + b2, ".spv");
    SplitAtLength("-" + a1 + ".", b1, "-" + a2 + ".", b2);
    SplitAtLength("-" + a1, ".", "-" + a2, ".");
    SplitAtLength("-", a1, "-", a2);
  }

  lemma Hex8Injective(h1: Hash, h2: Hash)
    requires Hex8(h1) == Hex8(h2)
    ensures h1 == h2
  {
  }

  lemma NameTailDetermines(h1: Hash, s1: Stage, h2: Hash, s2: Stage)
    requires NameTail(h1, s1) == NameTail(h2, s2)
    ensures h1 == h2 && s1 == s2
  {
    TailParts(Hex8(h1), StageName(s1), Hex8(h2), StageName(s2));
    Hex8Injective(h1, h2);
    StageNamesDistinct(s1, s2);
  }

  /** Within one directory, a file name determines the sanitised name, the hash
      and the stage it was made from: the tail after the name has a fixed width. */
  lemma FileNameDetermines(dir: string, f1: string, h1: Hash, s1: Stage, f2: string, h2: Hash, s2: Stage)
    requires FileName(dir, f1, h1, s1) == FileName(dir, f2, h2, s2)
    ensures f1 == f2 && h1 == h2 && s1 == s2
  {
    SplitAtLength(dir + "/" + f1, NameTail(h1, s1), dir + "/" + f2, NameTail(h2, s2));
    SplitAtLength(dir + "/", f1, dir + "/", f2);
    NameTailDetermines(h1, s1, h2, s2);
  }

  // ---------------------------------------------------------------- finalisation

  /** An entry of the shader directory: its name and whether it is a regular file. */
  datatype Entry = Entry(name: string, isFile: bool)

  /** What the code this model does not contain answers: the identifier-character
      predicate, `Hash32`, the files present before compiling and after it, the
      number of failed compilations the process queue reports, and the
      directory's entries after compiling. */
  datatype World = World(isIdent: char -> bool, hash32: string -> Hash, present: set<string>,
                         compiled: set<string>, numFailed: nat, listing: seq<Entry>)

  function ShaderFileName(dir: string, w: World, x: Shader): string
  {
    FileName(dir, Sanitize(w.isIdent, x.name), w.hash32(x.source), x.stage)
  }

  /** Filesystem::LoadedFile's error, filesystem.cpp line 150. */
  function LoadFailedMessage(path: string): string
  {
    "Unable to load file contents: `" + path + "`."
  }

  datatype Pending = Pending(shader: Shader, fileName: string)

  /** Every shader's file name, in the set's order (line 111). */
  function FileNames(dir: string, w: World, shaders: seq<Shader>): (r: seq<string>)
    ensures |r| == |shaders|
    ensures forall i :: 0 <= i < |shaders| ==> r[i] == ShaderFileName(dir, w, shaders[i])
  {
    seq(|shaders|, i requires 0 <= i < |shaders| => ShaderFileName(dir, w, shaders[i]))
  }

  /** The loop of lines 76-139, given the file names: the shaders loaded straight
      away, and those queued for compiling. */
  datatype Plan = Plan(loaded: seq<string>, pending: seq<Pending>)

  function PlanLoads(compile: bool, present: set<string>, shaders: seq<Shader>, names: seq<string>): (r: Result<Plan>)
    requires |names| == |shaders|
    ensures r.Ok? ==> (
      && |r.value.loaded| + |r.value.pending| == |shaders|
      && (!compile ==> |r.value.pending| == 0))
    decreases |shaders|
  {
    if |shaders| == 0 then Ok(Plan([], []))
    else
      var n := |shaders| - 1;
      match PlanLoads(compile, present, shaders[..n], names[..n])
      case Err(message) => Err(message)
      case Ok(p) =>
        if names[n] in present then Ok(p.(loaded := p.loaded + [shaders[n].name]))
        else if compile then Ok(p.(pending := p.pending + [Pending(shaders[n], names[n])]))
        else Err(LoadFailedMessage(names[n]))
  }

  /** A shader is loaded straight away exactly when its file is present. */
  lemma {:induction false} PlanLoaded(compile: bool, present: set<string>, shaders: seq<Shader>, names: seq<string>)
    requires |names| == |shaders| && PlanLoads(compile, present, shaders, names).Ok?
    ensures var p := PlanLoads(compile, present, shaders, names).value;
      forall x :: x in p.loaded <==> exists i :: 0 <= i < |shaders| && shaders[i].name == x && names[i] in present
    decreases |shaders|
  {
    if |shaders| > 0 {
      var n := |shaders| - 1;
      var front, frontNames := shaders[..n], names[..n];
      PlanLoaded(compile, present, front, frontNames);
      var p0 := PlanLoads(compile, present, front, frontNames).value;
      var p := PlanLoads(compile, present, shaders, names).value;
      forall x ensures x in p.loaded <==> exists i :: 0 <= i < |shaders| && shaders[i].name == x && names[i] in present
      {
        if x in p.loaded && x !in p0.loaded {
          assert shaders[n].name == x && names[n] in present;
        }
        if x in p0.loaded {
          var i :| 0 <= i < n && front[i].name == x && frontNames[i] in present;
          assert shaders[i] == front[i] && names[i] == frontNames[i];
        }
        if exists i :: 0 <= i < |shaders| && shaders[i].name == x && names[i] in present {
          var i :| 0 <= i < |shaders| && shaders[i].name == x && names[i] in present;
          if i < n {
            assert front[i] == shaders[i] && frontNames[i] == names[i];
          }
        }
      }
    }
  }

  /** A shader is queued for compiling, with its file name, exactly when its file
      is missing. */
  lemma {:induction false} PlanPending(compile: bool, present: set<string>, shaders: seq<Shader>, names: seq<string>)
    requires |names| == |shaders| && PlanLoads(compile, present, shaders, names).Ok?
    ensures var p := PlanLoads(compile, present, shaders, names).value;
      forall q :: q in p.pending <==>
        exists i :: 0 <= i < |shaders| && q == Pending(shaders[i], names[i]) && names[i] !in present
    decreases |shaders|
  {
    if |shaders| > 0 {
      var n := |shaders| - 1;
      var front, frontNames := shaders[..n], names[..n];
      PlanPending(compile, present, front, frontNames);
      var p0 := PlanLoads(compile, present, front, frontNames).value;
      var p := PlanLoads(compile, present, shaders, names).value;
      forall q ensures q in p.pending <==>
          exists i :: 0 <= i < |shaders| && q == Pending(shaders[i], names[i]) && names[i] !in present
      {
        if q in p0.pending {
          var i :| 0 <= i < n && q == Pending(front[i], frontNames[i]) && frontNames[i] !in present;
          assert shaders[i] == front[i] && names[i] == frontNames[i];
        }
        if exists i :: 0 <= i < |shaders| && q == Pending(shaders[i], names[i]) && names[i] !in present {
          var i :| 0 <= i < |shaders| && q == Pending(shaders[i], names[i]) && names[i] !in present;
          if i < n {
            assert front[i] == shaders[i] && frontNames[i] == names[i];
          }
        }
      }
    }
  }

  /** Without compiling, the loop fails exactly when some file is missing, with
      the load error of the first missing one; with compiling it never fails. */
  lemma {:induction false} PlanFails(compile: bool, present: set<string>, shaders: seq<Shader>, names: seq<string>)
    requires |names| == |shaders|
    ensures var r := PlanLoads(compile, present, shaders, names);
      && (r.Err? <==> !compile && exists i :: 0 <= i < |names| && names[i] !in present)
      && (r.Err? ==> exists i :: 0 <= i < |names| && r.message == LoadFailedMessage(names[i])
                                && forall j :: 0 <= j < i ==> names[j] in present)
    decreases |shaders|
  {
    if |shaders| > 0 {
      var n := |shaders| - 1;
      PlanFails(compile, present, shaders[..n], names[..n]);
      assert forall i :: 0 <= i < n ==> names[..n][i] == names[i];
    }
  }

  /** Lines 128-137: the compiler command reads the source from standard input
      and writes the binary to the shader's file, followed by the extra flags. */
  function CompileTask(flags: seq<string>, q: Pending): (t: ProcessQueue.Task)
    ensures t.name == q.shader.name && t.input == Some(q.shader.source)
    ensures |t.command| == 4 + |flags| && t.command[..4] == ["glslc", "-fshader-stage=" + StageName(q.shader.stage), "-", "-o" + q.fileName]
    ensures t.command[4..] == flags
  {
    ProcessQueue.Task(q.shader.name, ["glslc", "-fshader-stage=" + StageName(q.shader.stage), "-", "-o" + q.fileName] + flags,
                      Some(q.shader.source))
  }

  function Tasks(flags: seq<string>, pending: seq<Pending>): (r: seq<ProcessQueue.Task>)
    ensures |r| == |pending|
    ensures forall i :: 0 <= i < |pending| ==> r[i] == CompileTask(flags, pending[i])
  {
    seq(|pending|, i requires 0 <= i < |pending| => CompileTask(flags, pending[i]))
  }

  function PendingNames(pending: seq<Pending>): (r: seq<string>)
    ensures |r| == |pending|
    ensures forall i :: 0 <= i < |pending| ==> r[i] == pending[i].shader.name
  {
    seq(|pending|, i requires 0 <= i < |pending| => pending[i].shader.name)
  }

  /** The first compiled file that cannot be loaded (lines 161-162). */
  function FirstMissing(pending: seq<Pending>, files: set<string>): (r: Option<string>)
    ensures r.None? <==> forall i :: 0 <= i < |pending| ==> pending[i].fileName in files
    ensures r.Some? ==> exists i :: 0 <= i < |pending| && r.value == pending[i].fileName && r.value !in files
                                    && forall j :: 0 <= j < i ==> pending[j].fileName in files
  {
    if |pending| == 0 then None
    else if pending[0].fileName !in files then Some(pending[0].fileName)
    else
      var r := FirstMissing(pending[1..], files);
      assert forall i :: 1 <= i < |pending| ==> pending[i] == pending[1..][i - 1];
      if r.Some? then
        var i :| 0 <= i < |pending[1..]| && r.value == pending[1..][i].fileName && r.value !in files
                 && forall j :: 0 <= j < i ==> pending[1..][j].fileName in files;
        assert forall j :: 0 <= j < i + 1 ==> pending[j].fileName in files by {
          forall j | 0 <= j < i + 1 ensures pending[j].fileName in files {
            if j > 0 {
              assert pending[j] == pending[1..][j - 1];
            }
          }
        }
        r
      else r
  }

  predicate EndsWith(s: string, suffix: string)
  {
    |suffix| <= |s| && s[|s| - |suffix|..] == suffix
  }

  /** Lines 172-176: a `.spv` entry that is a regular file and none of this
      run's shader files. */
  predicate IsStale(dir: string, current: seq<string>, e: Entry)
  {
    EndsWith(e.name, ".spv") && dir + "/" + e.name !in current && e.isFile
  }

  /** Lines 167-181: the paths to delete, in the directory's order. */
  function StaleFiles(dir: string, current: seq<string>, listing: seq<Entry>): (r: seq<string>)
    ensures forall p :: p in r <==> exists e :: e in listing && IsStale(dir, current, e) && p == dir + "/" + e.name
    ensures forall p :: p in r ==> p !in current && EndsWith(p, ".spv")
    ensures |r| <= |listing|
  {
    if |listing| == 0 then []
    else
      var rest := StaleFiles(dir, current, listing[1..]);
      assert forall e :: e in listing <==> e == listing[0] || e in listing[1..];
      var e := listing[0];
      if IsStale(dir, current, e) then
        assert (dir + "/" + e.name)[|dir + "/" + e.name| - 4..] == e.name[|e.name| - 4..];
        [dir + "/" + e.name] + rest
      else rest
  }

  const SecondFinalizeMessage := "Finalizing `ShaderManager` the second time."
  const NullFinalizeMessage := "Attempt to finalize a null `ShaderManager`."
  const CompileFailedMessage := "Some shaders failed to compile!"

  /** What a finished `Finalize` did: the shaders loaded, in loading order; the
      compile tasks it queued; the stale files it deleted. */
  datatype Report = Report(loaded: seq<string>, tasks: seq<ProcessQueue.Task>, deleted: seq<string>)

  /** The manager after `Finalize`, and how the call ended. */
  datatype Finalizing = Finalizing(manager: Manager, outcome: Result<Report>)

  /** Lines 141-194: compile the queued shaders if there are any, fail if any of
      them failed, load them, then delete the stale files. An error carries only
      its message: the shaders loaded before a load throws are not reported, as
      the exception leaves the source's caller nothing else either. */
  function CompileAndClean(m: Manager, w: World, names: seq<string>, p: Plan): (r: Result<Report>)
    ensures r.Ok? ==> (
      && r.value.loaded == p.loaded + PendingNames(p.pending)
      && r.value.tasks == Tasks(m.glslcFlags, p.pending)
      && r.value.deleted == StaleFiles(m.dir, names, w.listing))
    ensures r == Err(CompileFailedMessage) <==> |p.pending| > 0 && w.numFailed > 0
  {
    var tasks := Tasks(m.glslcFlags, p.pending);
    if |tasks| > 0 && w.numFailed > 0 then Err(CompileFailedMessage)
    else match FirstMissing(p.pending, w.compiled)
      case Some(path) =>
        assert LoadFailedMessage(path)[0] == 'U' && CompileFailedMessage[0] == 'S';
        Err(LoadFailedMessage(path))
      case None => Ok(Report(p.loaded + PendingNames(p.pending), tasks, StaleFiles(m.dir, names, w.listing)))
  }

  /** shader_manager.cpp, lines 43-195. It throws if the manager was finalized
      already or has no device, and otherwise marks it finalized before doing
      anything that can throw. */
  function Finalize(m: Manager, w: World): (r: Finalizing)
    ensures r.manager == if !m.finalized && m.hasDevice then m.(finalized := true) else m
    ensures m.finalized ==> r.outcome == Err(SecondFinalizeMessage)
    ensures !m.finalized && !m.hasDevice ==> r.outcome == Err(NullFinalizeMessage)
    ensures r.outcome.Ok? ==> !m.finalized && m.hasDevice
  {
    if m.finalized then Finalizing(m, Err(SecondFinalizeMessage))
    else if !m.hasDevice then Finalizing(m, Err(NullFinalizeMessage))
    else
      var names := FileNames(m.dir, w, m.shaders);
      var outcome := match PlanLoads(m.compileWhenFinalized, w.present, m.shaders, names)
        case Err(message) => Err(message)
        case Ok(p) =>
          if m.compileWhenFinalized then CompileAndClean(m, w, names, p)
          else Ok(Report(p.loaded, [], []));
      Finalizing(m.(finalized := true), outcome)
  }

  /** A finished `Finalize` has loaded every shader, each once. */
  lemma FinalizeLoadsEveryShader(m: Manager, w: World)
    requires Finalize(m, w).outcome.Ok?
    ensures var loaded := Finalize(m, w).outcome.value.loaded;
      && |loaded| == |m.shaders|
      && forall i :: 0 <= i < |m.shaders| ==> m.shaders[i].name in loaded
  {
    var names := FileNames(m.dir, w, m.shaders);
    var p := PlanLoads(m.compileWhenFinalized, w.present, m.shaders, names).value;
    PlanLoaded(m.compileWhenFinalized, w.present, m.shaders, names);
    PlanPending(m.compileWhenFinalized, w.present, m.shaders, names);
    var loaded := Finalize(m, w).outcome.value.loaded;
    forall i | 0 <= i < |m.shaders| ensures m.shaders[i].name in loaded {
      if names[i] !in w.present {
        var q := Pending(m.shaders[i], names[i]);
        assert q in p.pending;
        var k :| 0 <= k < |p.pending| && p.pending[k] == q;
        assert PendingNames(p.pending)[k] == m.shaders[i].name;
      }
    }
  }

  /** Without compiling, `Finalize` succeeds exactly when every shader's file is
      present, and then queues nothing and deletes nothing. */
  lemma FinalizeWithoutCompiling(m: Manager, w: World)
    requires !m.finalized && m.hasDevice && !m.compileWhenFinalized
    ensures var r := Finalize(m, w).outcome;
      && (r.Ok? <==> forall i :: 0 <= i < |m.shaders| ==> ShaderFileName(m.dir, w, m.shaders[i]) in w.present)
      && (r.Ok? ==> r.value.tasks == [] && r.value.deleted == [])
      && (r.Err? ==> exists i :: 0 <= i < |m.shaders|
                      && r.message == LoadFailedMessage(ShaderFileName(m.dir, w, m.shaders[i])))
  {
    PlanFails(false, w.present, m.shaders, FileNames(m.dir, w, m.shaders));
  }

  /** When compiling, the loop cannot fail, and the rest is `CompileAndClean`. */
  lemma FinalizeCompileStep(m: Manager, w: World)
    requires !m.finalized && m.hasDevice && m.compileWhenFinalized
    ensures var names := FileNames(m.dir, w, m.shaders);
      && PlanLoads(true, w.present, m.shaders, names).Ok?
      && Finalize(m, w).outcome == CompileAndClean(m, w, names, PlanLoads(true, w.present, m.shaders, names).value)
  {
    PlanFails(true, w.present, m.shaders, FileNames(m.dir, w, m.shaders));
  }

  /** When compiling, `Finalize` throws "Some shaders failed to compile!" exactly
      when some shader's file is missing and the queue reports a failure. */
  lemma FinalizeCompileFails(m: Manager, w: World)
    requires !m.finalized && m.hasDevice && m.compileWhenFinalized
    ensures var names := FileNames(m.dir, w, m.shaders);
      Finalize(m, w).outcome == Err(CompileFailedMessage)
      <==> w.numFailed > 0 && exists i :: 0 <= i < |names| && names[i] !in w.present
  {
    var names := FileNames(m.dir, w, m.shaders);
    FinalizeCompileStep(m, w);
    var p := PlanLoads(true, w.present, m.shaders, names).value;
    PlanPending(true, w.present, m.shaders, names);
    if exists i :: 0 <= i < |names| && names[i] !in w.present {
      var i :| 0 <= i < |names| && names[i] !in w.present;
      assert Pending(m.shaders[i], names[i]) in p.pending;
    }
    if |p.pending| > 0 {
      assert p.pending[0] in p.pending;
    }
  }

  lemma TasksOfMissing(flags: seq<string>, present: set<string>, shaders: seq<Shader>, names: seq<string>,
                       pending: seq<Pending>)
    requires |names| == |shaders|
    requires forall q :: q in pending <==>
               exists i :: 0 <= i < |shaders| && q == Pending(shaders[i], names[i]) && names[i] !in present
    ensures forall t :: t in Tasks(flags, pending) <==>
              exists i :: 0 <= i < |shaders| && names[i] !in present && t == CompileTask(flags, Pending(shaders[i], names[i]))
  {
    var tasks := Tasks(flags, pending);
    forall t ensures t in tasks <==>
        exists i :: 0 <= i < |shaders| && names[i] !in present && t == CompileTask(flags, Pending(shaders[i], names[i]))
    {
      if t in tasks {
        var k :| 0 <= k < |tasks| && tasks[k] == t;
        assert pending[k] in pending;
      }
      if exists i :: 0 <= i < |shaders| && names[i] !in present && t == CompileTask(flags, Pending(shaders[i], names[i])) {
        var i :| 0 <= i < |shaders| && names[i] !in present && t == CompileTask(flags, Pending(shaders[i], names[i]));
        var q := Pending(shaders[i], names[i]);
        assert q in pending;
        var k :| 0 <= k < |pending| && pending[k] == q;
        assert tasks[k] == t;
      }
    }
  }

  /** When compiling, exactly the shaders whose files are missing get a compile
      task. */
  lemma FinalizeCompileTasks(m: Manager, w: World)
    requires !m.finalized && m.hasDevice && m.compileWhenFinalized && Finalize(m, w).outcome.Ok?
    ensures var names := FileNames(m.dir, w, m.shaders);
      forall t :: t in Finalize(m, w).outcome.value.tasks <==>
        exists i :: 0 <= i < |m.shaders| && names[i] !in w.present
                    && t == CompileTask(m.glslcFlags, Pending(m.shaders[i], names[i]))
  {
    var names := FileNames(m.dir, w, m.shaders);
    FinalizeCompileStep(m, w);
    var p := PlanLoads(true, w.present, m.shaders, names).value;
    PlanPending(true, w.present, m.shaders, names);
    TasksOfMissing(m.glslcFlags, w.present, m.shaders, names, p.pending);
  }

  /** When compiling, a finished `Finalize` deletes exactly the stale entries,
      and never a file of this run's shaders. */
  lemma FinalizeDeletesStale(m: Manager, w: World)
    requires !m.finalized && m.hasDevice && m.compileWhenFinalized && Finalize(m, w).outcome.Ok?
    ensures var names := FileNames(m.dir, w, m.shaders);
      var deleted := Finalize(m, w).outcome.value.deleted;
      && (forall path :: path in deleted <==>
            exists e :: e in w.listing && IsStale(m.dir, names, e) && path == m.dir + "/" + e.name)
      && forall i :: 0 <= i < |names| ==> names[i] !in deleted
  {
    FinalizeCompileStep(m, w);
  }
}

=== FILE: strings.dfy ===
/** String utilities of `em::Strings`: the whitespace class (src/strings/char_types.h),
    `Split` (src/strings/split.h) and the trimmers (src/strings/trim.h). A
    `std::string_view` is modelled by the characters it shows. */
module Strings {
  import opened Common

  /** `IsWhitespace`: space, tab, carriage return and line feed only. */
  predicate IsWhitespace(c: char)
  {
    c == ' ' || c == '\t' || c == '\r' || c == '\n'
  }

  /** Exactly four characters are whitespace; vertical tab, form feed and
      everything outside ASCII are not. */
  lemma WhitespaceClass(c: char)
    ensures IsWhitespace(' ') && IsWhitespace('\t') && IsWhitespace('\r') && IsWhitespace('\n')
    ensures !IsWhitespace(11 as char) && !IsWhitespace(12 as char)
    ensures c as int >= 0x80 ==> !IsWhitespace(c)
    ensures IsWhitespace(c) ==> c as int in {9, 10, 13, 32}
  {
  }

  // ---------------------------------------------------------------- find / Split

  /** `std::string_view::find(p)` from index `i` on: the first occurrence at or after `i`. */
  function FindFrom(s: string, p: string, i: nat): (r: Option<nat>)
    requires i <= |s|
    ensures r.Some? ==> (i <= r.value && OccursAt(s, p, r.value)
      && forall j :: i <= j < r.value ==> !OccursAt(s, p, j))
    ensures r.None? ==> forall j :: i <= j ==> !OccursAt(s, p, j)
    decreases |s| - i
  {
    if i + |p| > |s| then None
    else if s[i..i + |p|] == p then Some(i)
    else if i == |s| then None
    else FindFrom(s, p, i + 1)
  }

  /** `s.find(p)`: the first occurrence of `p`, or None for `npos`. */
  function Find(s: string, p: string): (r: Option<nat>)
    ensures r.Some? ==> OccursAt(s, p, r.value) && forall j :: 0 <= j < r.value ==> !OccursAt(s, p, j)
    ensures r.None? ==> forall j :: 0 <= j ==> !OccursAt(s, p, j)
  {
    FindFrom(s, p, 0)
  }

  /** An occurrence inside a prefix is an occurrence in the whole string, and back. */
  lemma OccursInPrefix(s: string, p: string, n: nat, j: nat)
    requires n <= |s| && j + |p| <= n
    ensures OccursAt(s[..n], p, j) <==> OccursAt(s, p, j)
  {
    assert s[..n][j..j + |p|] == s[j..j + |p|];
  }

  /** The first occurrence is pinned down by being one with none before it. */
  lemma FindIs(s: string, p: string, i: nat)
    requires OccursAt(s, p, i) && forall j :: 0 <= j < i ==> !OccursAt(s, p, j)
    ensures Find(s, p) == Some(i)
  {
    var f := Find(s, p);
    assert f.Some?;
    assert !(f.value < i) && !(i < f.value);
  }

  /** The parts `Split(input, sep, func)` passes to `func`, in order: the pieces
      between the left-to-right, non-overlapping occurrences of `sep`. The source
      loops forever on an empty `sep`. */
  function SplitParts(input: string, sep: string): (r: seq<string>)
    requires |sep| > 0
    ensures |r| >= 1
    ensures Join(r, sep) == input
    decreases |input|
  {
    match Find(input, sep)
    case None => [input]
    case Some(i) =>
      var head := input[..i];
      var rest := SplitParts(input[i + |sep|..], sep);
      assert ([head] + rest)[1..] == rest;
      assert input == head + sep + input[i + |sep|..];
      [head] + rest
  }

  /** One step of `SplitParts`: the part before the first occurrence, then the
      parts of what follows it. */
  lemma SplitPartsStep(input: string, sep: string, i: nat)
    requires |sep| > 0 && Find(input, sep) == Some(i)
    ensures i + |sep| <= |input|
    ensures SplitParts(input, sep) == [input[..i]] + SplitParts(input[i + |sep|..], sep)
  {
  }

  /** The parts are cut at first occurrences: each part but the last, with `sep`
      appended, first holds `sep` at its end; the last holds none. */
  ghost predicate CutAtFirst(r: seq<string>, sep: string)
    requires |r| >= 1
  {
    && (forall k :: 0 <= k < |r| - 1 ==> Find(r[k] + sep, sep) == Some(|r[k]|))
    && Find(r[|r| - 1], sep) == None
  }

  /** A part cut at its first occurrence, put in front of parts cut the same way. */
  lemma ConsCutAtFirst(head: string, rest: seq<string>, sep: string)
    requires |rest| >= 1 && CutAtFirst(rest, sep)
    requires Find(head + sep, sep) == Some(|head|)
    ensures CutAtFirst([head] + rest, sep)
  {
    var r := [head] + rest;
    forall k | 0 <= k < |r| - 1
      ensures Find(r[k] + sep, sep) == Some(|r[k]|)
    {
      if k > 0 {
        assert r[k] == rest[k - 1];
      }
    }
    assert r[|r| - 1] == rest[|rest| - 1];
  }

  /** Each part but the last ends where the first occurrence of `sep` starts; the
      last part holds no occurrence at all. */
  lemma {:induction false} SplitPartsCutAtFirst(input: string, sep: string)
    requires |sep| > 0
    ensures var r := SplitParts(input, sep);
      && (forall k :: 0 <= k < |r| - 1 ==> Find(r[k] + sep, sep) == Some(|r[k]|))
      && Find(r[|r| - 1], sep) == None
    decreases |input|
  {
    match Find(input, sep)
    case None =>
      assert SplitParts(input, sep) == [input];
    case Some(i) =>
      SplitPartsStep(input, sep, i);
      var rest := input[i + |sep|..];
      SplitPartsCutAtFirst(rest, sep);
      FirstOccurrenceOfHead(input, sep, i);
      ConsCutAtFirst(input[..i], SplitParts(rest, sep), sep);
  }

  lemma FirstOccurrenceOfHead(input: string, sep: string, i: nat)
    requires |sep| > 0 && Find(input, sep) == Some(i)
    ensures Find(input[..i] + sep, sep) == Some(i)
  {
    var t := input[..i] + sep;
    assert t == input[..i + |sep|];
    forall j | 0 <= j < i
      ensures !OccursAt(t, sep, j)
    {
      OccursInPrefix(input, sep, i + |sep|, j);
    }
    OccursInPrefix(input, sep, i + |sep|, i);
    FindIs(t, sep, i);
  }

  /** `SplitParts` is the only way to cut `input` at first occurrences of `sep`:
      any parts that join back to `input` and satisfy the same occurrence
      conditions are exactly the parts `Split` produces. */
  lemma {:induction false} SplitPartsUnique(input: string, sep: string, parts: seq<string>)
    requires |sep| > 0 && |parts| >= 1 && Join(parts, sep) == input
    requires forall k :: 0 <= k < |parts| - 1 ==> Find(parts[k] + sep, sep) == Some(|parts[k]|)
    requires Find(parts[|parts| - 1], sep) == None
    ensures parts == SplitParts(input, sep)
    decreases |parts|
  {
    if |parts| == 1 {
      assert input == parts[0];
    } else {
      var rest := Join(parts[1..], sep);
      UncutHead(parts, sep);
      JoinHead(parts, sep);
      FirstBeforeRest(parts[0], sep, rest);
      SplitPartsStep(input, sep, |parts[0]|);
      SplitPartsUnique(rest, sep, parts[1..]);
    }
  }

  /** The parts after the head of parts cut at first occurrences are cut the
      same way, and the head is cut at its first occurrence. */
  lemma UncutHead(parts: seq<string>, sep: string)
    requires |parts| > 1 && CutAtFirst(parts, sep)
    ensures Find(parts[0] + sep, sep) == Some(|parts[0]|)
    ensures CutAtFirst(parts[1..], sep)
  {
    var tail := parts[1..];
    forall k | 0 <= k < |tail| - 1
      ensures Find(tail[k] + sep, sep) == Some(|tail[k]|)
    {
      assert tail[k] == parts[k + 1];
    }
    assert tail[|tail| - 1] == parts[|parts| - 1];
  }

  /** More than one part joined: the head, `sep`, then the rest joined, so the
      head and the rest can be cut back out. */
  lemma JoinHead<T>(parts: seq<seq<T>>, sep: seq<T>)
    requires |parts| > 1
    ensures var input := Join(parts, sep);
      && input == parts[0] + sep + Join(parts[1..], sep)
      && input[..|parts[0]|] == parts[0]
      && input[|parts[0]| + |sep|..] == Join(parts[1..], sep)
    ensures parts == [parts[0]] + parts[1..]
  {
  }

  /** When the first occurrence in `p0 + sep` is the appended `sep`, it stays the
      first occurrence whatever follows. */
  lemma FirstBeforeRest(p0: string, sep: string, rest: string)
    requires Find(p0 + sep, sep) == Some(|p0|)
    ensures Find(p0 + sep + rest, sep) == Some(|p0|)
  {
    var input := p0 + sep + rest;
    assert input[..|p0| + |sep|] == p0 + sep;
    forall j | 0 <= j < |p0|
      ensures !OccursAt(input, sep, j)
    {
      OccursInPrefix(input, sep, |p0| + |sep|, j);
    }
    OccursInPrefix(input, sep, |p0| + |sep|, |p0|);
    FindIs(input, sep, |p0|);
  }

  /** With a one-character separator that no part contains, `Split` gives back
      exactly the parts that were joined. */
  lemma {:induction false} SplitJoin(parts: seq<string>, c: char)
    requires |parts| >= 1 && forall k :: 0 <= k < |parts| ==> c !in parts[k]
    ensures SplitParts(Join(parts, [c]), [c]) == parts
  {
    forall k | 0 <= k < |parts| - 1
      ensures Find(parts[k] + [c], [c]) == Some(|parts[k]|)
    {
      NoOccurrence(parts[k], c);
    }
    NoOccurrence(parts[|parts| - 1], c);
    SplitPartsUnique(Join(parts, [c]), [c], parts);
  }

  /** A string without `c` holds no occurrence of it; with `c` appended, the first
      occurrence is the appended one. */
  lemma NoOccurrence(p: string, c: char)
    requires c !in p
    ensures Find(p, [c]) == None
    ensures Find(p + [c], [c]) == Some(|p|)
  {
    forall j | 0 <= j
      ensures !OccursAt(p, [c], j)
    {
      if j + 1 <= |p| {
        assert p[j..j + 1][0] == p[j];
      }
    }
    var t := p + [c];
    forall j | 0 <= j < |p|
      ensures !OccursAt(t, [c], j)
    {
      assert t[j..j + 1][0] == p[j];
    }
    assert t[|p|..|p| + 1] == [c];
    FindIs(t, [c], |p|);
  }

  /** With a one-character separator, `func` is called once more than the
      separator occurs. */
  lemma {:induction false} SplitCount(input: string, c: char)
    ensures |SplitParts(input, [c])| == multiset(input)[c] + 1
  {
    var parts := SplitParts(input, [c]);
    SplitPartsCutAtFirst(input, [c]);
    forall k | 0 <= k < |parts|
      ensures c !in parts[k]
    {
      if k < |parts| - 1 {
        FirstAtEndFree(parts[k], c);
      } else {
        NoneFree(parts[k], c);
      }
    }
    JoinCount(parts, c);
  }

  /** The occurrences of `p` in `s` that do not overlap, found scanning left to
      right and resuming after each one. */
  function Occurrences(s: string, p: string): nat
    requires |p| > 0
    decreases |s|
  {
    if |s| < |p| then 0
    else if s[..|p|] == p then 1 + Occurrences(s[|p|..], p)
    else Occurrences(s[1..], p)
  }

  /** For any separator, `func` is called once more than the separator occurs,
      counting occurrences that do not overlap. */
  lemma {:induction false} SplitCountOccurrences(input: string, sep: string)
    requires |sep| > 0
    ensures |SplitParts(input, sep)| == Occurrences(input, sep) + 1
    decreases |input|
  {
    match Find(input, sep)
    case None =>
      OccurrencesSkip(input, sep, |input|);
      assert input[|input|..] == [];
    case Some(i) =>
      OccurrencesSkip(input, sep, i);
      var t := input[i..];
      assert t[..|sep|] == sep;
      assert t[|sep|..] == input[i + |sep|..];
      SplitCountOccurrences(input[i + |sep|..], sep);
  }

  /** Positions where `p` does not occur are skipped by the count. */
  lemma {:induction false} OccurrencesSkip(s: string, p: string, j: nat)
    requires |p| > 0 && j <= |s|
    requires forall k :: 0 <= k < j ==> !OccursAt(s, p, k)
    ensures Occurrences(s, p) == Occurrences(s[j..], p)
    decreases j
  {
    if j == 0 {
      assert s[j..] == s;
    } else if |s| < |p| {
      assert |s[j..]| < |p|;
    } else {
      assert !OccursAt(s, p, 0);
      assert Occurrences(s, p) == Occurrences(s[1..], p);
      NoOccurrenceShifted(s, p, j);
      OccurrencesSkip(s[1..], p, j - 1);
      assert s[1..][j - 1..] == s[j..];
    }
  }

  lemma NoOccurrenceShifted(s: string, p: string, j: nat)
    requires 0 < j <= |s|
    requires forall k :: 0 <= k < j ==> !OccursAt(s, p, k)
    ensures forall k :: 0 <= k < j - 1 ==> !OccursAt(s[1..], p, k)
  {
    forall k | 0 <= k < j - 1
      ensures !OccursAt(s[1..], p, k)
    {
      assert !OccursAt(s, p, k + 1);
      if k + |p| <= |s[1..]| {
        assert s[1..][k..k + |p|] == s[k + 1..k + 1 + |p|];
      }
    }
  }

  /** A part whose first `c`, with `c` appended, is the appended one holds no `c`. */
  lemma FirstAtEndFree(p: string, c: char)
    requires Find(p + [c], [c]) == Some(|p|)
    ensures c !in p
  {
    forall j | 0 <= j < |p|
      ensures p[j] != c
    {
      assert !OccursAt(p + [c], [c], j);
      assert (p + [c])[j..j + 1] == [p[j]];
    }
  }

  /** A string in which `c` is not found holds no `c`. */
  lemma NoneFree(p: string, c: char)
    requires Find(p, [c]) == None
    ensures c !in p
  {
    forall j | 0 <= j < |p|
      ensures p[j] != c
    {
      assert !OccursAt(p, [c], j);
      assert p[j..j + 1] == [p[j]];
    }
  }

  /** Joining parts free of `c` with `c` puts exactly one `c` between each two. */
  lemma {:induction false} JoinCount(parts: seq<string>, c: char)
    requires |parts| >= 1 && forall k :: 0 <= k < |parts| ==> c !in parts[k]
    ensures multiset(Join(parts, [c]))[c] == |parts| - 1
    decreases |parts|
  {
    assert multiset(parts[0])[c] == 0;
    if |parts| > 1 {
      JoinCount(parts[1..], c);
      assert Join(parts, [c]) == parts[0] + [c] + Join(parts[1..], [c]);
      assert multiset(parts[0] + [c] + Join(parts[1..], [c]))
        == multiset(parts[0]) + multiset([c]) + multiset(Join(parts[1..], [c]));
    }
  }

  /** Leading, trailing and adjacent separators give empty parts. */
  lemma SplitEmptySegments()
    ensures SplitParts(",a,,b,", ",") == ["", "a", "", "b", ""]
    ensures SplitParts("", ",") == [""]
  {
    var parts := ["", "a", "", "b", ""];
    assert Join(parts, [',']) == ",a,,b,";
    SplitJoin(parts, ',');
    assert Join([""], [',']) == "";
    SplitJoin([""], ',');
  }

  /** The value-returning `Split`: calls `f` part by part and stops at the first
      truthy result, which it returns; otherwise it returns the result for the
      last part. */
  function SplitFirst<R>(input: string, sep: string, f: string -> R, truthy: R -> bool): R
    requires |sep| > 0
    decreases |input|
  {
    match Find(input, sep)
    case None => f(input)
    case Some(i) =>
      var ret := f(input[..i]);
      if truthy(ret) then ret else SplitFirst(input[i + |sep|..], sep, f, truthy)
  }

  /** `r` is `f` of part `k`, the first part whose result is truthy, or the last. */
  ghost predicate StopsAt<R>(parts: seq<string>, f: string -> R, truthy: R -> bool, r: R, k: int)
  {
    && 0 <= k < |parts| && r == f(parts[k])
    && (forall j :: 0 <= j < k ==> !truthy(f(parts[j])))
    && (k < |parts| - 1 ==> truthy(f(parts[k])))
  }

  /** The early-exit form returns `f` of the first part whose result is truthy,
      looking at every part but the last, or else `f` of the last part. */
  lemma {:induction false} SplitFirstStopsAtFirstTruthy<R>(input: string, sep: string, f: string -> R, truthy: R -> bool)
    requires |sep| > 0
    ensures exists k :: StopsAt(SplitParts(input, sep), f, truthy, SplitFirst(input, sep, f, truthy), k)
    decreases |input|
  {
    var parts := SplitParts(input, sep);
    var found := Find(input, sep);
    if found.None? {
      assert parts == [input];
      assert StopsAt(parts, f, truthy, SplitFirst(input, sep, f, truthy), 0);
    } else {
      var i := found.value;
      var rest := input[i + |sep|..];
      var rparts := SplitParts(rest, sep);
      assert parts == [input[..i]] + rparts;
      if truthy(f(input[..i])) {
        assert StopsAt(parts, f, truthy, SplitFirst(input, sep, f, truthy), 0);
      } else {
        var r := SplitFirst(rest, sep, f, truthy);
        assert SplitFirst(input, sep, f, truthy) == r;
        SplitFirstStopsAtFirstTruthy(rest, sep, f, truthy);
        var k :| StopsAt(rparts, f, truthy, r, k);
        assert parts[k + 1] == rparts[k];
        assert forall j :: 1 <= j < k + 1 ==> parts[j] == rparts[j - 1];
        assert StopsAt(parts, f, truthy, r, k + 1);
      }
    }
  }

  // ---------------------------------------------------------------- whitespace trimmers

  /** `TrimLeadingWhitespace`: drops the whitespace prefix, and only that. */
  function TrimLeadingWhitespace(s: string): (r: string)
    ensures |r| <= |s| && r == s[|s| - |r|..]
    ensures forall i :: 0 <= i < |s| - |r| ==> IsWhitespace(s[i])
    ensures |r| > 0 ==> !IsWhitespace(r[0])
  {
    if |s| > 0 && IsWhitespace(s[0]) then TrimLeadingWhitespace(s[1..]) else s
  }

  /** `TrimTrailingWhitespace`: drops the whitespace suffix, and only that. */
  function TrimTrailingWhitespace(s: string): (r: string)
    ensures |r| <= |s| && r == s[..|r|]
    ensures forall i :: |r| <= i < |s| ==> IsWhitespace(s[i])
    ensures |r| > 0 ==> !IsWhitespace(r[|r| - 1])
  {
    if |s| > 0 && IsWhitespace(s[|s| - 1]) then TrimTrailingWhitespace(s[..|s| - 1]) else s
  }

  // ---------------------------------------------------------------- empty-line trimmers

  /** Some non-whitespace character of `s` lies strictly between `i` and `t`. */
  predicate ContentBetween(s: string, i: int, t: int)
    requires t <= |s|
  {
    exists j :: i < j < t && 0 <= j && !IsWhitespace(s[j])
  }

  /** What the scan of `TrimLeadingEmptyLines` knows on reaching index `i`. */
  predicate LeadingInvariant(s: string, i: nat, pos: int)
    requires i <= |s| && -1 <= pos < i
  {
    && (forall j :: 0 <= j < i ==> IsWhitespace(s[j]))
    && (pos >= 0 ==> s[pos] == '\n')
    && (forall j :: pos < j < i ==> s[j] != '\n')
  }

  /** The loop of `TrimLeadingEmptyLines` from index `i`, with the last line feed
      seen so far at `pos` (-1 for none). */
  function LeadingScan(s: string, i: nat, pos: int): (r: int)
    requires i <= |s| && -1 <= pos < i
    ensures -1 <= r < |s|
    decreases |s| - i
  {
    if i == |s| then pos
    else if s[i] == '\n' then LeadingScan(s, i + 1, i)
    else if !IsWhitespace(s[i]) then pos
    else LeadingScan(s, i + 1, pos)
  }

  /** The scan stops at the last line feed before the first content: everything
      up to it is whitespace, and every later line feed has content before it. */
  lemma {:induction false} LeadingScanSound(s: string, i: nat, pos: int)
    requires i <= |s| && -1 <= pos < i && LeadingInvariant(s, i, pos)
    ensures var r := LeadingScan(s, i, pos);
      && (r >= 0 ==> s[r] == '\n')
      && (forall j :: 0 <= j <= r ==> IsWhitespace(s[j]))
      && (forall j :: r < j < |s| && s[j] == '\n' ==> ContentBetween(s, r, j))
    decreases |s| - i
  {
    if i == |s| {
    } else if s[i] == '\n' {
      LeadingScanSound(s, i + 1, i);
    } else if !IsWhitespace(s[i]) {
      forall j | pos < j < |s| && s[j] == '\n'
        ensures ContentBetween(s, pos, j)
      {
        assert pos < i < j && !IsWhitespace(s[i]);
      }
    } else {
      LeadingScanSound(s, i + 1, pos);
    }
  }

  /** `TrimLeadingEmptyLines`: removes everything through the last line feed that
      comes before the first non-whitespace character. */
  function TrimLeadingEmptyLines(s: string): (r: string)
    // A suffix, cut right after a line feed, with only whitespace removed ...
    ensures |r| <= |s| && r == s[|s| - |r|..]
    ensures forall i :: 0 <= i < |s| - |r| ==> IsWhitespace(s[i])
    ensures |r| < |s| ==> s[|s| - |r| - 1] == '\n'
    // ... and no line feed is left before its first content.
    ensures forall i :: 0 <= i < |r| && r[i] == '\n' ==> ContentBetween(r, -1, i)
  {
    var pos := LeadingScan(s, 0, -1);
    LeadingScanSound(s, 0, -1);
    if pos >= 0 then
      var r := s[pos + 1..];
      forall i | 0 <= i < |r| && r[i] == '\n'
        ensures ContentBetween(r, -1, i)
      {
        assert s[pos + 1 + i] == '\n';
        var j :| pos < j < pos + 1 + i && 0 <= j && !IsWhitespace(s[j]);
        assert r[j - pos - 1] == s[j];
      }
      r
    else
      s
  }

  /** What the backward scan of `TrimTrailingEmptyLines` knows on reaching index `i`. */
  predicate TrailingInvariant(s: string, i: nat, pos: int)
    requires i <= |s| && (pos == -1 || i <= pos < |s|)
  {
    && (forall j :: i <= j < |s| ==> IsWhitespace(s[j]))
    && (pos >= 0 ==> s[pos] == '\n')
    && (pos == -1 ==> forall j :: i <= j < |s| ==> s[j] != '\n')
    && (pos >= 0 ==> forall j :: i <= j < pos ==> s[j] != '\n')
  }

  /** The loop of `TrimTrailingEmptyLines`, walking backwards from index `i`, with
      the leftmost line feed seen so far at `pos` (-1 for none). */
  function TrailingScan(s: string, i: nat, pos: int): (r: int)
    requires i <= |s| && (pos == -1 || i <= pos < |s|)
    ensures r == -1 || 0 <= r < |s|
    decreases i
  {
    if i == 0 then pos
    else if s[i - 1] == '\n' then TrailingScan(s, i - 1, i - 1)
    else if !IsWhitespace(s[i - 1]) then pos
    else TrailingScan(s, i - 1, pos)
  }

  /** The backward scan stops at the first line feed of the trailing whitespace
      run: everything after it is whitespace, and every line feed before it (or,
      without one, every line feed at all) has content after it. */
  lemma {:induction false} TrailingScanSound(s: string, i: nat, pos: int)
    requires i <= |s| && (pos == -1 || i <= pos < |s|) && TrailingInvariant(s, i, pos)
    ensures var r := TrailingScan(s, i, pos);
      && (r >= 0 ==> s[r] == '\n')
      && (forall j :: r < j < |s| && r >= 0 ==> IsWhitespace(s[j]))
      && (r == -1 ==> forall j :: 0 <= j < |s| && s[j] == '\n' ==> ContentBetween(s, j, |s|))
      && (r >= 0 ==> forall j :: 0 <= j < r && s[j] == '\n' ==> ContentBetween(s, j, r))
    decreases i
  {
    if i == 0 {
    } else if s[i - 1] == '\n' {
      TrailingScanSound(s, i - 1, i - 1);
    } else if !IsWhitespace(s[i - 1]) {
      if pos == -1 {
        forall j | 0 <= j < |s| && s[j] == '\n'
          ensures ContentBetween(s, j, |s|)
        {
          assert j < i - 1;
        }
      } else {
        forall j | 0 <= j < pos && s[j] == '\n'
          ensures ContentBetween(s, j, pos)
        {
          assert j < i - 1;
        }
      }
    } else {
      TrailingScanSound(s, i - 1, pos);
    }
  }

  /** How many characters `TrimTrailingEmptyLines` would look at before its final
      line feed: the whole string, or everything but a final line feed. */
  function BeforeFinalNewline(r: string): nat
  {
    if |r| > 0 && r[|r| - 1] == '\n' then |r| - 1 else |r|
  }

  /** `TrimTrailingEmptyLines`: keeps everything through the first line feed of
      the trailing whitespace run, so the result ends with a line feed exactly
      when that run contained one. */
  function TrimTrailingEmptyLines(s: string): (r: string)
    // A prefix, with only whitespace removed, ending in a line feed if shortened ...
    ensures |r| <= |s| && r == s[..|r|]
    ensures forall i :: |r| <= i < |s| ==> IsWhitespace(s[i])
    ensures |r| < |s| ==> |r| > 0 && r[|r| - 1] == '\n'
    // ... with no other line feed left in its trailing whitespace.
    ensures forall i :: 0 <= i < BeforeFinalNewline(r) && r[i] == '\n' ==> ContentBetween(r, i, BeforeFinalNewline(r))
  {
    var pos := TrailingScan(s, |s|, -1);
    TrailingScanSound(s, |s|, -1);
    if pos >= 0 then
      var r := s[..pos + 1];
      assert BeforeFinalNewline(r) == pos;
      forall i | 0 <= i < pos && r[i] == '\n'
        ensures ContentBetween(r, i, pos)
      {
        var j :| i < j < pos && 0 <= j && !IsWhitespace(s[j]);
        assert r[j] == s[j];
      }
      r
    else
      assert forall i :: 0 <= i < BeforeFinalNewline(s) && s[i] == '\n' ==> ContentBetween(s, i, BeforeFinalNewline(s)) by {
        forall i | 0 <= i < BeforeFinalNewline(s) && s[i] == '\n'
          ensures ContentBetween(s, i, BeforeFinalNewline(s))
        {
          var j :| i < j < |s| && 0 <= j && !IsWhitespace(s[j]);
        }
      }
      s
  }

  /** Index `j` lies in the run of whitespace that starts `s`. */
  predicate InLeadingRun(s: string, j: int)
  {
    0 <= j < |s| && forall k :: 0 <= k <= j ==> IsWhitespace(s[k])
  }

  /** Index `j` lies in the run of whitespace that ends `s`. */
  predicate InTrailingRun(s: string, j: int)
  {
    0 <= j < |s| && forall k :: j <= k < |s| ==> IsWhitespace(s[k])
  }

  /** The leading trimmer cuts right after the last line feed of the leading
      whitespace run. */
  lemma {:induction false} LeadingEmptyLinesCut(s: string, j: nat)
    requires InLeadingRun(s, j) && s[j] == '\n'
    requires forall k :: j < k < |s| && InLeadingRun(s, k) ==> s[k] != '\n'
    ensures TrimLeadingEmptyLines(s) == s[j + 1..]
  {
    var r := TrimLeadingEmptyLines(s);
    var n := |s| - |r|;
    assert forall m :: 0 <= m < |r| ==> r[m] == s[m + n];
    assert n > 0 ==> InLeadingRun(s, n - 1);
    assert n == j + 1;
  }

  /** With no line feed in the leading whitespace run, and only then, the
      leading trimmer changes nothing. */
  lemma {:induction false} LeadingEmptyLinesUnchanged(s: string)
    ensures TrimLeadingEmptyLines(s) == s <==> !exists j :: InLeadingRun(s, j) && s[j] == '\n'
  {
    var r := TrimLeadingEmptyLines(s);
    var n := |s| - |r|;
    if r != s {
      assert InLeadingRun(s, n - 1) && s[n - 1] == '\n';
    }
    forall j | InLeadingRun(s, j) && s[j] == '\n'
      ensures r != s
    {
      assert !ContentBetween(s, -1, j);
    }
  }

  /** The trailing trimmer cuts right after the first line feed of the trailing
      whitespace run. */
  lemma {:induction false} TrailingEmptyLinesCut(s: string, j: nat)
    requires InTrailingRun(s, j) && s[j] == '\n'
    requires forall k :: 0 <= k < j && InTrailingRun(s, k) ==> s[k] != '\n'
    ensures TrimTrailingEmptyLines(s) == s[..j + 1]
  {
    var r := TrimTrailingEmptyLines(s);
    assert forall m :: 0 <= m < |r| ==> r[m] == s[m];
    assert |r| < |s| ==> InTrailingRun(s, |r| - 1);
    assert j < |r| ==> r[j] == '\n';
    assert |r| == j + 1;
  }

  /** The trailing trimmer's result ends with a line feed exactly when the
      trailing whitespace run holds one. */
  lemma {:induction false} TrailingEmptyLinesEnd(s: string)
    ensures var r := TrimTrailingEmptyLines(s);
      (|r| > 0 && r[|r| - 1] == '\n') <==> exists j :: InTrailingRun(s, j) && s[j] == '\n'
  {
    var r := TrimTrailingEmptyLines(s);
    if |r| > 0 && r[|r| - 1] == '\n' {
      assert InTrailingRun(s, |r| - 1) && s[|r| - 1] == '\n';
    }
    forall j | InTrailingRun(s, j) && s[j] == '\n'
      ensures |r| > 0 && r[|r| - 1] == '\n'
    {
      assert forall m :: 0 <= m < |r| ==> r[m] == s[m];
      assert j < |r| ==> r[j] == '\n';
    }
  }

  // ---------------------------------------------------------------- Compact

  /** `std::size_t(-1)`, the starting value of `min_indent`. */
  const SizeMax: nat := 0xffff_ffff_ffff_ffff

  const ErrMixedIndentation := "Mixed tabs and spaces in a string passed to `em::Strings::Compact()`."

  /** The "no indentation character yet" value of `indent_ch`. */
  const NoIndentChar: char := 0 as char

  predicate IsIndentChar(c: char)
  {
    c == ' ' || c == '\t'
  }

  /** The number of leading spaces and tabs, as the loop in `Compact` counts them. */
  function IndentOf(line: string): (n: nat)
    ensures n <= |line|
    ensures forall i :: 0 <= i < n ==> IsIndentChar(line[i])
    ensures n < |line| ==> !IsIndentChar(line[n])
  {
    if |line| > 0 && IsIndentChar(line[0]) then 1 + IndentOf(line[1..]) else 0
  }

  /** `indent_ch` and the mixed-indentation flag, as the indentation loop leaves them. */
  datatype IndentState = IndentState(ch: char, mixed: bool)

  /** One pass of the indentation loop body over character `c`. */
  function IndentStep(st: IndentState, c: char): IndentState
  {
    if st.ch == NoIndentChar then IndentState(c, st.mixed)
    else if st.ch != c then IndentState(st.ch, true)
    else st
  }

  function ScanChars(st: IndentState, s: string): IndentState
    decreases |s|
  {
    if |s| == 0 then st else ScanChars(IndentStep(st, s[0]), s[1..])
  }

  /** The indentation loop run over the leading indentation of every line, in order. */
  function ScanLines(st: IndentState, lines: seq<string>): IndentState
    decreases |lines|
  {
    if |lines| == 0 then st
    else ScanLines(ScanChars(st, lines[0][..IndentOf(lines[0])]), lines[1..])
  }

  /** Some line is indented with the character `c`. */
  ghost predicate HasIndentChar(lines: seq<string>, c: char)
  {
    exists k, i :: 0 <= k < |lines| && 0 <= i < IndentOf(lines[k]) && lines[k][i] == c
  }

  /** Some line is indented with a character other than `c`. */
  ghost predicate HasOtherIndentChar(lines: seq<string>, c: char)
  {
    exists k, i :: 0 <= k < |lines| && 0 <= i < IndentOf(lines[k]) && lines[k][i] != c
  }

  /** Once `indent_ch` is set, the loop keeps it and raises the flag exactly when
      it meets a different character. */
  lemma {:induction false} ScanCharsKeeps(ch: char, m: bool, s: string)
    requires ch != NoIndentChar
    ensures ScanChars(IndentState(ch, m), s) == IndentState(ch, m || exists i :: 0 <= i < |s| && s[i] != ch)
    decreases |s|
  {
    if |s| > 0 {
      var st := IndentStep(IndentState(ch, m), s[0]);
      ScanCharsKeeps(ch, st.mixed, s[1..]);
      assert forall i :: 1 <= i < |s| ==> s[i] == s[1..][i - 1];
      assert forall i :: 0 <= i < |s| - 1 ==> s[1..][i] == s[i + 1];
    }
  }

  lemma {:induction false} ScanLinesKeeps(ch: char, m: bool, lines: seq<string>)
    requires ch != NoIndentChar
    ensures ScanLines(IndentState(ch, m), lines) == IndentState(ch, m || HasOtherIndentChar(lines, ch))
    decreases |lines|
  {
    if |lines| > 0 {
      var pre := lines[0][..IndentOf(lines[0])];
      ScanCharsKeeps(ch, m, pre);
      var m' := m || exists i :: 0 <= i < |pre| && pre[i] != ch;
      ScanLinesKeeps(ch, m', lines[1..]);
      OtherIndentSplit(lines, ch);
    }
  }

  lemma OtherIndentSplit(lines: seq<string>, ch: char)
    requires |lines| > 0
    ensures var pre := lines[0][..IndentOf(lines[0])];
      HasOtherIndentChar(lines, ch)
      <==> (exists i :: 0 <= i < |pre| && pre[i] != ch) || HasOtherIndentChar(lines[1..], ch)
  {
    var pre := lines[0][..IndentOf(lines[0])];
    if HasOtherIndentChar(lines, ch) {
      var k, i :| 0 <= k < |lines| && 0 <= i < IndentOf(lines[k]) && lines[k][i] != ch;
      if k == 0 {
        assert pre[i] != ch;
      } else {
        assert lines[1..][k - 1] == lines[k];
      }
    }
    if HasOtherIndentChar(lines[1..], ch) {
      var k, i :| 0 <= k < |lines[1..]| && 0 <= i < IndentOf(lines[1..][k]) && lines[1..][k][i] != ch;
      assert lines[k + 1][i] != ch;
    }
  }

  /** The source's mixed-indentation test, stated without the loop: some line is
      indented with a space and some line (maybe the same) with a tab. */
  lemma {:induction false} MixedMeansBoth(lines: seq<string>)
    ensures ScanLines(IndentState(NoIndentChar, false), lines).mixed
      <==> HasIndentChar(lines, ' ') && HasIndentChar(lines, '\t')
    decreases |lines|
  {
    if |lines| > 0 {
      var n := IndentOf(lines[0]);
      var pre := lines[0][..n];
      if n == 0 {
        assert pre == [];
        MixedMeansBoth(lines[1..]);
        ShiftIndentChar(lines, ' ');
        ShiftIndentChar(lines, '\t');
      } else {
        var ch := lines[0][0];
        ScanCharsKeeps(ch, false, pre[1..]);
        assert ScanChars(IndentState(NoIndentChar, false), pre) == ScanChars(IndentState(ch, false), pre[1..]);
        var m := exists i :: 0 <= i < |pre[1..]| && pre[1..][i] != ch;
        ScanLinesKeeps(ch, m, lines[1..]);
        assert m <==> exists i :: 0 <= i < |pre| && pre[i] != ch by {
          if exists i :: 0 <= i < |pre| && pre[i] != ch {
            var i :| 0 <= i < |pre| && pre[i] != ch;
            assert pre[1..][i - 1] != ch;
          }
        }
        OtherIndentSplit(lines, ch);
        OtherMeansBoth(lines, ch);
      }
    }
  }

  /** A first line without indentation does not change which characters indent. */
  lemma ShiftIndentChar(lines: seq<string>, c: char)
    requires |lines| > 0 && IndentOf(lines[0]) == 0
    ensures HasIndentChar(lines, c) <==> HasIndentChar(lines[1..], c)
  {
    if HasIndentChar(lines, c) {
      var k, i :| 0 <= k < |lines| && 0 <= i < IndentOf(lines[k]) && lines[k][i] == c;
      assert lines[1..][k - 1] == lines[k];
    }
    if HasIndentChar(lines[1..], c) {
      var k, i :| 0 <= k < |lines[1..]| && 0 <= i < IndentOf(lines[1..][k]) && lines[1..][k][i] == c;
      assert lines[k + 1][i] == c;
    }
  }

  /** With the first line indented by `ch`, another indentation character exists
      exactly when both spaces and tabs occur. */
  lemma OtherMeansBoth(lines: seq<string>, ch: char)
    requires |lines| > 0 && IndentOf(lines[0]) > 0 && ch == lines[0][0]
    ensures HasOtherIndentChar(lines, ch) <==> HasIndentChar(lines, ' ') && HasIndentChar(lines, '\t')
  {
    assert IsIndentChar(ch);
    if HasOtherIndentChar(lines, ch) {
      var k, i :| 0 <= k < |lines| && 0 <= i < IndentOf(lines[k]) && lines[k][i] != ch;
      assert IsIndentChar(lines[k][i]);
      assert lines[0][0] == ch;
    }
    if HasIndentChar(lines, ' ') && HasIndentChar(lines, '\t') {
      var k, i :| 0 <= k < |lines| && 0 <= i < IndentOf(lines[k]) && lines[k][i] == ' ';
      var k', i' :| 0 <= k' < |lines| && 0 <= i' < IndentOf(lines[k']) && lines[k'][i'] == '\t';
      if ch == ' ' {
        assert lines[k'][i'] != ch;
      } else {
        assert lines[k][i] != ch;
      }
    }
  }

  /** `min_indent` over the counted lines: `SizeMax` when there are none. */
  function MinIndent(lines: seq<string>): (m: nat)
    ensures |lines| == 0 ==> m == SizeMax
    ensures forall k :: 0 <= k < |lines| ==> m <= IndentOf(lines[k])
    // Attained, unless no line is indented less than a `std::size_t` can count.
    ensures m == SizeMax || exists k :: 0 <= k < |lines| && m == IndentOf(lines[k])
  {
    if |lines| == 0 then SizeMax
    else
      var rest := MinIndent(lines[1..]);
      assert forall k :: 1 <= k < |lines| ==> lines[k] == lines[1..][k - 1];
      if IndentOf(lines[0]) < rest then IndentOf(lines[0])
      else
        assert rest == SizeMax || exists k :: 0 <= k < |lines| && rest == IndentOf(lines[k]) by {
          if rest != SizeMax {
            var k :| 0 <= k < |lines[1..]| && rest == IndentOf(lines[1..][k]);
            assert rest == IndentOf(lines[k + 1]);
          }
        }
        rest
  }

  /** Every part with its trailing whitespace removed. */
  function StripAll(parts: seq<string>): (r: seq<string>)
    ensures |r| == |parts| && forall k :: 0 <= k < |r| ==> r[k] == TrimTrailingWhitespace(parts[k])
  {
    if |parts| == 0 then [] else [TrimTrailingWhitespace(parts[0])] + StripAll(parts[1..])
  }

  /** Every line with its first `m` characters removed (`substr(min_indent)`). */
  function DropAll(lines: seq<string>, m: nat): (r: seq<string>)
    requires forall k :: 0 <= k < |lines| ==> m <= |lines[k]|
    ensures |r| == |lines| && forall k :: 0 <= k < |r| ==> r[k] == lines[k][m..]
  {
    if |lines| == 0 then [] else [lines[0][m..]] + DropAll(lines[1..], m)
  }

  /** The input after both empty-line trimmers. */
  function CompactInput(input: string): string
  {
    TrimTrailingEmptyLines(TrimLeadingEmptyLines(input))
  }

  /** The parts of the trimmed input between line feeds. */
  function CompactParts(input: string): (r: seq<string>)
    ensures |r| >= 1
  {
    SplitParts(CompactInput(input), "\n")
  }

  /** The trailing empty line: the one part that starts at the end of the trimmed
      input, which is the last part when it is empty. */
  predicate EndsWithEmptyPart(parts: seq<string>)
    requires |parts| >= 1
  {
    |parts[|parts| - 1]| == 0
  }

  /** The counted lines, trailing whitespace removed, trailing empty line left out. */
  function CountedLines(parts: seq<string>): seq<string>
    requires |parts| >= 1
  {
    StripAll(if EndsWithEmptyPart(parts) then parts[..|parts| - 1] else parts)
  }

  /** `num_chars`: every part's stripped length plus one line feed, minus one line
      feed, minus the indentation removed from every counted line. */
  function NumCharsOf(parts: seq<string>): int
    requires |parts| >= 1
  {
    var lines := CountedLines(parts);
    |Concat(StripAll(parts))| + |parts| - 1 - |lines| * MinIndent(lines)
  }

  /** The output lines, in order; the trailing empty line, if any, stays empty. */
  function OutputLinesOf(parts: seq<string>): seq<string>
    requires |parts| >= 1
  {
    var lines := CountedLines(parts);
    DropAll(lines, MinIndent(lines)) + (if EndsWithEmptyPart(parts) then [""] else [])
  }

  predicate HasTrailingEmptyLine(input: string)
  {
    EndsWithEmptyPart(CompactParts(input))
  }

  function CompactLines(input: string): seq<string>
  {
    CountedLines(CompactParts(input))
  }

  function NumChars(input: string): int
  {
    NumCharsOf(CompactParts(input))
  }

  function CompactOutputLines(input: string): seq<string>
  {
    OutputLinesOf(CompactParts(input))
  }

  datatype Compacted = Compacted(text: string, mixed: bool)

  /** `Compact(input, mixed_indentation)`: with `reportMixed` false (a null
      pointer) mixed indentation throws; otherwise it is reported in `mixed`. */
  function Compact(input: string, reportMixed: bool): (r: Result<Compacted>)
    ensures r.Err? <==> !reportMixed && HasIndentChar(CompactLines(input), ' ') && HasIndentChar(CompactLines(input), '\t')
    ensures r.Err? ==> r.message == ErrMixedIndentation
    ensures r.Ok? ==> (r.value.mixed <==> HasIndentChar(CompactLines(input), ' ') && HasIndentChar(CompactLines(input), '\t'))
    // The assertion at the end of the source: the precomputed length is right.
    ensures r.Ok? ==> |r.value.text| == NumChars(input)
  {
    var lines := CompactLines(input);
    var mixed := ScanLines(IndentState(NoIndentChar, false), lines).mixed;
    MixedMeansBoth(lines);
    if mixed && !reportMixed then Err(ErrMixedIndentation)
    else
      var text := Join(CompactOutputLines(input), "\n");
      OutputLength(CompactParts(input));
      Ok(Compacted(text, mixed))
  }

  /** The length of the joined output lines is `num_chars`. */
  lemma {:induction false} OutputLength(parts: seq<string>)
    requires |parts| >= 1
    ensures |Join(OutputLinesOf(parts), "\n")| == NumCharsOf(parts)
  {
    var trailing := EndsWithEmptyPart(parts);
    var counted := if trailing then parts[..|parts| - 1] else parts;
    var lines := StripAll(counted);
    var m := MinIndent(lines);
    var dropped := DropAll(lines, m);
    var out := dropped + (if trailing then [""] else []);
    var removed := |lines| * m;
    assert |out| == |parts|;
    JoinLength(out, "\n");
    assert |Join(out, "\n")| == |Concat(out)| + |parts| - 1;
    DropAllLength(lines, m);
    assert |Concat(dropped)| == |Concat(lines)| - removed;
    if trailing {
      LastSplit(parts);
      StripAllAppend(counted, parts[|parts| - 1]);
      assert parts[|parts| - 1] == "";
      ConcatAppend(lines, "");
      ConcatAppend(dropped, "");
      assert |Concat(out)| == |Concat(dropped)|;
      assert |Concat(StripAll(parts))| == |Concat(lines)|;
    } else {
      assert out == dropped;
    }
  }

  lemma LastSplit<T>(s: seq<T>)
    requires |s| > 0
    ensures s == s[..|s| - 1] + [s[|s| - 1]]
  {
  }

  lemma {:induction false} StripAllAppend(parts: seq<string>, last: string)
    ensures StripAll(parts + [last]) == StripAll(parts) + [TrimTrailingWhitespace(last)]
  {
    var a := StripAll(parts + [last]);
    var b := StripAll(parts) + [TrimTrailingWhitespace(last)];
    assert |a| == |b|;
    forall k | 0 <= k < |a|
      ensures a[k] == b[k]
    {
      if k < |parts| {
        assert (parts + [last])[k] == parts[k];
      }
    }
  }

  lemma {:induction false} DropAllLength(lines: seq<string>, m: nat)
    requires forall k :: 0 <= k < |lines| ==> m <= |lines[k]|
    ensures |Concat(DropAll(lines, m))| == |Concat(lines)| - |lines| * m
    decreases |lines|
  {
    if |lines| > 0 {
      DropAllLength(lines[1..], m);
      assert DropAll(lines, m)[1..] == DropAll(lines[1..], m);
    }
  }

  /** Every part is no longer than the parts joined. */
  lemma {:induction false} PartWithinJoin(parts: seq<string>, sep: string, k: nat)
    requires k < |parts|
    ensures |parts[k]| <= |Join(parts, sep)|
    decreases |parts|
  {
    if |parts| > 1 && k > 0 {
      PartWithinJoin(parts[1..], sep, k - 1);
    }
  }

  /** What `Compact` does to each line: the output is the counted lines joined by
      line feeds (plus the trailing empty line), each with its trailing whitespace
      gone and the common indentation removed, which is indentation only, and
      which is all of it for at least one line. */
  lemma {:induction false} CompactShape(input: string, reportMixed: bool)
    requires Compact(input, reportMixed).Ok? && |input| < SizeMax
    ensures var out := CompactOutputLines(input);
      var lines := CompactLines(input);
      && Compact(input, reportMixed).value.text == Join(out, "\n")
      && |out| == |lines| + (if HasTrailingEmptyLine(input) then 1 else 0)
      && (forall k :: 0 <= k < |out| ==> NoTrailingWhitespace(out[k]))
      && (forall k :: 0 <= k < |lines| ==> DropsIndent(lines[k], out[k]))
      && (|lines| > 0 ==> exists k :: 0 <= k < |lines| && NoIndentation(out[k]))
      && (forall k :: 0 <= k < |lines| ==>
            MinIndent(lines) <= IndentOf(lines[k]) && out[k] == lines[k][MinIndent(lines)..])
  {
    CompactText(input, reportMixed);
    OutputLinesShape(input);
    OutputCommonCut(CompactParts(input));
  }

  /** The same indentation, `MinIndent` of the counted lines, is removed from
      every counted line. */
  lemma {:induction false} OutputCommonCut(parts: seq<string>)
    requires |parts| >= 1
    ensures var lines := CountedLines(parts);
      var out := OutputLinesOf(parts);
      && |out| >= |lines|
      && forall k :: 0 <= k < |lines| ==>
           MinIndent(lines) <= IndentOf(lines[k]) && out[k] == lines[k][MinIndent(lines)..]
  {
    var lines := CountedLines(parts);
    var m := MinIndent(lines);
    var tail: seq<string> := if EndsWithEmptyPart(parts) then [""] else [];
    assert OutputLinesOf(parts) == DropAll(lines, m) + tail;
    DropAllThenTail(lines, m, tail);
  }

  lemma DropAllThenTail(lines: seq<string>, m: nat, tail: seq<string>)
    requires forall k :: 0 <= k < |lines| ==> m <= |lines[k]|
    ensures var out := DropAll(lines, m) + tail;
      |out| >= |lines| && forall k :: 0 <= k < |lines| ==> out[k] == lines[k][m..]
  {
  }

  lemma {:induction false} CompactText(input: string, reportMixed: bool)
    requires Compact(input, reportMixed).Ok?
    ensures Compact(input, reportMixed).value.text == Join(CompactOutputLines(input), "\n")
  {
  }

  lemma {:induction false} OutputLinesShape(input: string)
    requires |input| < SizeMax
    ensures var out := CompactOutputLines(input);
      var lines := CompactLines(input);
      && |out| == |lines| + (if HasTrailingEmptyLine(input) then 1 else 0)
      && (forall k :: 0 <= k < |out| ==> NoTrailingWhitespace(out[k]))
      && (forall k :: 0 <= k < |lines| ==> DropsIndent(lines[k], out[k]))
      && (|lines| > 0 ==> exists k :: 0 <= k < |lines| && NoIndentation(out[k]))
  {
    var parts := CompactParts(input);
    PartWithinJoin(parts, "\n", 0);
    assert |parts[0]| <= |input|;
    OutputPartsShape(parts);
  }

  lemma {:induction false} OutputPartsShape(parts: seq<string>)
    requires |parts| >= 1
    ensures var lines := CountedLines(parts);
      var out := OutputLinesOf(parts);
      && |out| == |lines| + (if EndsWithEmptyPart(parts) then 1 else 0)
      && (forall k :: 0 <= k < |out| ==> NoTrailingWhitespace(out[k]))
      && (forall k :: 0 <= k < |lines| ==> DropsIndent(lines[k], out[k]))
      && (|lines| > 0 && |parts[0]| < SizeMax ==> exists k :: 0 <= k < |lines| && NoIndentation(out[k]))
  {
    var trailing := EndsWithEmptyPart(parts);
    var counted := if trailing then parts[..|parts| - 1] else parts;
    var lines := StripAll(counted);
    OutputShape(counted);
    var dropped := DropAll(lines, MinIndent(lines));
    assert CountedLines(parts) == lines;
    assert OutputLinesOf(parts) == dropped + (if trailing then [""] else []);
    AppendEmptyLine(lines, dropped, trailing);
    if |lines| > 0 && |parts[0]| < SizeMax {
      assert |lines[0]| <= |counted[0]| == |parts[0]|;
    }
  }

  /** Appending the trailing empty line keeps the shape of the lines before it. */
  lemma AppendEmptyLine(lines: seq<string>, dropped: seq<string>, trailing: bool)
    requires |dropped| == |lines|
    requires forall k :: 0 <= k < |dropped| ==> NoTrailingWhitespace(dropped[k])
    requires forall k :: 0 <= k < |lines| ==> DropsIndent(lines[k], dropped[k])
    ensures var out := dropped + (if trailing then [""] else []);
      && |out| == |lines| + (if trailing then 1 else 0)
      && (forall k :: 0 <= k < |out| ==> NoTrailingWhitespace(out[k]))
      && (forall k :: 0 <= k < |lines| ==> DropsIndent(lines[k], out[k]))
      && ((exists k :: 0 <= k < |lines| && NoIndentation(dropped[k]))
          ==> exists k :: 0 <= k < |lines| && NoIndentation(out[k]))
  {
    var out := dropped + (if trailing then [""] else []);
    assert forall k :: 0 <= k < |dropped| ==> out[k] == dropped[k];
    if trailing {
      assert out[|dropped|] == "";
    }
  }

  /** `out` is `line` with some of its indentation removed. */
  ghost predicate DropsIndent(line: string, out: string)
  {
    exists d :: 0 <= d <= IndentOf(line) && out == line[d..]
  }

  /** `s` is empty or ends in a non-whitespace character. */
  predicate NoTrailingWhitespace(s: string)
  {
    |s| == 0 || !IsWhitespace(s[|s| - 1])
  }

  /** `s` is empty or starts with a character that is not indentation. */
  predicate NoIndentation(s: string)
  {
    |s| == 0 || !IsIndentChar(s[0])
  }

  lemma DropKeepsEnd(s: string, m: nat)
    requires m <= |s| && NoTrailingWhitespace(s)
    ensures NoTrailingWhitespace(s[m..])
  {
    if m < |s| {
      assert s[m..][|s[m..]| - 1] == s[|s| - 1];
    }
  }

  lemma {:induction false} OutputShape(counted: seq<string>)
    ensures var lines := StripAll(counted);
      var out := DropAll(lines, MinIndent(lines));
      && (forall k :: 0 <= k < |out| ==> NoTrailingWhitespace(out[k]))
      && (forall k :: 0 <= k < |lines| ==> DropsIndent(lines[k], out[k]))
      && (|lines| > 0 && |lines[0]| < SizeMax ==> exists k :: 0 <= k < |lines| && NoIndentation(out[k]))
  {
    var lines := StripAll(counted);
    var m := MinIndent(lines);
    var out := DropAll(lines, m);
    forall k | 0 <= k < |out|
      ensures NoTrailingWhitespace(out[k])
    {
      var line := lines[k];
      assert line == TrimTrailingWhitespace(counted[k]);
      assert m <= IndentOf(line) <= |line|;
      DropKeepsEnd(line, m);
    }
    forall k | 0 <= k < |lines|
      ensures DropsIndent(lines[k], out[k])
    {
      assert m <= IndentOf(lines[k]);
      assert out[k] == lines[k][m..];
    }
    if |lines| > 0 && |lines[0]| < SizeMax {
      assert m <= IndentOf(lines[0]) <= |lines[0]| < SizeMax;
      var k :| 0 <= k < |lines| && m == IndentOf(lines[k]);
      assert out[k] == lines[k][m..];
      assert NoIndentation(out[k]);
    }
  }
}

=== FILE: strings_vectors.dfy ===
/** The `Compact` examples of src/strings/trim.nolink.cpp, each proved by
    following the two scans, the split and the indentation pass step by step. */
module StringsVectors {
  import opened Common
  import opened Strings

  /** No line feed in `s[i..k]`, checked one character at a time. */
  predicate NoNewlineIn(s: string, i: nat, k: nat)
    requires i <= k <= |s|
    decreases k - i
  {
    i == k || (s[i] != '\n' && NoNewlineIn(s, i + 1, k))
  }

  lemma {:induction false} NoNewlineInAll(s: string, i: nat, k: nat)
    requires i <= k <= |s| && NoNewlineIn(s, i, k)
    ensures forall j :: i <= j < k ==> s[j] != '\n'
    decreases k - i
  {
    if i < k {
      NoNewlineInAll(s, i + 1, k);
    }
  }

  /** The split at the first line feed, found by scanning. */
  lemma {:induction false} SplitLine(s: string, i: nat)
    requires i < |s| && s[i] == '\n' && NoNewlineIn(s, 0, i)
    ensures SplitParts(s, "\n") == [s[..i]] + SplitParts(s[i + 1..], "\n")
  {
    NoNewlineInAll(s, 0, i);
    forall j | 0 <= j < i
      ensures !OccursAt(s, "\n", j)
    {
      assert s[j..j + 1][0] == s[j];
    }
    assert s[i..i + 1] == "\n";
    FindIs(s, "\n", i);
  }

  /** A last line: no line feed at all. */
  lemma {:induction false} SplitLastLine(s: string)
    requires NoNewlineIn(s, 0, |s|)
    ensures SplitParts(s, "\n") == [s]
  {
    NoNewlineInAll(s, 0, |s|);
    forall j | 0 <= j
      ensures !OccursAt(s, "\n", j)
    {
      if j + 1 <= |s| {
        assert s[j..j + 1][0] == s[j];
      }
    }
    var f := Find(s, "\n");
    assert f.None?;
  }

  /** Whitespace other than a line feed. */
  predicate Blank(c: char)
  {
    c == ' ' || c == '\t' || c == '\r'
  }

  /** The forward scan walks over a run of blanks without moving its mark. */
  lemma {:induction false} LeadingSkip(a: string, w: string, b: string, pos: int)
    requires -1 <= pos < |a| && forall c :: c in w ==> Blank(c)
    ensures LeadingScan(a + w + b, |a|, pos) == LeadingScan(a + w + b, |a| + |w|, pos)
    decreases |w|
  {
    if |w| > 0 {
      var s := a + w + b;
      assert s[|a|] == w[0] && w[0] in w;
      assert s == (a + [w[0]]) + w[1..] + b;
      forall c | c in w[1..] ensures Blank(c) {
        assert c in w;
      }
      LeadingSkip(a + [w[0]], w[1..], b, pos);
    }
  }

  /** At a line feed the forward scan moves its mark there. */
  lemma LeadingNewline(a: string, b: string, pos: int)
    requires -1 <= pos < |a|
    ensures LeadingScan(a + "\n" + b, |a|, pos) == LeadingScan(a + "\n" + b, |a| + 1, |a|)
  {
    assert (a + "\n" + b)[|a|] == '\n';
  }

  /** At content the forward scan stops. */
  lemma LeadingStop(a: string, b: string, pos: int)
    requires -1 <= pos < |a| && |b| > 0 && !IsWhitespace(b[0])
    ensures LeadingScan(a + b, |a|, pos) == pos
  {
    assert (a + b)[|a|] == b[0];
  }

  /** The backward scan walks over a run of blanks without moving its mark. */
  lemma {:induction false} TrailingSkip(a: string, w: string, b: string, pos: int)
    requires pos == -1 || |a| + |w| <= pos < |a| + |w| + |b|
    requires forall c :: c in w ==> Blank(c)
    ensures TrailingScan(a + w + b, |a| + |w|, pos) == TrailingScan(a + w + b, |a|, pos)
    decreases |w|
  {
    if |w| > 0 {
      var s := a + w + b;
      var last := w[|w| - 1];
      assert s[|a| + |w| - 1] == last && last in w;
      assert s == a + w[..|w| - 1] + ([last] + b);
      forall c | c in w[..|w| - 1] ensures Blank(c) {
        assert c in w;
      }
      TrailingSkip(a, w[..|w| - 1], [last] + b, pos);
    }
  }

  /** At a line feed the backward scan moves its mark there. */
  lemma TrailingNewline(a: string, b: string, pos: int)
    requires pos == -1 || |a| + 1 <= pos < |a| + 1 + |b|
    ensures TrailingScan(a + "\n" + b, |a| + 1, pos) == TrailingScan(a + "\n" + b, |a|, |a|)
  {
    assert (a + "\n" + b)[|a|] == '\n';
  }

  /** At content the backward scan stops. */
  lemma TrailingStop(a: string, b: string, pos: int)
    requires |a| > 0 && !IsWhitespace(a[|a| - 1])
    requires pos == -1 || |a| <= pos < |a| + |b|
    ensures TrailingScan(a + b, |a|, pos) == pos
  {
    assert (a + b)[|a| - 1] == a[|a| - 1];
  }

  /** The leading trimmer cuts right after the line feed its scan marks. */
  lemma LeadingCut(s: string, pos: int)
    requires LeadingScan(s, 0, -1) == pos
    ensures TrimLeadingEmptyLines(s) == if pos >= 0 then s[pos + 1..] else s
  {
  }

  /** The trailing trimmer cuts right after the line feed its scan marks. */
  lemma TrailingCut(s: string, pos: int)
    requires TrailingScan(s, |s|, -1) == pos
    ensures TrimTrailingEmptyLines(s) == if pos >= 0 then s[..pos + 1] else s
  {
  }

  /** A line ending in content followed by whitespace trims to the content. */
  lemma {:induction false} TrimTrailingOf(s: string, p: string, w: string)
    requires s == p + w
    requires |p| > 0 && !IsWhitespace(p[|p| - 1]) && forall c :: c in w ==> IsWhitespace(c)
    ensures TrimTrailingWhitespace(s) == p
  {
    var r := TrimTrailingWhitespace(s);
    assert s[|p| - 1] == p[|p| - 1];
    forall i | |p| <= i < |s|
      ensures IsWhitespace(s[i])
    {
      assert s[i] == w[i - |p|] && w[i - |p|] in w;
    }
    assert |r| == |p|;
    assert r == s[..|p|];
  }

  /** A line indented by a run of indentation characters. */
  lemma {:induction false} IndentOfRun(s: string, w: string, b: string)
    requires s == w + b
    requires (forall c :: c in w ==> IsIndentChar(c)) && |b| > 0 && !IsIndentChar(b[0])
    ensures IndentOf(s) == |w| && s[..|w|] == w && s[|w|..] == b
  {
    forall i | 0 <= i < |w|
      ensures IsIndentChar(s[i])
    {
      assert s[i] == w[i] && w[i] in w;
    }
    assert s[|w|] == b[0];
  }

  /** The indentation loop over a run of one character `c`. */
  lemma {:induction false} ScanRun(c: char, w: string)
    requires c != NoIndentChar && forall x :: x in w ==> x == c
    ensures ScanChars(IndentState(c, false), w) == IndentState(c, false)
    ensures |w| > 0 ==> ScanChars(IndentState(NoIndentChar, false), w) == IndentState(c, false)
    decreases |w|
  {
    if |w| > 0 {
      assert w[0] in w;
      forall x | x in w[1..] ensures x == c {
        assert x in w;
      }
      ScanRun(c, w[1..]);
    }
  }

  /** `Compact` assembled from its stages: the trimmed input, its parts, the
      counted lines, their common indentation and the indentation pass. */
  lemma {:induction false} FromStages(input: string, trimmed: string, parts: seq<string>, lines: seq<string>, m: nat, text: string)
    requires CompactInput(input) == trimmed && SplitParts(trimmed, "\n") == parts
    requires |parts| >= 1 && CountedLines(parts) == lines && MinIndent(lines) == m
    requires !ScanLines(IndentState(NoIndentChar, false), lines).mixed
    requires Join(DropAll(lines, m) + (if EndsWithEmptyPart(parts) then [""] else []), "\n") == text
    ensures Compact(input, false) == Ok(Compacted(text, false))
  {
    assert forall k :: 0 <= k < |lines| ==> m <= |lines[k]|;
    assert CompactParts(input) == parts;
    assert CompactLines(input) == lines;
    assert CompactOutputLines(input) == DropAll(lines, m) + (if EndsWithEmptyPart(parts) then [""] else []);
  }

  /** Nothing to do: the empty input. */
  lemma CompactEmpty()
    ensures Compact("", false) == Ok(Compacted("", false))
  {
    assert TrimLeadingEmptyLines("") == "";
    assert TrimTrailingEmptyLines("") == "";
    SplitLastLine("");
    assert CountedLines([""]) == [];
    FromStages("", "", [""], [], SizeMax, "");
  }

  /** Blank lines alone compact to nothing. */
  lemma CompactBlankLines()
    ensures Compact("\n", false) == Ok(Compacted("", false))
    ensures Compact("\n\n", false) == Ok(Compacted("", false))
    ensures Compact("\n\n\n", false) == Ok(Compacted("", false))
  {
    assert LeadingScan("\n", 0, -1) == 0;
    assert "\n"[1..] == "";
    assert LeadingScan("\n\n", 0, -1) == 1;
    assert "\n\n"[2..] == "";
    assert LeadingScan("\n\n\n", 0, -1) == 2;
    assert "\n\n\n"[3..] == "";
    assert TrimTrailingEmptyLines("") == "";
    SplitLastLine("");
    assert CountedLines([""]) == [];
    FromStages("\n", "", [""], [], SizeMax, "");
    FromStages("\n\n", "", [""], [], SizeMax, "");
    FromStages("\n\n\n", "", [""], [], SizeMax, "");
  }

  /** One unindented line stays as it is. */
  lemma CompactOneLine()
    ensures Compact("a", false) == Ok(Compacted("a", false))
  {
    assert TrimLeadingEmptyLines("a") == "a";
    assert TrimTrailingEmptyLines("a") == "a";
    SplitLastLine("a");
    LinesA();
    FromStages("a", "a", ["a"], ["a"], 0, "a");
  }

  /** The single line "a" has no indentation. */
  lemma LinesA()
    ensures CountedLines(["a"]) == ["a"] && CountedLines(["a", ""]) == ["a"]
    ensures MinIndent(["a"]) == 0
    ensures !ScanLines(IndentState(NoIndentChar, false), ["a"]).mixed
    ensures DropAll(["a"], 0) == ["a"]
  {
    assert TrimTrailingWhitespace("a") == "a";
    assert ["a", ""][..1] == ["a"];
    assert IndentOf("a") == 0;
    assert "a"[..0] == [];
  }

  /** A final line feed survives, and so does the trailing empty line it ends. */
  lemma CompactKeepsFinalNewline()
    ensures Compact("a\n", false) == Ok(Compacted("a\n", false))
    ensures Compact("\n\n\na\n\n\n", false) == Ok(Compacted("a\n", false))
  {
    TrimsAroundA();
    PartsOfA();
    LinesA();
    FromStages("a\n", "a\n", ["a", ""], ["a"], 0, "a\n");
    FromStages("\n\n\na\n\n\n", "a\n", ["a", ""], ["a"], 0, "a\n");
  }

  lemma TrimsAroundA()
    ensures CompactInput("a\n") == "a\n"
    ensures CompactInput("\n\n\na\n\n\n") == "a\n"
  {
    var s := "\n\n\na\n\n\n";
    assert LeadingScan(s, 0, -1) == 2;
    assert s[3..] == "a\n\n\n";
    assert TrailingScan("a\n\n\n", 4, -1) == 1;
    assert "a\n\n\n"[..2] == "a\n";
    assert LeadingScan("a\n", 0, -1) == -1;
    assert TrailingScan("a\n", 2, -1) == 1;
    assert "a\n"[..2] == "a\n";
  }

  lemma PartsOfA()
    ensures SplitParts("a\n", "\n") == ["a", ""]
  {
    SplitLine("a\n", 1);
    assert "a\n"[..1] == "a" && "a\n"[2..] == "";
    SplitLastLine("");
  }

  /** Whitespace around a single word goes, whether spaces or tabs indent it. */
  lemma CompactTrimsOneLine()
    ensures Compact("   a   \t  \r   ", false) == Ok(Compacted("a", false))
    ensures Compact("\t\t\ta   \t  \r   ", false) == Ok(Compacted("a", false))
  {
    TrimsIndentedWord(' ');
    TrimsIndentedWord('\t');
  }

  lemma {:induction false} TrimsIndentedWord(c: char)
    requires IsIndentChar(c)
    ensures Compact([c, c, c, 'a', ' ', ' ', ' ', '\t', ' ', ' ', '\r', ' ', ' ', ' '], false) == Ok(Compacted("a", false))
  {
    var s := [c, c, c, 'a', ' ', ' ', ' ', '\t', ' ', ' ', '\r', ' ', ' ', ' '];
    TrimsOneLine(s, c);
    IndentedA([c, c, c, 'a'], c);
    FromStages(s, s, [s], [[c, c, c, 'a']], 3, "a");
  }

  /** Both empty-line trimmers leave a one-line input alone; the split gives
      that one line, and the line loses its trailing whitespace. */
  lemma {:induction false} TrimsOneLine(s: string, c: char)
    requires IsIndentChar(c)
    requires s == [c, c, c, 'a', ' ', ' ', ' ', '\t', ' ', ' ', '\r', ' ', ' ', ' ']
    ensures CompactInput(s) == s && SplitParts(s, "\n") == [s]
    ensures CountedLines([s]) == [[c, c, c, 'a']]
  {
    assert c != '\n' && IsWhitespace(c);
    assert LeadingScan(s, 0, -1) == LeadingScan(s, 1, -1);
    assert LeadingScan(s, 1, -1) == LeadingScan(s, 2, -1);
    assert LeadingScan(s, 2, -1) == LeadingScan(s, 3, -1) == -1;
    assert TrailingScan(s, 14, -1) == TrailingScan(s, 10, -1);
    assert TrailingScan(s, 10, -1) == TrailingScan(s, 6, -1);
    assert TrailingScan(s, 6, -1) == -1;
    assert NoNewlineIn(s, 10, 14) && NoNewlineIn(s, 6, 14) && NoNewlineIn(s, 2, 14) && NoNewlineIn(s, 0, 14);
    SplitLastLine(s);
    assert s[4..] == "   \t  \r   " && s[..4] == [c, c, c, 'a'];
    TrimsTail(s);
    assert TrimLeadingEmptyLines(s) == s;
    assert TrimTrailingEmptyLines(s) == s;
    assert StripAll([s]) == [s[..4]];
  }

  lemma {:induction false} TrimsTail(s: string)
    requires |s| == 14 && s[3] == 'a' && s[4..] == "   \t  \r   "
    ensures TrimTrailingWhitespace(s) == s[..4]
  {
    var r := TrimTrailingWhitespace(s);
    assert forall k :: 4 <= k < 14 ==> IsWhitespace(s[k]) by {
      forall k | 4 <= k < 14 ensures IsWhitespace(s[k]) {
        assert s[k] == s[4..][k - 4];
      }
    }
    assert |r| == 4;
  }

  /** "a" indented by three copies of `c`. */
  lemma {:induction false} IndentedA(line: string, c: char)
    requires line == [c, c, c, 'a'] && IsIndentChar(c)
    ensures MinIndent([line]) == 3
    ensures !ScanLines(IndentState(NoIndentChar, false), [line]).mixed
    ensures DropAll([line], 3) == ["a"]
  {
    assert line[1..] == [c, c, 'a'] && line[1..][1..] == [c, 'a'] && line[1..][1..][1..] == "a";
    assert IndentOf("a") == 0;
    assert IndentOf([c, 'a']) == 1;
    assert IndentOf([c, c, 'a']) == 2;
    assert IndentOf(line) == 3;
    assert line[..3] == [c, c, c];
    assert [c, c, c][1..] == [c, c] && [c, c][1..] == [c] && [c][1..] == [];
    var st := IndentState(c, false);
    assert ScanChars(st, []) == st;
    assert ScanChars(st, [c]) == st;
    assert ScanChars(st, [c, c]) == st;
    assert ScanChars(IndentState(NoIndentChar, false), [c, c, c]) == st;
    assert line[3..] == "a";
  }

  /** Without common indentation nothing moves. */
  lemma CompactKeepsRelativeIndent()
    ensures Compact("a\n  b", false) == Ok(Compacted("a\n  b", false))
  {
    TrimsAB();
    PartsAB();
    LinesAB();
    JoinAB();
    FromStages("a\n  b", "a\n  b", ["a", "  b"], ["a", "  b"], 0, "a\n  b");
  }

  lemma JoinAB()
    ensures Join(DropAll(["a", "  b"], 0) + [], "\n") == "a\n  b"
  {
    assert DropAll(["a", "  b"], 0) + [] == ["a", "  b"];
    assert ["a", "  b"][1..] == ["  b"];
  }

  lemma TrimsAB()
    ensures CompactInput("a\n  b") == "a\n  b"
  {
    assert LeadingScan("a\n  b", 0, -1) == -1;
    assert TrailingScan("a\n  b", 5, -1) == -1;
  }

  lemma PartsAB()
    ensures SplitParts("a\n  b", "\n") == ["a", "  b"]
  {
    var s := "a\n  b";
    SplitLine(s, 1);
    assert s[..1] == "a" && s[2..] == "  b";
    SplitLastLine("  b");
  }

  lemma LinesAB()
    ensures CountedLines(["a", "  b"]) == ["a", "  b"]
    ensures MinIndent(["a", "  b"]) == 0
    ensures !ScanLines(IndentState(NoIndentChar, false), ["a", "  b"]).mixed
    ensures DropAll(["a", "  b"], 0) == ["a", "  b"]
  {
    assert TrimTrailingWhitespace("a") == "a" && TrimTrailingWhitespace("  b") == "  b";
    assert IndentOf("a") == 0 && IndentOf("  b") == 2;
    assert ["a", "  b"][1..] == ["  b"];
    assert "a"[..0] == [] && "  b"[..2] == "  ";
    assert ScanChars(IndentState(NoIndentChar, false), "  ") == IndentState(' ', false);
  }

  /** Blank lines before and after go, and so does every line's trailing
      whitespace; the common two columns of indentation go too. */
  lemma CompactMixedBlankLines()
    ensures Compact("    \t  \r   \n      \n  a  \n    b   \n   \n       \r \t", false)
      == Ok(Compacted("a\n  b\n", false))
  {
    var s := "    \t  \r   \n      \n  a  \n    b   \n   \n       \r \t";
    var t := "  a  \n    b   \n";
    var parts := ["  a  ", "    b   ", ""];
    TrimsMixedBlankLines();
    TrimsTrailingBlankLines();
    PartsMixedBlankLines();
    LinesMixedBlankLines();
    FromStages(s, t, parts, ["  a", "    b"], 2, "a\n  b\n");
  }

  lemma TrimsMixedBlankLines()
    ensures TrimLeadingEmptyLines("    \t  \r   \n      \n  a  \n    b   \n   \n       \r \t") == "  a  \n    b   \n   \n       \r \t"
  {
    var w1, w2 := "    \t  \r   ", "      ";
    var t1 := "  a  \n    b   \n   \n       \r \t";
    var p := "    \t  \r   \n      \n";
    assert p == w1 + "\n" + w2 + "\n";
    assert "    \t  \r   \n      \n  a  \n    b   \n   \n       \r \t" == p + t1;
    BlankRuns();
    TrimLeadingBlankLines(w1, w2, t1);
  }

  lemma BlankRuns()
    ensures forall c :: c in "    \t  \r   " ==> Blank(c)
    ensures forall c :: c in "      " ==> Blank(c)
  {
  }

  /** Two blank lines, then a line indented by two spaces: both blank lines go. */
  lemma {:induction false} TrimLeadingBlankLines(w1: string, w2: string, t1: string)
    requires |w1| == 11 && |w2| == 6
    requires (forall c :: c in w1 ==> Blank(c)) && forall c :: c in w2 ==> Blank(c)
    requires |t1| > 2 && t1[0] == ' ' && t1[1] == ' ' && t1[2] == 'a'
    ensures TrimLeadingEmptyLines(w1 + "\n" + w2 + "\n" + t1) == t1
  {
    var p := w1 + "\n" + w2 + "\n";
    var s := p + t1;
    LeadingBlankLines(w1, w2, t1);
    assert t1 == "  " + t1[2..];
    assert s == p + "  " + t1[2..];
    assert p[18] == '\n';
    LeadingFirstContent(p, t1[2..]);
    assert LeadingScan(s, 0, -1) == 18;
    assert s[19..] == t1;
  }

  /** Over two blank lines the forward scan ends up marking the second line feed. */
  lemma LeadingBlankLines(w1: string, w2: string, t: string)
    requires |w1| == 11 && |w2| == 6
    requires (forall c :: c in w1 ==> Blank(c)) && forall c :: c in w2 ==> Blank(c)
    ensures LeadingScan(w1 + "\n" + w2 + "\n" + t, 0, -1) == LeadingScan(w1 + "\n" + w2 + "\n" + t, 19, 18)
  {
    var s := w1 + "\n" + w2 + "\n" + t;
    assert s == "" + w1 + ("\n" + w2 + "\n" + t);
    LeadingSkip("", w1, "\n" + w2 + "\n" + t, -1);
    assert s == w1 + "\n" + (w2 + "\n" + t);
    LeadingNewline(w1, w2 + "\n" + t, -1);
    assert s == (w1 + "\n") + w2 + ("\n" + t);
    LeadingSkip(w1 + "\n", w2, "\n" + t, 11);
    assert s == (w1 + "\n" + w2) + "\n" + t;
    LeadingNewline(w1 + "\n" + w2, t, 11);
  }

  /** After the mark, two blanks and then content: the scan stops with the mark. */
  lemma LeadingFirstContent(p: string, rest: string)
    requires |p| == 19 && p[18] == '\n' && |rest| > 0 && rest[0] == 'a'
    ensures LeadingScan(p + "  " + rest, 19, 18) == 18
  {
    LeadingSkip(p, "  ", rest, 18);
    assert p + "  " + rest == (p + "  ") + rest;
    LeadingStop(p + "  ", rest, 18);
  }

  lemma TrimsTrailingBlankLines()
    ensures TrimTrailingEmptyLines("  a  \n    b   \n   \n       \r \t") == "  a  \n    b   \n"
  {
    var u0, u1, u2, u3 := "  a  \n    b", "   ", "   ", "       \r \t";
    var t1 := u0 + u1 + "\n" + u2 + "\n" + u3;
    assert t1 == "  a  \n    b   \n   \n       \r \t";
    assert u0[10] == 'b';
    TrailingTwoBlankLines(u0, u1, u2, u3);
    TrailingCut(t1, 14);
    assert t1[..15] == "  a  \n    b   \n";
  }

  /** Content, blanks, and two lines of blanks: the backward scan marks the
      line feed right after the content's blanks. */
  lemma TrailingTwoBlankLines(u0: string, u1: string, u2: string, u3: string)
    requires |u0| > 0 && !IsWhitespace(u0[|u0| - 1])
    requires (forall c :: c in u1 ==> Blank(c)) && (forall c :: c in u2 ==> Blank(c))
    requires forall c :: c in u3 ==> Blank(c)
    ensures var t := u0 + u1 + "\n" + u2 + "\n" + u3;
      TrailingScan(t, |t|, -1) == |u0| + |u1|
  {
    var t := u0 + u1 + "\n" + u2 + "\n" + u3;
    var k := |u0| + |u1| + 1 + |u2|;
    assert t == (u0 + u1 + "\n" + u2) + "\n" + u3 + "";
    TrailingBlankLine(u0 + u1 + "\n" + u2, u3, "", -1);
    assert t == (u0 + u1) + "\n" + u2 + ("\n" + u3);
    TrailingBlankLine(u0 + u1, u2, "\n" + u3, k);
    assert t == u0 + u1 + ("\n" + u2 + "\n" + u3);
    TrailingSkip(u0, u1, "\n" + u2 + "\n" + u3, |u0| + |u1|);
    TrailingStop(u0, u1 + "\n" + u2 + "\n" + u3, |u0| + |u1|);
  }

  /** A line feed and a run of blanks: the backward scan marks the line feed. */
  lemma TrailingBlankLine(a: string, w: string, b: string, pos: int)
    requires pos == -1 || |a| + 1 + |w| <= pos < |a| + 1 + |w| + |b|
    requires forall c :: c in w ==> Blank(c)
    ensures var s := a + "\n" + w + b;
      TrailingScan(s, |a| + 1 + |w|, pos) == TrailingScan(s, |a|, |a|)
  {
    var s := a + "\n" + w + b;
    assert s == (a + "\n") + w + b;
    TrailingSkip(a + "\n", w, b, pos);
    assert s == a + "\n" + (w + b);
    TrailingNewline(a, w + b, pos);
  }

  lemma PartsMixedBlankLines()
    ensures SplitParts("  a  \n    b   \n", "\n") == ["  a  ", "    b   ", ""]
  {
    var parts := ["  a  ", "    b   ", ""];
    assert Join(parts, "\n") == "  a  \n    b   \n" by {
      assert parts[1..] == ["    b   ", ""] && parts[1..][1..] == [""];
    }
    assert '\n' !in parts[0] && '\n' !in parts[1] && '\n' !in parts[2];
    SplitJoin(parts, '\n');
  }

  lemma LinesMixedBlankLines()
    ensures CountedLines(["  a  ", "    b   ", ""]) == ["  a", "    b"]
    ensures MinIndent(["  a", "    b"]) == 2
    ensures !ScanLines(IndentState(NoIndentChar, false), ["  a", "    b"]).mixed
    ensures EndsWithEmptyPart(["  a  ", "    b   ", ""])
    ensures Join(DropAll(["  a", "    b"], 2) + [""], "\n") == "a\n  b\n"
  {
    assert ["  a  ", "    b   ", ""][..2] == ["  a  ", "    b   "];
    TrimTrailingOf("  a  ", "  a", "  ");
    TrimTrailingOf("    b   ", "    b", "   ");
    IndentsAB();
    ScanAB();
    JoinMixedBlankLines();
  }

  lemma IndentsAB()
    ensures IndentOf("  a") == 2 && IndentOf("    b") == 4
    ensures "  a"[..2] == "  " && "    b"[..4] == "    "
    ensures "  a"[2..] == "a" && "    b"[2..] == "  b"
  {
    IndentOfRun("  a", "  ", "a");
    IndentOfRun("    b", "    ", "b");
  }

  lemma ScanAB()
    ensures !ScanLines(IndentState(NoIndentChar, false), ["  a", "    b"]).mixed
  {
    IndentsAB();
    var lines := ["  a", "    b"];
    assert lines[1..] == ["    b"];
    ScanRun(' ', "  ");
    ScanRun(' ', "    ");
    var st := IndentState(' ', false);
    assert ScanLines(st, ["    b"]) == ScanLines(st, []);
  }

  lemma JoinMixedBlankLines()
    ensures Join(DropAll(["  a", "    b"], 2) + [""], "\n") == "a\n  b\n"
  {
    IndentsAB();
    assert DropAll(["  a", "    b"], 2) + [""] == ["a", "  b", ""];
    assert ["a", "  b", ""][1..] == ["  b", ""];
    assert ["  b", ""][1..] == [""];
  }

  /** The raw-string example: a code block indented by eight columns, opened
      and closed on lines of their own, comes out flush left with its one
      extra level of indentation and its final line feed. The raw string is
      written here one source line at a time, each line as its indentation
      followed by its content. */
  lemma CompactCodeBlock()
    ensures Compact("\n"
        + ("        " + "int main()") + "\n"
        + ("        " + "{") + "\n"
        + ("        " + "    " + "std::cout << \"Hello!\\n\";") + "\n"
        + ("        " + "}") + "\n"
        + "    ", false)
      == Ok(Compacted(
        "int main()" + "\n"
        + "{" + "\n"
        + ("    " + "std::cout << \"Hello!\\n\";") + "\n"
        + "}" + "\n", false))
  {
    CodeBlockPieces();
    CompactBlock("        ", "    ", "int main()", "{", "std::cout << \"Hello!\\n\";", "}");
  }

  lemma CodeBlockPieces()
    ensures forall x :: x in "        " ==> x == ' '
    ensures forall x :: x in "    " ==> x == ' '
    ensures BlockLine("int main()") && BlockLine("{") && BlockLine("std::cout << \"Hello!\\n\";") && BlockLine("}")
  {
    assert "std::cout << \"Hello!\\n\";"[23] == ';';
  }

  /** A line of the block: content at both ends and no line feed inside. */
  predicate BlockLine(s: string)
  {
    |s| > 0 && !IsWhitespace(s[0]) && !IsWhitespace(s[|s| - 1]) && '\n' !in s
  }

  /** A block opened by a line feed and closed by a line feed and a short run of
      spaces, its lines indented by eight spaces and one of them by four more. */
  lemma {:induction false} CompactBlock(p8: string, p4: string, a: string, b: string, c: string, d: string)
    requires |p8| == 8 && |p4| == 4 && (forall x :: x in p8 ==> x == ' ') && (forall x :: x in p4 ==> x == ' ')
    requires BlockLine(a) && BlockLine(b) && BlockLine(c) && BlockLine(d)
    ensures Compact("\n" + (p8 + a) + "\n" + (p8 + b) + "\n" + (p8 + p4 + c) + "\n" + (p8 + d) + "\n" + p4, false)
      == Ok(Compacted(a + "\n" + b + "\n" + (p4 + c) + "\n" + d + "\n", false))
  {
    var lines := [p8 + a, p8 + b, p8 + p4 + c, p8 + d];
    var input := "\n" + (p8 + a) + "\n" + (p8 + b) + "\n" + (p8 + p4 + c) + "\n" + (p8 + d) + "\n" + p4;
    BlockTrims(p8, p4, a, b, c, d);
    BlockLines(p8, p4, a, b, c, d);
    BlockNoLineFeed(p8, p4, a, b, c, d);
    CompactFourLines(input, lines, a + "\n" + b + "\n" + (p4 + c) + "\n" + d + "\n");
  }

  /** Four lines without line feeds, closed by one, indented by at least eight
      columns of spaces, compact to the text their stages give. */
  lemma {:induction false} CompactFourLines(input: string, lines: seq<string>, text: string)
    requires |lines| == 4 && forall k :: 0 <= k < 4 ==> '\n' !in lines[k]
    requires CompactInput(input) == Join(lines, "\n") + "\n"
    requires CountedLines(lines + [""]) == lines && MinIndent(lines) == 8
    requires !ScanLines(IndentState(NoIndentChar, false), lines).mixed
    requires Join(DropAll(lines, 8) + [""], "\n") == text
    ensures Compact(input, false) == Ok(Compacted(text, false))
  {
    BlockParts(lines);
    assert EndsWithEmptyPart(lines + [""]);
    FromStages(input, Join(lines, "\n") + "\n", lines + [""], lines, 8, text);
  }

  lemma BlockNoLineFeed(p8: string, p4: string, a: string, b: string, c: string, d: string)
    requires (forall x :: x in p8 ==> x == ' ') && (forall x :: x in p4 ==> x == ' ')
    requires BlockLine(a) && BlockLine(b) && BlockLine(c) && BlockLine(d)
    ensures var lines := [p8 + a, p8 + b, p8 + p4 + c, p8 + d];
      forall k :: 0 <= k < 4 ==> '\n' !in lines[k]
  {
    assert '\n' !in p8 && '\n' !in p4;
  }

  lemma {:induction false} BlockTrims(p8: string, p4: string, a: string, b: string, c: string, d: string)
    requires |p8| == 8 && |p4| == 4 && (forall x :: x in p8 ==> x == ' ') && (forall x :: x in p4 ==> x == ' ')
    requires BlockLine(a) && BlockLine(b) && BlockLine(c) && BlockLine(d)
    ensures CompactInput("\n" + (p8 + a) + "\n" + (p8 + b) + "\n" + (p8 + p4 + c) + "\n" + (p8 + d) + "\n" + p4)
      == Join([p8 + a, p8 + b, p8 + p4 + c, p8 + d], "\n") + "\n"
  {
    var body := Join([p8 + a, p8 + b, p8 + p4 + c, p8 + d], "\n");
    var rest := a + "\n" + (p8 + b) + "\n" + (p8 + p4 + c) + "\n" + (p8 + d);
    BlockJoin(p8 + a, p8 + b, p8 + p4 + c, p8 + d);
    BlockBody(p8, p4, a, b, c, d, body, rest);
    forall x | x in p8 ensures Blank(x) { }
    forall x | x in p4 ensures Blank(x) { }
    TrimFramed(p8, rest, body, p4);
  }

  /** The block's lines joined are its first indentation and the rest. */
  lemma BlockBody(p8: string, p4: string, a: string, b: string, c: string, d: string, body: string, rest: string)
    requires |a| > 0 && |d| > 0
    requires body == (p8 + a) + "\n" + (p8 + b) + "\n" + (p8 + p4 + c) + "\n" + (p8 + d)
    requires rest == a + "\n" + (p8 + b) + "\n" + (p8 + p4 + c) + "\n" + (p8 + d)
    ensures body == p8 + rest && |rest| > 0 && rest[0] == a[0]
    ensures |body| > 0 && body[|body| - 1] == d[|d| - 1]
    ensures "\n" + (p8 + a) + "\n" + (p8 + b) + "\n" + (p8 + p4 + c) + "\n" + (p8 + d) + "\n" + p4
         == "\n" + body + "\n" + p4
  {
  }

  /** A body framed by one line feed before and a line feed and blanks after,
      which starts with blanks and then content and ends in content, trims to
      the body and its closing line feed. */
  lemma {:induction false} TrimFramed(w: string, rest: string, body: string, tail: string)
    requires body == w + rest && |rest| > 0 && !IsWhitespace(rest[0])
    requires |body| > 0 && !IsWhitespace(body[|body| - 1])
    requires (forall x :: x in w ==> Blank(x)) && forall x :: x in tail ==> Blank(x)
    ensures CompactInput("\n" + body + "\n" + tail) == body + "\n"
  {
    assert "\n" + body + "\n" + tail == "\n" + (w + (rest + "\n" + tail));
    assert (rest + "\n" + tail)[0] == rest[0];
    TrimLeadingOneNewline(w, rest + "\n" + tail);
    assert w + (rest + "\n" + tail) == body + "\n" + tail;
    TrimTrailingOneBlankLine(body, tail);
  }

  /** Four lines joined by line feeds. */
  lemma BlockJoin(l1: string, l2: string, l3: string, l4: string)
    ensures Join([l1, l2, l3, l4], "\n") == l1 + "\n" + l2 + "\n" + l3 + "\n" + l4
  {
    var ls := [l1, l2, l3, l4];
    assert ls[1..] == [l2, l3, l4] && ls[1..][1..] == [l3, l4] && ls[1..][1..][1..] == [l4];
    assert Join([l4], "\n") == l4;
    assert Join([l3, l4], "\n") == l3 + "\n" + l4;
    assert Join([l2, l3, l4], "\n") == l2 + "\n" + (l3 + "\n" + l4);
    assert Join(ls, "\n") == l1 + "\n" + (l2 + "\n" + (l3 + "\n" + l4));
  }

  /** One line feed, then content after a run of blanks: only the line feed goes. */
  lemma {:induction false} TrimLeadingOneNewline(w: string, t: string)
    requires (forall c :: c in w ==> Blank(c)) && |t| > 0 && !IsWhitespace(t[0])
    ensures TrimLeadingEmptyLines("\n" + (w + t)) == w + t
  {
    var s := "\n" + (w + t);
    assert s == "" + "\n" + (w + t);
    LeadingNewline("", w + t, -1);
    assert s == "\n" + w + t;
    LeadingSkip("\n", w, t, 0);
    assert s == ("\n" + w) + t;
    LeadingStop("\n" + w, t, 0);
    assert LeadingScan(s, 0, -1) == 0;
    LeadingCut(s, 0);
    assert s[1..] == w + t;
  }

  /** Content, a line feed and a run of blanks: the blanks go, the line feed stays. */
  lemma {:induction false} TrimTrailingOneBlankLine(a: string, w: string)
    requires |a| > 0 && !IsWhitespace(a[|a| - 1]) && forall c :: c in w ==> Blank(c)
    ensures TrimTrailingEmptyLines(a + "\n" + w) == a + "\n"
  {
    var s := a + "\n" + w;
    assert s == (a + "\n") + w + "";
    TrailingSkip(a + "\n", w, "", -1);
    TrailingNewline(a, w, -1);
    TrailingStop(a, "\n" + w, |a|);
    assert s == a + ("\n" + w);
    assert s[..|a| + 1] == a + "\n";
  }

  lemma {:induction false} BlockParts(lines: seq<string>)
    requires |lines| == 4 && forall k :: 0 <= k < 4 ==> '\n' !in lines[k]
    ensures SplitParts(Join(lines, "\n") + "\n", "\n") == lines + [""]
  {
    var parts := lines + [""];
    JoinAppend(lines, "", "\n");
    assert Join(lines, "\n") + "\n" + "" == Join(lines, "\n") + "\n";
    assert forall k :: 0 <= k < |parts| ==> '\n' !in parts[k] by {
      forall k | 0 <= k < |parts| ensures '\n' !in parts[k] {
        if k < 4 {
          assert parts[k] == lines[k];
        }
      }
    }
    SplitJoin(parts, '\n');
  }

  /** Appending a part adds one separator and the part. */
  lemma {:induction false} JoinAppend<T>(parts: seq<seq<T>>, last: seq<T>, sep: seq<T>)
    requires |parts| >= 1
    ensures Join(parts + [last], sep) == Join(parts, sep) + sep + last
    decreases |parts|
  {
    if |parts| == 1 {
      assert (parts + [last])[1..] == [last];
    } else {
      assert (parts + [last])[1..] == parts[1..] + [last];
      JoinAppend(parts[1..], last, sep);
    }
  }

  lemma {:induction false} BlockLines(p8: string, p4: string, a: string, b: string, c: string, d: string)
    requires |p8| == 8 && |p4| == 4 && (forall x :: x in p8 ==> x == ' ') && (forall x :: x in p4 ==> x == ' ')
    requires BlockLine(a) && BlockLine(b) && BlockLine(c) && BlockLine(d)
    ensures var lines := [p8 + a, p8 + b, p8 + p4 + c, p8 + d];
      && CountedLines(lines + [""]) == lines
      && MinIndent(lines) == 8
      && !ScanLines(IndentState(NoIndentChar, false), lines).mixed
      && EndsWithEmptyPart(lines + [""])
      && Join(DropAll(lines, 8) + [""], "\n") == a + "\n" + b + "\n" + (p4 + c) + "\n" + d + "\n"
  {
    var lines := [p8 + a, p8 + b, p8 + p4 + c, p8 + d];
    assert (lines + [""])[..4] == lines;
    StripBlock(lines);
    BlockIndents(p8, p4, a, b, c, d);
    MinIndentIs(lines, 0, 8);
    ScanRun(' ', p8);
    ScanRun(' ', p8 + p4);
    ScanBlock(lines, p8, p8 + p4);
    BlockDrop(p8, p4, a, b, c, d);
  }

  /** The least indentation is one that some line has and none goes below. */
  lemma MinIndentIs(lines: seq<string>, k: nat, m: nat)
    requires k < |lines| && IndentOf(lines[k]) == m && m < SizeMax
    requires forall j :: 0 <= j < |lines| ==> m <= IndentOf(lines[j])
    ensures MinIndent(lines) == m
  {
    var r := MinIndent(lines);
    assert r <= m;
    if r != SizeMax {
      var j :| 0 <= j < |lines| && r == IndentOf(lines[j]);
    }
  }

  /** Each line's indentation is its leading spaces. */
  lemma {:induction false} BlockIndents(p8: string, p4: string, a: string, b: string, c: string, d: string)
    requires |p8| == 8 && |p4| == 4 && (forall x :: x in p8 ==> x == ' ') && (forall x :: x in p4 ==> x == ' ')
    requires BlockLine(a) && BlockLine(b) && BlockLine(c) && BlockLine(d)
    ensures IndentOf(p8 + a) == 8 && (p8 + a)[..8] == p8 && (p8 + a)[8..] == a
    ensures IndentOf(p8 + b) == 8 && (p8 + b)[..8] == p8 && (p8 + b)[8..] == b
    ensures IndentOf(p8 + p4 + c) == 12 && (p8 + p4 + c)[..12] == p8 + p4 && (p8 + p4 + c)[8..] == p4 + c
    ensures IndentOf(p8 + d) == 8 && (p8 + d)[..8] == p8 && (p8 + d)[8..] == d
  {
    forall x | x in p8 + p4 ensures IsIndentChar(x) {
    }
    forall x | x in p8 ensures IsIndentChar(x) { }
    IndentOfRun(p8 + a, p8, a);
    IndentOfRun(p8 + b, p8, b);
    IndentOfRun(p8 + p4 + c, p8 + p4, c);
    IndentOfRun(p8 + d, p8, d);
    assert (p8 + p4 + c)[8..] == p4 + c;
  }

  lemma {:induction false} BlockDrop(p8: string, p4: string, a: string, b: string, c: string, d: string)
    requires |p8| == 8 && |p4| == 4
    ensures var lines := [p8 + a, p8 + b, p8 + p4 + c, p8 + d];
      Join(DropAll(lines, 8) + [""], "\n") == a + "\n" + b + "\n" + (p4 + c) + "\n" + d + "\n"
  {
    var lines := [p8 + a, p8 + b, p8 + p4 + c, p8 + d];
    var out := [a, b, p4 + c, d];
    assert (p8 + a)[8..] == a && (p8 + b)[8..] == b && (p8 + d)[8..] == d;
    assert (p8 + p4 + c)[8..] == p4 + c;
    assert DropAll(lines, 8) == out;
    JoinAppend(out, "", "\n");
    BlockJoin(a, b, p4 + c, d);
    assert a + "\n" + b + "\n" + (p4 + c) + "\n" + d + "\n" + "" == a + "\n" + b + "\n" + (p4 + c) + "\n" + d + "\n";
  }

  lemma {:induction false} StripBlock(lines: seq<string>)
    requires forall k :: 0 <= k < |lines| ==> |lines[k]| > 0 && !IsWhitespace(lines[k][|lines[k]| - 1])
    ensures StripAll(lines) == lines
  {
    forall k | 0 <= k < |lines| ensures TrimTrailingWhitespace(lines[k]) == lines[k] {
      TrimTrailingOf(lines[k], lines[k], "");
    }
  }

  /** Four lines whose indentation is all spaces leave the flag clear. */
  lemma {:induction false} ScanBlock(lines: seq<string>, u: string, v: string)
    requires |lines| == 4
    requires lines[0][..IndentOf(lines[0])] == u && lines[1][..IndentOf(lines[1])] == u
    requires lines[2][..IndentOf(lines[2])] == v && lines[3][..IndentOf(lines[3])] == u
    requires |u| > 0
    requires ScanChars(IndentState(' ', false), u) == IndentState(' ', false)
    requires ScanChars(IndentState(' ', false), v) == IndentState(' ', false)
    requires ScanChars(IndentState(NoIndentChar, false), u) == IndentState(' ', false)
    ensures !ScanLines(IndentState(NoIndentChar, false), lines).mixed
  {
    var st := IndentState(' ', false);
    assert ScanLines(st, lines[1..][1..][1..][1..]) == st;
    assert ScanLines(st, lines[1..][1..][1..]) == st;
    assert ScanLines(st, lines[1..][1..]) == st;
    assert ScanLines(st, lines[1..]) == st;
  }
}
